=== FILE: README.md ===
# ins core model

A Dafny model of the core of **ins**, a small replicated key-value and lock
service built on Raft, with its storage, its account manager and its client
libraries. Each part of the server and the client is a module of pure
functions over immutable values. The properties the code promises are proved
as contracts and lemmas.

- **Binlog, the write-ahead log** (`BinlogCodec`, `FileBinlog`, `LevelBinlog`).
  - The record codecs of both generations. The leveldb generation has a user field; the file generation does not.
  - The file binlog, stored as a data file of length-framed records and an index file of eight-byte offsets.
  - The leveldb binlog, stored as slot keys plus a length tag.
  - Append, batch append, truncate, read, remove and recovery on open, each proved against the abstract log it stands for.
- **Raft node rules** (`RaftNode`): the vote handler with the election restriction, the follower's AppendEntries check and log reconciliation, the commit-index rule, the binlog clean guard, and at most one vote per term over any run of messages.
- **Replicated state machine** (`StateMachine`, `RangeScan`, `WatchTable`):
  - the one-byte op prefix of stored values;
  - the apply step for put, delete, lock, unlock and nop;
  - lock availability;
  - `Get` and `Scan` with expired locks hidden;
  - the watch-event table keyed by key and session.
- **Storage** (`NamespaceStore`, `OldNamespaceStore`, `Table`): namespaced storage of both generations over ordered tables, with the iterator wrapper.
- **Accounts** (`UserManage`, `Base64`): the account manager's ordered error codes, and the uuid that base64-encodes name and time.
- **Raft meta files** (`Meta`, `Numerals`): current term, votes and root record, read back from text.
- **Utilities** (`DirUtils`, `Counters`, `Performance`, `Logging`):
  - `Mkdirs`;
  - the sequential counter;
  - the performance center's ring buffers and averages;
  - the logging library's levels, line format, limits and retention.
- **Client side** (`SdkTypes`, `InsSdk`, `SdkShim`, `PySdk`, `Ncli`):
  - the error and status tables;
  - `ShowCluster` and `StatusToString`;
  - the C shim's NULL guards and callback packs;
  - the Python binding's cursor, error and watch registry;
  - the `ncli` directory listing and exit codes.

**How the model is set up**
- `Outcomes.Run` stands for a C++ `assert`, and for `LOG(FATAL)`, which aborts.
- A raised Python exception, and undefined behaviour the model keeps as a result, are `None`. There are three exceptions, each with a line under "## Left out":
  - locking the NULL mutex of the older namespace store is excluded by a precondition;
  - signed 64-bit overflow in the counters and in the performance average is modelled as two's complement wrap-around;
  - the performance average's division by zero on an empty buffer is an abort (`Outcomes.Run`).
- Integers copied by `memcpy` are little-endian two's complement.
- leveldb, files, clocks, and the replies of peers and of the native library are values or function parameters.

Points where the program's text is easy to misread:
- sdk/ins_sdk.h:46-47 declares `commit_index` and `last_applied` in a cluster node record, but `ShowCluster` (sdk/ins_sdk.cc:16-40) never sets them. The model has them as `None`.
- `ShowCluster` returns `true` whatever its members answer; an unreachable member only shows up as offline in its record.
- storage/binlog_test.cc:18 expects a 27-byte record for an empty user, key "abc" and value "123". That is the size of the leveldb generation's layout; storage/binlog.cc, which the test sits next to, writes 23 bytes (`BinlogCodec.DumpSizeExample`).

## Model

| member | source | states |
|---|---|---|
| Bytes.Wrap64 | common/counter.h:18-29 | the result is a 64-bit integer congruent to the input modulo 2^64, and a value already in range is unchanged |
| Bytes.Int64RoundTrip | src/storage/binlog.cc:72-84 | an `int64_t` copied into eight bytes and back is the same number |
| Bytes.Int64RoundTripBytes | src/storage/binlog.cc:72-84 | eight bytes read as an `int64_t` and written back are the same bytes |
| Bytes.EncodeInt64Injective | src/storage/binlog.cc:72-77 | two index keys are equal exactly when their indices are |
| Bytes.Int32RoundTrip | src/storage/binlog.cc:195-240 | a length copied into four bytes and back is the same number |
| Bytes.Int32RoundTripBytes | src/storage/binlog.cc:195-240 | four bytes read as an `int32_t` and written back are the same bytes |
| Bytes.LessIrreflexive | src/storage/storage_manage.cc:162-167 | no key sorts before itself |
| Bytes.LessTransitive | src/storage/storage_manage.cc:162-167 | the key order is transitive |
| Bytes.LessTotal | src/storage/storage_manage.cc:162-167 | of two different keys one sorts first |
| Bytes.LessAsymmetric | src/storage/storage_manage.cc:162-167 | two keys never sort before each other |
| BinlogCodec.Record | src/storage/binlog.cc:185-212 | an encoded record takes one op byte, four bytes per field plus the field, and eight bytes of term, and starts with the op byte |
| BinlogCodec.ReadRecord | src/storage/binlog.cc:214-240 | a record decodes to the asked number of fields only when the buffer holds every byte they take; a buffer the unchecked reads would overrun decodes to nothing |
| BinlogCodec.ReadRecordOfRecord | src/storage/binlog.cc:185-240 | decoding an encoded record gives back its op, fields and term, whatever bytes follow it |
| BinlogCodec.ReadRecordIsPrefix | src/storage/binlog.cc:214-240 | every buffer that decodes starts with the encoding of what it decodes to |
| BinlogCodec.Dump | src/storage/binlog.cc:185-212 | the leveldb layout of an entry is 21 bytes plus its user, key and value |
| BinlogCodec.Load | src/storage/binlog.cc:214-240 | a decoded entry's three fields fit in the buffer with their 21 bytes of framing |
| BinlogCodec.LoadDump | src/storage/binlog.cc:185-240 | load after dump is the identity on entries whose lengths fit `int32_t` |
| BinlogCodec.DumpLoad | src/storage/binlog.cc:185-240 | a buffer that loads begins with the dump of the loaded entry |
| BinlogCodec.FileDump | storage/binlog.cc:178-199 | the file layout of an entry is 17 bytes plus its key and value |
| BinlogCodec.FileLoad | storage/binlog.cc:201-221 | a decoded file entry's two fields fit in the buffer with their 17 bytes of framing |
| BinlogCodec.FileLoadDump | storage/binlog.cc:178-221 | load after dump is the identity in the file layout |
| BinlogCodec.FileDumpLoad | storage/binlog.cc:178-221 | a buffer that loads in the file layout begins with the dump of the loaded entry |
| BinlogCodec.DumpSizeExample | storage/binlog_test.cc:9-18 | key "abc", value "123", term 1 and no user take 27 bytes in the leveldb layout, as the test expects, but 23 in the file layout this directory's binlog writes |
| FileBinlog.Frame | storage/binlog.cc:90-101 | a data-file frame is the eight-byte record length followed by the record |
| FileBinlog.Data | storage/binlog.cc:90-101 | the data file of appended records holds at least nine bytes per record |
| FileBinlog.Index | storage/binlog.cc:90-118 | the index file holds eight bytes per appended record |
| FileBinlog.Prefix | storage/binlog.cc:90-118 | the files of the first n records are prefixes of the files of all records |
| FileBinlog.IndexAt | storage/binlog.cc:90-118 | index slot k reads back as the data-file offset where record k's frame starts |
| FileBinlog.EmptyRepresents | storage/binlog.cc:12-20 | fresh empty files stand for the empty log |
| FileBinlog.AppendEntry | storage/binlog.cc:90-118 | an append grows the data file by one frame and the index by eight bytes and leaves what was there unchanged |
| FileBinlog.AppendEntryRepresents | storage/binlog.cc:90-118 | appending an entry to files that stand for a log gives files that stand for the log with the entry at its end |
| FileBinlog.GetLength | storage/binlog.cc:52-57 | the length is never negative |
| FileBinlog.GetLengthOfLog | storage/binlog.cc:52-57 | the length of files standing for a log is the number of its entries |
| FileBinlog.ReadInt64At | storage/binlog.cc:65-68 | an eight-byte read succeeds exactly when eight bytes are there, and returns the `int64_t` they encode |
| FileBinlog.ReadFrame | storage/binlog.cc:71-86 | a frame read returns a non-empty record lying right after its length field, and the offset past it |
| FileBinlog.ReadSlot | storage/binlog.cc:59-88 | a slot read decodes the record that the index and data files hold for that slot |
| FileBinlog.ReadSlotOfLog | storage/binlog.cc:59-88 | every appended entry reads back from its slot, and any slot outside the log aborts the process |
| FileBinlog.Resize | storage/binlog.cc:154-176 | `ftruncate` to n bytes cuts the file, or extends it with zero bytes |
| FileBinlog.Truncate | storage/binlog.cc:120-176 | a negative slot offset empties both files; otherwise the index is cut just after the slot |
| FileBinlog.TruncateRepresents | storage/binlog.cc:120-176 | truncating at slot i keeps exactly slots 0 to i, a negative slot empties the log, and a slot past the end aborts |
| FileBinlog.ReadUntilAsWritten | storage/binlog.cc:27-50 | as written, the reader gets exactly one entry, whatever the end slot, and an end slot past the log is fatal |
| FileBinlog.DecodeAll | storage/binlog.cc:47-48 | decoding a list of records yields one entry per record, each its record's decoding |
| FileBinlog.DecodeAllRecords | storage/binlog.cc:178-221 | the records of a log decode back to the log |
| FileBinlog.ReadFramesOf | storage/binlog.cc:90-101 | the data file of some records reads back, frame after frame, as those records |
| FileBinlog.ReadUntil | storage/binlog.cc:27-50 | the corrected read hands over end + 1 entries, or none for a negative end, and only when the end slot is inside the log |
| FileBinlog.ReadUntilOfLog | storage/binlog.cc:27-50 | the corrected read hands over exactly the first end + 1 entries of the log, in order |
| FileBinlog.ReadUntilAsWrittenStopsEarly | storage/binlog.cc:27-50 | with two entries logged, reading until slot 1 as written hands over only the first entry, while the corrected read hands over both |
| LevelBinlog.KeyBytes | src/storage/binlog.cc:12-13 | a slot key is eight bytes and the length tag twelve |
| LevelBinlog.KeyBytesInjective | src/storage/binlog.cc:72-77 | two keys are the same bytes exactly when they are the same key, so slot keys never collide with each other or with the length tag |
| LevelBinlog.EmptyRepresents | src/storage/binlog.cc:15-20 | the logger built over an empty database stands for the empty log |
| LevelBinlog.LastLogIndexAndTermOfLog | src/storage/binlog.cc:66-70 | the last index is the log length minus one, and the last term is the last entry's term, or -1 for an empty log |
| LevelBinlog.ReadSlot | src/storage/binlog.cc:106-117 | a slot reads as an entry only when its key is stored |
| LevelBinlog.ReadSlotOfLog | src/storage/binlog.cc:106-117 | a slot of the log reads back its entry while it is stored, and nothing once compaction has removed it |
| LevelBinlog.AppendEntry | src/storage/binlog.cc:146-163 | an append adds the slot just past the end and the length tag, counts one more entry and records the entry's term |
| LevelBinlog.AppendEntryRepresents | src/storage/binlog.cc:146-163 | an append moves the logger from a log to that log with the entry at its end |
| LevelBinlog.AppendEntryReadsBack | src/storage/binlog.cc:146-163 | the appended entry reads back from the slot it went to |
| LevelBinlog.AppendEntryList | src/storage/binlog.cc:119-144 | a batch append counts every entry of the batch and writes the length tag along with the batch's slots |
| LevelBinlog.PutEntriesKeeps | src/storage/binlog.cc:124-136 | the batch leaves every key outside its own slots as it was |
| LevelBinlog.AppendEntryListRepresents | src/storage/binlog.cc:119-144 | a batch append moves the logger from a log to that log followed by the batch |
| LevelBinlog.AppendEntryListReadsBack | src/storage/binlog.cc:119-144 | every slot of the batch reads back its own entry |
| LevelBinlog.TruncateAsWritten | src/storage/binlog.cc:165-184 | as written, the new length is one past the slot (the slot clamped at -1) |
| LevelBinlog.TruncateAsWrittenKeepsStaleTerm | src/storage/binlog.cc:165-184 | as written, truncating a one-entry log to nothing leaves the removed entry's term as the last term, so the logger no longer stands for the empty log |
| LevelBinlog.Truncate | src/storage/binlog.cc:165-184 | the corrected truncate sets the same length and resets the last term to -1 when the log becomes empty |
| LevelBinlog.TruncateRepresents | src/storage/binlog.cc:165-184 | the corrected truncate keeps exactly the prefix up to the slot, and aborts when that slot was compacted away |
| LevelBinlog.TruncatePastEnd | src/storage/binlog.cc:165-184 | truncating at or past the end reads that slot like any other: it aborts exactly when no entry is stored there, and otherwise the length becomes i+1, beyond the log, with that slot's term as the last term |
| LevelBinlog.RemoveSlot | src/storage/binlog.cc:86-99 | a slot is deleted, and the call reports true exactly when the slot was stored |
| LevelBinlog.RemoveSlotRepresents | src/storage/binlog.cc:86-99 | removing a slot does not change the log the logger stands for; the slot then reads as missing |
| LevelBinlog.DelBinlog | server/ins_node_impl.cc:1660-1671 | compaction only deletes stored slots, starting with the given one, and leaves the length, the last term and the length tag alone |
| LevelBinlog.DelBinlogRepresents | server/ins_node_impl.cc:1660-1671 | compaction keeps the log the logger stands for |
| LevelBinlog.DelBinlogRemovesRun | server/ins_node_impl.cc:1660-1671 | a run of stored slots ending at the start index is removed completely |
| LevelBinlog.DelBinlogKeepsAbove | server/ins_node_impl.cc:1660-1671 | no slot above the start index is removed |
| LevelBinlog.Open | src/storage/binlog.cc:44-54 | reopening keeps the database as it is on disk |
| LevelBinlog.OpenRecovers | src/storage/binlog.cc:44-54 | reopening the database of a logger recovers the same length and last term, as long as the last slot was not compacted away |
| Table.Lookup | src/storage/storage_manage.cc:91-112 | a key reads as a value exactly when some entry of the table has that key |
| Table.Insert | src/storage/storage_manage.cc:114-132 | a put keeps the table's keys strictly increasing |
| Table.LookupInsert | src/storage/storage_manage.cc:114-132 | after a put the key holds the new value and every other key keeps its old answer |
| Table.Remove | src/storage/storage_manage.cc:134-152 | a delete keeps the table ordered and never grows it |
| Table.LookupRemove | src/storage/storage_manage.cc:134-152 | after a delete the key is gone and every other key keeps its old answer |
| Table.SeekIndex | src/storage/storage_manage.cc:162-167 | a seek passes over only keys below the target |
| Table.SeekIndexBound | src/storage/storage_manage.cc:162-167 | in an ordered table every key from the sought position on is at or above the target |
| NamespaceStore.New | src/storage/storage_manage.cc:18-41 | the store comes up exactly when the data directory is created and the shared database opens, and then knows only the shared namespace |
| NamespaceStore.OpenDatabase | src/storage/storage_manage.cc:52-78 | a known name is left alone and reported open; a new name records what the open produced, and the call succeeds exactly when that open did |
| NamespaceStore.CloseDatabase | src/storage/storage_manage.cc:80-89 | closing forgets the name and keeps every other namespace as it was |
| NamespaceStore.Reach | src/storage/storage_manage.cc:91-152 | a namespace is reachable exactly when it is known and open; a known namespace whose open failed answers an error, an unknown one answers unknown user |
| NamespaceStore.Get | src/storage/storage_manage.cc:91-112 | a value comes back exactly when the status is ok; a NULL output is an error, and an unknown name is an unknown user |
| NamespaceStore.Put | src/storage/storage_manage.cc:114-132 | a put succeeds exactly when the namespace is reachable, changes nothing when it fails, and never adds or drops a namespace |
| NamespaceStore.Delete | src/storage/storage_manage.cc:134-152 | a delete succeeds exactly when the namespace is reachable, present key or not, and changes nothing when it fails |
| NamespaceStore.AnonymousKnown | src/storage/storage_manage.cc:18-41 | the shared namespace is never an unknown user, and puts and deletes in it succeed |
| NamespaceStore.GetAfterPut | src/storage/storage_manage.cc:91-132 | a value put reads back, and every other key and namespace keeps its answer |
| NamespaceStore.GetAfterDelete | src/storage/storage_manage.cc:91-152 | a deleted key reads as not found, and every other key and namespace keeps its answer |
| NamespaceStore.FailedOpenAnswersError | src/storage/storage_manage.cc:52-152 | a namespace whose open failed answers every access with an error |
| NamespaceStore.OpenIdempotent | src/storage/storage_manage.cc:52-78 | opening a name twice is the same as opening it once |
| NamespaceStore.CloseForgets | src/storage/storage_manage.cc:80-112 | after a close the name reads as an unknown user |
| NamespaceStore.IterStatus | src/storage/storage_manage.cc:180-192 | the iterator's status is an error exactly for a NULL iterator |
| NamespaceStore.NewIterator | src/storage/storage_manage.cc:194-211 | an iterator exists exactly for a reachable namespace, and it walks that namespace's table |
| NamespaceStore.NullIteratorSafe | src/storage/storage_manage.cc:154-192 | on a NULL iterator, key and value are empty, it is never valid, its status is an error, and seek and next do nothing |
| NamespaceStore.SeekFindsLeast | src/storage/storage_manage.cc:162-178 | after a seek the iterator is valid exactly when some key is at or above the target, and then it stands on the least such key |
| OldNamespaceStore.OldNew | storage/storage_manage.cc:11-26 | the old store comes up exactly when the directory and the shared database do, and only the shared namespace gets a mutex |
| OldNamespaceStore.OldOpenDatabase | storage/storage_manage.cc:38-49 | a new name gets its database and no mutex, so it cannot be locked; a known name is reported open |
| OldNamespaceStore.OldCloseDatabase | storage/storage_manage.cc:51-60 | closing erases exactly the name |
| OldNamespaceStore.OldGet | storage/storage_manage.cc:62-78 | a value comes back exactly with status ok and is never empty; a NULL output is an error, an unknown name is not found, and unknown user is never reported |
| OldNamespaceStore.OldPut | storage/storage_manage.cc:80-90 | a put reports ok exactly for a known name, and an unknown name changes nothing |
| OldNamespaceStore.OldDelete | storage/storage_manage.cc:92-103 | a delete reports ok exactly for a known name, and an unknown name changes nothing |
| OldNamespaceStore.OldGetAfterPut | storage/storage_manage.cc:62-90 | a non-empty value put reads back, an empty one reads as not found, and every other key and namespace keeps its answer |
| OldNamespaceStore.OldGetAfterDelete | storage/storage_manage.cc:62-103 | a deleted key reads as an error, not as not found |
| OldNamespaceStore.OldOpenIdempotent | storage/storage_manage.cc:38-49 | opening twice is opening once, and the name is known afterwards |
| OldNamespaceStore.OldCloseForgets | storage/storage_manage.cc:51-78 | a closed name reads as not found |
| OldNamespaceStore.UnknownNameDiffers | storage/storage_manage.cc:62-78 | for a name neither store knows, the old store answers not found where the newer one answers unknown user |
| NamespaceStore.IterKey | src/storage/storage_manage.cc:154-156 | a NULL iterator's key is empty |
| NamespaceStore.IterValue | src/storage/storage_manage.cc:158-160 | a NULL iterator's value is empty |
| NamespaceStore.Seek | src/storage/storage_manage.cc:162-167 | a seek moves only the position, never the table |
| NamespaceStore.Next | src/storage/storage_manage.cc:169-174 | a step keeps the table and moves exactly one row on |
| NamespaceStore.IterValid | src/storage/storage_manage.cc:176-178 | a NULL iterator is never valid |
| Base64.Char | server/user_manage.cc:21-38 | each 6-bit value has an alphabet character that reads back as the same value |
| Base64.CharOfValue | server/user_manage.cc:41-56 | every alphabet character is the character of its own value |
| Base64.Split | server/user_manage.cc:21-38 | n bytes cut into ceil(8n/6) groups of six bits, so the group count is never 1 more than a multiple of 4 |
| Base64.Join | server/user_manage.cc:41-56 | groups join into floor(6m/8) whole bytes, and a lone trailing group (a count of 4k+1) cannot be joined |
| Base64.Encode | server/user_manage.cc:21-38 | the encoding has ceil(8n/6) characters, all from the alphabet |
| Base64.Decode | server/user_manage.cc:41-56 | decoding succeeds exactly for a text of alphabet characters whose length is not 4k+1, and gives floor(6m/8) bytes |
| Base64.JoinSplit | server/user_manage.cc:21-56 | joining the groups a byte string splits into gives the byte string back |
| Base64.DecodeEncode | server/user_manage.cc:21-56 | decoding inverts encoding |
| UserManage.CalcUuid | server/user_manage.cc:21-38 | a uuid is never empty |
| UserManage.CalcName | server/user_manage.cc:41-56 | a name comes out exactly when the uuid decodes, and it is a prefix of the decoded text |
| UserManage.CalcNameOfUuid | server/user_manage.cc:21-56 | the name comes back from its uuid, whatever the clock read |
| UserManage.UuidsOfDifferentNames | server/user_manage.cc:21-38 | two different users never get the same uuid, whatever the clock reads |
| UserManage.New | server/user_manage.cc:58-75 | the manager comes up exactly when the directory, the database and the root record all do; then nobody is logged in, the users are the stored ones plus root, and root has its password and no session |
| UserManage.Login | server/user_manage.cc:77-101 | an unknown name, a user already logged in and a wrong password are refused in that order and change nothing; success records the new uuid in both tables, and the uuid names the user; the tables stay consistent |
| UserManage.Logout | server/user_manage.cc:103-114 | a logout succeeds exactly for a logged-in uuid; it forgets the session and clears the user's uuid, and a refusal changes nothing |
| UserManage.Register | server/user_manage.cc:116-134 | an empty or known name is refused as existing; registration succeeds exactly for a new name whose database write succeeds, and adds the user with no session |
| UserManage.ForceOffline | server/user_manage.cc:136-155 | the caller must be logged in and the target known, and must be root or hold the target's uuid; success is the logout of the target's uuid |
| UserManage.DeleteUser | server/user_manage.cc:157-179 | the caller must be logged in, then be root or the target, then the target must exist; success removes the user, its database record and its session |
| UserManage.UsernameOf | server/user_manage.cc:237-242 | a logged-in uuid names a registered user whose uuid it is; any other uuid gives "" |
| UserManage.TruncateOnlineUsers | server/user_manage.cc:191-209 | root only; afterwards only the caller is logged in, as root, and every password is kept |
| UserManage.TruncateAllUsers | server/user_manage.cc:211-235 | root only, and only when the database truncation succeeds; afterwards root is the only user, with its password and the caller's session |
| UserManage.LoginTwiceRefused | server/user_manage.cc:77-101 | a logged-in user logging in again is refused as existing |
| UserManage.LoginUuidFresh | server/user_manage.cc:77-101 | in consistent tables a new login's uuid is not in use yet |
| UserManage.LoginLogout | server/user_manage.cc:77-114 | logging in and then out leaves the account tables as they were |
| UserManage.LogoutTwice | server/user_manage.cc:103-114 | a second logout of one uuid is refused as unknown |
| UserManage.ForceOfflineOfOfflineUser | server/user_manage.cc:136-155 | forcing an offline user offline fails even for root, because it logs out the empty uuid |
| UserManage.TruncateOnlineLeavesCaller | server/user_manage.cc:191-209 | after the truncation a uuid is logged in exactly when it is the caller's |
| UserManage.LogoutUndoesLogin | server/user_manage.cc:77-114 | logging out the uuid a login just handed out restores both account tables, when that uuid was not in use before |
| Numerals.Digits | storage/meta.cc:82 | the decimal digits of a natural number: never empty, digits only |
| Numerals.Decimal | storage/meta.cc:82 | the `%ld` text of an integer: digits with at most a leading minus sign |
| Numerals.DigitsValueOfDigits | storage/meta.cc:45-51 | the digits of n read back as n |
| Numerals.DigitRun | storage/meta.cc:47 | the longest run of digits at the front of the text |
| Numerals.ScanInt | storage/meta.cc:47 | one `%ld` conversion consumes input whenever it succeeds and stores an int64: a number out of range saturates to `LONG_MAX` or `LONG_MIN` as glibc's `strtol` does |
| Numerals.ScanDecimal | storage/meta.cc:45-51 | after any white space, the `%ld` text of n reads back as n clamped to int64, stopping at the first non-digit (together with storage/meta.cc:81-82) |
| Numerals.WordRun | storage/meta.cc:59 | the longest run of non-space bytes at the front of the text |
| Numerals.ScanWord | storage/meta.cc:59 | a `%1023s` conversion reads a non-empty word of non-space bytes, at most as long as the width |
| Numerals.ScanWholeWord | storage/meta.cc:59 | a word no longer than the width, after white space, is read back whole (together with storage/meta.cc:89-90) |
| Meta.WriteCurrentTerm | storage/meta.cc:81-87 | the write completes exactly when the flush succeeds (a failed flush aborts); the file only grows, and the added text reads back as the term |
| Meta.ReadCurrentTerm | storage/meta.cc:45-51 | the term read is always an int64; a file that does not start with a number reads as term 0 |
| Meta.TermFileAppend | storage/meta.cc:81-82 | each term write appends one line to the file of the earlier writes |
| Meta.ScanTermFile | storage/meta.cc:45-51 | the read loop over a file of term lines ends with the last term clamped to int64, or the start value when there is none |
| Meta.LastTermWins | storage/meta.cc:45-51 | a file of terms written as storage/meta.cc:81-87 writes them reads back as the last of them clamped to int64, or 0 when empty |
| Meta.OverflowSaturates | storage/meta.cc:47 | a term line of 10^19, above int64, reads back as `LONG_MAX` |
| Meta.ReadAfterWriteTerm | storage/meta.cc:45-51 | writing a term as storage/meta.cc:81-87 does and reading the file back gives that term, clamped to int64, so an int64 term comes back as itself |
| Meta.WriteVotedFor | storage/meta.cc:89-96 | the write completes exactly when the flush succeeds; the file grows by one newline-ended line |
| Meta.ScanVote | storage/meta.cc:59 | one `"%ld %1023s"` conversion gives an int64 term, a non-empty id of at most 1023 bytes and consumes input |
| Meta.ReadVotedFor | storage/meta.cc:53-66 | at most one vote comes back, the last one read, its term an int64, its id cut at the first NUL as the `std::string` assignment does, 1 to 1023 bytes with no NUL; an id empty after the cut, or a file that does not start with a vote, gives none |
| Meta.LastVoteHasId | storage/meta.cc:59-62 | the id the read loop keeps is at most 1023 bytes and has no NUL |
| Meta.NulIdGivesNoVote | storage/meta.cc:59-65 | a file whose only id starts with NUL reads as no vote at all |
| Meta.VoteFileAppend | storage/meta.cc:89-90 | each vote write appends one line to the file of the earlier writes |
| Meta.ScanVoteFile | storage/meta.cc:59-62 | the read loop over a file of vote lines with well-formed ids ends with the last vote, its term clamped to int64 |
| Meta.LastVoteWins | storage/meta.cc:53-66 | a file of votes written as storage/meta.cc:89-96 writes them reads back as the last vote alone with its term clamped to int64, or no vote when empty |
| Meta.ReadAfterWriteVote | storage/meta.cc:53-66 | writing a vote as storage/meta.cc:89-96 does and reading the file back gives exactly that vote, its term clamped to int64, so an int64 term comes back as itself |
| Meta.WriteRootInfo | storage/meta.cc:98-109 | a record with a field unset leaves the file alone; otherwise the write completes exactly when the flush does, the root line overwrites the start and the rest of the old file stays |
| Meta.FirstLine | storage/meta.cc:71 | `fgets` gives nothing on an empty file, else a prefix of at most 1022 bytes that ends at the first newline, at the limit or at the end |
| Meta.ReadRootInfo | storage/meta.cc:68-79 | an empty file gives an empty record; otherwise both fields are set and the name holds no tab, or the read is undefined for a line without a tab |
| Meta.ReadAfterWriteRoot | storage/meta.cc:68-79 | a root record written as storage/meta.cc:98-109 writes it and read back keeps the name, and the password comes back with the line's newline |
| Meta.UnsetRootIgnored | storage/meta.cc:98-101 | a record with an unset field changes nothing that a read sees |
| DirUtils.Normalize | storage/utils.h:12-20 | an empty C string has no path; otherwise the path is a prefix of the C string, at most 1023 bytes, with no NUL |
| DirUtils.Steps | storage/utils.h:21-31 | the directories to make are the prefixes ending before a '/' at position 1 or later, strictly growing, then the whole path |
| DirUtils.Prefixes | storage/utils.h:21-30 | the prefixes are in increasing order, each ends before a '/', and every '/' after the first byte has its prefix listed |
| DirUtils.Attempt | storage/utils.h:21-35 | the calls stop at the first failure: the calls made are a prefix of the steps, all made calls but the last succeeded, and the result is true exactly when every step succeeded |
| DirUtils.Mkdirs | storage/utils.h:11-36 | an empty path is undefined; otherwise at least one `mkdir` is made, each on a prefix of the path, and on success the last call is the whole path |
| DirUtils.MkdirsSucceedsIff | storage/utils.h:11-36 | `Mkdirs` succeeds exactly when the whole path and the prefix before every '/' (after the first byte) are made or already exist |
| DirUtils.StepsSucceedIff | storage/utils.h:21-35 | every `mkdir` call of the plan succeeds exactly when the whole path and every prefix before a '/' succeed |
| DirUtils.ParentsFirst | storage/utils.h:21-31 | on success, every parent directory was made before the whole path |
| Counters.New | common/counter.h:17 | a new counter holds 0 |
| Counters.Get | common/counter.h:30-32 | the value read is a 64-bit integer |
| Counters.GetReadsLastWrite | common/counter.h:18-38 | a read returns what the last write stored: the value given to `Set`, and the value `Add`, `Sub`, `Inc` and `Dec` returned |
| Counters.Add | common/counter.h:18-20 | stores and returns the old value plus v, wrapped to 64 bits; without overflow exactly the sum |
| Counters.Sub | common/counter.h:21-23 | stores and returns the old value minus v, wrapped to 64 bits, the smallest v included; without overflow exactly the difference |
| Counters.Inc | common/counter.h:24-26 | one more, and the largest value wraps to the smallest |
| Counters.Dec | common/counter.h:27-29 | one less, and the smallest value wraps to the largest |
| Counters.Set | common/counter.h:33-35 | stores v and returns the previous value |
| Counters.Clear | common/counter.h:36-38 | stores 0 and returns the previous value |
| Counters.IncDecAreAdds | common/counter.h:18-29 | `Inc` and `Dec` are `Add(1)` and `Add(-1)` |
| Counters.SubUndoesAdd | common/counter.h:18-23 | subtracting v after adding v restores the counter, across a wrap-around too |
| Counters.ClearAfterSet | common/counter.h:30-38 | a clear after a set returns what was set, and a cleared counter reads 0 |
| Performance.Index | src/server/performance_center.h:17-42 | every category has its position in the reporting order |
| Performance.CategoriesDistinct | src/server/performance_center.h:17-42 | no category appears twice in the reporting order |
| Performance.Push | server/performance_center.cc:42 | the capacity stays; the new sample is the newest; a full buffer drops its oldest sample, and a capacity-0 buffer keeps nothing |
| Performance.PushKeepsLatest | server/performance_center.cc:42 | a buffer keeps the last `capacity` samples pushed into it |
| Performance.New | server/performance_center.cc:11-22 | a negative buffer size stops the process, since the buffer constructor throws on a capacity beyond its maximum; otherwise every counter starts at 0 and every buffer is empty with the requested capacity |
| Performance.Event | src/server/performance_center.h:17-24 | an event raises its own category's counter by one and changes nothing else |
| Performance.Current | src/server/performance_center.h:26-33 | the current count of a category is the 64-bit value of its own counter; `Event` and `EventsCount` say how it moves |
| Performance.TickTock | server/performance_center.cc:35-80 | every counter's value becomes the newest sample of its buffer, and every counter is zeroed |
| Performance.Average | server/performance_center.cc:24-33 | an empty buffer divides by zero and stops the process; otherwise the result is a 64-bit value that, when the sum does not overflow, is the mean rounded down |
| Performance.AverageOf | src/server/performance_center.h:35-42 | a category's average stops the process on an empty buffer; otherwise it is a 64-bit value and, when the sum does not overflow, the mean of that category's own samples rounded down |
| Performance.AverageWithinSamples | server/performance_center.cc:24-33 | the average of non-negative samples whose sum does not overflow lies between their least and greatest value |
| Performance.Events | src/server/performance_center.h:17-24 | events leave the buffers alone |
| Performance.EventsCount | src/server/performance_center.h:17-33 | k events of one category from zero make its counter read k |
| Performance.TickRecordsEvents | server/performance_center.cc:35-80 | after a tick, each category's buffer ends with the number of its events since the last tick |
| RaftNode.TransToFollower | server/ins_node_impl.cc:161-170 | the node becomes a follower in the new term, and its log, votes and commit index stay |
| RaftNode.Vote | server/ins_node_impl.cc:653-697 | an older term or a candidate whose log is behind is refused with no change at all; a newer term is adopted as a follower; a grant records the candidate for the term and needs the term's vote to be free or already the candidate's; the term never goes down and the log and commit index stay (together with server/ins_node_impl.cc:507-518) |
| RaftNode.TruncateLog | src/storage/binlog.cc:165-184 | keeps exactly the first i+1 entries, clamped at none |
| RaftNode.Reconcile | server/ins_node_impl.cc:597-632 | the batch is accepted exactly when the previous index is inside the log and its term matches; then the log is the prefix up to the previous index followed by the batch; a previous index past the end leaves the log, and a term mismatch drops the previous entry and everything after it |
| RaftNode.AppendEntries | server/ins_node_impl.cc:574-651 | an older term is refused with no change; otherwise the node follows the sender in its term; an empty batch keeps the log and succeeds; a batch is reconciled; success sets the commit index to the smaller of the last index and the leader's, failure keeps it; votes never change and the reply reports the log length |
| RaftNode.AppendEntriesMatchesLeader | server/ins_node_impl.cc:597-633 | after a successful append the previous entry carries the leader's previous term and each batch entry sits right after it |
| RaftNode.TruncateClamps | src/storage/binlog.cc:165-184 | truncating the binlog below -1 is truncating to -1 |
| RaftNode.TruncateToPrefix | src/storage/binlog.cc:165-184 | on an uncompacted binlog, `Truncate(i)` never aborts and leaves the binlog standing for the first i+1 entries |
| RaftNode.PrevTermOfLog | server/ins_node_impl.cc:606-613 | the previous term read from an uncompacted binlog is the log's term at that index, or -1 before the first entry |
| RaftNode.AcceptOfLog | server/ins_node_impl.cc:625-632 | the accepting branch, cutting a longer binlog after the previous index and appending the batch, never aborts and stands for the cut log plus the batch |
| RaftNode.MismatchOnBinlog | server/ins_node_impl.cc:614-624 | a mismatching previous term truncates the binlog to the log `Reconcile` gives, and fails |
| RaftNode.MatchOnBinlog | server/ins_node_impl.cc:625-632 | a matching previous term leaves the binlog standing for the log `Reconcile` gives, and succeeds |
| RaftNode.ReconcileOnBinlogRepresents | server/ins_node_impl.cc:597-632 | the handler's binlog calls never abort on an uncompacted binlog and land on the log and verdict `Reconcile` computes |
| RaftNode.MatchCount | server/ins_node_impl.cc:702-709 | the count never exceeds the number of members |
| RaftNode.Filled | server/ins_node_impl.cc:706 | reading a member's match index inserts a 0 entry for it, so the map grows by the members and keeps the other values |
| RaftNode.UpdateCommitIndex | server/ins_node_impl.cc:700-715 | the commit index never goes down, moves only to a, and moves exactly when a is above it and at least half the filled map, rounded down, has reached a |
| RaftNode.MatchCountAntitone | server/ins_node_impl.cc:702-709 | a lower index is reached by at least as many members |
| RaftNode.FullReplicationCommits | server/ins_node_impl.cc:700-715 | once every member has replicated a, and the map holds no strangers, a is committed when it is above the commit index |
| RaftNode.Replay | server/ins_node_impl.cc:574-697 | one reply per message handled |
| RaftNode.GrantStays | server/ins_node_impl.cc:653-697 | a vote granted along a sequence of requests is still recorded for its term at the end (together with server/ins_node_impl.cc:574-651) |
| RaftNode.AtMostOneVotePerTerm | server/ins_node_impl.cc:684-691 | within one term at most one candidate is ever granted a vote, however vote and append requests interleave |
| RaftNode.TermMonotone | server/ins_node_impl.cc:579-592 | the term never goes down along a sequence of requests (together with server/ins_node_impl.cc:658-683) |
| RaftNode.CleanBinlog | server/ins_node_impl.cc:1673-1693 | cleaning past the last applied index is fatal; otherwise the length stays and slots are only removed (together with server/ins_node_impl.cc:1660-1671) |
| RaftNode.CleanBinlogKeeps | server/ins_node_impl.cc:1660-1693 | cleaning keeps the log the binlog stands for, removes the slot just below the end and keeps every slot from the end on |
| StateMachine.TypeAndValue | server/ins_node_impl.cc:199-200 | the stored form is one byte longer than the value and starts with the operation |
| StateMachine.ParseValue | server/ins_node_impl.cc:1379-1386 | a non-empty value splits into the operation byte and a rest that rebuild it; an empty value leaves both outputs as they were |
| StateMachine.ParseTypeAndValue | server/ins_node_impl.cc:199-200 | parsing the stored form gives the operation and the value back, whatever the outputs held before (together with server/ins_node_impl.cc:1379-1386) |
| StateMachine.ApplyData | server/ins_node_impl.cc:194-252 | a put, lock or delete aborts exactly when the entry's namespace is not open; otherwise the namespaces stay the same set and a step with no event leaves the store as it was |
| StateMachine.ApplyDataReads | server/ins_node_impl.cc:194-252 | after the store step the entry's key reads as the operation says (a put or lock its prefixed value, a delete nothing, an unlock of the owner nothing) and every other key of every namespace reads as before |
| StateMachine.ApplyEntry | server/ins_node_impl.cc:187-291 | aborts exactly when the store step does; otherwise the applied index goes up by one and is stored under the tag in the shared namespace, a lock records the key for its session, other operations keep the session locks, and the no-op flag is set exactly for a no-op |
| StateMachine.ApplyEntryReads | server/ins_node_impl.cc:187-291 | a whole loop iteration changes what the entry's key reads as the store step says and leaves every other key, apart from the applied-index tag, reading as before |
| StateMachine.UnlockOfOtherSessionKeeps | server/ins_node_impl.cc:229-251 | an unlock entry of a session that does not own the lock changes nothing and triggers nothing |
| StateMachine.ApplyAll | server/ins_node_impl.cc:187-291 | applying a run of entries advances the applied index by their number and keeps the store valid with the shared namespace open |
| StateMachine.ApplyAllStoresTag | server/ins_node_impl.cc:187-291 | after a non-empty run the new applied index is what the shared namespace holds under the last-applied tag |
| StateMachine.LockIsAvailable | server/ins_node_impl.cc:1017-1048 | only a live session can ever take a lock |
| StateMachine.LockIsAvailableIff | server/ins_node_impl.cc:1017-1048 | the lock is available exactly when the session is live and the key is absent or holds a lock whose owner has expired |
| StateMachine.LockTakesKey | server/ins_node_impl.cc:194-212 | once a lock entry of a live session is applied, no session can take the key while the owner lives (together with server/ins_node_impl.cc:1017-1048) |
| StateMachine.NodeGet | server/ins_node_impl.cc:830-932 | followers refuse and name their leader, candidates and a leader in safe mode refuse without one, and a hit is always a success |
| StateMachine.NodeGetHides | server/ins_node_impl.cc:894-929 | a local read hits exactly when the key holds a value that is not the lock of an expired session, and then returns the value without its operation byte |
| StateMachine.GetAfterApplyPut | server/ins_node_impl.cc:194-212 | a put applied to an open namespace is what a later local read returns (together with server/ins_node_impl.cc:894-929) |
| RangeScan.TakeBelow | server/ins_node_impl.cc:1174-1176 | the rows walked are the leading rows below the end key, stopping at the first row at or past it |
| RangeScan.Item | server/ins_node_impl.cc:1184-1196 | an item keeps the row's key |
| RangeScan.Visible | server/ins_node_impl.cc:1181-1196 | no more items than rows |
| RangeScan.Collect | server/ins_node_impl.cc:1172-1198 | the items are a prefix of the visible rows, at most the budget; `has_more` means the budget was used up with rows left; without it the items are all the visible rows |
| RangeScan.CollectHasMore | server/ins_node_impl.cc:1177-1180 | when more rows are visible than the budget allows, the scan reports more |
| RangeScan.Scan | server/ins_node_impl.cc:1129-1208 | followers refuse and name their leader; candidates, a leader in safe mode and a leader within the session-expiry window refuse; an unusable namespace aborts; a successful reply holds at most the budget |
| RangeScan.TakeBelowCovers | server/ins_node_impl.cc:1174-1176 | in an ordered table every row below the end key is walked |
| RangeScan.VisibleKeys | server/ins_node_impl.cc:1181-1196 | every visible item is the item of a shown row |
| RangeScan.VisibleHas | server/ins_node_impl.cc:1181-1196 | every shown row has its item among the visible ones |
| RangeScan.ScanSound | server/ins_node_impl.cc:1129-1208 | every item a scan returns lies in the range and is a shown row of the table |
| RangeScan.WindowComplete | server/ins_node_impl.cc:1174-1196 | every shown row of an ordered table inside the range is among the visible items of the range |
| RangeScan.ScanComplete | server/ins_node_impl.cc:1129-1208 | a scan that reports no more rows returned every shown row inside the range |
| RangeScan.ScanOrdered | server/ins_node_impl.cc:1174-1198 | scan items come out in increasing key order |
| WatchTable.SubsetUnique | server/ins_node_impl.cc:1436-1459 | erasing watches never makes a (key, session) pair appear twice |
| WatchTable.TriggerEvent | server/ins_node_impl.cc:1415-1442 | every watch on the key, and only those, leaves the table with exactly one reply carrying the watch key and the change |
| WatchTable.TriggerOnce | server/ins_node_impl.cc:1415-1442 | a watch fires once: a second change of the key finds nobody and changes nothing |
| WatchTable.ParentKey | server/ins_node_impl.cc:1404-1408 | the parent is the key up to its last '/', or empty when the key has none |
| WatchTable.TriggerEventWithParent | server/ins_node_impl.cc:1401-1413 | the watches on the key and on its non-empty parent, and only those, get one reply each naming their own watch key and the changed key |
| WatchTable.AddressesUnion | server/ins_node_impl.cc:1409-1412 | the watchers answered by two rounds of replies are those of either round |
| WatchTable.ParentWatchFires | server/ins_node_impl.cc:1401-1413 | a watch on the directory directly above the changed key fires with the change |
| WatchTable.RemoveEventBySessionAndKey | server/ins_node_impl.cc:1444-1465 | exactly the session's watches on the key are cancelled and leave the table |
| WatchTable.TriggerEventBySessionAndKey | server/ins_node_impl.cc:1468-1496 | exactly the session's watches on the key fire with the given value and leave the table |
| WatchTable.RemoveEventBySession | server/ins_node_impl.cc:1498-1513 | exactly the session's watches are dropped, without a reply |
| WatchTable.RemoveExpiredSessions | server/ins_node_impl.cc:1332-1338 | exactly the watches of the expired sessions are dropped |
| WatchTable.Current | server/ins_node_impl.cc:1550-1558 | the key exists exactly when the store reads it |
| WatchTable.Watch | server/ins_node_impl.cc:1515-1572 | only the leader registers, and a follower names its leader; a registration cancels the session's earlier watch on the key and settles every watch it removes with one reply; before the session timeout has passed since startup the new watch always stays |
| WatchTable.WatchKeepsUnique | server/ins_node_impl.cc:1539-1547 | watching keeps at most one pending watch per key and session |
| WatchTable.WatchFiresOnChange | server/ins_node_impl.cc:1548-1564 | after startup, a client that saw a stale value or existence gets the current value at once and the watch is not kept |
| WatchTable.WatchWaitsWhenCurrent | server/ins_node_impl.cc:1548-1571 | a client that is up to date keeps its watch pending, unless the key holds a lock of an expired session, and only cancellations are sent |
| Logging.LevelChar | common/logging.cc:291-305 | over the levels of common/logging.h:15-20, the letter is V below DEBUG, D below INFO, I below WARNING, W below FATAL and F from FATAL on, each band exactly |
| Logging.LevelCharMonotone | common/logging.cc:291-305 | a more severe level never gets a less severe letter |
| Logging.FormatLine | common/logging.cc:307-352 | the line is the letter, a space, the stamp and the message, cut to fit 30000 bytes, and ends with exactly one added newline unless the kept text already ends with one |
| Logging.FormatLineMessage | common/logging.cc:320-350 | a line that fits carries the letter, the space, the stamp and the whole message, with a newline added only when the message lacks one |
| Logging.Log | common/logging.cc:370-381 | a line is written exactly when the level reaches the threshold, and the process aborts exactly for a fatal level, written or not |
| Logging.DefaultThreshold | common/logging.cc:370-381 | the threshold starts at INFO (common/logging.cc:31); under it a fatal message is written with F before the abort, and a debug message is dropped |
| Logging.Initial | common/logging.cc:31-40 | the library starts at INFO with no log files |
| Logging.ConsSorted | common/logging.cc:39 | an ordered set stays ordered with a smaller name put in front |
| Logging.Insert | common/logging.cc:76 | inserting into the ordered set (here and at common/logging.cc:229) keeps it ordered and adds exactly the new name |
| Logging.InsertAll | common/logging.cc:226-230 | inserting a list keeps the set ordered and adds exactly the listed names |
| Logging.Evict | common/logging.cc:77-91 | the loop (here and again at common/logging.cc:231-243) removes a prefix of the set, subtracts the sizes `lstat` reports for it, and stops within the limits, on a failed `lstat`, or with the set empty, leaving in `GetNewLog` and spinning in `RecoverHistory` |
| Logging.EvictsOldestFirst | common/logging.cc:79-87 | every removed name sorts before every kept one, and the kept set stays ordered |
| Logging.EvictKeepsNewest | common/logging.cc:77-91 | with only a count limit, eviction keeps exactly the `count` largest names |
| Logging.NewLogLoopEnds | common/logging.cc:77-91 | `GetNewLog`'s loop never spins |
| Logging.SetLogLevel | common/logging.cc:95-97 | only the threshold changes |
| Logging.SetLogSize | common/logging.cc:252-258 | a negative size is refused with no change; otherwise the size is the megabytes in bytes, without overflow, and nothing else changes |
| Logging.SplitPath | common/logging.cc:198-205 | the directory ends at the last '/', the name after it has none, and a path without '/' looks in "./" for the whole path |
| Logging.Walk | common/logging.cc:212-224 | the paths found are regular files and the added total is the sum of their sizes |
| Logging.WalkSound | common/logging.cc:212-224 | every path found is the directory joined to an entry whose name contains the log name |
| Logging.WalkComplete | common/logging.cc:212-224 | a walk that finishes missed no regular file whose name contains the log name |
| Logging.RecoverWith | common/logging.cc:197-245 | only the set and the total change; the loop can spin only with the set empty and the total above a size limit |
| Logging.RecoverHistoryAsWritten | common/logging.cc:197-245 | the call never returns exactly when the loop spins; otherwise it reports success exactly when the limits are met |
| Logging.RecoverHistory | common/logging.cc:197-245 | with an exit on the empty set the call always returns, fails only for `opendir` or `lstat`, and on success leaves the limits met or the set empty |
| Logging.SetLogCount | common/logging.cc:260-269 | refused with no change for a negative count or while a size limit is set; otherwise the count is stored |
| Logging.SetLogSizeLimit | common/logging.cc:271-280 | refused with no change for a negative size or while a count limit is set; otherwise the limit is the megabytes in bytes |
| Logging.SetLogSizeLimitAsWritten | common/logging.cc:271-280 | refused with no change for a negative size or a count limit |
| Logging.OneLimitAtATime | common/logging.cc:260-280 | whichever setter runs, at most one of the two limits is nonzero afterwards, and a setter fails while the other limit is set |
| Logging.GetNewLog | common/logging.cc:42-93 | a file that cannot be opened changes nothing; otherwise the new path joins the set without adding to the total, only set members or the new path remain, and success leaves the limits met or the set empty |
| Logging.SetLogFile | common/logging.cc:247-250 | the log name becomes the C string of the path; a failed open changes nothing else and reports failure; a new file that fits the limits joins the set and the call succeeds; on success the set is within its limits or empty; the set gains no name but the new one |
| Logging.NewLogKeepsCount | common/logging.cc:42-93 | with a count limit and a full set, opening a new file keeps exactly `count` files |
| Logging.InsertGrows | common/logging.cc:76 | inserting a new name makes the set one longer |
| Logging.RecoverHistorySpins | common/logging.cc:197-245 | a size limit of 100 MB and then 10 MB (set at common/logging.cc:271-280) over two 25 MB logs counts both files twice, evicts both and leaves the loop as written spinning |
| Logging.RecoverHistoryLeaves | common/logging.cc:271-280 | with the exit, the same two calls return, the second with an empty set |
| Logging.RecoverHistoryReturns | common/logging.cc:197-245 | with the exit, recovery never spins and a success leaves the limits met or the set empty |
| SdkTypes.Ordinal | src/sdk/ins_sdk.h:28-39 | every error code has a value below 10 |
| SdkTypes.OfOrdinal | src/sdk/ins_sdk.h:28-39 | exactly the values 0 to 9 name a code, and the code named has that value |
| SdkTypes.OrdinalRoundTrip | src/sdk/ins_sdk.h:28-39 | a code's value names it back, and distinct codes have distinct values |
| InsSdk.NodeInfo | sdk/ins_sdk.cc:20-36 | an unreachable member is offline with term -1 and unset log fields; a reachable one copies status, term and last log position; commit index and last applied are never set |
| InsSdk.ShowCluster | sdk/ins_sdk.cc:16-40 | always succeeds, with exactly one record per member, in member order |
| InsSdk.ShowClusterSplits | sdk/ins_sdk.cc:16-40 | the view of a list is the views of its parts one after the other: nothing merged, dropped or reordered |
| InsSdk.StatusToString | sdk/ins_sdk.cc:42-58 | the four statuses have their names (the leader's padded with two spaces), and exactly the other numbers read "UnKnown" |
| InsSdk.TrimRight | sdk/ins_sdk.cc:44-45 | a prefix of the string without trailing spaces, dropping only spaces |
| InsSdk.StatusNamesDistinct | sdk/ins_sdk.cc:42-58 | distinct statuses get distinct names |
| SdkShim.Guarded | sdk/ins_wrapper.cc:78-84 | a NULL handle fails with `kPermissionDenied`; a live one passes the library's answer on (together with sdk/ins_wrapper.cc:96-102, sdk/ins_wrapper.cc:125-171) |
| SdkShim.Get | sdk/ins_wrapper.cc:86-94 | with the value copied out, a NULL handle gives `kPermissionDenied` and "", a live one the library's error and value |
| SdkShim.GetAsWritten | sdk/ins_wrapper.cc:86-94 | a NULL handle gives `kPermissionDenied` and ""; a live one returns a pointer into a freed string |
| SdkShim.NullHandleRefuses | sdk/ins_wrapper.cc:78-171 | no guarded call succeeds on a NULL handle, whatever the library would answer |
| SdkShim.Watch | sdk/ins_wrapper.cc:113-123 | a NULL handle fails and leaves the error alone; a live one allocates one new pack holding the callback, id and context, and hands that pack to the library |
| SdkShim.WatchCallbackWrapper | sdk/ins_wrapper.cc:21-30 | the event's context must be a live pack; the pack is freed and its callback called with the event, the packed context and id |
| SdkShim.WatchDeliversOnce | sdk/ins_wrapper.cc:21-30 | a watch's event reaches the caller's callback with the caller's own context and id, the heap returns to what it was, and the pack cannot be delivered twice (together with sdk/ins_wrapper.cc:113-123) |
| SdkShim.TimeoutWrapper | sdk/ins_wrapper.cc:32-39 | the context must be a live pack; it is freed and its callback called with the packed id and context |
| SdkShim.RegisterSessionTimeout | sdk/ins_wrapper.cc:196-206 | a NULL handle does nothing; a live one allocates a pack but registers the caller's raw callback and context |
| SdkShim.SessionTimeoutPackLeaks | sdk/ins_wrapper.cc:196-206 | the pack allocated there is never handed to anyone, so the heap keeps one more pack for good |
| SdkShim.Scan | sdk/ins_wrapper.cc:104-109 | a NULL handle gives a NULL cursor, a live one the library's |
| SdkShim.Done | sdk/ins_wrapper.cc:215-220 | false for NULL; otherwise done exactly past the last row |
| SdkShim.Error | sdk/ins_wrapper.cc:222-227 | `kPermissionDenied` for NULL, otherwise the cursor's error |
| SdkShim.Key | sdk/ins_wrapper.cc:229-234 | with the key copied out: "" for NULL, the current row's key for a live cursor on a row, undefined past the end |
| SdkShim.Value | sdk/ins_wrapper.cc:236-241 | with the value copied out: "" for NULL, the current row's value for a live cursor on a row, undefined past the end |
| SdkShim.KeyAsWritten | sdk/ins_wrapper.cc:229-234 | only the NULL cursor's "" is defined; a live cursor's key is a pointer into a destroyed temporary |
| SdkShim.ValueAsWritten | sdk/ins_wrapper.cc:236-241 | only the NULL cursor's "" is defined; a live cursor's value is a pointer into a destroyed temporary |
| SdkShim.ReadsDangle | sdk/ins_wrapper.cc:86-94 | with a live handle or cursor every read as written is undefined, while the copied-out reads give the stored value and the current row (together with sdk/ins_wrapper.cc:229-241) |
| SdkShim.Identity | sdk/ins_wrapper.cc:173-185 | with the id copied out: "" for a NULL handle, the library's session or user id otherwise |
| SdkShim.IdentityAsWritten | sdk/ins_wrapper.cc:173-185 | only the NULL handle's "" is defined; a live handle's id is a pointer into a destroyed temporary |
| SdkShim.IdentityDangles | sdk/ins_wrapper.cc:173-185 | with a live handle the id as written is undefined while the copied-out id is the library's; with NULL both give "" |
| SdkShim.Next | sdk/ins_wrapper.cc:243-248 | nothing for NULL, one row on for a live cursor |
| SdkShim.NullCursorNeverDone | sdk/ins_wrapper.cc:215-248 | a NULL cursor stays NULL and is never done, however often advanced, reporting empty rows |
| SdkShim.LiveCursorAdvances | sdk/ins_wrapper.cc:243-248 | n advances move a live cursor n rows on |
| SdkShim.ShowCluster | sdk/ins_wrapper.cc:66-76 | NULL and the count untouched for a NULL handle; otherwise exactly one record per member in order, and the count is their number |
| PySdk.PyIndex | src/sdk/ins_sdk.py:60 | a tuple index works from -n to n-1, negative ones counting from the end, and raises otherwise |
| PySdk.Error | src/sdk/ins_sdk.py:7-9 | a code's number reads as its name; a number outside -10 to 9 raises (together with src/sdk/ins_sdk.py:59-60) |
| PySdk.ErrorTableFollowsEnum | src/sdk/ins_sdk.py:7-9 | the name at each code's value is that code's name; -1 still reads "UnknownUser" and 10 raises |
| PySdk.StatusTablesAgree | src/sdk/ins_sdk.py:10 | the status names agree with the library's up to its trailing padding (together with sdk/ins_sdk.cc:42-58) |
| PySdk.ShowRecord | src/sdk/ins_sdk.py:70-78 | a record shows exactly when its status has a name, with every field copied and the status by name |
| PySdk.Show | src/sdk/ins_sdk.py:62-80 | a NULL array raises; a result has one entry per record in order; it succeeds whenever every status has a name |
| PySdk.ShowAll | src/sdk/ins_sdk.py:68-78 | one entry per record in order, whenever every status has a name |
| PySdk.ShowOfCluster | src/sdk/ins_sdk.py:62-80 | through the shim and the library every member appears once in order, and one that did not answer shows as "Offline" with term -1 (together with sdk/ins_wrapper.cc:66-76, sdk/ins_sdk.cc:16-40) |
| PySdk.StatKeysFollowCategories | src/sdk/ins_sdk.py:93-124 | the statistics keys follow the categories in the order the server counts them (together with src/server/performance_center.h:17-24) |
| PySdk.StatRecord | src/sdk/ins_sdk.py:82-127 | a record shows exactly when its status has a name, with one entry per category key holding that category's numbers |
| PySdk.Get | src/sdk/ins_sdk.py:129-140 | the value on success, otherwise "" |
| PySdk.GetFailureLooksEmpty | src/sdk/ins_sdk.py:129-140 | a failed `get()` and an empty value look the same |
| PySdk.Scan | src/sdk/ins_sdk.py:148-150 | the error number is reset to 0 before the cursor opens |
| PySdk.ErrorAfterScan | src/sdk/ins_sdk.py:59-60 | after `scan()`, `error()` reads "OK" whatever came before (together with src/sdk/ins_sdk.py:148-150) |
| PySdk.CursorKey | src/sdk/ins_sdk.py:227-235 | the key the accessor gives, or "" when it fails |
| PySdk.CursorValue | src/sdk/ins_sdk.py:237-245 | the value the accessor gives, or "" when it fails |
| PySdk.PyNext | src/sdk/ins_sdk.py:250-256 | a done cursor stops iteration without moving; otherwise the current pair comes back and the cursor moves one row |
| PySdk.DrainLive | src/sdk/ins_sdk.py:218-256 | iterating a live cursor yields exactly its remaining rows in order, and then stops |
| PySdk.DrainNull | src/sdk/ins_sdk.py:218-256 | iterating the cursor of a NULL handle never stops, every step yielding two empty strings (together with sdk/ins_wrapper.cc:215-248) |
| PySdk.WatchAsWritten | src/sdk/ins_sdk.py:152-155 | the context is kept under its address and the callback under its own id |
| PySdk.DeliverAsWritten | src/sdk/ins_sdk.py:156-162 | no kept context is undefined; a missing callback id raises before any call and keeps everything; otherwise the callback gets the event, the context and the error name, and both entries go |
| PySdk.WatchSharedCallbackLost | src/sdk/ins_sdk.py:152-164 | two pending watches sharing one callback: the second event raises before its callback is called and its context is never released |
| PySdk.Watch | src/sdk/ins_sdk.py:152-164 | with the callback kept under the context's address, each pending watch owns its entry in both tables |
| PySdk.Deliver | src/sdk/ins_sdk.py:156-162 | a kept context is delivered to the callback registered with it, and both its entries go |
| PySdk.DeliverEach | src/sdk/ins_sdk.py:156-162 | deliveries only ever remove kept contexts and keep the tables paired |
| PySdk.EveryWatchDelivered | src/sdk/ins_sdk.py:152-164 | distinct pending watches are each delivered exactly once, in any order, to their own callback with their own context, and none is kept afterwards |
| PySdk.WatchSharedCallbackKept | src/sdk/ins_sdk.py:152-164 | with the corrected registry, both watches sharing a callback reach it, each with its own context |
| Ncli.WriteCode | src/client/ncli.cc:140-152 | -1 exactly when the call fails, 2 exactly for a successful call reporting an unknown user, and 0 for any other successful call, whatever its error (the same code is repeated at src/client/ncli.cc:174-186) |
| Ncli.GetCode | src/client/ncli.cc:154-172 | -1 exactly when the call fails, 0 exactly for a successful call without error, 2 exactly for an unknown user, and 1 ("NOT FOUND") for any other error |
| Ncli.ReadStricterThanWrite | src/client/ncli.cc:140-186 | a read and a write map an answer alike except a successful call carrying another error, which the read reports as 1 and the write as 0 |
| Ncli.RegisterCode | src/client/ncli.cc:373-389 | 0 exactly on success, 1 exactly for a refusal because the user exists or the password is empty, and -1 for any other refusal |
| Ncli.LoginCode | src/client/ncli.cc:390-409 | 0 exactly on success, 1 exactly for an unknown user, a user already logged in or a wrong password, and -1 for any other refusal |
| Ncli.RegisterLoginDiffer | src/client/ncli.cc:373-409 | registration and login classify a refusal alike except an unknown user, which login calls 1 and registration -1 |
| Ncli.DirOf | src/client/ncli.cc:246-248 | an empty directory is undefined; otherwise the directory with exactly one '/' appended unless it already ends in one |
| Ncli.PrefixTest | src/client/ncli.cc:275-285 | the test is true exactly when the directory is a prefix of the key, and undefined exactly when the key is a proper prefix of the directory |
| Ncli.Cut | src/client/ncli.cc:287-288 | the key up to the first '/' at or after the given position, or the whole key |
| Ncli.EntryOf | src/client/ncli.cc:287-299 | the name is a prefix of the key; the row's value is shown exactly when the name is the whole key, and "NOT FOUND" when the name stops at a '/' after the directory |
| Ncli.Skip | src/client/ncli.cc:272-278 | the position of the first row under the directory, every earlier row not under it, or undefined when some key is a proper prefix of the directory |
| Ncli.ListData | src/client/ncli.cc:243-316 | an empty directory is undefined; an expired session gives 2 and a failed scan -1, both printing nothing; 0 only when neither happened |
| Ncli.Entries | src/client/ncli.cc:281-299 | one line per row, in row order |
| Ncli.ScanRangeExactly | src/client/ncli.cc:250 | a key lies in the scan range `[d, d + "\xff")` exactly when it starts with d and does not continue with the byte 0xff |
| Ncli.CollapseUnder | src/client/ncli.cc:279-313 | over rows under the directory the second loop lists the first row unless its name was printed last, then every row whose name differs from the one before |
| Ncli.ListDataCollapses | src/client/ncli.cc:243-316 | a listing that succeeds over rows in the scan range prints the first line of each run of rows with one name, in scan order |
| Ncli.FirstsNeighboursDiffer | src/client/ncli.cc:289-292 | no two consecutive lines of a listing have one name |
| Ncli.FirstsCover | src/client/ncli.cc:279-313 | the names printed are exactly the names of the rows, and every line printed is the line of some row |
| Ncli.ChangesStepAway | src/client/ncli.cc:289-292 | each line after the first differs in name from the line before it |
| Ncli.ChangesCover | src/client/ncli.cc:279-313 | the changed lines and the first name together give every name, and each is a row's line |
| Ncli.ListingRepeatsName | src/client/ncli.cc:279-313 | only neighbouring rows merge: over "x/a", "x/a!" and "x/a/b" the directory "x/a" is listed twice, once with its value and once as "NOT FOUND" |

## Left out

- Threads, mutexes, condition variables and `common/spin_lock.h`: every operation is modelled as one sequential step, which is what the locks in the source guarantee for it.
- The server's background loops (the `CommitIndexObserv` wait loop, `ReplicateLog`, `BroadCastHeartBeat`, `TryToBeLeader`, the session checker and the randomized election timer): they are about timing and concurrency. The model keeps the per-step decisions they call: vote, append, commit index, apply, expiry and binlog cleaning.
- The client acknowledgements sent from the apply loop and the safe-mode exit: they are RPC replies and timing, not state.
- The leader-side `Put`, `Delete`, `Lock`, `UnLock`, `KeepAlive`, `Login`, `Logout`, `Register` and `ShowStatus` RPC handlers of server/ins_node_impl.cc: they append to the binlog and wait for replication. The state change they cause is the apply step the model has.
- Networking (`src/rpc/rpc_client.h` and every RPC call): a peer's or the library's reply is a parameter of the operation that uses it.
- leveldb, stdio, `ftruncate` and the file system: a database is an ordered table or a map, a file is a byte or line sequence, and `mkdir`, `stat`, directory listings and clocks are parameters.
- `printf`-style formatting in `common/logging.cc` and `src/client/ncli.cc`: the formatted text is a parameter.
- The asynchronous logger thread of common/logging.cc:99-180: it only moves formatted lines to a file.
- The `InsSDK` constructor: it splits a flag string into members and sets up RPC stubs.
- The `ncli` main loop, its flag handling, its key-only output mode, and the static `last_dir` cache of `list_data` (src/client/ncli.cc:244-249, 314): the model lists each call as if it were the first in its directory.
- The Python binding's `register_session_timeout` (src/sdk/ins_sdk.py:193-203): it refers to a name the module never defines, so it raises on every call.
- The ctypes declarations of src/sdk/ins_sdk.py expect a shim that fills caller buffers with lengths; for example, `ScanResultKey` is declared with `[c_void_p, POINTER(c_char_p), POINTER(c_int)]` at src/sdk/ins_sdk.py:305, while sdk/ins_wrapper.cc defines `ScanResultKey(void*)`. The shim that matches the Python side is not part of this model. `PySdk` is composed with `SdkShim`, the corrected model of sdk/ins_wrapper.cc whose reads copy their bytes out, on the assumption that the missing shim answers as that one does. The buffer-and-length calling convention is not modelled.
- PySdk.Watch, PySdk.WatchAsWritten: the ctypes thunk built by `self.WatchCallback(_watch_wrapper)` (src/sdk/ins_sdk.py:163) is kept by nothing once `SDKWatch` returns. ctypes requires the caller to keep it alive, so a later event may call a freed thunk. Neither registry models the thunk's lifetime: `DeliverAsWritten` and `Deliver` both assume that every event reaches `_watch_wrapper`. The corrected registry does not keep the thunk either.
- BinlogCodec.Dump, BinlogCodec.FileDump: only entries whose record fits an `int32_t` are encoded (`Dumpable`, `FileDumpable`). `DumpLogEntry` computes the total length and every field size in `int32_t` (src/storage/binlog.cc:187-195, storage/binlog.cc:180-186), which truncates for fields of 2 GiB or more; what it writes then is not modelled.
- The node status numbers (0 leader, 1 candidate, 2 follower, 3 offline) and the binlog operation codes come from a protocol file that is not part of this model. The statuses follow the Python table; the operation codes are only assumed to be distinct bytes.
- The retention's byte count (`current_total_size` in common/logging.cc) is an unbounded integer, not an `int64_t`: it cannot reach 2^63 bytes of logs.
- Boost's `transform_width` base64 decoder: `Base64.Decode` answers `None` where it throws or reads past its input, without modelling what it would read.

- OldNamespaceStore.OldGet, OldNamespaceStore.OldPut, OldNamespaceStore.OldDelete, OldNamespaceStore.OldCloseDatabase: each requires `Lockable(m, name)`, so the model says nothing about a name whose mutex is NULL. In storage/storage_manage.cc:56, 71, 87 and 98 `MutexLock lock(dbs_[name].mu)` locks that NULL mutex, which is undefined behaviour. It happens for every name `OpenDatabase` adds after the constructor, including the Put/Get on "user1" in storage/storage_manage_test.cc:29-36. There is no defined result to model, so the case is excluded rather than given a `None`.
- Counters.Add, Counters.Sub, Counters.Inc, Counters.Dec: `atomic_add_ret_old64(...) + v` (common/counter.h:19), `-v` and `- v` for the smallest `int64_t` in `Sub` (common/counter.h:22), and the `+ 1` and `- 1` at the ends of the range (common/counter.h:25, 28) are signed overflows, which C++ leaves undefined. The model gives the two's complement wrap-around that the hardware add produces. It does not model a compiler that assumes the overflow cannot happen.
- Performance.Average: the `int64_t` sum `sum += buffer[i].Get()` (server/performance_center.cc:29) can overflow, which is undefined in C++; the model wraps it as for the counters. An empty buffer makes `sum / size` (server/performance_center.cc:32) divide by zero, which is also undefined; the model makes it `Aborted`, the fatal stop, not `None`.

## Findings

| source | as written | input that shows it | evidently intended | confidence | as-written member | corrected member |
|---|---|---|---|---|---|---|
| storage/binlog.cc:27-50 | `ReadUntil` reads and hands over the first record only; it has no loop | two entries logged, read until slot 1: the reader gets only the first | every entry from slot 0 to the end slot goes to the reader, in order | not executed | FileBinlog.ReadUntilAsWritten, FileBinlog.ReadUntilAsWrittenStopsEarly | FileBinlog.ReadUntil, FileBinlog.ReadUntilOfLog |
| src/storage/binlog.cc:165-184 | `Truncate` re-reads the last term only when entries remain | a one-entry log truncated to slot -1 still reports that entry's term | an empty log reports term -1, as one freshly opened does | not executed | LevelBinlog.TruncateAsWritten, LevelBinlog.TruncateAsWrittenKeepsStaleTerm | LevelBinlog.Truncate, LevelBinlog.TruncateRepresents |
| common/logging.cc:231-243 | the eviction loop of `RecoverHistory` has no exit for an empty set | two 25 MB logs, `SetLogSizeLimit(100)` then `SetLogSizeLimit(10)`: the second call counts both files again, evicts both, and loops for ever | leave the loop once the set is empty, as `GetNewLog` does | not executed | Logging.RecoverHistoryAsWritten, Logging.SetLogSizeLimitAsWritten, Logging.RecoverHistorySpins | Logging.RecoverHistory, Logging.RecoverHistoryLeaves, Logging.RecoverHistoryReturns |
| src/sdk/ins_sdk.py:152-164 | the callback registry is keyed by `id(callback)` | two pending watches with one callback: the first event deletes the shared entry, and the second raises before calling back | each pending watch keeps its own entry until its event arrives | not executed | PySdk.WatchAsWritten, PySdk.DeliverAsWritten, PySdk.WatchSharedCallbackLost | PySdk.Watch, PySdk.Deliver, PySdk.EveryWatchDelivered, PySdk.WatchSharedCallbackKept |
| sdk/ins_wrapper.cc:86-94 | `SDKGet` returns `c_str()` of a local `std::string` | any live handle: the pointer outlives the string it points into | the value is copied out to the caller | not executed | SdkShim.GetAsWritten, SdkShim.ReadsDangle | SdkShim.Get |
| sdk/ins_wrapper.cc:229-241 | `ScanResultKey` and `ScanResultValue` return `c_str()` of the `std::string` that `Key()` and `Value()` return by value | any live cursor: the pointer outlives the temporary it points into | the bytes are copied out to the caller | not executed | SdkShim.KeyAsWritten, SdkShim.ValueAsWritten, SdkShim.ReadsDangle | SdkShim.Key, SdkShim.Value |
| sdk/ins_wrapper.cc:173-185 | `SDKGetSessionID` and `SDKGetCurrentUserID` return `c_str()` of the `std::string` that `GetSessionID()` and `GetCurrentUserID()` return by value | any live handle: the pointer outlives the temporary it points into | the id is copied out to the caller | not executed | SdkShim.IdentityAsWritten, SdkShim.IdentityDangles | SdkShim.Identity |

=== FILE: base64.dfy ===
/** Base64 with the alphabet of section 4 of RFC 4648 and no '=' padding,
    as the account manager builds it from boost's `base64_from_binary` over
    a 6-from-8-bit `transform_width` (server/user_manage.cc:21-56).

    Encoding cuts the input into 6-bit groups, filling the last group with
    zero bits, so `n` bytes give ceil(8n/6) characters. Decoding reads
    6-bit groups back into whole bytes and drops the bits left over, so `m`
    characters give floor(6m/8) bytes.
    Decoding a character outside the alphabet throws, and an input of
    length 4k+1 makes the decoder read past its end; both are `None`. */
module Base64 {
  import opened Bytes
  import opened Outcomes

  type sextet = x: int | 0 <= x < 64

  predicate IsChar(c: byte)
  {
    (65 <= c <= 90) || (97 <= c <= 122) || (48 <= c <= 57) || c == 43 || c == 47
  }

  /** The alphabet: 'A'..'Z', 'a'..'z', '0'..'9', '+', '/'. */
  function Char(v: sextet): (c: byte)
    ensures IsChar(c) && Value(c) == v
  {
    if v < 26 then 65 + v
    else if v < 52 then 97 + (v - 26)
    else if v < 62 then 48 + (v - 52)
    else if v == 62 then 43
    else 47
  }

  function Value(c: byte): (v: sextet)
    requires IsChar(c)
  {
    if 65 <= c <= 90 then c - 65
    else if 97 <= c <= 122 then c - 97 + 26
    else if 48 <= c <= 57 then c - 48 + 52
    else if c == 43 then 62
    else 63
  }

  /** Every alphabet character is the character of its value. */
  lemma CharOfValue(c: byte)
    requires IsChar(c)
    ensures Char(Value(c)) == c
  {
  }

  predicate AllChars(cs: Bytes)
  {
    forall i | 0 <= i < |cs| :: IsChar(cs[i])
  }

  /** The four sextets three bytes carry, one function per sextet. */
  function Sextet0(b0: byte): sextet { b0 / 4 }
  function Sextet1(b0: byte, b1: byte): sextet { b0 % 4 * 16 + b1 / 16 }
  function Sextet2(b1: byte, b2: byte): sextet { b1 % 16 * 4 + b2 / 64 }
  function Sextet3(b2: byte): sextet { b2 % 64 }

  /** The 6-bit groups of a byte string, the last one filled with zero
      bits. */
  function Split(bs: Bytes): (r: seq<sextet>)
    ensures 8 * |bs| <= 6 * |r| < 8 * |bs| + 6
    ensures |r| % 4 != 1
    decreases |bs|
  {
    if |bs| == 0 then []
    else if |bs| == 1 then [Sextet0(bs[0]), Sextet1(bs[0], 0)]
    else if |bs| == 2 then [Sextet0(bs[0]), Sextet1(bs[0], bs[1]), Sextet2(bs[1], 0)]
    else [Sextet0(bs[0]), Sextet1(bs[0], bs[1]), Sextet2(bs[1], bs[2]), Sextet3(bs[2])] + Split(bs[3..])
  }

  /** The three bytes four sextets carry, one function per byte. */
  function Byte0(v0: sextet, v1: sextet): byte { v0 * 4 + v1 / 16 }
  function Byte1(v1: sextet, v2: sextet): byte { v1 % 16 * 16 + v2 / 4 }
  function Byte2(v2: sextet, v3: sextet): byte { v2 % 4 * 64 + v3 }

  /** Whole bytes from 6-bit groups; the bits left over are dropped, and a
      lone trailing group has no byte to complete. */
  function Join(vs: seq<sextet>): (r: Option<Bytes>)
    ensures r.Some? <==> |vs| % 4 != 1
    ensures r.Some? ==> 8 * |r.value| <= 6 * |vs| < 8 * |r.value| + 8
    decreases |vs|
  {
    if |vs| < 4 then JoinLast(vs)
    else
      ModFourStep(|vs|);
      match Join(vs[4..])
      case None => None
      case Some(rest) => Some([Byte0(vs[0], vs[1]), Byte1(vs[1], vs[2]), Byte2(vs[2], vs[3])] + rest)
  }

  lemma ModFourStep(n: int)
    requires n >= 4
    ensures (n - 4) % 4 == n % 4
  {
  }

  /** The bytes of a last, short run of groups. */
  function JoinLast(vs: seq<sextet>): (r: Option<Bytes>)
    requires |vs| < 4
    ensures r.Some? <==> |vs| != 1
    ensures r.Some? ==> 8 * |r.value| <= 6 * |vs| < 8 * |r.value| + 8
  {
    if |vs| == 0 then Some([])
    else if |vs| == 1 then None
    else if |vs| == 2 then Some([Byte0(vs[0], vs[1])])
    else Some([Byte0(vs[0], vs[1]), Byte1(vs[1], vs[2])])
  }

  function Encode(bs: Bytes): (r: Bytes)
    ensures 8 * |bs| <= 6 * |r| < 8 * |bs| + 6
    ensures |r| % 4 != 1
    ensures AllChars(r)
  {
    var vs := Split(bs);
    seq(|vs|, i requires 0 <= i < |vs| => Char(vs[i]))
  }

  function Decode(cs: Bytes): (r: Option<Bytes>)
    ensures r.Some? <==> |cs| % 4 != 1 && AllChars(cs)
    ensures r.Some? ==> 8 * |r.value| <= 6 * |cs| < 8 * |r.value| + 8
  {
    if !AllChars(cs) then None
    else Join(seq(|cs|, i requires 0 <= i < |cs| && IsChar(cs[i]) => Value(cs[i])))
  }

  /** The bit arithmetic of one group: splitting bytes into sextets and
      joining them back gives the bytes. */
  lemma JoinSplitGroup(b0: byte, b1: byte, b2: byte)
    ensures Byte0(Sextet0(b0), Sextet1(b0, b1)) == b0
    ensures Byte1(Sextet1(b0, b1), Sextet2(b1, b2)) == b1
    ensures Byte2(Sextet2(b1, b2), Sextet3(b2)) == b2
  {
  }

  /** One step of `Split` on an input of three bytes or more. */
  lemma SplitGroup(bs: Bytes)
    requires |bs| >= 3
    ensures Split(bs) == [Sextet0(bs[0]), Sextet1(bs[0], bs[1]), Sextet2(bs[1], bs[2]), Sextet3(bs[2])] + Split(bs[3..])
  {
  }

  /** One step of `Join` on four groups or more. */
  lemma JoinGroup(vs: seq<sextet>)
    requires |vs| >= 4 && Join(vs[4..]).Some?
    ensures Join(vs) == Some([Byte0(vs[0], vs[1]), Byte1(vs[1], vs[2]), Byte2(vs[2], vs[3])] + Join(vs[4..]).value)
  {
  }

  lemma {:induction false} JoinSplit(bs: Bytes)
    ensures Join(Split(bs)) == Some(bs)
    decreases |bs|
  {
    if |bs| < 3 {
      JoinSplitShort(bs);
    } else {
      JoinSplit(bs[3..]);
      JoinSplitStep(bs);
    }
  }

  /** Inputs of fewer than three bytes come back whole. */
  lemma {:induction false} JoinSplitShort(bs: Bytes)
    requires |bs| < 3
    ensures Join(Split(bs)) == Some(bs)
  {
    if |bs| == 1 {
      assert [bs[0]] == bs;
      JoinSplitOne(bs[0]);
    } else if |bs| == 2 {
      assert [bs[0], bs[1]] == bs;
      JoinSplitTwo(bs[0], bs[1]);
    }
  }

  lemma {:induction false} JoinSplitOne(b0: byte)
    ensures Join(Split([b0])) == Some([b0])
  {
    var vs := Split([b0]);
    assert vs == [Sextet0(b0), Sextet1(b0, 0)];
    assert Join(vs) == JoinLast(vs);
    assert JoinLast(vs) == Some([Byte0(vs[0], vs[1])]);
    JoinSplitGroup(b0, 0, 0);
  }

  lemma {:induction false} JoinSplitTwo(b0: byte, b1: byte)
    ensures Join(Split([b0, b1])) == Some([b0, b1])
  {
    var vs := Split([b0, b1]);
    assert vs == [Sextet0(b0), Sextet1(b0, b1), Sextet2(b1, 0)];
    assert Join(vs) == JoinLast(vs);
    assert JoinLast(vs) == Some([Byte0(vs[0], vs[1]), Byte1(vs[1], vs[2])]);
    JoinSplitGroup(b0, b1, 0);
  }

  /** Three leading bytes survive their four groups. */
  lemma {:induction false} JoinSplitStep(bs: Bytes)
    requires |bs| >= 3 && Join(Split(bs[3..])) == Some(bs[3..])
    ensures Join(Split(bs)) == Some(bs)
  {
    var g := [Sextet0(bs[0]), Sextet1(bs[0], bs[1]), Sextet2(bs[1], bs[2]), Sextet3(bs[2])];
    var vs := g + Split(bs[3..]);
    SplitGroup(bs);
    assert vs[0] == g[0] && vs[1] == g[1] && vs[2] == g[2] && vs[3] == g[3];
    assert vs[4..] == Split(bs[3..]);
    JoinGroup(vs);
    JoinSplitGroup(bs[0], bs[1], bs[2]);
    assert [bs[0], bs[1], bs[2]] + bs[3..] == bs;
  }

  /** Decoding inverts encoding. */
  lemma DecodeEncode(bs: Bytes)
    ensures Decode(Encode(bs)) == Some(bs)
  {
    var vs := Split(bs);
    var cs := Encode(bs);
    var back := seq(|cs|, i requires 0 <= i < |cs| && IsChar(cs[i]) => Value(cs[i]));
    assert back == vs;
    JoinSplit(bs);
  }
}

=== FILE: binlog_codec.dfy ===
/** The byte layout of one binlog record.

    A record is the operation code (one byte), then each string field as a
    four-byte length followed by its bytes, then the eight-byte term:

      op | len(f1) f1 | len(f2) f2 | … | term

    The leveldb binlog (src/storage/binlog.cc) writes the fields user, key and
    value; the older file binlog (storage/binlog.cc) writes key and value only.
    Lengths are `int32_t` and the term is `int64_t`, copied in host order. */
module BinlogCodec {
  import opened Bytes
  import opened Outcomes

  /** Operation codes of `LogOperation`; only their distinctness matters. */
  const OpPut: byte := 0
  const OpDel: byte := 1
  const OpNop: byte := 2
  const OpLock: byte := 3
  const OpUnLock: byte := 4

  /** The leveldb binlog's `LogEntry`. */
  datatype LogEntry = LogEntry(op: byte, user: Bytes, key: Bytes, value: Bytes, term: int)

  /** The file binlog's `LogEntry`, which carries no user. */
  datatype FileEntry = FileEntry(op: byte, key: Bytes, value: Bytes, term: int)

  predicate FieldsFit(fs: seq<Bytes>)
  {
    forall i | 0 <= i < |fs| :: |fs[i]| <= Int32Max
  }

  function SumLen(fs: seq<Bytes>): nat
  {
    if |fs| == 0 then 0 else |fs[0]| + SumLen(fs[1..])
  }

  /** One length-prefixed field. */
  function Field(s: Bytes): (r: Bytes)
    requires |s| <= Int32Max
    ensures |r| == 4 + |s|
    ensures r[4..] == s
  {
    EncodeInt32(|s|) + s
  }

  /** The length-prefixed fields, one after another. */
  function Fields(fs: seq<Bytes>): (r: Bytes)
    requires FieldsFit(fs)
    ensures |r| == 4 * |fs| + SumLen(fs)
  {
    if |fs| == 0 then [] else Field(fs[0]) + Fields(fs[1..])
  }

  /** A record fits when its total length, held in an `int32_t`, does not wrap. */
  predicate Fits(fs: seq<Bytes>, term: int)
  {
    FieldsFit(fs) && IsInt64(term) && 1 + 4 * |fs| + SumLen(fs) + 8 <= Int32Max
  }

  /** `DumpLogEntry`, for either field list. */
  function Record(op: byte, fs: seq<Bytes>, term: int): (r: Bytes)
    requires Fits(fs, term)
    ensures |r| == 1 + 4 * |fs| + SumLen(fs) + 8
    ensures r[0] == op
  {
    [op] + Fields(fs) + EncodeInt64(term)
  }

  /** Reads one length-prefixed field starting at `at`; `None` where the
      source would read past the buffer or copy a negative length. */
  function ReadField(b: Bytes, at: nat): (r: Option<(Bytes, nat)>)
    ensures r.Some? ==> r.value.1 == at + 4 + |r.value.0| <= |b|
  {
    if at + 4 > |b| then None
    else
      var n := DecodeInt32(b[at..at + 4]);
      if n < 0 || at + 4 + n > |b| then None
      else Some((b[at + 4..at + 4 + n], at + 4 + n))
  }

  function ReadFields(b: Bytes, at: nat, count: nat): (r: Option<(seq<Bytes>, nat)>)
    requires at <= |b|
    ensures r.Some? ==> |r.value.0| == count && at <= r.value.1 <= |b|
    decreases count
  {
    if count == 0 then Some(([], at))
    else
      var first :- ReadField(b, at);
      var rest :- ReadFields(b, first.1, count - 1);
      Some(([first.0] + rest.0, rest.1))
  }

  /** `LoadLogEntry`, for a record with `count` fields. The source performs no
      bounds checks; a buffer it would overrun decodes to `None`. */
  function ReadRecord(b: Bytes, count: nat): (r: Option<(byte, seq<Bytes>, int)>)
    ensures r.Some? ==> |r.value.1| == count && |b| >= 1 + 4 * count + SumLen(r.value.1) + 8
  {
    if |b| < 1 then None
    else
      var fs :- ReadFields(b, 1, count);
      if fs.1 + 8 > |b| then None
      else
        ReadFieldsLength(b, 1, count);
        Some((b[0], fs.0, DecodeInt64(b[fs.1..fs.1 + 8])))
  }

  lemma {:induction false} ReadFieldsLength(b: Bytes, at: nat, count: nat)
    requires at <= |b|
    ensures var r := ReadFields(b, at, count);
            r.Some? ==> r.value.1 == at + 4 * count + SumLen(r.value.0)
    decreases count
  {
    if count > 0 {
      var first := ReadField(b, at);
      if first.Some? {
        ReadFieldsLength(b, first.value.1, count - 1);
        var r := ReadFields(b, at, count);
        if r.Some? {
          assert r.value.0[1..] == ReadFields(b, first.value.1, count - 1).value.0;
        }
      }
    }
  }

  /** The leveldb binlog's encoding of an entry. */
  predicate Dumpable(e: LogEntry)
  {
    IsInt64(e.term) && 21 + |e.user| + |e.key| + |e.value| <= Int32Max
  }

  function Dump(e: LogEntry): (r: Bytes)
    requires Dumpable(e)
    ensures |r| == 21 + |e.user| + |e.key| + |e.value|
  {
    SumLenOfThree(e.user, e.key, e.value);
    Record(e.op, [e.user, e.key, e.value], e.term)
  }

  function Load(b: Bytes): (r: Option<LogEntry>)
    ensures r.Some? ==> |b| >= 21 + |r.value.user| + |r.value.key| + |r.value.value|
  {
    var rec :- ReadRecord(b, 3);
    Some(LogEntry(rec.0, rec.1[0], rec.1[1], rec.1[2], rec.2))
  }

  /** The file binlog's encoding of an entry. */
  predicate FileDumpable(e: FileEntry)
  {
    IsInt64(e.term) && 17 + |e.key| + |e.value| <= Int32Max
  }

  function FileDump(e: FileEntry): (r: Bytes)
    requires FileDumpable(e)
    ensures |r| == 17 + |e.key| + |e.value|
  {
    SumLenOfTwo(e.key, e.value);
    Record(e.op, [e.key, e.value], e.term)
  }

  function FileLoad(b: Bytes): (r: Option<FileEntry>)
    ensures r.Some? ==> |b| >= 17 + |r.value.key| + |r.value.value|
  {
    var rec :- ReadRecord(b, 2);
    Some(FileEntry(rec.0, rec.1[0], rec.1[1], rec.2))
  }

  // ---------------------------------------------------------------- proofs

  lemma SumLenOfTwo(a: Bytes, b: Bytes)
    ensures SumLen([a, b]) == |a| + |b|
  {
    assert [a, b][1..] == [b];
    assert [b][1..] == [];
    assert SumLen([b]) == |b| + SumLen([]);
  }

  lemma SumLenOfThree(a: Bytes, b: Bytes, c: Bytes)
    ensures SumLen([a, b, c]) == |a| + |b| + |c|
  {
    assert [a, b, c][1..] == [b, c];
    SumLenOfTwo(b, c);
  }

  lemma ReadFieldAt(b: Bytes, at: nat, s: Bytes)
    requires |s| <= Int32Max
    requires at + 4 + |s| <= |b| && b[at..at + 4 + |s|] == Field(s)
    ensures ReadField(b, at) == Some((s, at + 4 + |s|))
  {
    assert b[at..at + 4] == Field(s)[..4] == EncodeInt32(|s|);
    Int32RoundTrip(|s|);
    assert b[at + 4..at + 4 + |s|] == Field(s)[4..] == s;
  }

  lemma SliceOfSlice(b: Bytes, at: nat, x: Bytes, y: Bytes)
    requires at + |x| + |y| <= |b| && b[at..at + |x| + |y|] == x + y
    ensures b[at..at + |x|] == x
    ensures b[at + |x|..at + |x| + |y|] == y
  {
    assert b[at..at + |x|] == (x + y)[..|x|];
    assert b[at + |x|..at + |x| + |y|] == (x + y)[|x|..];
  }

  /** The first field, then the rest. */
  lemma FieldsCons(fs: seq<Bytes>)
    requires FieldsFit(fs) && |fs| > 0
    ensures FieldsFit(fs[1..]) && fs == [fs[0]] + fs[1..]
    ensures Fields(fs) == Field(fs[0]) + Fields(fs[1..])
  {
    assert FieldsFit(fs[1..]);
  }

  lemma {:induction false} ReadFieldsAt(b: Bytes, at: nat, fs: seq<Bytes>)
    requires FieldsFit(fs)
    requires at + |Fields(fs)| <= |b| && b[at..at + |Fields(fs)|] == Fields(fs)
    ensures ReadFields(b, at, |fs|) == Some((fs, at + |Fields(fs)|))
    decreases |fs|
  {
    if |fs| > 0 {
      var next := ReadFieldsCons(b, at, fs);
      ReadFieldsAt(b, next, fs[1..]);
      ReadFieldsStep(b, at, |fs|, fs[0], next, fs[1..], next + |Fields(fs[1..])|, fs, at + |Fields(fs)|);
    } else {
      assert fs == [];
    }
  }

  /** The first field of encoded fields reads back, and the rest of them
      start where it ends. */
  lemma ReadFieldsCons(b: Bytes, at: nat, fs: seq<Bytes>) returns (next: nat)
    requires FieldsFit(fs) && |fs| > 0
    requires at + |Fields(fs)| <= |b| && b[at..at + |Fields(fs)|] == Fields(fs)
    ensures FieldsFit(fs[1..]) && fs == [fs[0]] + fs[1..]
    ensures ReadField(b, at) == Some((fs[0], next))
    ensures next + |Fields(fs[1..])| == at + |Fields(fs)|
    ensures b[next..next + |Fields(fs[1..])|] == Fields(fs[1..])
  {
    FieldsCons(fs);
    var head := Field(fs[0]);
    var tail := Fields(fs[1..]);
    next := at + |head|;
    SliceOfSlice(b, at, head, tail);
    ReadFieldAt(b, at, fs[0]);
  }

  /** One field, then the rest. */
  lemma ReadFieldsStep(b: Bytes, at: nat, count: nat, f: Bytes, next: nat, rest: seq<Bytes>, end: nat,
                       whole: seq<Bytes>, stop: nat)
    requires at <= |b| && count == |rest| + 1
    requires ReadField(b, at) == Some((f, next)) && next <= |b|
    requires ReadFields(b, next, |rest|) == Some((rest, end))
    requires whole == [f] + rest && stop == end
    ensures ReadFields(b, at, count) == Some((whole, stop))
  {
  }

  /** Reading the record back yields what was written, whatever follows it. */
  lemma ReadRecordOfRecord(op: byte, fs: seq<Bytes>, term: int, post: Bytes)
    requires Fits(fs, term)
    ensures ReadRecord(Record(op, fs, term) + post, |fs|) == Some((op, fs, term))
  {
    var b := Record(op, fs, term) + post;
    var e := EncodeInt64(term);
    var at := 1 + |Fields(fs)|;
    assert b[1..at] == Fields(fs);
    ReadFieldsAt(b, 1, fs);
    assert b[at..at + 8] == e;
    Int64RoundTrip(term);
  }

  lemma ReadFieldIsField(b: Bytes, at: nat)
    requires ReadField(b, at).Some?
    ensures var (f, next) := ReadField(b, at).value;
            |f| <= Int32Max && b[at..next] == Field(f)
  {
    var (f, next) := ReadField(b, at).value;
    Int32RoundTripBytes(b[at..at + 4]);
    assert b[at..next] == b[at..at + 4] + b[at + 4..next];
  }

  lemma {:induction false} ReadFieldsIsFields(b: Bytes, at: nat, count: nat)
    requires at <= |b|
    requires ReadFields(b, at, count).Some?
    ensures var r := ReadFields(b, at, count).value;
            FieldsFit(r.0) && b[at..r.1] == Fields(r.0)
    decreases count
  {
    if count > 0 {
      var first := ReadField(b, at).value;
      var rest := ReadFields(b, first.1, count - 1).value;
      ReadFieldIsField(b, at);
      ReadFieldsIsFields(b, first.1, count - 1);
      var r := ReadFields(b, at, count).value;
      assert r.0 == [first.0] + rest.0;
      assert r.0[1..] == rest.0;
      assert b[at..r.1] == b[at..first.1] + b[first.1..r.1];
    }
  }

  /** Whatever decodes is the encoding of its result, followed by ignored bytes. */
  lemma ReadRecordIsPrefix(b: Bytes, count: nat)
    requires ReadRecord(b, count).Some?
    requires |b| <= Int32Max
    ensures var r := ReadRecord(b, count).value;
            Fits(r.1, r.2) && b[..|Record(r.0, r.1, r.2)|] == Record(r.0, r.1, r.2)
  {
    var r := ReadRecord(b, count).value;
    var fs := ReadFields(b, 1, count).value;
    ReadFieldsIsFields(b, 1, count);
    ReadFieldsLength(b, 1, count);
    Int64RoundTripBytes(b[fs.1..fs.1 + 8]);
    assert b[..fs.1 + 8] == [b[0]] + b[1..fs.1] + b[fs.1..fs.1 + 8];
  }

  lemma LoadDump(e: LogEntry)
    requires Dumpable(e)
    ensures Load(Dump(e)) == Some(e)
  {
    SumLenOfThree(e.user, e.key, e.value);
    ReadRecordOfRecord(e.op, [e.user, e.key, e.value], e.term, []);
    assert Dump(e) + [] == Dump(e);
  }

  /** A decoded buffer starts with the encoding of the decoded entry. */
  lemma DumpLoad(b: Bytes)
    requires Load(b).Some? && |b| <= Int32Max
    ensures Dumpable(Load(b).value) && b[..|Dump(Load(b).value)|] == Dump(Load(b).value)
  {
    ReadRecordIsPrefix(b, 3);
    var r := ReadRecord(b, 3).value;
    assert r.1 == [r.1[0], r.1[1], r.1[2]];
    SumLenOfThree(r.1[0], r.1[1], r.1[2]);
  }

  lemma FileLoadDump(e: FileEntry)
    requires FileDumpable(e)
    ensures FileLoad(FileDump(e)) == Some(e)
  {
    SumLenOfTwo(e.key, e.value);
    ReadRecordOfRecord(e.op, [e.key, e.value], e.term, []);
    assert FileDump(e) + [] == FileDump(e);
  }

  lemma FileDumpLoad(b: Bytes)
    requires FileLoad(b).Some? && |b| <= Int32Max
    ensures FileDumpable(FileLoad(b).value) && b[..|FileDump(FileLoad(b).value)|] == FileDump(FileLoad(b).value)
  {
    ReadRecordIsPrefix(b, 2);
    var r := ReadRecord(b, 2).value;
    assert r.1 == [r.1[0], r.1[1]];
    SumLenOfTwo(r.1[0], r.1[1]);
  }

  /** The dump/load example of storage/binlog_test.cc: key "abc", value "123",
      term 1 and no user take 27 bytes in the leveldb layout, which is the size
      the test expects, and 23 bytes in the file layout the same directory's
      binlog.cc writes. */
  lemma DumpSizeExample()
    ensures |Dump(LogEntry(OpNop, [], [97, 98, 99], [49, 50, 51], 1))| == 27
    ensures |FileDump(FileEntry(OpNop, [97, 98, 99], [49, 50, 51], 1))| == 23
  {
  }
}

=== FILE: binlog_file.dfy ===
/** The older, file-based replicated log (storage/binlog.cc).

    The data file holds one frame per entry: the record length as an eight-byte
    integer, then the record (`FileDump`). The index file holds, per slot, the
    eight-byte offset of that slot's frame in the data file. Each failed
    `fread`, `fseek`, `fflush` or `ftruncate` is followed by `LOG(FATAL, …)`
    or `abort()`, and `LOG(FATAL, …)` aborts the process; both are `Aborted`
    here. A `resize` to a negative length throws, which also ends the
    process. */
module FileBinlog {
  import opened Bytes
  import opened Outcomes
  import opened BinlogCodec

  datatype Files = Files(data: Bytes, index: Bytes)

  // ------------------------------------------------------------ file layout
  // The layout is stated over the raw records, so that the framing proofs
  // never look inside an entry's encoding.

  /** One frame of the data file: the record's length, then the record. */
  function Frame(rec: Bytes): (r: Bytes)
    requires |rec| <= Int64Max
    ensures |r| == 8 + |rec|
    ensures r[..8] == EncodeInt64(|rec|) && r[8..] == rec
  {
    EncodeInt64(|rec|) + rec
  }

  /** Records a frame carries and a reader accepts back: non-empty, with a
      length that fits the eight-byte length field. */
  predicate Framable(recs: seq<Bytes>)
  {
    forall i | 0 <= i < |recs| :: 0 < |recs[i]| <= Int64Max
  }

  /** The data file after appending `recs`, in order. */
  function Data(recs: seq<Bytes>): (r: Bytes)
    requires Framable(recs)
    ensures |r| >= 9 * |recs|
  {
    if |recs| == 0 then []
    else Data(recs[..|recs| - 1]) + Frame(recs[|recs| - 1])
  }

  /** The index file after appending `recs`: for each record, the size of
      the data file before its frame was written. */
  function Index(recs: seq<Bytes>): (r: Bytes)
    requires Framable(recs) && |Data(recs)| <= Int64Max
    ensures |r| == 8 * |recs|
  {
    if |recs| == 0 then []
    else
      var init := recs[..|recs| - 1];
      Index(init) + EncodeInt64(|Data(init)|)
  }

  /** The files for fewer records are prefixes of the files. */
  lemma {:induction false} Prefix(recs: seq<Bytes>, n: nat)
    requires Framable(recs) && n <= |recs|
    ensures Framable(recs[..n]) && |Data(recs[..n])| <= |Data(recs)|
    ensures Data(recs)[..|Data(recs[..n])|] == Data(recs[..n])
    ensures |Data(recs)| <= Int64Max ==> Index(recs)[..8 * n] == Index(recs[..n])
    decreases |recs|
  {
    if n == |recs| {
      assert recs[..n] == recs;
    } else {
      var init := recs[..|recs| - 1];
      assert init[..n] == recs[..n];
      Prefix(init, n);
    }
  }

  /** Record `k`'s frame sits where the data file for the first `k` records
      ends. */
  lemma FrameAt(recs: seq<Bytes>, k: nat)
    requires Framable(recs) && k < |recs|
    ensures Framable(recs[..k]) && Framable(recs[..k + 1])
    ensures var start := |Data(recs[..k])|;
            && |Data(recs[..k + 1])| == start + 8 + |recs[k]| <= |Data(recs)|
            && Data(recs)[start..start + 8 + |recs[k]|] == Frame(recs[k])
  {
    Prefix(recs, k + 1);
    var pre := recs[..k + 1];
    assert pre[..k] == recs[..k];
    var start := |Data(recs[..k])|;
    assert Data(recs)[start..start + 8 + |recs[k]|] == Data(pre)[start..];
  }

  /** Slot `k` of the index holds the offset of record `k`'s frame. */
  lemma IndexSlotAt(recs: seq<Bytes>, k: nat)
    requires Framable(recs) && |Data(recs)| <= Int64Max && k < |recs|
    ensures Framable(recs[..k]) && |Data(recs[..k])| <= |Data(recs)|
    ensures Index(recs)[8 * k..8 * k + 8] == EncodeInt64(|Data(recs[..k])|)
  {
    var pre := recs[..k + 1];
    assert Framable(pre) && |Data(pre)| <= |Data(recs)| && Index(recs)[..8 * (k + 1)] == Index(pre) by {
      Prefix(recs, k + 1);
    }
    assert pre[..k] == recs[..k];
    assert Index(pre)[8 * k..] == EncodeInt64(|Data(recs[..k])|);
  }

  /** Slot `k` of the index reads back as the offset of record `k`'s frame. */
  lemma IndexAt(recs: seq<Bytes>, k: nat)
    requires Framable(recs) && |Data(recs)| <= Int64Max && k < |recs|
    ensures Framable(recs[..k]) && |Data(recs[..k])| <= |Data(recs)|
    ensures ReadInt64At(Index(recs), 8 * k) == Some(|Data(recs[..k])|)
  {
    IndexSlotAt(recs, k);
    ReadInt64Of(Index(recs), 8 * k, |Data(recs[..k])|);
  }

  /** The files hold the frames of `recs` and their index; both stay within
      the `off_t` range. */
  predicate Holds(f: Files, recs: seq<Bytes>)
  {
    && Framable(recs)
    && |Data(recs)| <= Int64Max
    && f.data == Data(recs)
    && f.index == Index(recs)
    && |f.index| <= Int64Max
  }

  // ----------------------------------------------------------------- entries

  predicate AllFileDumpable(log: seq<FileEntry>)
  {
    forall i | 0 <= i < |log| :: FileDumpable(log[i])
  }

  /** The records `AppendEntry` writes for the entries of `log`. */
  function Records(log: seq<FileEntry>): (r: seq<Bytes>)
    requires AllFileDumpable(log)
    ensures |r| == |log| && Framable(r)
    ensures forall i | 0 <= i < |log| :: r[i] == FileDump(log[i])
  {
    seq(|log|, i requires 0 <= i < |log| => FileDump(log[i]))
  }

  lemma RecordsPrefix(log: seq<FileEntry>, n: nat)
    requires AllFileDumpable(log) && n <= |log|
    ensures AllFileDumpable(log[..n]) && Records(log[..n]) == Records(log)[..n]
  {
    assert forall i | 0 <= i < n :: log[..n][i] == log[i];
    assert Records(log[..n]) == Records(log)[..n];
  }

  /** The files stand for the entries `log`, appended in order. */
  predicate Represents(f: Files, log: seq<FileEntry>)
  {
    AllFileDumpable(log) && Holds(f, Records(log))
  }

  /** Freshly created, empty files. */
  const Empty: Files := Files([], [])

  lemma EmptyRepresents()
    ensures Represents(Empty, [])
  {
  }

  /** Writes one frame to the end of the data file, then the data file's
      previous size to the end of the index file. */
  function AppendRecord(f: Files, rec: Bytes): (r: Files)
    requires |rec| <= Int64Max && |f.data| + 8 + |rec| <= Int64Max && |f.index| + 8 <= Int64Max
    ensures |r.data| == |f.data| + 8 + |rec| && |r.index| == |f.index| + 8
    ensures r.data[..|f.data|] == f.data && r.index[..|f.index|] == f.index
  {
    Files(f.data + Frame(rec), f.index + EncodeInt64(|f.data|))
  }

  lemma AppendRecordHolds(f: Files, recs: seq<Bytes>, rec: Bytes)
    requires Holds(f, recs) && 0 < |rec| <= Int64Max
    requires |f.data| + 8 + |rec| <= Int64Max && |f.index| + 8 <= Int64Max
    ensures Holds(AppendRecord(f, rec), recs + [rec])
  {
    var recs' := recs + [rec];
    assert Framable(recs') by {
      assert forall i | 0 <= i < |recs| :: recs'[i] == recs[i];
    }
    assert recs'[..|recs|] == recs;
  }

  /** `AppendEntry`: the entry's record is framed and appended. */
  function AppendEntry(f: Files, e: FileEntry): (r: Files)
    requires FileDumpable(e)
    requires |f.data| + 8 + |FileDump(e)| <= Int64Max && |f.index| + 8 <= Int64Max
    ensures |r.data| == |f.data| + 8 + |FileDump(e)| && |r.index| == |f.index| + 8
    ensures r.data[..|f.data|] == f.data && r.index[..|f.index|] == f.index
  {
    AppendRecord(f, FileDump(e))
  }

  lemma AppendEntryRepresents(f: Files, log: seq<FileEntry>, e: FileEntry)
    requires Represents(f, log) && FileDumpable(e)
    requires |f.data| + 8 + |FileDump(e)| <= Int64Max && |f.index| + 8 <= Int64Max
    ensures Represents(AppendEntry(f, e), log + [e])
  {
    var log' := log + [e];
    assert AllFileDumpable(log') by {
      assert forall i | 0 <= i < |log| :: log'[i] == log[i];
    }
    assert Records(log') == Records(log) + [FileDump(e)];
    AppendRecordHolds(f, Records(log), FileDump(e));
  }

  /** `GetLength`: the index file size over eight. */
  function GetLength(f: Files): (n: int)
    ensures n >= 0
  {
    |f.index| / 8
  }

  lemma GetLengthOfLog(f: Files, log: seq<FileEntry>)
    requires Represents(f, log)
    ensures GetLength(f) == |log|
  {
  }

  // ------------------------------------------------------------------ reads

  /** The eight-byte integer at `at`, or `None` when `fread` comes up short. */
  function ReadInt64At(b: Bytes, at: int): (r: Option<int>)
    ensures r.Some? <==> 0 <= at && at + 8 <= |b|
    ensures r.Some? ==> IsInt64(r.value) && EncodeInt64(r.value) == b[at..at + 8]
  {
    if 0 <= at && at + 8 <= |b| then
      Int64RoundTripBytes(b[at..at + 8]);
      Some(DecodeInt64(b[at..at + 8]))
    else None
  }

  /** Eight bytes written by `memcpy` of `n` read back as `n`. */
  lemma ReadInt64Of(b: Bytes, at: int, n: int)
    requires IsInt64(n) && 0 <= at && at + 8 <= |b| && b[at..at + 8] == EncodeInt64(n)
    ensures ReadInt64At(b, at) == Some(n)
  {
    Int64RoundTrip(n);
  }

  /** Slot offsets of in-range slots do not wrap. */
  lemma SlotOffset(i: int)
    requires Int64Min / 8 <= i <= Int64Max / 8
    ensures IsInt64(i) && Wrap64(i * 8) == i * 8
  {
    assert IsInt64(i * 8);
  }

  /** Reads the frame at data offset `at`: its record and the offset after
      it. A negative offset fails the seek; a length read short, a record
      length that is negative (the resize throws) or zero (`fread` of zero
      bytes reports failure), or a record read short all end the process. */
  function ReadFrame(data: Bytes, at: int): (r: Run<(Bytes, int)>)
    ensures r.Done? ==> 0 <= at && r.value.1 == at + 8 + |r.value.0| <= |data|
    ensures r.Done? ==> 0 < |r.value.0| && data[at + 8..r.value.1] == r.value.0
  {
    if at < 0 then Aborted
    else
      match ReadInt64At(data, at)
      case None => Aborted
      case Some(len) =>
        if len <= 0 || at + 8 + len > |data| then Aborted
        else Done((data[at + 8..at + 8 + len], at + 8 + len))
  }

  /** The record's length field, read where its frame starts. */
  lemma LengthOfFrame(data: Bytes, at: nat, rec: Bytes)
    requires |rec| <= Int64Max && at + 8 + |rec| <= |data|
    requires data[at..at + 8 + |rec|] == Frame(rec)
    ensures ReadInt64At(data, at) == Some(|rec|)
  {
    assert data[at..at + 8] == Frame(rec)[..8];
    ReadInt64Of(data, at, |rec|);
  }

  lemma ReadFrameOfFrame(data: Bytes, at: nat, rec: Bytes, next: int)
    requires 0 < |rec| <= Int64Max && next == at + 8 + |rec| <= |data|
    requires data[at..next] == Frame(rec)
    ensures ReadFrame(data, at) == Done((rec, next))
  {
    LengthOfFrame(data, at, rec);
    assert data[at + 8..at + 8 + |rec|] == Frame(rec)[8..];
  }

  /** Record `k` reads back from where its frame starts. */
  lemma ReadFrameAt(recs: seq<Bytes>, k: nat)
    requires Framable(recs) && k < |recs|
    ensures Framable(recs[..k]) && Framable(recs[..k + 1])
    ensures ReadFrame(Data(recs), |Data(recs[..k])|) == Done((recs[k], |Data(recs[..k + 1])|))
  {
    FrameAt(recs, k);
    ReadFrameOfFrame(Data(recs), |Data(recs[..k])|, recs[k], |Data(recs[..k + 1])|);
  }

  /** The record of slot `i`: its offset from the index file, then its frame.
      The byte offset `slot_index * 8` is computed in `int64_t`. */
  function ReadSlotRecord(f: Files, i: int): (r: Run<Bytes>)
    requires IsInt64(i)
    ensures r.Done? ==> 0 <= Wrap64(i * 8) && Wrap64(i * 8) + 8 <= |f.index|
  {
    var offset := Wrap64(i * 8);
    if offset < 0 then Aborted
    else
      match ReadInt64At(f.index, offset)
      case None => Aborted
      case Some(at) =>
        match ReadFrame(f.data, at)
        case Aborted => Aborted
        case Done(p) => Done(p.0)
  }

  /** `ReadSlot`: the slot's record, decoded. */
  function ReadSlot(f: Files, i: int): (r: Run<FileEntry>)
    requires IsInt64(i)
    ensures r.Done? ==> ReadSlotRecord(f, i).Done? && FileLoad(ReadSlotRecord(f, i).value) == Some(r.value)
  {
    match ReadSlotRecord(f, i)
    case Aborted => Aborted
    case Done(rec) =>
      match FileLoad(rec)
      case None => Aborted
      case Some(e) => Done(e)
  }

  lemma ReadSlotRecordOf(f: Files, recs: seq<Bytes>, i: int)
    requires Holds(f, recs) && Int64Min / 8 <= i <= Int64Max / 8
    ensures 0 <= i < |recs| ==> ReadSlotRecord(f, i) == Done(recs[i])
    ensures !(0 <= i < |recs|) ==> ReadSlotRecord(f, i) == Aborted
  {
    SlotOffset(i);
    if 0 <= i < |recs| {
      IndexAt(recs, i);
      ReadFrameAt(recs, i);
      ReadSlotRecordAt(f, i, |Data(recs[..i])|, recs[i], |Data(recs[..i + 1])|);
    }
  }

  lemma ReadSlotRecordAt(f: Files, i: int, at: int, rec: Bytes, next: int)
    requires IsInt64(i) && 0 <= i * 8 && Wrap64(i * 8) == i * 8
    requires ReadInt64At(f.index, 8 * i) == Some(at)
    requires ReadFrame(f.data, at) == Done((rec, next))
    ensures ReadSlotRecord(f, i) == Done(rec)
  {
    assert i * 8 == 8 * i;
  }

  /** Every appended entry reads back from its slot; any other slot aborts. */
  lemma ReadSlotOfLog(f: Files, log: seq<FileEntry>, i: int)
    requires Represents(f, log) && Int64Min / 8 <= i <= Int64Max / 8
    ensures 0 <= i < |log| ==> ReadSlot(f, i) == Done(log[i])
    ensures !(0 <= i < |log|) ==> ReadSlot(f, i) == Aborted
  {
    ReadSlotRecordOf(f, Records(log), i);
    if 0 <= i < |log| {
      FileLoadDump(log[i]);
    }
  }

  // --------------------------------------------------------------- truncate

  /** A file of `n` bytes resized by `ftruncate`: cut, or zero-extended. */
  function Resize(b: Bytes, n: nat): (r: Bytes)
    ensures |r| == n
    ensures n <= |b| ==> r == b[..n]
    ensures n > |b| ==> r[..|b|] == b && forall j | |b| <= j < n :: r[j] == 0
  {
    if n <= |b| then b[..n] else b + seq(n - |b|, _ => 0)
  }

  /** `Truncate`: a negative byte offset empties both files. Otherwise the
      index is cut after slot `i` and the data file after that slot's frame,
      both read back first. The sizes handed to `ftruncate` wrap to `off_t`;
      a negative size makes it fail. */
  function Truncate(f: Files, i: int): (r: Run<Files>)
    requires IsInt64(i)
    ensures r.Done? && Wrap64(i * 8) < 0 ==> r.value == Files([], [])
    ensures r.Done? && Wrap64(i * 8) >= 0 ==> |r.value.index| == Wrap64(i * 8) + 8
  {
    var offset := Wrap64(i * 8);
    if offset < 0 then Done(Files([], []))
    else
      match ReadInt64At(f.index, offset)
      case None => Aborted
      case Some(at) =>
        if at < 0 then Aborted
        else
          match ReadInt64At(f.data, at)
          case None => Aborted
          case Some(len) =>
            var size := Wrap64(at + len + 8);
            if size < 0 then Aborted
            else Done(Files(Resize(f.data, size), f.index[..offset + 8]))
  }

  lemma TruncateHolds(f: Files, recs: seq<Bytes>, i: int)
    requires Holds(f, recs) && Int64Min / 8 <= i <= Int64Max / 8
    ensures i < 0 ==> Truncate(f, i) == Done(Files([], []))
    ensures 0 <= i < |recs| ==> Truncate(f, i).Done? && Holds(Truncate(f, i).value, recs[..i + 1])
    ensures i >= |recs| ==> Truncate(f, i) == Aborted
  {
    SlotOffset(i);
    if 0 <= i < |recs| {
      TruncateSlotReads(f, recs, i);
      PrefixHolds(f, recs, i + 1);
      TruncateCuts(f, i, |Data(recs[..i])|, |recs[i]|, |Data(recs[..i + 1])|);
    }
  }

  /** What `Truncate` reads for an in-range slot: the frame's offset and its
      length field. */
  lemma TruncateSlotReads(f: Files, recs: seq<Bytes>, i: int)
    requires Holds(f, recs) && 0 <= i < |recs|
    ensures Framable(recs[..i]) && Framable(recs[..i + 1])
    ensures var at := |Data(recs[..i])|;
            && ReadInt64At(f.index, i * 8) == Some(at)
            && ReadInt64At(f.data, at) == Some(|recs[i]|)
            && |Data(recs[..i + 1])| == at + |recs[i]| + 8 <= |f.data|
  {
    FrameAt(recs, i);
    IndexAt(recs, i);
    assert i * 8 == 8 * i;
    LengthOfFrame(f.data, |Data(recs[..i])|, recs[i]);
  }

  /** Cutting both files at the ends of the first `n` records leaves the files
      of those records. */
  lemma PrefixHolds(f: Files, recs: seq<Bytes>, n: nat)
    requires Holds(f, recs) && n <= |recs|
    ensures Framable(recs[..n]) && |Data(recs[..n])| <= |f.data| && 8 * n <= |f.index|
    ensures Holds(Files(f.data[..|Data(recs[..n])|], f.index[..8 * n]), recs[..n])
  {
    Prefix(recs, n);
  }

  /** The cut once both reads have succeeded. */
  lemma TruncateCuts(f: Files, i: int, at: int, len: int, size: int)
    requires IsInt64(i) && 0 <= i * 8 && Wrap64(i * 8) == i * 8
    requires ReadInt64At(f.index, i * 8) == Some(at) && at >= 0
    requires ReadInt64At(f.data, at) == Some(len)
    requires size == at + len + 8 && 0 <= size <= |f.data| <= Int64Max
    ensures Truncate(f, i) == Done(Files(f.data[..size], f.index[..8 * (i + 1)]))
  {
    assert Wrap64(size) == size;
    assert Resize(f.data, size) == f.data[..size];
    assert i * 8 + 8 == 8 * (i + 1);
  }

  /** Truncating to slot `i` keeps exactly slots `0..i`; a negative slot
      empties the log; a slot past the end aborts. */
  lemma TruncateRepresents(f: Files, log: seq<FileEntry>, i: int)
    requires Represents(f, log) && Int64Min / 8 <= i <= Int64Max / 8
    ensures i < 0 ==> Truncate(f, i) == Done(Empty)
    ensures 0 <= i < |log| ==> Truncate(f, i).Done? && Represents(Truncate(f, i).value, log[..i + 1])
    ensures i >= |log| ==> Truncate(f, i) == Aborted
  {
    TruncateHolds(f, Records(log), i);
    if 0 <= i < |log| {
      RecordsPrefix(log, i + 1);
    }
  }

  // -------------------------------------------------------------- read until

  /** `ReadUntil` as written: a slot past the end is fatal; otherwise it reads
      only the first frame of the data file and hands that one entry to the
      reader, whatever the end slot. */
  function ReadUntilAsWritten(f: Files, end: int): (r: Run<seq<FileEntry>>)
    ensures r.Done? ==> end < GetLength(f) && |r.value| == 1
  {
    if end >= GetLength(f) then Aborted
    else
      match ReadFrame(f.data, 0)
      case Aborted => Aborted
      case Done(p) =>
        match FileLoad(p.0)
        case None => Aborted
        case Some(e) => Done([e])
  }

  /** Reads `count` consecutive frames from data offset `at`. */
  function ReadFrames(data: Bytes, at: int, count: nat): (r: Run<seq<Bytes>>)
    ensures r.Done? ==> |r.value| == count
    decreases count
  {
    if count == 0 then Done([])
    else
      match ReadFrame(data, at)
      case Aborted => Aborted
      case Done(p) =>
        match ReadFrames(data, p.1, count - 1)
        case Aborted => Aborted
        case Done(rest) => Done([p.0] + rest)
  }

  /** Decodes records in order; any record the decoder rejects is fatal. */
  function DecodeAll(recs: seq<Bytes>): (r: Run<seq<FileEntry>>)
    ensures r.Done? ==> |r.value| == |recs|
    ensures r.Done? ==> forall j | 0 <= j < |recs| :: FileLoad(recs[j]) == Some(r.value[j])
  {
    if |recs| == 0 then Done([])
    else
      match FileLoad(recs[0])
      case None => Aborted
      case Some(e) =>
        match DecodeAll(recs[1..])
        case Aborted => Aborted
        case Done(rest) => Done([e] + rest)
  }

  /** Decoding the records of a log gives the log back. */
  lemma {:induction false} DecodeAllRecords(log: seq<FileEntry>)
    requires AllFileDumpable(log)
    ensures DecodeAll(Records(log)) == Done(log)
  {
    if |log| > 0 {
      FileLoadDump(log[0]);
      assert Records(log)[1..] == Records(log[1..]);
      DecodeAllRecords(log[1..]);
      assert log == [log[0]] + log[1..];
    }
  }

  /** `ReadUntil` delivering slots `0..end` in order, which is what its name
      and its bounds check promise. */
  function ReadUntil(f: Files, end: int): (r: Run<seq<FileEntry>>)
    ensures r.Done? ==> end < GetLength(f) && |r.value| == (if end < 0 then 0 else end + 1)
  {
    if end >= GetLength(f) then Aborted
    else if end < 0 then Done([])
    else
      match ReadFrames(f.data, 0, end + 1)
      case Aborted => Aborted
      case Done(recs) => DecodeAll(recs)
  }

  lemma ReadFramesStep(data: Bytes, at: int, count: nat, rec: Bytes, next: int, rest: seq<Bytes>)
    requires count > 0
    requires ReadFrame(data, at) == Done((rec, next))
    requires ReadFrames(data, next, count - 1) == Done(rest)
    ensures ReadFrames(data, at, count) == Done([rec] + rest)
  {
  }

  lemma ReadFramesCons(data: Bytes, at: int, k: nat, n: nat, rec: Bytes, next: int, rest: seq<Bytes>)
    requires k < n
    requires ReadFrame(data, at) == Done((rec, next))
    requires ReadFrames(data, next, n - (k + 1)) == Done(rest)
    ensures ReadFrames(data, at, n - k) == Done([rec] + rest)
  {
    ReadFramesStep(data, at, n - k, rec, next, rest);
  }

  /** Frames chained through the offsets `offs` read back in order. */
  lemma {:induction false} ReadFramesChain(data: Bytes, recs: seq<Bytes>, offs: seq<int>, k: nat, n: nat)
    requires |offs| == |recs| + 1 && k <= n <= |recs|
    requires forall j | 0 <= j < |recs| :: ReadFrame(data, offs[j]) == Done((recs[j], offs[j + 1]))
    ensures ReadFrames(data, offs[k], n - k) == Done(recs[k..n])
    decreases n - k
  {
    if k < n {
      ReadFramesChain(data, recs, offs, k + 1, n);
      ReadFramesCons(data, offs[k], k, n, recs[k], offs[k + 1], recs[k + 1..n]);
      SliceCons(recs, k, n);
    } else {
      assert recs[k..n] == [];
    }
  }

  /** The frame offsets of `recs`: where each frame starts, then the end. */
  function Starts(recs: seq<Bytes>): (r: seq<int>)
    requires Framable(recs)
    ensures |r| == |recs| + 1 && r[0] == 0
    ensures forall j | 0 <= j <= |recs| :: Framable(recs[..j]) && r[j] == |Data(recs[..j])|
  {
    assert recs[..0] == [];
    seq(|recs| + 1, j requires 0 <= j <= |recs| => Prefix(recs, j); |Data(recs[..j])|)
  }

  /** The data file of `recs` reads back as `recs`, frame after frame. */
  lemma ReadFramesOf(recs: seq<Bytes>, n: nat)
    requires Framable(recs) && n <= |recs|
    ensures ReadFrames(Data(recs), 0, n) == Done(recs[..n])
  {
    var offs := Starts(recs);
    forall j | 0 <= j < |recs|
      ensures ReadFrame(Data(recs), offs[j]) == Done((recs[j], offs[j + 1]))
    {
      ReadFrameAt(recs, j);
    }
    ReadFramesChain(Data(recs), recs, offs, 0, n);
    assert recs[0..n] == recs[..n];
  }

  lemma SliceCons(s: seq<Bytes>, k: nat, n: nat)
    requires k < n <= |s|
    ensures s[k..n] == [s[k]] + s[k + 1..n]
  {
  }

  /** The corrected `ReadUntil` delivers exactly the first `end + 1` entries. */
  lemma ReadUntilOfLog(f: Files, log: seq<FileEntry>, end: int)
    requires Represents(f, log)
    ensures end >= |log| ==> ReadUntil(f, end) == Aborted
    ensures end < |log| ==> ReadUntil(f, end) == Done(if end < 0 then [] else log[..end + 1])
  {
    if 0 <= end < |log| {
      ReadFramesOf(Records(log), end + 1);
      RecordsPrefix(log, end + 1);
      DecodeAllRecords(log[..end + 1]);
    }
  }

  /** With two entries logged, reading until slot 1 as written hands the
      reader only the first entry. */
  lemma ReadUntilAsWrittenStopsEarly(a: FileEntry, b: FileEntry)
    requires FileDumpable(a) && FileDumpable(b)
    ensures var f := AppendEntry(AppendEntry(Empty, a), b);
            && Represents(f, [a, b])
            && ReadUntilAsWritten(f, 1) == Done([a])
            && ReadUntil(f, 1) == Done([a, b])
  {
    AppendEntryRepresents(Empty, [], a);
    var f1 := AppendEntry(Empty, a);
    assert [] + [a] == [a];
    AppendEntryRepresents(f1, [a], b);
    assert [a] + [b] == [a, b];
    var f := AppendEntry(f1, b);
    var recs := Records([a, b]);
    ReadFrameAt(recs, 0);
    assert recs[..0] == [];
    FileLoadDump(a);
    ReadUntilOfLog(f, [a, b], 1);
    assert [a, b][..2] == [a, b];
  }
}

=== FILE: binlog_level.dfy ===
/** The replicated log as the server keeps it in leveldb (src/storage/binlog.cc).

    Slot `i` is stored under the eight-byte key `IntToString(i)` and holds the
    dumped entry; the key `#BINLOG_LEN#` holds the number of slots, as
    `IntToString(length)`. The logger also caches the length and the term of
    the last entry. The database is keyed here by what a key means (`Key`);
    `KeyBytesInjective` shows that the byte keys the source writes are in
    one-to-one correspondence with these.

    `Represents(s, log)` relates a logger to the sequence of entries it stands
    for; every operation below is shown to move it along the matching sequence
    operation. */
module LevelBinlog {
  import opened Bytes
  import opened Outcomes
  import opened BinlogCodec

  /** A database key: a slot index, or the length tag. */
  datatype Key = Slot(index: int) | LengthTag

  datatype Binlog = Binlog(db: map<Key, Bytes>, length: int, lastLogTerm: int)

  predicate ValidKey(k: Key)
  {
    k.Slot? ==> IsInt64(k.index)
  }

  /** The bytes of a key: `IntToString(i)` for a slot, `#BINLOG_LEN#` for the tag. */
  function KeyBytes(k: Key): (b: Bytes)
    requires ValidKey(k)
    ensures |b| == (if k.Slot? then 8 else 12)
  {
    match k
    case Slot(i) => EncodeInt64(i)
    case LengthTag => [35, 66, 73, 78, 76, 79, 71, 95, 76, 69, 78, 35]
  }

  lemma KeyBytesInjective(a: Key, b: Key)
    requires ValidKey(a) && ValidKey(b)
    ensures KeyBytes(a) == KeyBytes(b) <==> a == b
  {
    if a.Slot? && b.Slot? {
      EncodeInt64Injective(a.index, b.index);
    }
  }

  predicate AllDumpable(log: seq<LogEntry>)
  {
    forall i | 0 <= i < |log| :: Dumpable(log[i])
  }

  /** No slot below zero is ever stored. */
  predicate NoNegativeSlots(db: map<Key, Bytes>)
  {
    forall k | k in db && k.Slot? :: k.index >= 0
  }

  /** Every slot of `log` that is still stored holds the dump of its entry. */
  predicate SlotsHold(db: map<Key, Bytes>, log: seq<LogEntry>)
    requires AllDumpable(log)
  {
    forall i | 0 <= i < |log| :: Slot(i) in db ==> db[Slot(i)] == Dump(log[i])
  }

  /** `s` stands for `log`: the cached length, the length tag and the cached
      last term agree with it, and every slot still present holds the dump of
      its entry (slots may have been removed by log compaction; slots past the
      end are left over from truncation and are not part of the log). */
  predicate Represents(s: Binlog, log: seq<LogEntry>)
  {
    && s.length == |log|
    && |log| < Int64Max
    && AllDumpable(log)
    && (if LengthTag in s.db then s.db[LengthTag] == EncodeInt64(|log|) else |log| == 0)
    && SlotsHold(s.db, log)
    && s.lastLogTerm == (if |log| == 0 then -1 else log[|log| - 1].term)
    && NoNegativeSlots(s.db)
  }

  /** The logger the constructor builds over an empty database. */
  const Empty: Binlog := Binlog(map[], 0, -1)

  lemma EmptyRepresents()
    ensures Represents(Empty, [])
  {
  }

  /** `GetLastLogIndexAndTerm`. */
  function LastLogIndexAndTerm(s: Binlog): (int, int)
  {
    (s.length - 1, s.lastLogTerm)
  }

  lemma LastLogIndexAndTermOfLog(s: Binlog, log: seq<LogEntry>)
    requires Represents(s, log)
    ensures LastLogIndexAndTerm(s) == (|log| - 1, if |log| == 0 then -1 else log[|log| - 1].term)
  {
  }

  /** `ReadSlot`: the entry stored in slot `i`, or `None` when leveldb reports
      the key missing. (Other leveldb errors abort in the source; the
      database here is a map and has none.) */
  function ReadSlot(s: Binlog, i: int): (r: Option<LogEntry>)
    requires IsInt64(i)
    ensures r.Some? ==> Slot(i) in s.db
  {
    if Slot(i) in s.db then Load(s.db[Slot(i)]) else None
  }

  lemma ReadSlotOfDump(s: Binlog, i: int, e: LogEntry)
    requires IsInt64(i) && Dumpable(e) && Slot(i) in s.db && s.db[Slot(i)] == Dump(e)
    ensures ReadSlot(s, i) == Some(e)
  {
    LoadDump(e);
  }

  /** A slot that is present holds exactly its entry of the log. */
  lemma ReadSlotOfLog(s: Binlog, log: seq<LogEntry>, i: int)
    requires Represents(s, log) && 0 <= i < |log|
    ensures ReadSlot(s, i) == (if Slot(i) in s.db then Some(log[i]) else None)
  {
    if Slot(i) in s.db {
      ReadSlotOfDump(s, i, log[i]);
    }
  }

  /** `AppendEntry`: writes the slot and the new length in one batch. */
  function AppendEntry(s: Binlog, e: LogEntry): (r: Binlog)
    requires Dumpable(e) && IsInt64(s.length) && s.length + 1 < Int64Max
    ensures r.length == s.length + 1 && r.lastLogTerm == e.term
    ensures r.db.Keys == s.db.Keys + {Slot(s.length), LengthTag}
  {
    Binlog(s.db[Slot(s.length) := Dump(e)][LengthTag := EncodeInt64(s.length + 1)],
           s.length + 1, e.term)
  }

  lemma AppendEntryRepresents(s: Binlog, log: seq<LogEntry>, e: LogEntry)
    requires Represents(s, log) && Dumpable(e) && |log| + 1 < Int64Max
    ensures Represents(AppendEntry(s, e), log + [e])
  {
    SlotsAfterPut(s.db, log, e, s.length);
  }

  /** Storing the next entry in the slot just past the end extends what the
      slots hold by that entry. */
  lemma SlotsAfterPut(db: map<Key, Bytes>, log: seq<LogEntry>, e: LogEntry, n: int)
    requires AllDumpable(log) && Dumpable(e) && SlotsHold(db, log) && n == |log|
    ensures AllDumpable(log + [e]) && SlotsHold(db[Slot(n) := Dump(e)], log + [e])
  {
    var log' := log + [e];
    assert forall i | 0 <= i < |log| :: log'[i] == log[i];
  }

  /** `SlotsAfterPut`, for a database and a log already built. */
  lemma SlotsAfterPutIs(db: map<Key, Bytes>, log: seq<LogEntry>, e: LogEntry,
                        after: map<Key, Bytes>, whole: seq<LogEntry>)
    requires AllDumpable(log) && Dumpable(e) && SlotsHold(db, log)
    requires after == db[Slot(|log|) := Dump(e)] && whole == log + [e]
    ensures AllDumpable(whole) && SlotsHold(after, whole)
  {
    SlotsAfterPut(db, log, e, |log|);
  }

  /** The appended entry reads back from its slot. */
  lemma AppendEntryReadsBack(s: Binlog, e: LogEntry)
    requires Dumpable(e) && IsInt64(s.length) && s.length + 1 < Int64Max
    ensures ReadSlot(AppendEntry(s, e), s.length) == Some(e)
  {
    ReadSlotOfDump(AppendEntry(s, e), s.length, e);
  }

  predicate InBatch(k: Key, start: int, count: nat)
  {
    k.Slot? && start <= k.index < start + count
  }

  /** The database after the batch puts the dump of `es[j]` under slot
      `start + j`, for each `j` in turn. */
  function PutEntries(db: map<Key, Bytes>, start: int, es: seq<LogEntry>): (r: map<Key, Bytes>)
    requires AllDumpable(es)
    ensures db.Keys <= r.Keys
    ensures |es| > 0 ==> Slot(start + |es| - 1) in r && r[Slot(start + |es| - 1)] == Dump(es[|es| - 1])
    decreases |es|
  {
    if |es| == 0 then db
    else
      var init := es[..|es| - 1];
      assert forall j | 0 <= j < |init| :: init[j] == es[j];
      PutEntries(db, start, init)[Slot(start + |es| - 1) := Dump(es[|es| - 1])]
  }

  /** `AppendEntryList`: writes every slot and the new length in one batch;
      the cached last term becomes the term of the last entry written. */
  function AppendEntryList(s: Binlog, es: seq<LogEntry>): (r: Binlog)
    requires AllDumpable(es)
    requires IsInt64(s.length) && s.length + |es| < Int64Max
    ensures r.length == s.length + |es|
    ensures r.db.Keys == PutEntries(s.db, s.length, es).Keys + {LengthTag}
  {
    Binlog(PutEntries(s.db, s.length, es)[LengthTag := EncodeInt64(s.length + |es|)],
           s.length + |es|,
           if |es| == 0 then s.lastLogTerm else es[|es| - 1].term)
  }

  /** The batch touches only its own slots: every other key keeps its presence
      and its value. */
  lemma {:induction false} PutEntriesKeeps(db: map<Key, Bytes>, start: int, es: seq<LogEntry>, k: Key)
    requires AllDumpable(es) && !InBatch(k, start, |es|)
    ensures k in PutEntries(db, start, es) <==> k in db
    ensures k in db ==> PutEntries(db, start, es)[k] == db[k]
    decreases |es|
  {
    if |es| > 0 {
      PutEntriesKeeps(db, start, es[..|es| - 1], k);
    }
  }

  /** Every slot of the batch holds the dump of its entry. */
  lemma {:induction false} PutEntriesReads(db: map<Key, Bytes>, start: int, es: seq<LogEntry>, i: int)
    requires AllDumpable(es) && start <= i < start + |es|
    ensures Slot(i) in PutEntries(db, start, es)
    ensures PutEntries(db, start, es)[Slot(i)] == Dump(es[i - start])
    decreases |es|
  {
    if i < start + |es| - 1 {
      var init := es[..|es| - 1];
      PutEntriesReads(db, start, init, i);
      assert init[i - start] == es[i - start];
    }
  }

  /** Putting the batch just past the end of `log` makes the slots hold
      `log + es`. */
  lemma {:induction false} PutEntriesHold(db: map<Key, Bytes>, log: seq<LogEntry>, es: seq<LogEntry>)
    requires AllDumpable(log) && AllDumpable(es) && SlotsHold(db, log)
    ensures AllDumpable(log + es)
    ensures SlotsHold(PutEntries(db, |log|, es), log + es)
    decreases |es|
  {
    if |es| == 0 {
      assert log + es == log;
    } else {
      var init := es[..|es| - 1];
      var e := es[|es| - 1];
      assert forall j | 0 <= j < |init| :: init[j] == es[j];
      PutEntriesHold(db, log, init);
      assert log + es == (log + init) + [e];
      SlotsAfterPutIs(PutEntries(db, |log|, init), log + init, e, PutEntries(db, |log|, es), log + es);
    }
  }

  lemma {:induction false} PutEntriesNoNegative(db: map<Key, Bytes>, start: int, es: seq<LogEntry>)
    requires AllDumpable(es) && NoNegativeSlots(db) && start >= 0
    ensures NoNegativeSlots(PutEntries(db, start, es))
    decreases |es|
  {
    if |es| > 0 {
      PutEntriesNoNegative(db, start, es[..|es| - 1]);
    }
  }

  lemma AppendEntryListRepresents(s: Binlog, log: seq<LogEntry>, es: seq<LogEntry>)
    requires Represents(s, log) && AllDumpable(es)
    requires |log| + |es| < Int64Max
    ensures Represents(AppendEntryList(s, es), log + es)
  {
    if |es| > 0 {
      AppendEntryListRepresentsSome(s, log, es);
    } else {
      assert log + es == log;
      PutEntriesNoNegative(s.db, s.length, es);
    }
  }

  lemma AppendEntryListRepresentsSome(s: Binlog, log: seq<LogEntry>, es: seq<LogEntry>)
    requires Represents(s, log) && AllDumpable(es) && |es| > 0
    requires |log| + |es| < Int64Max
    ensures Represents(AppendEntryList(s, es), log + es)
  {
    var log' := log + es;
    PutEntriesHold(s.db, log, es);
    PutEntriesNoNegative(s.db, s.length, es);
    assert log'[|log'| - 1] == es[|es| - 1];
  }

  /** After a batch append, every slot of the batch reads back its entry. */
  lemma AppendEntryListReadsBack(s: Binlog, es: seq<LogEntry>, i: int)
    requires AllDumpable(es)
    requires IsInt64(s.length) && s.length + |es| < Int64Max
    requires s.length <= i < s.length + |es|
    ensures ReadSlot(AppendEntryList(s, es), i) == Some(es[i - s.length])
  {
    PutEntriesReads(s.db, s.length, es, i);
    ReadSlotOfDump(AppendEntryList(s, es), i, es[i - s.length]);
  }

  /** `TruncateAsWritten`: the length becomes `i + 1` (with `i` clamped to
      -1), the tag is rewritten, and the cached last term is re-read from the
      new last slot when there is one. The asserted read of that slot is an
      abort when it fails. When the log becomes empty the cached last term
      keeps the term of an entry that is gone. */
  function TruncateAsWritten(s: Binlog, i: int): (r: Run<Binlog>)
    requires IsInt64(i) && i < Int64Max
    ensures r.Done? ==> r.value.length == (if i < -1 then 0 else i + 1)
  {
    var last := if i < -1 then -1 else i;
    var db := s.db[LengthTag := EncodeInt64(last + 1)];
    if last + 1 > 0 then
      match ReadSlot(Binlog(db, last + 1, s.lastLogTerm), last)
      case None => Aborted
      case Some(e) => Done(Binlog(db, last + 1, e.term))
    else Done(Binlog(db, last + 1, s.lastLogTerm))
  }

  /** Truncating a one-entry log to the empty log reports the term of the
      removed entry as the last term, where a freshly opened empty log
      reports -1. */
  lemma TruncateAsWrittenKeepsStaleTerm()
    ensures var s := AppendEntry(Empty, LogEntry(OpPut, [], [1], [2], 5));
            && Represents(s, [LogEntry(OpPut, [], [1], [2], 5)])
            && TruncateAsWritten(s, -1).Done?
            && LastLogIndexAndTerm(TruncateAsWritten(s, -1).value) == (-1, 5)
            && !Represents(TruncateAsWritten(s, -1).value, [])
  {
    AppendEntryRepresents(Empty, [], LogEntry(OpPut, [], [1], [2], 5));
  }

  /** `Truncate` with the last term reset to -1 when the log becomes empty,
      which is what the constructor reports for an empty log. */
  function Truncate(s: Binlog, i: int): (r: Run<Binlog>)
    requires IsInt64(i) && i < Int64Max
    ensures r.Done? ==> r.value.length == (if i < -1 then 0 else i + 1)
    ensures r.Done? && i <= -1 ==> r.value.lastLogTerm == -1
  {
    match TruncateAsWritten(s, i)
    case Aborted => Aborted
    case Done(t) => Done(if t.length == 0 then t.(lastLogTerm := -1) else t)
  }

  lemma TruncateReadsSlot(s: Binlog, i: int, e: LogEntry)
    requires 0 <= i < Int64Max && Dumpable(e) && Slot(i) in s.db && s.db[Slot(i)] == Dump(e)
    ensures TruncateAsWritten(s, i) == Done(Binlog(s.db[LengthTag := EncodeInt64(i + 1)], i + 1, e.term))
  {
    ReadSlotOfDump(Binlog(s.db[LengthTag := EncodeInt64(i + 1)], i + 1, s.lastLogTerm), i, e);
  }

  /** Truncating to a prefix whose last slot is still stored keeps exactly that
      prefix; truncating to a slot that compaction removed aborts. */
  lemma TruncateRepresents(s: Binlog, log: seq<LogEntry>, i: int)
    requires Represents(s, log) && -1 <= i < |log|
    ensures i >= 0 && Slot(i) !in s.db ==> Truncate(s, i) == Aborted
    ensures i == -1 || Slot(i) in s.db ==>
              Truncate(s, i).Done? && Represents(Truncate(s, i).value, log[..i + 1])
  {
    var db := s.db[LengthTag := EncodeInt64(i + 1)];
    var log' := log[..i + 1];
    SlotsOfPrefix(s.db, log, i + 1, EncodeInt64(i + 1));
    if i == -1 {
      assert Truncate(s, i) == Done(Binlog(db, 0, -1));
    } else if Slot(i) in s.db {
      TruncateReadsSlot(s, i, log[i]);
      assert Truncate(s, i) == Done(Binlog(db, i + 1, log[i].term));
      assert log'[|log'| - 1] == log[i];
    } else {
      assert ReadSlot(Binlog(db, i + 1, s.lastLogTerm), i) == None;
    }
  }

  /** Truncating at or past the end of the log does not keep the log: the
      slot is read like any other, so the call aborts when no entry is stored
      there, and otherwise the length grows to `i + 1` over whatever stale
      slots truncation left behind, with that slot's term as the last term. */
  lemma TruncatePastEnd(s: Binlog, log: seq<LogEntry>, i: int)
    requires Represents(s, log) && |log| <= i < Int64Max
    ensures Truncate(s, i).Done? <==> Slot(i) in s.db && Load(s.db[Slot(i)]).Some?
    ensures Truncate(s, i).Done? ==>
              && Truncate(s, i).value.length == i + 1 > |log|
              && Truncate(s, i).value.lastLogTerm == Load(s.db[Slot(i)]).value.term
  {
  }

  lemma SlotsOfPrefix(db: map<Key, Bytes>, log: seq<LogEntry>, n: nat, tag: Bytes)
    requires AllDumpable(log) && SlotsHold(db, log) && n <= |log|
    ensures AllDumpable(log[..n]) && SlotsHold(db[LengthTag := tag], log[..n])
  {
    assert forall j | 0 <= j < n :: log[..n][j] == log[j];
  }

  /** `RemoveSlot`: deletes a stored slot; `false` when it is not stored. */
  function RemoveSlot(s: Binlog, i: int): (r: (Binlog, bool))
    requires IsInt64(i)
    ensures r.1 <==> Slot(i) in s.db
    ensures r.0.db == s.db - {Slot(i)}
    ensures r.0.length == s.length && r.0.lastLogTerm == s.lastLogTerm
  {
    if Slot(i) !in s.db then (s, false)
    else (s.(db := s.db - {Slot(i)}), true)
  }

  /** Removing slots never changes the log the logger stands for. */
  lemma RemoveSlotRepresents(s: Binlog, log: seq<LogEntry>, i: int)
    requires Represents(s, log) && IsInt64(i)
    ensures Represents(RemoveSlot(s, i).0, log)
    ensures ReadSlot(RemoveSlot(s, i).0, i) == None
  {
  }

  /** `DelBinlog`: removes slot `i`, then `i - 1`, and so on down to the first
      slot that is no longer stored. The index is an `int64_t`; its decrement
      wraps. */
  function DelBinlog(s: Binlog, i: int): (r: Binlog)
    requires IsInt64(i)
    ensures r.length == s.length && r.lastLogTerm == s.lastLogTerm
    ensures r.db.Keys <= s.db.Keys && forall k | k in r.db :: r.db[k] == s.db[k]
    ensures Slot(i) !in r.db
    ensures LengthTag in s.db ==> LengthTag in r.db
    decreases |s.db|
  {
    var (s', ok) := RemoveSlot(s, i);
    if !ok then s'
    else
      assert |s'.db| < |s.db| by {
        SmallerKeys(s'.db, s.db);
      }
      DelBinlog(s', if i == Int64Min then Int64Max else i - 1)
  }

  lemma SmallerKeys(a: map<Key, Bytes>, b: map<Key, Bytes>)
    requires a.Keys < b.Keys
    ensures |a| < |b|
  {
    var x :| x in b.Keys && x !in a.Keys;
    SubsetCard(a.Keys, b.Keys - {x});
  }

  lemma {:induction false} SubsetCard(a: set<Key>, b: set<Key>)
    requires a <= b
    ensures |a| <= |b|
    decreases b
  {
    if a != {} {
      var x :| x in a;
      SubsetCard(a - {x}, b - {x});
    }
  }

  /** Compaction keeps the log the logger stands for. */
  lemma DelBinlogRepresents(s: Binlog, log: seq<LogEntry>, i: int)
    requires Represents(s, log) && IsInt64(i)
    ensures Represents(DelBinlog(s, i), log)
  {
  }

  /** When slots `j` to `i` are all stored, compaction from `i` removes slot
      `j` (it stops only below the run). */
  lemma {:induction false} DelBinlogRemovesRun(s: Binlog, i: int, j: int)
    requires IsInt64(i) && IsInt64(j) && j <= i
    requires forall m | j <= m <= i :: Slot(m) in s.db
    ensures Slot(j) !in DelBinlog(s, i).db
    decreases |s.db|
  {
    if j < i {
      var s' := RemoveSlot(s, i).0;
      assert |s'.db| < |s.db| by {
        SmallerKeys(s'.db, s.db);
      }
      assert DelBinlog(s, i) == DelBinlog(s', i - 1);
      DelBinlogRemovesRun(s', i - 1, j);
    }
  }

  /** Starting from `i`, nothing at or above `bound` is removed (`bound > i`). */
  lemma {:induction false} DelBinlogKeepsAbove(s: Binlog, i: int, bound: int)
    requires IsInt64(i) && -1 <= i < bound && NoNegativeSlots(s.db)
    ensures forall j | bound <= j && Slot(j) in s.db :: Slot(j) in DelBinlog(s, i).db
    decreases |s.db|
  {
    var (s', ok) := RemoveSlot(s, i);
    if ok {
      assert |s'.db| < |s.db| by {
        SmallerKeys(s'.db, s.db);
      }
      DelBinlogKeepsAbove(s', i - 1, bound);
    }
  }

  /** The constructor over an existing database: the length comes from the
      tag (an empty tag value counts as absent), and a non-empty log re-reads
      its last slot for the cached term. A tag value of the wrong size, or a
      last slot that cannot be read, fails an assertion. */
  function Open(db: map<Key, Bytes>): (r: Run<Binlog>)
    ensures r.Done? ==> r.value.db == db
  {
    if LengthTag in db && db[LengthTag] != [] then
      if |db[LengthTag]| != 8 then Aborted
      else
        var n := DecodeInt64(db[LengthTag]);
        if n > 0 then
          match ReadSlot(Binlog(db, n, -1), n - 1)
          case None => Aborted
          case Some(e) => Done(Binlog(db, n, e.term))
        else Done(Binlog(db, n, -1))
    else Done(Binlog(db, 0, -1))
  }

  /** Reopening the database of a logger recovers the same logger, as long as
      its last slot has not been compacted away. */
  lemma OpenRecovers(s: Binlog, log: seq<LogEntry>)
    requires Represents(s, log)
    requires |log| > 0 ==> Slot(|log| - 1) in s.db
    ensures Open(s.db) == Done(s)
  {
    if LengthTag in s.db {
      if |log| > 0 {
        ReadSlotOfLog(s, log, |log| - 1);
        OpenOfTag(s.db, |log|, Some(log[|log| - 1]));
      } else {
        OpenOfTag(s.db, 0, None);
      }
    }
  }

  /** `Open` over a database whose tag holds `n`, given what its last slot
      reads back as. */
  lemma OpenOfTag(db: map<Key, Bytes>, n: int, last: Option<LogEntry>)
    requires IsInt64(n) && n >= 0 && LengthTag in db && db[LengthTag] == EncodeInt64(n)
    requires n > 0 ==> last.Some? && Slot(n - 1) in db && Load(db[Slot(n - 1)]) == last
    ensures Open(db) == Done(Binlog(db, n, if n > 0 then last.value.term else -1))
  {
    Int64RoundTrip(n);
  }
}

=== FILE: bytes.dfy ===
/** Byte strings, fixed-width little-endian integers and the byte-wise key order.

    The server copies integers into strings with a host `memcpy`; the model
    fixes the host to be little-endian and two's-complement. */
module Bytes {
  import opened Outcomes

  type byte = x: int | 0 <= x < 256

  /** A C++ `std::string` used as a byte buffer. */
  type Bytes = seq<byte>

  const Two32: int := 0x1_0000_0000
  const Two64: int := 0x1_0000_0000_0000_0000
  const Int32Min: int := -0x8000_0000
  const Int32Max: int := 0x7FFF_FFFF
  const Int64Min: int := -0x8000_0000_0000_0000
  const Int64Max: int := 0x7FFF_FFFF_FFFF_FFFF

  predicate IsInt32(n: int) { Int32Min <= n <= Int32Max }
  predicate IsInt64(n: int) { Int64Min <= n <= Int64Max }

  /** Two's-complement wrap-around of an unbounded integer into `int64_t`. */
  function Wrap64(n: int): (r: int)
    ensures IsInt64(r)
    ensures (r - n) % Two64 == 0
    ensures IsInt64(n) ==> r == n
    decreases if n < Int64Min then Int64Min - n else if n > Int64Max then n - Int64Max else 0
  {
    if n < Int64Min then Wrap64(n + Two64)
    else if n > Int64Max then Wrap64(n - Two64)
    else n
  }

  function Pow256(width: nat): (p: nat)
    ensures p > 0
  {
    if width == 0 then 1 else 256 * Pow256(width - 1)
  }

  /** The `width` low-order bytes of `n`, least significant first. With a
      positive divisor Dafny's `/` and `%` round toward negative infinity, so
      a negative `n` yields its two's-complement bytes. */
  function LeBytes(n: int, width: nat): (r: Bytes)
    ensures |r| == width
    decreases width, n
  {
    if width == 0 then [] else [n % 256] + LeBytes(n / 256, width - 1)
  }

  /** The unsigned value of a little-endian byte string. */
  function LeValue(s: Bytes): (n: nat)
    ensures n < Pow256(|s|)
  {
    if |s| == 0 then 0
    else
      var rest := LeValue(s[1..]);
      assert s[0] + 256 * rest < 256 * Pow256(|s| - 1) by {
        assert rest + 1 <= Pow256(|s| - 1);
        MulMono(rest + 1, Pow256(|s| - 1));
      }
      s[0] + 256 * rest
  }

  lemma MulMono(a: nat, b: nat)
    requires a <= b
    ensures 256 * a <= 256 * b
  {
  }

  /** Quotient and remainder are unique. */
  lemma DivModUnique(n: int, d: int, q: int, r: int)
    requires d > 0 && n == d * q + r && 0 <= r < d
    ensures n / d == q && n % d == r
  {
    var q', r' := n / d, n % d;
    assert n == d * q' + r';
    if q' < q {
      assert d * (q - q') == r' - r;
      AtLeastOnce(d, q - q');
    } else if q' > q {
      assert d * (q' - q) == r - r';
      AtLeastOnce(d, q' - q);
    }
  }

  lemma {:induction false} AtLeastOnce(d: nat, k: int)
    requires k >= 1
    ensures d * k >= d
    decreases k
  {
    if k > 1 {
      AtLeastOnce(d, k - 1);
      assert d * k == d * (k - 1) + d;
    }
  }

  /** Taking `256 * p` as modulus is taking the low byte, then `p` on the rest. */
  lemma ModSplit(n: int, p: int)
    requires p > 0
    ensures n % (256 * p) == n % 256 + 256 * ((n / 256) % p)
  {
    var q, r := n / 256, n % 256;
    var q2, r2 := q / p, q % p;
    assert n == 256 * q + r;
    assert q == p * q2 + r2;
    assert n == (256 * p) * q2 + (256 * r2 + r) by {
      assert 256 * q == 256 * (p * q2) + 256 * r2;
      assert 256 * (p * q2) == (256 * p) * q2;
    }
    assert 256 * r2 + r < 256 * p by {
      MulMono(r2 + 1, p);
    }
    DivModUnique(n, 256 * p, q2, 256 * r2 + r);
  }

  lemma {:induction false} LeValueOfLeBytes(n: int, width: nat)
    ensures LeValue(LeBytes(n, width)) == n % Pow256(width)
    decreases width
  {
    if width > 0 {
      var s := LeBytes(n, width);
      assert s[1..] == LeBytes(n / 256, width - 1);
      LeValueOfLeBytes(n / 256, width - 1);
      ModSplit(n, Pow256(width - 1));
    }
  }

  lemma {:induction false} LeBytesOfLeValue(s: Bytes)
    ensures LeBytes(LeValue(s), |s|) == s
  {
    if |s| > 0 {
      var n := LeValue(s);
      var rest := LeValue(s[1..]);
      assert n == s[0] + 256 * rest;
      assert n % 256 == s[0];
      assert n / 256 == rest;
      LeBytesOfLeValue(s[1..]);
    }
  }

  /** Bytes only see `n` modulo `256` to the width. */
  lemma {:induction false} LeBytesShift(n: int, width: nat)
    ensures LeBytes(n - Pow256(width), width) == LeBytes(n, width)
    decreases width
  {
    if width > 0 {
      var p := Pow256(width - 1);
      assert (n - 256 * p) % 256 == n % 256;
      assert (n - 256 * p) / 256 == n / 256 - p;
      LeBytesShift(n / 256, width - 1);
    }
  }

  /** `memcpy` of an `int32_t` into four bytes. */
  function EncodeInt32(n: int): (r: Bytes)
    requires IsInt32(n)
    ensures |r| == 4
  {
    LeBytes(n, 4)
  }

  /** `memcpy` of four bytes into an `int32_t`. */
  function DecodeInt32(s: Bytes): (n: int)
    requires |s| == 4
    ensures IsInt32(n)
  {
    assert Pow256(4) == Two32;
    var u := LeValue(s);
    if u > Int32Max then u - Two32 else u
  }

  /** `memcpy` of an `int64_t` into eight bytes. */
  function EncodeInt64(n: int): (r: Bytes)
    requires IsInt64(n)
    ensures |r| == 8
  {
    LeBytes(n, 8)
  }

  /** `memcpy` of eight bytes into an `int64_t`. */
  function DecodeInt64(s: Bytes): (n: int)
    requires |s| == 8
    ensures IsInt64(n)
  {
    assert Pow256(8) == Two64;
    var u := LeValue(s);
    if u > Int64Max then u - Two64 else u
  }

  lemma Int32RoundTrip(n: int)
    requires IsInt32(n)
    ensures DecodeInt32(EncodeInt32(n)) == n
  {
    assert Pow256(4) == Two32;
    LeValueOfLeBytes(n, 4);
    if n < 0 {
      DivModUnique(n, Two32, -1, n + Two32);
    } else {
      DivModUnique(n, Two32, 0, n);
    }
  }

  lemma Int32RoundTripBytes(s: Bytes)
    requires |s| == 4
    ensures EncodeInt32(DecodeInt32(s)) == s
  {
    assert Pow256(4) == Two32;
    LeBytesOfLeValue(s);
    LeBytesShift(LeValue(s), 4);
  }

  lemma Int64RoundTrip(n: int)
    requires IsInt64(n)
    ensures DecodeInt64(EncodeInt64(n)) == n
  {
    assert Pow256(8) == Two64;
    LeValueOfLeBytes(n, 8);
    if n < 0 {
      DivModUnique(n, Two64, -1, n + Two64);
    } else {
      DivModUnique(n, Two64, 0, n);
    }
  }

  lemma Int64RoundTripBytes(s: Bytes)
    requires |s| == 8
    ensures EncodeInt64(DecodeInt64(s)) == s
  {
    assert Pow256(8) == Two64;
    LeBytesOfLeValue(s);
    LeBytesShift(LeValue(s), 8);
  }

  /** Distinct integers have distinct eight-byte images. */
  lemma EncodeInt64Injective(a: int, b: int)
    requires IsInt64(a) && IsInt64(b)
    ensures EncodeInt64(a) == EncodeInt64(b) <==> a == b
  {
    Int64RoundTrip(a);
    Int64RoundTrip(b);
  }

  /** Byte-wise lexicographic order, as `std::string` and leveldb compare keys. */
  predicate Less(a: Bytes, b: Bytes)
  {
    if |a| == 0 then |b| > 0
    else if |b| == 0 then false
    else if a[0] != b[0] then a[0] < b[0]
    else Less(a[1..], b[1..])
  }

  lemma {:induction false} LessIrreflexive(a: Bytes)
    ensures !Less(a, a)
  {
    if |a| > 0 {
      LessIrreflexive(a[1..]);
    }
  }

  lemma {:induction false} LessTransitive(a: Bytes, b: Bytes, c: Bytes)
    requires Less(a, b) && Less(b, c)
    ensures Less(a, c)
  {
    if |a| > 0 && |b| > 0 && |c| > 0 && a[0] == b[0] && b[0] == c[0] {
      LessTransitive(a[1..], b[1..], c[1..]);
    }
  }

  lemma {:induction false} LessTotal(a: Bytes, b: Bytes)
    ensures a == b || Less(a, b) || Less(b, a)
  {
    if |a| > 0 && |b| > 0 && a[0] == b[0] {
      LessTotal(a[1..], b[1..]);
      if a[1..] == b[1..] {
        assert a == [a[0]] + a[1..] && b == [b[0]] + b[1..];
      }
    }
  }

  lemma {:induction false} LessAsymmetric(a: Bytes, b: Bytes)
    requires Less(a, b)
    ensures !Less(b, a)
  {
    if |a| > 0 && |b| > 0 && a[0] == b[0] {
      LessAsymmetric(a[1..], b[1..]);
    }
  }

  /** The path separator `/`. */
  const Slash: byte := 47

  /** A byte string spelled in ASCII, for the source's string constants. */
  function Ascii(s: string): (r: Bytes)
    requires forall i | 0 <= i < |s| :: s[i] as int < 128
    ensures |r| == |s|
    ensures forall i | 0 <= i < |s| :: r[i] == s[i] as int
  {
    if |s| == 0 then [] else [s[0] as int as byte] + Ascii(s[1..])
  }

  /** The position of the last occurrence of `c` in `s`, if any (`rfind`,
      `find_last_of` with one character). */
  function LastIndexOf(s: Bytes, c: byte): (r: Option<nat>)
    ensures r.Some? ==> r.value < |s| && s[r.value] == c
    ensures r.Some? ==> forall j | r.value < j < |s| :: s[j] != c
    ensures r.None? ==> forall j | 0 <= j < |s| :: s[j] != c
  {
    if s == [] then None
    else if s[|s| - 1] == c then Some(|s| - 1)
    else LastIndexOf(s[..|s| - 1], c)
  }

  /** The position of the first occurrence of `c` in `s`, if any. */
  function IndexOf(s: Bytes, c: byte): (r: Option<nat>)
    ensures r.Some? ==> r.value < |s| && s[r.value] == c
    ensures r.Some? ==> forall j | 0 <= j < r.value :: s[j] != c
    ensures r.None? ==> forall j | 0 <= j < |s| :: s[j] != c
  {
    if s == [] then None
    else if s[0] == c then Some(0)
    else match IndexOf(s[1..], c)
      case None => None
      case Some(i) => Some(i + 1)
  }

  /** A C string: the bytes before the first NUL. */
  function CString(s: Bytes): (r: Bytes)
    ensures r <= s
    ensures forall j | 0 <= j < |r| :: r[j] != 0
    ensures |r| < |s| ==> s[|r|] == 0
  {
    match IndexOf(s, 0)
    case None => s
    case Some(i) => s[..i]
  }

  /** A string with no NUL is its own C string. */
  lemma CStringWhole(s: Bytes)
    requires forall j | 0 <= j < |s| :: s[j] != 0
    ensures CString(s) == s
  {
  }
}

=== FILE: counter.dfy ===
/** The 64-bit statistics counter (common/counter.h), one call at a time.
    Each operation returns the counter after the call and what the call
    returns; the arithmetic wraps around as the machine's does. */
module Counters {
  import opened Bytes

  datatype Counter = Counter(value: int)
  {
    predicate Valid() { IsInt64(value) }
  }

  /** A new counter holds 0. */
  function New(): (c: Counter)
    ensures c.Valid() && c.value == 0
  {
    Counter(0)
  }

  /** `Add(v)`: stores the old value plus `v` and returns it. A sum
      outside `int64_t` is a signed overflow, undefined in C++; the model
      gives its two's complement wrap-around. */
  function Add(c: Counter, v: int): (r: (Counter, int))
    requires c.Valid() && IsInt64(v)
    ensures r.0.Valid() && r.0.value == r.1
    ensures (r.1 - (c.value + v)) % Two64 == 0
    ensures IsInt64(c.value + v) ==> r.1 == c.value + v
  {
    var n := Wrap64(c.value + v);
    (Counter(n), n)
  }

  /** `Sub(v)`: stores the old value minus `v` and returns it. The source
      negates `v` first, which overflows for the smallest `int64_t`; that
      and an out-of-range difference are undefined in C++, and the model
      gives the two's complement wrap-around. */
  function Sub(c: Counter, v: int): (r: (Counter, int))
    requires c.Valid() && IsInt64(v)
    ensures r.0.Valid() && r.0.value == r.1
    ensures (r.1 - (c.value - v)) % Two64 == 0
    ensures IsInt64(c.value - v) ==> r.1 == c.value - v
  {
    var n := Wrap64(c.value - v);
    (Counter(n), n)
  }

  function Inc(c: Counter): (r: (Counter, int))
    requires c.Valid()
    ensures r.0.Valid() && r.0.value == r.1
    ensures c.value < Int64Max ==> r.1 == c.value + 1
    ensures c.value == Int64Max ==> r.1 == Int64Min
  {
    var n := if c.value == Int64Max then Int64Min else c.value + 1;
    (Counter(n), n)
  }

  function Dec(c: Counter): (r: (Counter, int))
    requires c.Valid()
    ensures r.0.Valid() && r.0.value == r.1
    ensures c.value > Int64Min ==> r.1 == c.value - 1
    ensures c.value == Int64Min ==> r.1 == Int64Max
  {
    var n := if c.value == Int64Min then Int64Max else c.value - 1;
    (Counter(n), n)
  }

  /** `Get` reads the value and changes nothing. */
  function Get(c: Counter): (r: int)
    requires c.Valid()
    ensures IsInt64(r)
  {
    c.value
  }

  /** `Get` reads back what the last write stored: the value `Set` was
      given, and the value `Add`, `Sub`, `Inc` and `Dec` returned. */
  lemma GetReadsLastWrite(c: Counter, v: int)
    requires c.Valid() && IsInt64(v)
    ensures Get(Set(c, v).0) == v
    ensures Get(Add(c, v).0) == Add(c, v).1 && Get(Sub(c, v).0) == Sub(c, v).1
    ensures Get(Inc(c).0) == Inc(c).1 && Get(Dec(c).0) == Dec(c).1
  {
  }

  /** `Set(v)`: stores `v` and returns the previous value. */
  function Set(c: Counter, v: int): (r: (Counter, int))
    requires c.Valid() && IsInt64(v)
    ensures r.0.Valid() && r.0.value == v && r.1 == c.value
  {
    (Counter(v), c.value)
  }

  /** `Clear`: stores 0 and returns the previous value. */
  function Clear(c: Counter): (r: (Counter, int))
    requires c.Valid()
    ensures r.0.Valid() && r.0.value == 0 && r.1 == c.value
  {
    (Counter(0), c.value)
  }

  /** `Inc` and `Dec` are `Add(1)` and `Add(-1)`. */
  lemma IncDecAreAdds(c: Counter)
    requires c.Valid()
    ensures Inc(c) == Add(c, 1)
    ensures Dec(c) == Add(c, -1)
  {
  }

  /** `Sub(v)` undoes `Add(v)`, across a wrap-around too. */
  lemma SubUndoesAdd(c: Counter, v: int)
    requires c.Valid() && IsInt64(v)
    ensures Sub(Add(c, v).0, v).0 == c
  {
    var a := Add(c, v).1;
    var s := Wrap64(a - v);
    assert (s - c.value) % Two64 == 0 by {
      assert (a - (c.value + v)) % Two64 == 0;
      assert (s - (a - v)) % Two64 == 0;
      ModSum(s - (a - v), a - (c.value + v));
    }
    Int64Unique(s, c.value);
  }

  lemma ModSum(x: int, y: int)
    requires x % Two64 == 0 && y % Two64 == 0
    ensures (x + y) % Two64 == 0
  {
    var p, q := x / Two64, y / Two64;
    assert x == p * Two64;
    assert y == q * Two64;
    assert x + y == (p + q) * Two64;
  }

  /** Two `int64_t` values that agree modulo 2^64 are equal. */
  lemma Int64Unique(a: int, b: int)
    requires IsInt64(a) && IsInt64(b) && (a - b) % Two64 == 0
    ensures a == b
  {
    var k := (a - b) / Two64;
    assert a - b == k * Two64;
  }

  /** `Set` then `Clear` hands back what was set. */
  lemma ClearAfterSet(c: Counter, v: int)
    requires c.Valid() && IsInt64(v)
    ensures Clear(Set(c, v).0).1 == v
    ensures Get(Clear(c).0) == 0
  {
  }
}

=== FILE: logging.dfy ===
/** The logging library (common/logging.h, common/logging.cc), one call at a
    time: the level letter and the shape of a formatted line, the threshold
    and abort rule of `Log`, the limit setters, and the retention of old log
    files. The globals become a `Logger` value. The clock, the thread id, the
    `printf` formatting and the file system are parameters: `stamp` is the
    time and thread-id text of a line, `msg` the formatted message, `stat`
    answers `lstat` for a path (`None` when it fails) and a directory listing
    is a sequence of entry names (`None` when `opendir` fails). */
module Logging {
  import opened Bytes
  import opened Outcomes
  import opened Numerals

  const Debug: int := 2
  const Info: int := 4
  const Warning: int := 8
  const Fatal: int := 16

  /** The second, larger formatting buffer; a longer line is cut to fit. */
  const LineCap: nat := 30000

  const LetterV: byte := 86
  const LetterD: byte := 68
  const LetterI: byte := 73
  const LetterW: byte := 87
  const LetterF: byte := 70

  /** The letter that opens a line: one per band of levels. */
  function LevelChar(level: int): (c: byte)
    ensures c == LetterV <==> level < Debug
    ensures c == LetterD <==> Debug <= level < Info
    ensures c == LetterI <==> Info <= level < Warning
    ensures c == LetterW <==> Warning <= level < Fatal
    ensures c == LetterF <==> Fatal <= level
  {
    if level < Debug then LetterV
    else if level < Info then LetterD
    else if level < Warning then LetterI
    else if level < Fatal then LetterW
    else LetterF
  }

  /** The rank of a letter in the order V, D, I, W, F. */
  function Rank(c: byte): nat
  {
    if c == LetterV then 0
    else if c == LetterD then 1
    else if c == LetterI then 2
    else if c == LetterW then 3
    else 4
  }

  /** A more severe level never gets a less severe letter. */
  lemma LevelCharMonotone(a: int, b: int)
    requires a <= b
    ensures Rank(LevelChar(a)) <= Rank(LevelChar(b))
  {
  }

  /** The text before any cut: letter, space, time and thread id, message. */
  function LineText(level: int, stamp: Bytes, msg: Bytes): (t: Bytes)
  {
    [LevelChar(level), Space] + stamp + msg
  }

  /** How many bytes of the text a line keeps: all of it when it fits the
      larger buffer, otherwise one less than the buffer. */
  function Kept(text: Bytes): (n: nat)
  {
    if |text| < LineCap then |text| else LineCap - 1
  }

  /** `Logv`'s line: the text, cut to the larger buffer when it does not
      fit, followed by a newline unless it already ends with one. The first,
      500-byte buffer only decides where the line is built. */
  function FormatLine(level: int, stamp: Bytes, msg: Bytes): (r: Bytes)
    ensures var text := LineText(level, stamp, msg);
      text[..Kept(text)] <= r && Kept(text) <= |r| <= Kept(text) + 1
    ensures |r| <= LineCap && r[|r| - 1] == Newline
    ensures var text := LineText(level, stamp, msg);
      |r| == Kept(text) <==> text[Kept(text) - 1] == Newline
    ensures r[0] == LevelChar(level) && r[1] == Space
  {
    var text := LineText(level, stamp, msg);
    var body := text[..Kept(text)];
    if body[|body| - 1] == Newline then body else body + [Newline]
  }

  /** A line that fits opens with the letter, the space and the stamp, and
      carries the whole message, with one newline added when the message
      does not end with one. */
  lemma FormatLineMessage(level: int, stamp: Bytes, msg: Bytes)
    requires |LineText(level, stamp, msg)| < LineCap && msg != []
    ensures var r := FormatLine(level, stamp, msg);
      var head := 2 + |stamp|;
      r[..head] == [LevelChar(level), Space] + stamp &&
      (msg[|msg| - 1] == Newline ==> r[head..] == msg) &&
      (msg[|msg| - 1] != Newline ==> r[head..] == msg + [Newline])
  {
    var text := LineText(level, stamp, msg);
    var r := FormatLine(level, stamp, msg);
    var head := 2 + |stamp|;
    assert text[..Kept(text)] == text;
    assert text[head..] == msg;
    assert text[|text| - 1] == msg[|msg| - 1];
  }

  /** What one `Log` call does: the line handed to the writer, if any, and
      whether the process aborts afterwards. */
  datatype Logged = Logged(line: Option<Bytes>, aborted: bool)

  /** `Log`: a line is written when the level reaches the threshold, and a
      fatal level aborts whether or not it was written. */
  function Log(threshold: int, level: int, stamp: Bytes, msg: Bytes): (r: Logged)
    ensures r.line.Some? <==> level >= threshold
    ensures r.line.Some? ==> r.line.value == FormatLine(level, stamp, msg)
    ensures r.aborted <==> level >= Fatal
  {
    Logged(if level >= threshold then Some(FormatLine(level, stamp, msg)) else None, level >= Fatal)
  }

  /** Under the default threshold a fatal message is written, with the
      letter F, before the process stops; a debug message is dropped. */
  lemma DefaultThreshold(stamp: Bytes, msg: Bytes)
    ensures var r := Log(Info, Fatal, stamp, msg);
      r.aborted && r.line.Some? && r.line.value[0] == LetterF
    ensures Log(Info, Debug, stamp, msg) == Logged(None, false)
  {
  }

  /** What `lstat` reports about a path. */
  datatype Stat = Stat(regular: bool, size: int)

  /** The global state of the library. `files` is the ordered set of log
      files under retention (`g_log_set`), `total` the byte count the
      retention believes they hold (`current_total_size`). */
  datatype Logger = Logger(level: int, size: int, count: int, sizeLimit: int,
                           fileName: Bytes, files: seq<Bytes>, total: int)
  {
    /** At most one retention limit is set, and the set is ordered. */
    predicate Valid() {
      0 <= count <= Int32Max && 0 <= sizeLimit && (count == 0 || sizeLimit == 0) && Sorted(files)
    }
  }

  /** The state before any call: INFO threshold, no limits, no files. */
  function Initial(): (st: Logger)
    ensures st.Valid() && st.files == [] && st.level == Info
  {
    Logger(Info, 0, 0, 0, [], [], 0)
  }

  predicate Sorted(xs: seq<Bytes>)
  {
    forall i, j | 0 <= i < j < |xs| :: Less(xs[i], xs[j])
  }

  /** Below the head of an ordered sequence is below all of it. */
  lemma {:induction false} BelowHead(x: Bytes, xs: seq<Bytes>)
    requires Sorted(xs) && xs != [] && Less(x, xs[0])
    ensures forall j | 0 <= j < |xs| :: Less(x, xs[j])
  {
    forall j | 0 < j < |xs|
      ensures Less(x, xs[j])
    {
      LessTransitive(x, xs[0], xs[j]);
    }
  }

  /** An ordered sequence stays ordered when something below all of it is
      put in front. */
  lemma ConsSorted(x: Bytes, xs: seq<Bytes>)
    requires Sorted(xs) && forall y | y in xs :: Less(x, y)
    ensures Sorted([x] + xs)
  {
    var r := [x] + xs;
    forall i, j | 0 <= i < j < |r|
      ensures Less(r[i], r[j])
    {
      if i > 0 {
        assert r[i] == xs[i - 1] && r[j] == xs[j - 1];
      } else {
        assert r[j] in xs;
      }
    }
  }

  /** `std::set::insert`: the ordered set with `x` added once. */
  function Insert(xs: seq<Bytes>, x: Bytes): (r: seq<Bytes>)
    requires Sorted(xs)
    ensures Sorted(r)
    ensures forall y :: y in r <==> y in xs || y == x
  {
    if xs == [] then [x]
    else if x == xs[0] then xs
    else if Less(x, xs[0]) then
      BelowHead(x, xs);
      ConsSorted(x, xs);
      [x] + xs
    else
      LessTotal(x, xs[0]);
      var t := Insert(xs[1..], x);
      assert forall y | y in xs[1..] :: Less(xs[0], y) by {
        forall y | y in xs[1..] ensures Less(xs[0], y) {
          var j :| 0 <= j < |xs[1..]| && xs[1..][j] == y;
          assert xs[j + 1] == y;
        }
      }
      ConsSorted(xs[0], t);
      assert xs == [xs[0]] + xs[1..];
      [xs[0]] + t
  }

  /** Inserting every name of a list, in order. */
  function InsertAll(xs: seq<Bytes>, ys: seq<Bytes>): (r: seq<Bytes>)
    requires Sorted(xs)
    ensures Sorted(r)
    ensures forall y :: y in r <==> y in xs || y in ys
    decreases |ys|
  {
    if ys == [] then xs
    else
      assert ys == [ys[0]] + ys[1..];
      InsertAll(Insert(xs, ys[0]), ys[1..])
  }

  /** The loop condition shared by both retention loops. */
  predicate Over(files: seq<Bytes>, total: int, count: int, limit: int)
  {
    (count != 0 && |files| > count) || (limit != 0 && total > limit)
  }

  /** Why a retention loop stopped: the limits hold; the set ran empty and
      the loop left; an `lstat` failed; or the set ran empty and the loop
      spins without end. */
  datatype Stop = Within | Emptied | StatFailed | Spins

  datatype Eviction = Eviction(files: seq<Bytes>, total: int, removed: seq<Bytes>, stop: Stop)

  /** The sizes `lstat` reports for a sequence of paths. */
  function Sizes(xs: seq<Bytes>, stat: Bytes -> Option<Stat>): int
    requires forall i | 0 <= i < |xs| :: stat(xs[i]).Some?
  {
    if xs == [] then 0 else stat(xs[0]).value.size + Sizes(xs[1..], stat)
  }

  /** The retention loop: while a limit is exceeded, remove the smallest
      name and subtract the size `lstat` reports for it. `breakWhenEmpty`
      selects `GetNewLog`'s loop, which leaves when the set is empty;
      `RecoverHistory`'s loop has no such exit. */
  function Evict(files: seq<Bytes>, total: int, count: int, limit: int,
                 stat: Bytes -> Option<Stat>, breakWhenEmpty: bool): (r: Eviction)
    ensures r.removed + r.files == files
    ensures forall i | 0 <= i < |r.removed| :: stat(r.removed[i]).Some?
    ensures r.total == total - Sizes(r.removed, stat)
    ensures r.stop == Within <==> !Over(r.files, r.total, count, limit)
    ensures r.stop == Emptied ==> breakWhenEmpty && r.files == []
    ensures r.stop == Spins ==> !breakWhenEmpty && r.files == []
    ensures r.stop == StatFailed ==> r.files != [] && stat(r.files[0]).None?
    decreases |files|
  {
    if !Over(files, total, count, limit) then Eviction(files, total, [], Within)
    else if files == [] then Eviction(files, total, [], if breakWhenEmpty then Emptied else Spins)
    else match stat(files[0])
      case None => Eviction(files, total, [], StatFailed)
      case Some(s) =>
        var rest := Evict(files[1..], total - s.size, count, limit, stat, breakWhenEmpty);
        PrependRemoved(files, rest.removed, rest.files, stat);
        Eviction(rest.files, rest.total, [files[0]] + rest.removed, rest.stop)
  }

  /** Removing the head in front of what the rest of the loop removed
      still splits the set, with the head's size added. */
  lemma PrependRemoved(xs: seq<Bytes>, a: seq<Bytes>, b: seq<Bytes>, stat: Bytes -> Option<Stat>)
    requires xs != [] && a + b == xs[1..] && stat(xs[0]).Some?
    requires forall i | 0 <= i < |a| :: stat(a[i]).Some?
    ensures ([xs[0]] + a) + b == xs
    ensures forall i | 0 <= i < |[xs[0]] + a| :: stat(([xs[0]] + a)[i]).Some?
    ensures Sizes([xs[0]] + a, stat) == stat(xs[0]).value.size + Sizes(a, stat)
  {
    assert ([xs[0]] + a)[1..] == a;
  }

  /** Eviction removes the smallest names first: every removed name sorts
      before every kept one. */
  lemma EvictsOldestFirst(files: seq<Bytes>, total: int, count: int, limit: int,
                          stat: Bytes -> Option<Stat>, breakWhenEmpty: bool)
    requires Sorted(files)
    ensures var r := Evict(files, total, count, limit, stat, breakWhenEmpty);
      Sorted(r.files) &&
      forall i, j | 0 <= i < |r.removed| && 0 <= j < |r.files| :: Less(r.removed[i], r.files[j])
  {
    var r := Evict(files, total, count, limit, stat, breakWhenEmpty);
    SortedSplit(r.removed, r.files);
  }

  /** The two parts of an ordered sequence are ordered, and the first lies
      below the second. */
  lemma SortedSplit(a: seq<Bytes>, b: seq<Bytes>)
    requires Sorted(a + b)
    ensures Sorted(b)
    ensures forall i, j | 0 <= i < |a| && 0 <= j < |b| :: Less(a[i], b[j])
  {
    var s := a + b;
    forall i, j | 0 <= i < |a| && 0 <= j < |b|
      ensures Less(a[i], b[j])
    {
      assert a[i] == s[i] && b[j] == s[|a| + j];
    }
    forall i, j | 0 <= i < j < |b|
      ensures Less(b[i], b[j])
    {
      assert b[i] == s[|a| + i] && b[j] == s[|a| + j];
    }
  }

  /** Eviction only removes: every name kept was in the set before. */
  lemma EvictKeepsMembers(files: seq<Bytes>, total: int, count: int, limit: int,
                          stat: Bytes -> Option<Stat>, breakWhenEmpty: bool)
    ensures var r := Evict(files, total, count, limit, stat, breakWhenEmpty);
      forall y | y in r.files :: y in files
  {
    var r := Evict(files, total, count, limit, stat, breakWhenEmpty);
    forall y | y in r.files
      ensures y in files
    {
      var j :| 0 <= j < |r.files| && r.files[j] == y;
      assert files[|r.removed| + j] == y;
    }
  }

  /** With only a count limit and every file visible to `lstat`, eviction
      keeps exactly the `count` largest names. */
  lemma {:induction false} EvictKeepsNewest(files: seq<Bytes>, total: int, count: int,
                                            stat: Bytes -> Option<Stat>, breakWhenEmpty: bool)
    requires count > 0
    requires forall i | 0 <= i < |files| :: stat(files[i]).Some?
    ensures var r := Evict(files, total, count, 0, stat, breakWhenEmpty);
      r.stop == Within &&
      r.files == files[|files| - (if |files| <= count then |files| else count)..]
    decreases |files|
  {
    if |files| > count {
      var s := stat(files[0]).value;
      EvictDropsHead(files, total, count, 0, stat, breakWhenEmpty);
      EvictKeepsNewest(files[1..], total - s.size, count, stat, breakWhenEmpty);
      TailSuffix(files, count);
    } else {
      assert !Over(files, total, count, 0);
    }
  }

  /** One turn of the retention loop: over the limits with a visible head,
      the loop ends as it does on the tail. */
  lemma EvictDropsHead(files: seq<Bytes>, total: int, count: int, limit: int,
                       stat: Bytes -> Option<Stat>, breakWhenEmpty: bool)
    requires Over(files, total, count, limit) && files != [] && stat(files[0]).Some?
    ensures var r := Evict(files, total, count, limit, stat, breakWhenEmpty);
      var t := Evict(files[1..], total - stat(files[0]).value.size, count, limit, stat, breakWhenEmpty);
      r.files == t.files && r.stop == t.stop
  {
  }

  lemma TailSuffix(xs: seq<Bytes>, k: int)
    requires 0 < k < |xs|
    ensures xs[1..][|xs[1..]| - k..] == xs[|xs| - k..]
  {
  }

  /** `GetNewLog`'s loop never spins: it stops within the limits, on an
      empty set, or at a failing `lstat`. */
  lemma NewLogLoopEnds(files: seq<Bytes>, total: int, count: int, limit: int, stat: Bytes -> Option<Stat>)
    ensures var r := Evict(files, total, count, limit, stat, true);
      r.stop != Spins &&
      (r.stop == Within || r.stop == StatFailed || r.files == [])
  {
  }

  /** `SetLogLevel`. */
  function SetLogLevel(st: Logger, level: int): (r: Logger)
    ensures r.level == level && r.(level := st.level) == st
  {
    st.(level := level)
  }

  const Mebibyte: int := 0x10_0000

  /** `SetLogSize`: a negative size is refused; otherwise the size in MB is
      kept in bytes (a shift by 20 in 64 bits, which cannot overflow for an
      `int`). */
  function SetLogSize(st: Logger, size: int): (r: (Logger, bool))
    requires IsInt32(size)
    ensures r.1 <==> size >= 0
    ensures !r.1 ==> r.0 == st
    ensures r.1 ==> IsInt64(r.0.size) && r.0.size / Mebibyte == size && r.0.size % Mebibyte == 0
    ensures r.0.(size := st.size) == st
  {
    if size < 0 then (st, false) else (st.(size := size * Mebibyte), true)
  }

  /** The directory and the file name `RecoverHistory` looks for: split at
      the last '/', or "./" and the whole path. */
  function SplitPath(path: Bytes): (r: (Bytes, Bytes))
    ensures LastIndexOf(path, Slash).Some? ==> r.0 + r.1 == path && |r.0| > 0 && r.0[|r.0| - 1] == Slash
    ensures forall j | 0 <= j < |r.1| :: r.1[j] != Slash
    ensures LastIndexOf(path, Slash).None? ==> r == ([46, Slash], path)
  {
    match LastIndexOf(path, Slash)
    case None => ([46, Slash], path)
    case Some(i) =>
      assert path == path[..i + 1] + path[i + 1..];
      (path[..i + 1], path[i + 1..])
  }

  /** `find` succeeds: `part` occurs somewhere in `s` (the empty string
      occurs everywhere). */
  predicate Contains(s: Bytes, part: Bytes)
  {
    part <= s || (s != [] && Contains(s[1..], part))
  }

  /** What the directory walk collected: the paths of the regular files
      whose names contain the log name, the sum of their sizes, and whether
      the walk finished (an `lstat` failure stops it after the sizes seen so
      far were already added). */
  datatype Listing = Listing(paths: seq<Bytes>, added: int, complete: bool)

  function Walk(dir: Bytes, log: Bytes, entries: seq<Bytes>, stat: Bytes -> Option<Stat>): (r: Listing)
    ensures forall i | 0 <= i < |r.paths| :: stat(r.paths[i]).Some? && stat(r.paths[i]).value.regular
    ensures r.added == Sizes(r.paths, stat)
    decreases |entries|
  {
    if entries == [] then Listing([], 0, true)
    else
      var name := entries[0];
      var rest := Walk(dir, log, entries[1..], stat);
      if !Contains(name, log) then rest
      else match stat(dir + name)
        case None => Listing([], 0, false)
        case Some(s) =>
          if !s.regular then rest
          else
            var paths := [dir + name] + rest.paths;
            assert paths[1..] == rest.paths;
            Listing(paths, s.size + rest.added, rest.complete)
  }

  /** `path` is the directory joined to one of `entries` whose name
      contains the log name. */
  predicate NamesEntry(dir: Bytes, log: Bytes, entries: seq<Bytes>, path: Bytes)
  {
    exists k | 0 <= k < |entries| :: path == dir + entries[k] && Contains(entries[k], log)
  }

  /** Every path the walk collects is the directory joined to an entry
      whose name contains the log name. */
  lemma {:induction false} WalkSound(dir: Bytes, log: Bytes, entries: seq<Bytes>, stat: Bytes -> Option<Stat>)
    ensures forall i | 0 <= i < |Walk(dir, log, entries, stat).paths| ::
      NamesEntry(dir, log, entries, Walk(dir, log, entries, stat).paths[i])
    decreases |entries|
  {
    if entries != [] {
      var tail := entries[1..];
      WalkSound(dir, log, tail, stat);
      var r := Walk(dir, log, entries, stat);
      var rest := Walk(dir, log, tail, stat);
      if !Contains(entries[0], log) || stat(dir + entries[0]).None? || !stat(dir + entries[0]).value.regular {
        assert r.paths == rest.paths || r.paths == [];
        WalkSoundTail(dir, log, entries, tail, rest.paths, r.paths, 0);
      } else {
        assert r.paths == [dir + entries[0]] + rest.paths;
        WalkSoundTail(dir, log, entries, tail, rest.paths, r.paths, 1);
      }
    }
  }

  /** The closing step of `WalkSound`: `paths` is `found` after `skip`
      entries at its front that name the first entry, and every path of
      `found` names a later entry. */
  lemma WalkSoundTail(dir: Bytes, log: Bytes, entries: seq<Bytes>, tail: seq<Bytes>, found: seq<Bytes>, paths: seq<Bytes>, skip: int)
    requires entries != [] && tail == entries[1..] && 0 <= skip <= 1
    requires skip == 0 ==> paths == [] || paths == found
    requires skip == 1 ==> paths == [dir + entries[0]] + found && Contains(entries[0], log)
    requires forall i | 0 <= i < |found| :: NamesEntry(dir, log, tail, found[i])
    ensures forall i | 0 <= i < |paths| :: NamesEntry(dir, log, entries, paths[i])
  {
    forall i | 0 <= i < |paths|
      ensures NamesEntry(dir, log, entries, paths[i])
    {
      if skip == 1 && i == 0 {
        assert paths[0] == dir + entries[0];
      } else if paths != [] {
        var j := i - skip;
        assert paths[i] == found[j];
        assert NamesEntry(dir, log, tail, found[j]);
        var k :| 0 <= k < |tail| && found[j] == dir + tail[k] && Contains(tail[k], log);
        assert tail[k] == entries[k + 1];
      }
    }
  }

  /** A walk that finishes has found every regular file whose name
      contains the log name. */
  lemma {:induction false} WalkComplete(dir: Bytes, log: Bytes, entries: seq<Bytes>, stat: Bytes -> Option<Stat>)
    ensures var r := Walk(dir, log, entries, stat);
      r.complete ==> forall k | 0 <= k < |entries| && Contains(entries[k], log) ::
        stat(dir + entries[k]).Some? && (stat(dir + entries[k]).value.regular ==> dir + entries[k] in r.paths)
    decreases |entries|
  {
    if entries != [] {
      WalkComplete(dir, log, entries[1..], stat);
      var r := Walk(dir, log, entries, stat);
      var rest := Walk(dir, log, entries[1..], stat);
      if r.complete {
        forall k | 0 <= k < |entries| && Contains(entries[k], log)
          ensures stat(dir + entries[k]).Some? && (stat(dir + entries[k]).value.regular ==> dir + entries[k] in r.paths)
        {
          if k > 0 {
            assert entries[k] == entries[1..][k - 1];
          }
        }
      }
    }
  }

  /** `RecoverHistory` with either retention loop: walk the log's directory,
      add the sizes found to the total, put the paths found into the set
      and evict. The listing is `None` when `opendir` fails. */
  function RecoverWith(st: Logger, listing: Option<seq<Bytes>>, stat: Bytes -> Option<Stat>,
                       breakWhenEmpty: bool): (r: (Logger, Stop))
    requires st.Valid()
    ensures r.0.Valid()
    ensures r.0.(files := st.files, total := st.total) == st
    ensures r.1 == Spins ==> !breakWhenEmpty && r.0.files == [] && r.0.total > r.0.sizeLimit > 0
  {
    match listing
    case None => (st, StatFailed)
    case Some(entries) =>
      var (dir, log) := SplitPath(st.fileName);
      var w := Walk(dir, log, entries, stat);
      if !w.complete then (st.(total := st.total + w.added), StatFailed)
      else
        var files := InsertAll(st.files, w.paths);
        var e := Evict(files, st.total + w.added, st.count, st.sizeLimit, stat, breakWhenEmpty);
        EvictsOldestFirst(files, st.total + w.added, st.count, st.sizeLimit, stat, breakWhenEmpty);
        (st.(files := e.files, total := e.total), e.stop)
  }

  /** `RecoverHistory` as written: its loop spins once the set is empty and
      the total is still above the limit. */
  function RecoverHistoryAsWritten(st: Logger, listing: Option<seq<Bytes>>,
                                   stat: Bytes -> Option<Stat>): (r: Option<(Logger, bool)>)
    requires st.Valid()
    ensures r.None? <==> RecoverWith(st, listing, stat, false).1 == Spins
    ensures r.Some? ==> r.value.0 == RecoverWith(st, listing, stat, false).0 && r.value.0.Valid()
    ensures r.Some? ==> (r.value.1 <==> RecoverWith(st, listing, stat, false).1 == Within)
  {
    var (s, stop) := RecoverWith(st, listing, stat, false);
    if stop == Spins then None else Some((s, stop == Within))
  }

  /** `RecoverHistory` with the exit `GetNewLog`'s loop has: it always
      returns, and reports failure only for `opendir` or `lstat`. */
  function RecoverHistory(st: Logger, listing: Option<seq<Bytes>>, stat: Bytes -> Option<Stat>): (r: (Logger, bool))
    requires st.Valid()
    ensures r.0.Valid() && r.0.(files := st.files, total := st.total) == st
    ensures r.1 <==> RecoverWith(st, listing, stat, true).1 != StatFailed
    ensures r.1 ==> r.0.files == [] || !Over(r.0.files, r.0.total, r.0.count, r.0.sizeLimit)
    ensures listing.None? ==> !r.1 && r.0 == st
  {
    var (s, stop) := RecoverWith(st, listing, stat, true);
    (s, stop != StatFailed)
  }

  /** `SetLogCount`: refused for a negative count or when a size limit is
      set; otherwise the count is kept and the history recovered. */
  function SetLogCount(st: Logger, count: int, listing: Option<seq<Bytes>>,
                       stat: Bytes -> Option<Stat>): (r: (Logger, bool))
    requires st.Valid() && IsInt32(count)
    ensures r.0.Valid()
    ensures count < 0 || st.sizeLimit != 0 ==> r == (st, false)
    ensures count >= 0 && st.sizeLimit == 0 ==> r.0.count == count
  {
    if count < 0 || st.sizeLimit != 0 then (st, false)
    else RecoverHistory(st.(count := count), listing, stat)
  }

  /** `SetLogSizeLimit`: refused for a negative size or when a count limit
      is set; otherwise the limit is kept in bytes and the history
      recovered. */
  function SetLogSizeLimit(st: Logger, size: int, listing: Option<seq<Bytes>>,
                           stat: Bytes -> Option<Stat>): (r: (Logger, bool))
    requires st.Valid() && IsInt32(size)
    ensures r.0.Valid()
    ensures size < 0 || st.count != 0 ==> r == (st, false)
    ensures size >= 0 && st.count == 0 ==> r.0.sizeLimit / Mebibyte == size && IsInt64(r.0.sizeLimit)
  {
    if size < 0 || st.count != 0 then (st, false)
    else RecoverHistory(st.(sizeLimit := size * Mebibyte), listing, stat)
  }

  /** `SetLogSizeLimit` over the loop as written; `None` when it spins. */
  function SetLogSizeLimitAsWritten(st: Logger, size: int, listing: Option<seq<Bytes>>,
                                    stat: Bytes -> Option<Stat>): (r: Option<(Logger, bool)>)
    requires st.Valid() && IsInt32(size)
    ensures size < 0 || st.count != 0 ==> r == Some((st, false))
    ensures r.Some? ==> r.value.0.Valid()
  {
    if size < 0 || st.count != 0 then Some((st, false))
    else RecoverHistoryAsWritten(st.(sizeLimit := size * Mebibyte), listing, stat)
  }

  /** The two limits exclude each other: whichever setter runs, at most one
      of them is nonzero afterwards. */
  lemma OneLimitAtATime(st: Logger, n: int, listing: Option<seq<Bytes>>, stat: Bytes -> Option<Stat>)
    requires st.Valid() && IsInt32(n)
    ensures var a := SetLogCount(st, n, listing, stat).0; a.count == 0 || a.sizeLimit == 0
    ensures var b := SetLogSizeLimit(st, n, listing, stat).0; b.count == 0 || b.sizeLimit == 0
    ensures st.sizeLimit != 0 ==> !SetLogCount(st, n, listing, stat).1
    ensures st.count != 0 ==> !SetLogSizeLimit(st, n, listing, stat).1
  {
  }

  /** `GetNewLog`: the new file's path is the log name, a dot and the time
      stamp. When it cannot be opened nothing changes; otherwise the path
      joins the set (its size is not added to the total) and the loop that
      leaves on an empty set evicts. */
  function GetNewLog(st: Logger, stamp: Bytes, openOk: bool, stat: Bytes -> Option<Stat>): (r: (Logger, bool))
    requires st.Valid()
    ensures r.0.Valid()
    ensures !openOk ==> r == (st, false)
    ensures r.0.(files := st.files, total := st.total) == st
    ensures var path := st.fileName + [46] + stamp;
      openOk && !Over(Insert(st.files, path), st.total, st.count, st.sizeLimit) ==>
        r.1 && path in r.0.files && r.0.total == st.total
    ensures r.1 ==> r.0.files == [] || !Over(r.0.files, r.0.total, r.0.count, r.0.sizeLimit)
    ensures forall y | y in r.0.files :: y in st.files || y == st.fileName + [46] + stamp
  {
    if !openOk then (st, false)
    else
      var files := Insert(st.files, st.fileName + [46] + stamp);
      var e := Evict(files, st.total, st.count, st.sizeLimit, stat, true);
      EvictsOldestFirst(files, st.total, st.count, st.sizeLimit, stat, true);
      EvictKeepsMembers(files, st.total, st.count, st.sizeLimit, stat, true);
      (st.(files := e.files, total := e.total), e.stop != StatFailed)
  }

  /** `SetLogFile`: the name is kept and a new file begun. */
  function SetLogFile(st: Logger, path: Bytes, stamp: Bytes, openOk: bool,
                      stat: Bytes -> Option<Stat>): (r: (Logger, bool))
    requires st.Valid()
    ensures r.0.Valid() && r.0.fileName == CString(path)
    ensures !openOk ==> r == (st.(fileName := CString(path)), false)
    ensures r.0.(files := st.files, total := st.total, fileName := st.fileName) == st
    ensures var made := CString(path) + [46] + stamp;
      openOk && !Over(Insert(st.files, made), st.total, st.count, st.sizeLimit) ==>
        r.1 && made in r.0.files && r.0.total == st.total
    ensures r.1 ==> r.0.files == [] || !Over(r.0.files, r.0.total, r.0.count, r.0.sizeLimit)
    ensures forall y | y in r.0.files :: y in st.files || y == CString(path) + [46] + stamp
  {
    GetNewLog(st.(fileName := CString(path)), stamp, openOk, stat)
  }

  /** With a count limit, after opening enough new files the set holds
      exactly `count` of them. */
  lemma NewLogKeepsCount(st: Logger, stamp: Bytes, stat: Bytes -> Option<Stat>)
    requires st.Valid() && st.count > 0 && |st.files| == st.count
    requires st.fileName + [46] + stamp !in st.files
    requires forall y | y in st.files :: stat(y).Some?
    requires stat(st.fileName + [46] + stamp).Some?
    ensures var r := GetNewLog(st, stamp, true, stat); r.1 && |r.0.files| == st.count
  {
    var path := st.fileName + [46] + stamp;
    var files := Insert(st.files, path);
    assert |files| == st.count + 1 by {
      assert Sorted(files);
      InsertGrows(st.files, path);
    }
    assert forall i | 0 <= i < |files| :: stat(files[i]).Some? by {
      forall i | 0 <= i < |files| ensures stat(files[i]).Some? {
        assert files[i] in files;
      }
    }
    EvictKeepsNewest(files, st.total, st.count, stat, true);
  }

  /** Inserting a new name makes the set one longer. */
  lemma {:induction false} InsertGrows(xs: seq<Bytes>, x: Bytes)
    requires Sorted(xs) && x !in xs
    ensures |Insert(xs, x)| == |xs| + 1
  {
    if xs != [] && x != xs[0] && !Less(x, xs[0]) {
      assert x !in xs[1..];
      assert Sorted(xs[1..]) by {
        forall i, j | 0 <= i < j < |xs[1..]| ensures Less(xs[1..][i], xs[1..][j]) {
          assert xs[1..][i] == xs[i + 1] && xs[1..][j] == xs[j + 1];
        }
      }
      InsertGrows(xs[1..], x);
    }
  }

  const MiB25: int := 25 * Mebibyte

  const LogA: Bytes := [100, 47, 120, 46, 49]
  const LogB: Bytes := [100, 47, 120, 46, 50]

  /** A directory "d/" holding two regular 25 MB logs of "d/x". */
  function TwoLogs(p: Bytes): Option<Stat>
  {
    if p == LogA || p == LogB then Some(Stat(true, MiB25)) else None
  }

  lemma TwoLogsSplit()
    ensures SplitPath([100, 47, 120]) == ([100, 47], [120])
  {
    var path: Bytes := [100, 47, 120];
    assert path[..2] == [100, 47];
    assert LastIndexOf(path[..2], 47) == Some(1);
  }

  lemma TwoLogsWalk()
    ensures Walk([100, 47], [120], [[120, 46, 49], [120, 46, 50]], TwoLogs) == Listing([LogA, LogB], 2 * MiB25, true)
  {
    var entries: seq<Bytes> := [[120, 46, 49], [120, 46, 50]];
    assert Contains(entries[0], [120]) && Contains(entries[1], [120]);
    assert [100, 47] + entries[0] == LogA && [100, 47] + entries[1] == LogB;
    assert entries[1..][1..] == [];
  }

  lemma TwoLogsSet()
    ensures InsertAll([], [LogA, LogB]) == [LogA, LogB]
    ensures InsertAll([LogA, LogB], [LogA, LogB]) == [LogA, LogB]
  {
    assert Less(LogA, LogB) by {
      assert LogA[1..][1..][1..][1..] == [49] && LogB[1..][1..][1..][1..] == [50];
    }
    LessAsymmetric(LogA, LogB);
    assert LogA != LogB;
    assert Insert([], LogA) == [LogA];
    assert Insert([LogA], LogB) == [LogA] + Insert([], LogB);
    assert InsertAll([], [LogA, LogB]) == InsertAll([LogA], [LogB]);
    assert InsertAll([LogA], [LogB]) == InsertAll([LogA, LogB], []);
    assert Insert([LogA, LogB], LogA) == [LogA, LogB];
    assert Insert([LogA, LogB], LogB) == [LogA] + Insert([LogB], LogB);
    assert InsertAll([LogA, LogB], [LogA, LogB]) == InsertAll([LogA, LogB], [LogB]);
    assert InsertAll([LogA, LogB], [LogB]) == InsertAll([LogA, LogB], []);
  }

  const TwoLogsListing: Option<seq<Bytes>> := Some([[120, 46, 49], [120, 46, 50]])

  /** The state of the example after its first call. */
  function AfterFirst(): (st: Logger)
    ensures st.Valid()
  {
    TwoLogsSet();
    Logger(Info, 0, 0, 100 * Mebibyte, [100, 47, 120], [LogA, LogB], 2 * MiB25)
  }

  /** The first call: 50 MB is within 100 MB, nothing is evicted. */
  lemma TwoLogsFirst(breakWhenEmpty: bool)
    ensures RecoverWith(Logger(Info, 0, 0, 100 * Mebibyte, [100, 47, 120], [], 0),
                        TwoLogsListing, TwoLogs, breakWhenEmpty) == (AfterFirst(), Within)
  {
    TwoLogsSplit();
    TwoLogsWalk();
    TwoLogsSet();
    var e := Evict([LogA, LogB], 2 * MiB25, 0, 100 * Mebibyte, TwoLogs, breakWhenEmpty);
    assert e == Eviction([LogA, LogB], 2 * MiB25, [], Within);
  }

  /** The second call: 100 MB recorded, both files evicted, 50 MB left. */
  lemma TwoLogsSecond(breakWhenEmpty: bool)
    ensures var r := RecoverWith(AfterFirst().(sizeLimit := 10 * Mebibyte), TwoLogsListing, TwoLogs, breakWhenEmpty);
      r.0.files == [] && r.1 == (if breakWhenEmpty then Emptied else Spins)
  {
    TwoLogsSplit();
    TwoLogsWalk();
    TwoLogsSet();
    TwoLogsEvictBoth(breakWhenEmpty);
  }

  lemma TwoLogsEvictBoth(breakWhenEmpty: bool)
    ensures var e := Evict([LogA, LogB], 4 * MiB25, 0, 10 * Mebibyte, TwoLogs, breakWhenEmpty);
      e.files == [] && e.stop == (if breakWhenEmpty then Emptied else Spins)
  {
    var e2 := Evict([], 2 * MiB25, 0, 10 * Mebibyte, TwoLogs, breakWhenEmpty);
    assert e2.files == [] && e2.stop == (if breakWhenEmpty then Emptied else Spins);
    var e1 := Evict([LogB], 3 * MiB25, 0, 10 * Mebibyte, TwoLogs, breakWhenEmpty);
    assert [LogB][1..] == [];
    assert e1.files == [] && e1.stop == e2.stop;
    assert [LogA, LogB][1..] == [LogB];
  }

  /** `SetLogSizeLimit(100)` and then `SetLogSizeLimit(10)` over two 25 MB
      logs: the second call counts both files again, evicts both, and is
      left with 50 MB recorded against a 10 MB limit and an empty set, where
      the loop as written spins for ever. */
  lemma RecoverHistorySpins()
    ensures var first := SetLogSizeLimitAsWritten(Logger(Info, 0, 0, 0, [100, 47, 120], [], 0), 100, TwoLogsListing, TwoLogs);
      first == Some((AfterFirst(), true)) &&
      SetLogSizeLimitAsWritten(AfterFirst(), 10, TwoLogsListing, TwoLogs).None?
  {
    TwoLogsFirst(false);
    TwoLogsSecond(false);
  }

  /** With the exit, the second call of the same pair returns, with an
      empty set. */
  lemma RecoverHistoryLeaves()
    ensures SetLogSizeLimit(Logger(Info, 0, 0, 0, [100, 47, 120], [], 0), 100, TwoLogsListing, TwoLogs) == (AfterFirst(), true)
    ensures var second := SetLogSizeLimit(AfterFirst(), 10, TwoLogsListing, TwoLogs);
      second.1 && second.0.files == []
  {
    TwoLogsFirst(true);
    TwoLogsSecond(true);
  }

  /** The same two calls with the exit: the loop leaves on the empty set. */
  lemma RecoverHistoryReturns(st: Logger, listing: Option<seq<Bytes>>, stat: Bytes -> Option<Stat>)
    requires st.Valid()
    ensures RecoverWith(st, listing, stat, true).1 != Spins
    ensures var r := RecoverHistory(st, listing, stat);
      r.1 ==> r.0.files == [] || !Over(r.0.files, r.0.total, r.0.count, r.0.sizeLimit)
  {
  }
}

=== FILE: meta.dfy ===
/** The node's metadata files (storage/meta.cc): the term file and the vote
    file, to which every change is appended as a text line, and the root
    file, which holds one tab-separated "name, password" line written over
    its start.

    A file is its whole content as bytes. The reads here start at the
    beginning of the file, as they do once when the node starts. A failed
    `fflush` aborts the process. `%s` prints a C string, so a name with a
    NUL byte is written up to it. */
module Meta {
  import opened Bytes
  import opened Outcomes
  import opened Numerals

  /** `fgets(buf, 1023, …)` stores at most 1022 bytes. */
  const LineLimit: nat := 1022
  /** `%1023s` reads at most 1023 bytes of a server id. */
  const IdLimit: nat := 1023

  // ---- term file --------------------------------------------------------

  /** One line of the term file: `"%ld\n"`. */
  function TermLine(term: int): Bytes
  {
    Decimal(term) + [Newline]
  }

  /** `WriteCurrentTerm` appends the term's line; the added text reads
      back as the term. */
  function WriteCurrentTerm(file: Bytes, term: int, flushOk: bool): (r: Run<Bytes>)
    ensures r.Done? <==> flushOk
    ensures r.Done? ==> file <= r.value
    ensures r.Done? ==> ScanInt(r.value[|file|..]) == Some((Clamp64(term), [Newline]))
  {
    if !flushOk then Aborted
    else
      var r := file + TermLine(term);
      assert r[|file|..] == [] + Decimal(term) + [Newline];
      ScanDecimal([], term, [Newline]);
      Done(r)
  }

  /** `fscanf("%ld")` while it reads a number; the last number read, or
      `cur` when there is none. */
  function ScanTerms(s: Bytes, cur: int): (r: int)
    ensures IsInt64(cur) ==> IsInt64(r)
    decreases |s|
  {
    match ScanInt(s)
    case None => cur
    case Some(p) => ScanTerms(p.1, p.0)
  }

  /** `ReadCurrentTerm`: the last number of the file, or 0 when the file
      does not start with one. */
  function ReadCurrentTerm(file: Bytes): (r: int)
    ensures IsInt64(r)
    ensures ScanInt(file).None? ==> r == 0
  {
    ScanTerms(file, 0)
  }

  lemma {:induction false} AllSpace(space: Bytes)
    requires forall i | 0 <= i < |space| :: IsSpace(space[i])
    ensures ScanInt(space).None?
    ensures SpaceRun(space) == |space|
  {
    if space != [] {
      AllSpace(space[1..]);
    }
  }

  /** The term file after writing `ts` in order. */
  function TermFile(ts: seq<int>): Bytes
  {
    if ts == [] then [] else TermLine(ts[0]) + TermFile(ts[1..])
  }

  lemma {:induction false} TermFileAppend(ts: seq<int>, t: int)
    ensures TermFile(ts) + TermLine(t) == TermFile(ts + [t])
  {
    if ts != [] {
      TermFileAppend(ts[1..], t);
      assert (ts + [t])[1..] == ts[1..] + [t];
    }
  }

  lemma TermLineScans(space: Bytes, term: int, rest: Bytes)
    requires forall i | 0 <= i < |space| :: IsSpace(space[i])
    ensures ScanInt(space + TermLine(term) + rest) == Some((Clamp64(term), [Newline] + rest))
  {
    assert space + TermLine(term) + rest == space + Decimal(term) + ([Newline] + rest);
    ScanDecimal(space, term, [Newline] + rest);
  }

  lemma {:induction false} ScanTermFile(space: Bytes, ts: seq<int>, cur: int)
    requires forall i | 0 <= i < |space| :: IsSpace(space[i])
    ensures ScanTerms(space + TermFile(ts), cur) == if ts == [] then cur else Clamp64(ts[|ts| - 1])
    decreases |ts|, 1
  {
    if ts == [] {
      assert space + TermFile(ts) == space;
      AllSpace(space);
    } else {
      ScanTermFileCons(space, ts, cur);
    }
  }

  lemma {:induction false} ScanTermFileCons(space: Bytes, ts: seq<int>, cur: int)
    requires forall i | 0 <= i < |space| :: IsSpace(space[i])
    requires ts != []
    ensures ScanTerms(space + TermFile(ts), cur) == Clamp64(ts[|ts| - 1])
    decreases |ts|, 0
  {
    ScanFirstTerm(space, ts, cur);
    ScanTermFile([Newline], ts[1..], Clamp64(ts[0]));
    LastOfTail(ts);
  }

  /** Reading the first line of a term file moves on to the rest. */
  lemma ScanFirstTerm(space: Bytes, ts: seq<int>, cur: int)
    requires forall i | 0 <= i < |space| :: IsSpace(space[i])
    requires ts != []
    ensures ScanTerms(space + TermFile(ts), cur) == ScanTerms([Newline] + TermFile(ts[1..]), Clamp64(ts[0]))
  {
    var rest := TermFile(ts[1..]);
    var s := space + TermFile(ts);
    assert s == space + TermLine(ts[0]) + rest;
    TermLineScans(space, ts[0], rest);
    ScanTermsStep(s, cur, Clamp64(ts[0]), [Newline] + rest);
  }

  /** The last element after the first is the last element. */
  lemma LastOfTail<T>(ts: seq<T>)
    requires ts != []
    ensures (if ts[1..] == [] then ts[0] else ts[1..][|ts[1..]| - 1]) == ts[|ts| - 1]
  {
  }

  lemma LastVoteOfTail(vs: seq<(int, Bytes)>)
    requires vs != []
    ensures (if vs[1..] == [] then Some(ReadBack(vs[0])) else Some(ReadBack(vs[1..][|vs[1..]| - 1]))) == Some(ReadBack(vs[|vs| - 1]))
  {
    LastOfTail(vs);
  }

  lemma ScanTermsStep(s: Bytes, cur: int, term: int, rest: Bytes)
    requires ScanInt(s) == Some((term, rest))
    ensures ScanTerms(s, cur) == ScanTerms(rest, term)
  {
  }

  /** The last term written wins: a file of appended terms reads back as
      the last of them (clamped to int64 as `%ld` stores it), or 0 when none
      was written. */
  lemma LastTermWins(ts: seq<int>)
    ensures ReadCurrentTerm(TermFile(ts)) == if ts == [] then 0 else Clamp64(ts[|ts| - 1])
  {
    ScanTermFile([], ts, 0);
    assert [] + TermFile(ts) == TermFile(ts);
  }

  /** A term too large for `long` reads back as `LONG_MAX`, as glibc's
      `%ld` stores it: 10^19 is above 2^63 - 1. */
  lemma OverflowSaturates()
    ensures ReadCurrentTerm(TermFile([10000000000000000000])) == Int64Max
  {
    LastTermWins([10000000000000000000]);
  }

  /** Writing a term and reading the file back gives that term, which an
      `int64_t` term always is. */
  lemma ReadAfterWriteTerm(ts: seq<int>, t: int)
    ensures WriteCurrentTerm(TermFile(ts), t, true) == Done(TermFile(ts + [t]))
    ensures ReadCurrentTerm(WriteCurrentTerm(TermFile(ts), t, true).value) == Clamp64(t)
    ensures IsInt64(t) ==> ReadCurrentTerm(WriteCurrentTerm(TermFile(ts), t, true).value) == t
  {
    TermFileAppend(ts, t);
    LastTermWins(ts + [t]);
  }

  // ---- vote file --------------------------------------------------------

  /** One line of the vote file: `"%ld %s\n"`. */
  function VoteLine(term: int, id: Bytes): Bytes
  {
    Decimal(term) + [Space] + CString(id) + [Newline]
  }

  /** `WriteVotedFor` appends the vote's line. */
  function WriteVotedFor(file: Bytes, term: int, id: Bytes, flushOk: bool): (r: Run<Bytes>)
    ensures r.Done? <==> flushOk
    ensures r.Done? ==> file <= r.value && |file| < |r.value|
    ensures r.Done? ==> r.value[|r.value| - 1] == Newline
  {
    if !flushOk then Aborted else Done(file + VoteLine(term, id))
  }

  /** A server id that the reader gets back whole: not empty, no white
      space or NUL, and no longer than `%1023s` reads. */
  predicate IsServerId(id: Bytes)
  {
    0 < |id| <= IdLimit && forall i | 0 <= i < |id| :: !IsSpace(id[i]) && id[i] != 0
  }

  /** One `fscanf("%ld %1023s")` that converts both fields. */
  function ScanVote(s: Bytes): (r: Option<(int, Bytes, Bytes)>)
    ensures r.Some? ==> |r.value.2| < |s|
    ensures r.Some? ==> 0 < |r.value.1| <= IdLimit
    ensures r.Some? ==> IsInt64(r.value.0)
  {
    match ScanInt(s)
    case None => None
    case Some(p) =>
      match ScanWord(p.1, IdLimit)
      case None => None
      case Some(q) => Some((p.0, q.0, q.1))
  }

  /** The loop of `ReadVotedFor`: the last vote fully read. The word is
      kept as the `std::string` built from the buffer, which ends at the
      first NUL. */
  function ScanVotes(s: Bytes, last: Option<(int, Bytes)>): (r: Option<(int, Bytes)>)
    ensures (last.Some? ==> IsInt64(last.value.0)) ==> (r.Some? ==> IsInt64(r.value.0))
    decreases |s|
  {
    match ScanVote(s)
    case None => last
    case Some(v) => ScanVotes(v.2, Some((v.0, CString(v.1))))
  }

  /** `ReadVotedFor`: at most one vote, the last one in the file, whose id
      is a word of at most 1023 bytes without NUL; a last id that is empty
      once cut at its first NUL gives no vote. */
  function ReadVotedFor(file: Bytes): (r: map<int, Bytes>)
    ensures |r| <= 1
    ensures forall t | t in r :: IsServerIdText(r[t])
    ensures forall t | t in r :: IsInt64(t)
    ensures ScanVote(file).None? ==> r == map[]
  {
    match ScanVotes(file, None)
    case None => map[]
    case Some(v) =>
      if v.1 == [] then map[]
      else
        assert |v.1| <= IdLimit && NoNul(v.1) by { LastVoteHasId(file, None); }
        map[v.0 := v.1]
  }

  predicate NoNul(id: Bytes)
  {
    forall i | 0 <= i < |id| :: id[i] != 0
  }

  /** What a kept id can be: 1 to 1023 bytes, none of them NUL. */
  predicate IsServerIdText(id: Bytes)
  {
    0 < |id| <= IdLimit && NoNul(id)
  }

  /** The id the read loop keeps is at most 1023 bytes and has no NUL; it
      may be empty. */
  lemma {:induction false} LastVoteHasId(s: Bytes, last: Option<(int, Bytes)>)
    requires last.Some? ==> |last.value.1| <= IdLimit && NoNul(last.value.1)
    ensures ScanVotes(s, last).Some? ==> |ScanVotes(s, last).value.1| <= IdLimit && NoNul(ScanVotes(s, last).value.1)
    decreases |s|
  {
    match ScanVote(s)
    case None =>
    case Some(v) => LastVoteHasId(v.2, Some((v.0, CString(v.1))));
  }

  /** An id that starts with NUL reads as no vote: "5 \0a" gives the empty
      map. */
  lemma NulIdGivesNoVote()
    ensures ReadVotedFor([53, Space, 0, 97]) == map[]
  {
    var file: Bytes := [53, Space, 0, 97];
    assert Decimal(5) == [53];
    assert file == [] + Decimal(5) + [Space, 0, 97];
    ScanDecimal([], 5, [Space, 0, 97]);
    assert Clamp64(5) == 5;
    assert [Space, 0, 97] == [Space] + [0, 97] + [];
    ScanWholeWord([Space], [0, 97], [], IdLimit);
    assert ScanVote(file) == Some((5, [0, 97], []));
    assert CString([0, 97]) == [];
    assert ScanVotes(file, None) == ScanVotes([], Some((5, [])));
    assert ScanInt([]) == None;
  }

  /** The vote file after writing `vs` in order. */
  function VoteFile(vs: seq<(int, Bytes)>): Bytes
  {
    if vs == [] then [] else VoteLine(vs[0].0, vs[0].1) + VoteFile(vs[1..])
  }

  lemma {:induction false} VoteFileAppend(vs: seq<(int, Bytes)>, term: int, id: Bytes)
    ensures VoteFile(vs) + VoteLine(term, id) == VoteFile(vs + [(term, id)])
  {
    if vs != [] {
      VoteFileAppend(vs[1..], term, id);
      assert (vs + [(term, id)])[1..] == vs[1..] + [(term, id)];
    }
  }

  lemma VoteLineScans(space: Bytes, term: int, id: Bytes, rest: Bytes)
    requires forall i | 0 <= i < |space| :: IsSpace(space[i])
    requires IsServerId(id)
    ensures ScanVote(space + VoteLine(term, id) + rest) == Some((Clamp64(term), id, [Newline] + rest))
  {
    var tail := [Newline] + rest;
    var after := [Space] + id + tail;
    VoteLineSplit(space, term, id, rest);
    ScanDecimal(space, term, after);
    ScanWholeWord([Space], id, tail, IdLimit);
  }

  lemma VoteLineSplit(space: Bytes, term: int, id: Bytes, rest: Bytes)
    requires IsServerId(id)
    ensures space + VoteLine(term, id) + rest == space + Decimal(term) + ([Space] + id + ([Newline] + rest))
  {
    CStringWhole(id);
  }

  /** A written vote as the read loop gets it back: the term as `%ld`
      stores it. */
  function ReadBack(v: (int, Bytes)): (int, Bytes)
  {
    (Clamp64(v.0), v.1)
  }

  predicate AllServerIds(vs: seq<(int, Bytes)>)
  {
    forall i | 0 <= i < |vs| :: IsServerId(vs[i].1)
  }

  lemma {:induction false} ScanVoteFile(space: Bytes, vs: seq<(int, Bytes)>, last: Option<(int, Bytes)>)
    requires forall i | 0 <= i < |space| :: IsSpace(space[i])
    requires AllServerIds(vs)
    ensures ScanVotes(space + VoteFile(vs), last) == if vs == [] then last else Some(ReadBack(vs[|vs| - 1]))
    decreases |vs|, 1
  {
    if vs == [] {
      assert space + VoteFile(vs) == space;
      AllSpace(space);
    } else {
      ScanVoteFileCons(space, vs, last);
    }
  }

  lemma {:induction false} ScanVoteFileCons(space: Bytes, vs: seq<(int, Bytes)>, last: Option<(int, Bytes)>)
    requires forall i | 0 <= i < |space| :: IsSpace(space[i])
    requires vs != [] && AllServerIds(vs)
    ensures ScanVotes(space + VoteFile(vs), last) == Some(ReadBack(vs[|vs| - 1]))
    decreases |vs|, 0
  {
    TailServerIds(vs);
    ScanFirstVote(space, vs, last);
    NewlineIsSpace();
    ScanVoteFile([Newline], vs[1..], Some(ReadBack(vs[0])));
    LastVoteOfTail(vs);
  }

  /** Reading the first line of a vote file moves on to the rest. */
  lemma ScanFirstVote(space: Bytes, vs: seq<(int, Bytes)>, last: Option<(int, Bytes)>)
    requires forall i | 0 <= i < |space| :: IsSpace(space[i])
    requires vs != [] && IsServerId(vs[0].1)
    ensures ScanVotes(space + VoteFile(vs), last) == ScanVotes([Newline] + VoteFile(vs[1..]), Some(ReadBack(vs[0])))
  {
    var s := space + VoteFile(vs);
    var rest := VoteFile(vs[1..]);
    assert s == space + VoteLine(vs[0].0, vs[0].1) + rest;
    VoteLineScans(space, vs[0].0, vs[0].1, rest);
    CStringWhole(vs[0].1);
  }

  lemma NewlineIsSpace()
    ensures forall i | 0 <= i < |[Newline]| :: IsSpace([Newline][i])
  {
  }

  lemma TailServerIds(vs: seq<(int, Bytes)>)
    requires vs != [] && AllServerIds(vs)
    ensures IsServerId(vs[0].1) && AllServerIds(vs[1..])
  {
    forall i | 0 <= i < |vs[1..]|
      ensures IsServerId(vs[1..][i].1)
    {
      assert vs[1..][i] == vs[i + 1];
    }
  }

  /** The last vote written wins: reading a file of appended votes gives
      the last of them alone (its term clamped to int64 as `%ld` stores
      it), or no vote when none was written. */
  lemma LastVoteWins(vs: seq<(int, Bytes)>)
    requires AllServerIds(vs)
    ensures ReadVotedFor(VoteFile(vs)) ==
      if vs == [] then map[] else map[Clamp64(vs[|vs| - 1].0) := vs[|vs| - 1].1]
  {
    var f := VoteFile(vs);
    ScanVoteFile([], vs, None);
    assert [] + f == f;
    if vs == [] {
      assert ScanVotes(f, None) == None;
    } else {
      var v := ReadBack(vs[|vs| - 1]);
      assert ScanVotes(f, None) == Some(v);
      assert v.1 != [] by {
        assert IsServerId(v.1);
      }
      ReadVotedForOf(f, v);
    }
  }

  lemma ReadVotedForOf(f: Bytes, v: (int, Bytes))
    requires ScanVotes(f, None) == Some(v) && v.1 != []
    ensures ReadVotedFor(f) == map[v.0 := v.1]
  {
  }

  /** Writing a vote and reading the file back gives that vote alone; an
      `int64_t` term comes back as itself. */
  lemma ReadAfterWriteVote(vs: seq<(int, Bytes)>, term: int, id: Bytes)
    requires AllServerIds(vs) && IsServerId(id)
    ensures ReadVotedFor(WriteVotedFor(VoteFile(vs), term, id, true).value) == map[Clamp64(term) := id]
    ensures IsInt64(term) ==> ReadVotedFor(WriteVotedFor(VoteFile(vs), term, id, true).value) == map[term := id]
  {
    VoteFileAppend(vs, term, id);
    var vs' := vs + [(term, id)];
    assert AllServerIds(vs') by {
      forall i | 0 <= i < |vs'|
        ensures IsServerId(vs'[i].1)
      {
        if i < |vs| { assert vs'[i] == vs[i]; }
      }
    }
    LastVoteWins(vs');
  }

  // ---- root file --------------------------------------------------------

  /** The root account record: either field may be unset. */
  datatype RootInfo = RootInfo(username: Option<Bytes>, passwd: Option<Bytes>)

  /** The root line: `"%s\t%s\n"`. */
  function RootLine(name: Bytes, passwd: Bytes): Bytes
  {
    CString(name) + [Tab] + CString(passwd) + [Newline]
  }

  /** `WriteRootInfo`: nothing unless both fields are set; otherwise the
      root line is written over the start of the file, and whatever the
      file held beyond it stays. */
  function WriteRootInfo(file: Bytes, root: RootInfo, flushOk: bool): (r: Run<Bytes>)
    ensures root.username.None? || root.passwd.None? ==> r == Done(file)
    ensures root.username.Some? && root.passwd.Some? ==> (r.Done? <==> flushOk)
    ensures r.Done? && root.username.Some? && root.passwd.Some? ==>
      var line := RootLine(root.username.value, root.passwd.value);
      line <= r.value && |r.value| == Max(|line|, |file|) &&
      forall i | |line| <= i < |file| :: r.value[i] == file[i]
  {
    if root.username.None? || root.passwd.None? then Done(file)
    else if !flushOk then Aborted
    else
      var line := RootLine(root.username.value, root.passwd.value);
      Done(if |line| >= |file| then line else line + file[|line|..])
  }

  function Max(a: nat, b: nat): nat { if a >= b then a else b }

  /** `fgets`: the first line with its newline, cut at `LineLimit` bytes;
      `None` on an empty file. */
  function FirstLine(file: Bytes): (r: Option<Bytes>)
    ensures r.None? <==> file == []
    ensures r.Some? ==> r.value <= file && 0 < |r.value| <= LineLimit
    ensures r.Some? ==> forall i | 0 <= i < |r.value| - 1 :: r.value[i] != Newline
    ensures r.Some? ==> |r.value| == |file| || |r.value| == LineLimit || r.value[|r.value| - 1] == Newline
  {
    if file == [] then None
    else
      var k := match IndexOf(file, Newline)
        case None => |file|
        case Some(i) => i + 1;
      Some(file[..if k <= LineLimit then k else LineLimit])
  }

  /** `ReadRootInfo`: an empty record for an empty file; otherwise the
      first line split at its first tab, the password keeping the line's
      newline. A line without a tab sends the scan past the end of the
      buffer, which is undefined: `None`. */
  function ReadRootInfo(file: Bytes): (r: Option<RootInfo>)
    ensures file == [] <==> r == Some(RootInfo(None, None))
    ensures r.Some? && file != [] ==>
      r.value.username.Some? && r.value.passwd.Some? &&
      (forall i | 0 <= i < |r.value.username.value| :: r.value.username.value[i] != Tab)
  {
    match FirstLine(file)
    case None => Some(RootInfo(None, None))
    case Some(line) =>
      match IndexOf(line, Tab)
      case None => None
      case Some(i) => Some(RootInfo(Some(CString(line[..i])), Some(CString(line[i + 1..]))))
  }

  /** A root record written and read back keeps the name, and the password
      comes back with the newline that ended its line. */
  lemma ReadAfterWriteRoot(file: Bytes, name: Bytes, passwd: Bytes)
    requires forall i | 0 <= i < |name| :: name[i] != Tab && name[i] != Newline && name[i] != 0
    requires forall i | 0 <= i < |passwd| :: passwd[i] != Newline && passwd[i] != 0
    requires |name| + |passwd| + 2 <= LineLimit
    ensures WriteRootInfo(file, RootInfo(Some(name), Some(passwd)), true).Done?
    ensures ReadRootInfo(WriteRootInfo(file, RootInfo(Some(name), Some(passwd)), true).value)
      == Some(RootInfo(Some(name), Some(passwd + [Newline])))
  {
    var line := name + [Tab] + passwd + [Newline];
    RootLineWhole(name, passwd);
    var w := WriteRootInfo(file, RootInfo(Some(name), Some(passwd)), true).value;
    FirstLineOf(w, line);
    RootLineFields(name, passwd);
  }

  lemma RootLineWhole(name: Bytes, passwd: Bytes)
    requires forall i | 0 <= i < |name| :: name[i] != 0
    requires forall i | 0 <= i < |passwd| :: passwd[i] != 0
    ensures RootLine(name, passwd) == name + [Tab] + passwd + [Newline]
  {
    CStringWhole(name);
    CStringWhole(passwd);
  }

  /** `fgets` reads a line that fits and ends the only newline in it. */
  lemma FirstLineOf(w: Bytes, line: Bytes)
    requires line <= w && 0 < |line| <= LineLimit
    requires line[|line| - 1] == Newline
    requires forall i | 0 <= i < |line| - 1 :: line[i] != Newline
    ensures FirstLine(w) == Some(line)
  {
    assert w[|line| - 1] == Newline;
    var j := IndexOf(w, Newline);
    if j.None? || j.value < |line| - 1 { assert false; }
    assert w[..|line|] == line;
  }

  /** The root line splits at its only tab into the name and the password
      with its newline. */
  lemma RootLineFields(name: Bytes, passwd: Bytes)
    requires forall i | 0 <= i < |name| :: name[i] != Tab && name[i] != 0
    requires forall i | 0 <= i < |passwd| :: passwd[i] != Newline && passwd[i] != 0
    ensures var line := name + [Tab] + passwd + [Newline];
      IndexOf(line, Tab) == Some(|name|) && CString(line[..|name|]) == name &&
      CString(line[|name| + 1..]) == passwd + [Newline]
  {
    var line := name + [Tab] + passwd + [Newline];
    assert line[|name|] == Tab;
    var j := IndexOf(line, Tab);
    if j.None? || j.value < |name| { assert false; }
    assert line[..|name|] == name;
    assert line[|name| + 1..] == passwd + [Newline];
    CStringWhole(name);
    CStringWhole(passwd + [Newline]);
  }

  /** Writing a record with a field unset leaves the file as it was. */
  lemma UnsetRootIgnored(file: Bytes, root: RootInfo, flushOk: bool)
    requires root.username.None? || root.passwd.None?
    ensures ReadRootInfo(WriteRootInfo(file, root, flushOk).value) == ReadRootInfo(file)
  {
  }
}

=== FILE: mkdirs.dfy ===
/** `Mkdirs` (storage/utils.h): create every directory along a path, like
    `mkdir -p`. The `mkdir` system call is a parameter: it reports for a
    path whether it made the directory, found it already there (`EEXIST`),
    or failed otherwise. */
module DirUtils {
  import opened Bytes
  import opened Outcomes

  /** `snprintf` into a 1024-byte buffer keeps at most 1023 bytes. */
  const PathLimit: nat := 1023

  datatype MkdirResult = Made | Exists | Failed

  predicate Succeeded(m: MkdirResult) { m != Failed }

  /** The path as the source works on it: the C string cut to the buffer,
      without one trailing '/'. `None` for an empty path, whose last byte
      the source reads before the buffer. */
  function Normalize(dir: Bytes): (r: Option<Bytes>)
    ensures r.None? <==> CString(dir) == []
    ensures r.Some? ==> |r.value| <= PathLimit && r.value <= CString(dir)
    ensures r.Some? ==> forall i | 0 <= i < |r.value| :: r.value[i] != 0
  {
    var s := CString(dir);
    var t := if |s| > PathLimit then s[..PathLimit] else s;
    if t == [] then None
    else if t[|t| - 1] == Slash then Some(t[..|t| - 1])
    else Some(t)
  }

  /** The directories `Mkdirs` makes, in order: the prefix before every '/'
      from the second byte on, then the whole path. */
  function Steps(path: Bytes): (r: seq<Bytes>)
    ensures |r| > 0 && r[|r| - 1] == path
    ensures forall k | 0 <= k < |r| - 1 :: 0 < |r[k]| < |path| && r[k] == path[..|r[k]|] && path[|r[k]|] == Slash
    ensures forall k | 0 <= k < |r| - 1 :: |r[k]| < |r[k + 1]|
  {
    Prefixes(path, |path|) + [path]
  }

  /** The prefixes before a '/' at positions 1 ≤ i < n, in order. */
  function Prefixes(path: Bytes, n: nat): (r: seq<Bytes>)
    requires n <= |path|
    ensures forall k | 0 <= k < |r| :: 0 < |r[k]| < n && r[k] == path[..|r[k]|] && path[|r[k]|] == Slash
    ensures forall k | 0 <= k < |r| - 1 :: |r[k]| < |r[k + 1]|
    ensures forall i | 1 <= i < n && path[i] == Slash :: path[..i] in r
  {
    if n <= 1 then []
    else if path[n - 1] == Slash then Prefixes(path, n - 1) + [path[..n - 1]]
    else Prefixes(path, n - 1)
  }

  /** Runs the `mkdir` calls in order, stopping at the first failure: the
      calls made and whether all of them succeeded. */
  function Attempt(steps: seq<Bytes>, mkdir: Bytes -> MkdirResult): (r: (seq<Bytes>, bool))
    ensures r.0 <= steps
    ensures r.1 <==> r.0 == steps && forall k | 0 <= k < |steps| :: Succeeded(mkdir(steps[k]))
    ensures r.1 <==> forall k | 0 <= k < |steps| :: Succeeded(mkdir(steps[k]))
    ensures !r.1 ==> |r.0| > 0 && !Succeeded(mkdir(r.0[|r.0| - 1]))
    ensures forall k | 0 <= k < |r.0| - 1 :: Succeeded(mkdir(r.0[k]))
  {
    if steps == [] then ([], true)
    else if !Succeeded(mkdir(steps[0])) then ([steps[0]], false)
    else
      var rest := Attempt(steps[1..], mkdir);
      ([steps[0]] + rest.0, rest.1)
  }

  /** `Mkdirs(dir)`: the `mkdir` calls it makes and its result, or `None`
      for an empty path. */
  function Mkdirs(dir: Bytes, mkdir: Bytes -> MkdirResult): (r: Option<(seq<Bytes>, bool)>)
    ensures r.None? <==> CString(dir) == []
    ensures r.Some? ==> |r.value.0| > 0 && forall k | 0 <= k < |r.value.0| :: r.value.0[k] <= Normalize(dir).value
    ensures r.Some? && r.value.1 ==> r.value.0[|r.value.0| - 1] == Normalize(dir).value
  {
    match Normalize(dir)
    case None => None
    case Some(path) =>
      var steps := Steps(path);
      var r := Attempt(steps, mkdir);
      assert forall k | 0 <= k < |r.0| :: r.0[k] == steps[k];
      Some(r)
  }

  /** `Mkdirs` succeeds exactly when every directory along the path is
      made or already there. */
  lemma MkdirsSucceedsIff(dir: Bytes, mkdir: Bytes -> MkdirResult)
    requires CString(dir) != []
    ensures var path := Normalize(dir).value;
      Mkdirs(dir, mkdir).value.1 <==>
        Succeeded(mkdir(path)) &&
        forall i | 1 <= i < |path| && path[i] == Slash :: Succeeded(mkdir(path[..i]))
  {
    var path := Normalize(dir).value;
    assert Mkdirs(dir, mkdir).value == Attempt(Steps(path), mkdir);
    StepsSucceedIff(path, mkdir);
  }

  /** Every step succeeds exactly when the whole path and every prefix
      before a '/' do. */
  lemma StepsSucceedIff(path: Bytes, mkdir: Bytes -> MkdirResult)
    ensures (forall k | 0 <= k < |Steps(path)| :: Succeeded(mkdir(Steps(path)[k]))) <==>
      Succeeded(mkdir(path)) &&
      forall i | 1 <= i < |path| && path[i] == Slash :: Succeeded(mkdir(path[..i]))
  {
    var pre := Prefixes(path, |path|);
    var steps := Steps(path);
    assert steps == pre + [path];
    if forall k | 0 <= k < |steps| :: Succeeded(mkdir(steps[k])) {
      assert steps[|steps| - 1] == path;
      forall i | 1 <= i < |path| && path[i] == Slash
        ensures Succeeded(mkdir(path[..i]))
      {
        var k :| 0 <= k < |pre| && pre[k] == path[..i];
        assert steps[k] == pre[k];
      }
    }
    if Succeeded(mkdir(path)) && forall i | 1 <= i < |path| && path[i] == Slash :: Succeeded(mkdir(path[..i])) {
      forall k | 0 <= k < |steps|
        ensures Succeeded(mkdir(steps[k]))
      {
        if k < |pre| {
          assert steps[k] == pre[k] == path[..|pre[k]|];
        }
      }
    }
  }

  /** When all calls succeed, every prefix before a '/' was made before the
      whole path. */
  lemma ParentsFirst(dir: Bytes, mkdir: Bytes -> MkdirResult, i: nat)
    requires CString(dir) != [] && Mkdirs(dir, mkdir).value.1
    requires var path := Normalize(dir).value; 1 <= i < |path| && path[i] == Slash
    ensures var calls := Mkdirs(dir, mkdir).value.0;
      exists k | 0 <= k < |calls| - 1 :: calls[k] == Normalize(dir).value[..i]
  {
    var path := Normalize(dir).value;
    var pre := Prefixes(path, |path|);
    var calls := Mkdirs(dir, mkdir).value.0;
    assert calls == Attempt(Steps(path), mkdir).0;
    assert path[..i] in pre;
    var k :| 0 <= k < |pre| && pre[k] == path[..i];
    assert calls[k] == path[..i];
  }
}

=== FILE: namespace_store.dfy ===
/** The namespaced key-value store of the server (src/storage/storage_manage.cc).

    Each user name owns one leveldb database; the anonymous user "" owns the
    shared one. A name maps to its open database, or to `None` when opening
    it failed (the source keeps a NULL pointer). Opening reads a database
    from disk, which the model takes as a parameter: `Some(table)` for the
    contents found, `None` for a failed open. */
module NamespaceStore {
  import opened Bytes
  import opened Outcomes
  import opened Table

  /** The store's `Status` codes. */
  datatype Status = Ok | NotFound | UnknownUser | Error

  datatype Manager = Manager(dbs: map<Bytes, Option<seq<Entry>>>)

  /** The name of the shared namespace. */
  const Anonymous: Bytes := []

  /** Every open database is an ordered table. */
  predicate Valid(m: Manager)
  {
    forall n | n in m.dbs && m.dbs[n].Some? :: Ordered(m.dbs[n].value)
  }

  /** The constructor: creates the data directory (an abort when that
      fails) and opens the shared database (an assertion). */
  function New(mkdirsOk: bool, shared: Option<seq<Entry>>): (r: Run<Manager>)
    requires shared.Some? ==> Ordered(shared.value)
    ensures r.Done? <==> mkdirsOk && shared.Some?
    ensures r.Done? ==> Valid(r.value) && r.value.dbs.Keys == {Anonymous}
    ensures r.Done? ==> r.value.dbs[Anonymous] == shared
  {
    if !mkdirsOk then Aborted
    else if shared.None? then Aborted
    else Done(Manager(map[Anonymous := shared]))
  }

  /** `OpenDatabase`: a known name is left alone and reported open; a new
      name records whatever the open produced, even a failure. */
  function OpenDatabase(m: Manager, name: Bytes, fromDisk: Option<seq<Entry>>): (r: (Manager, bool))
    requires Valid(m) && (fromDisk.Some? ==> Ordered(fromDisk.value))
    ensures Valid(r.0)
    ensures name in m.dbs ==> r == (m, true)
    ensures name !in m.dbs ==> r.0.dbs == m.dbs[name := fromDisk] && (r.1 <==> fromDisk.Some?)
  {
    if name in m.dbs then (m, true)
    else (Manager(m.dbs[name := fromDisk]), fromDisk.Some?)
  }

  /** `CloseDatabase`: forgets the name; an unknown name is a no-op. */
  function CloseDatabase(m: Manager, name: Bytes): (r: Manager)
    requires Valid(m)
    ensures Valid(r)
    ensures name !in r.dbs
    ensures forall n | n != name :: (n in r.dbs <==> n in m.dbs)
    ensures forall n | n != name && n in m.dbs :: r.dbs[n] == m.dbs[n]
  {
    Manager(m.dbs - {name})
  }

  /** The outcome of reaching a namespace: its table, or the status
      reported when there is none. */
  function Reach(m: Manager, name: Bytes): (r: Result)
    ensures r.Reached? <==> name in m.dbs && m.dbs[name].Some?
    ensures r.Failed? ==> r.status == if name in m.dbs then Error else UnknownUser
  {
    if name !in m.dbs then Failed(UnknownUser)
    else if m.dbs[name].None? then Failed(Error)
    else Reached(m.dbs[name].value)
  }

  datatype Result = Reached(table: seq<Entry>) | Failed(status: Status)

  /** `Get` into the output string; `hasOut` is false for a NULL output. */
  function Get(m: Manager, name: Bytes, key: Bytes, hasOut: bool): (r: (Status, Option<Bytes>))
    ensures r.1.Some? <==> r.0 == Ok
    ensures !hasOut ==> r.0 == Error
    ensures hasOut && name !in m.dbs ==> r.0 == UnknownUser
  {
    if !hasOut then (Error, None)
    else
      match Reach(m, name)
      case Failed(s) => (s, None)
      case Reached(t) =>
        match Lookup(t, key)
        case Some(v) => (Ok, Some(v))
        case None => (NotFound, None)
  }

  /** `Put`. */
  function Put(m: Manager, name: Bytes, key: Bytes, value: Bytes): (r: (Manager, Status))
    requires Valid(m)
    ensures Valid(r.0)
    ensures r.1 == Ok <==> name in m.dbs && m.dbs[name].Some?
    ensures r.1 != Ok ==> r.0 == m
    ensures r.0.dbs.Keys == m.dbs.Keys
  {
    match Reach(m, name)
    case Failed(s) => (m, s)
    case Reached(t) => (Manager(m.dbs[name := Some(Insert(t, key, value))]), Ok)
  }

  /** `Delete`: succeeds whether or not the key is present. */
  function Delete(m: Manager, name: Bytes, key: Bytes): (r: (Manager, Status))
    requires Valid(m)
    ensures Valid(r.0)
    ensures r.1 == Ok <==> name in m.dbs && m.dbs[name].Some?
    ensures r.1 != Ok ==> r.0 == m
    ensures r.0.dbs.Keys == m.dbs.Keys
  {
    match Reach(m, name)
    case Failed(s) => (m, s)
    case Reached(t) => (Manager(m.dbs[name := Some(Remove(t, key))]), Ok)
  }

  /** The shared namespace is never unknown while it is open. */
  lemma AnonymousKnown(mkdirsOk: bool, shared: seq<Entry>, key: Bytes, value: Bytes)
    requires Ordered(shared)
    ensures New(mkdirsOk, Some(shared)).Done? ==>
              var m := New(mkdirsOk, Some(shared)).value;
              && Get(m, Anonymous, key, true).0 != UnknownUser
              && Put(m, Anonymous, key, value).1 == Ok
              && Delete(m, Anonymous, key).1 == Ok
  {
  }

  /** A value put reads back; other keys and other namespaces keep theirs. */
  lemma GetAfterPut(m: Manager, name: Bytes, key: Bytes, value: Bytes, name': Bytes, key': Bytes)
    requires Valid(m) && name in m.dbs && m.dbs[name].Some?
    ensures var m' := Put(m, name, key, value).0;
            Get(m', name', key', true)
              == if name' == name && key' == key then (Ok, Some(value)) else Get(m, name', key', true)
  {
    LookupInsert(m.dbs[name].value, key, value, key');
  }

  /** A deleted key reads as not found; other keys and namespaces keep theirs. */
  lemma GetAfterDelete(m: Manager, name: Bytes, key: Bytes, name': Bytes, key': Bytes)
    requires Valid(m) && name in m.dbs && m.dbs[name].Some?
    ensures var m' := Delete(m, name, key).0;
            Get(m', name', key', true)
              == if name' == name && key' == key then (NotFound, None) else Get(m, name', key', true)
  {
    LookupRemove(m.dbs[name].value, key, key');
  }

  /** A namespace whose open failed answers every access with `Error`. */
  lemma FailedOpenAnswersError(m: Manager, name: Bytes, key: Bytes, value: Bytes)
    requires Valid(m) && name !in m.dbs
    ensures var (m', ok) := OpenDatabase(m, name, None);
            && !ok
            && Get(m', name, key, true) == (Error, None)
            && Put(m', name, key, value) == (m', Error)
            && Delete(m', name, key) == (m', Error)
  {
  }

  /** Opening twice is opening once. */
  lemma OpenIdempotent(m: Manager, name: Bytes, fromDisk: Option<seq<Entry>>, again: Option<seq<Entry>>)
    requires Valid(m) && (fromDisk.Some? ==> Ordered(fromDisk.value)) && (again.Some? ==> Ordered(again.value))
    ensures var m' := OpenDatabase(m, name, fromDisk).0;
            OpenDatabase(m', name, again) == (m', true)
  {
  }

  /** Closing a name makes it unknown again. */
  lemma CloseForgets(m: Manager, name: Bytes, key: Bytes)
    requires Valid(m)
    ensures Get(CloseDatabase(m, name), name, key, true) == (UnknownUser, None)
  {
  }

  // ---------------------------------------------------------------- iterators

  /** A `StorageManager::Iterator`: `None` for a NULL underlying iterator,
      else the table it walks and its position (valid while in range). */
  datatype Cursor = Cursor(rows: Option<seq<Entry>>, pos: nat)

  function IterValid(c: Cursor): (r: bool)
    ensures r ==> c.rows.Some?
  {
    c.rows.Some? && c.pos < |c.rows.value|
  }

  /** `key()`: "" on a NULL iterator; leveldb demands a valid position. */
  function IterKey(c: Cursor): (r: Bytes)
    requires c.rows.Some? ==> IterValid(c)
    ensures c.rows.None? ==> r == []
  {
    if c.rows.None? then [] else c.rows.value[c.pos].0
  }

  function IterValue(c: Cursor): (r: Bytes)
    requires c.rows.Some? ==> IterValid(c)
    ensures c.rows.None? ==> r == []
  {
    if c.rows.None? then [] else c.rows.value[c.pos].1
  }

  /** `status()`: `Error` on a NULL iterator; a table in memory has no read
      errors. */
  function IterStatus(c: Cursor): (r: Status)
    ensures r == Error <==> c.rows.None?
  {
    if c.rows.None? then Error else Ok
  }

  function Seek(c: Cursor, target: Bytes): (r: Cursor)
    ensures r.rows == c.rows
  {
    if c.rows.None? then c else Cursor(c.rows, SeekIndex(c.rows.value, target))
  }

  /** `Next`: leveldb demands a valid position; NULL is a no-op. */
  function Next(c: Cursor): (r: Cursor)
    requires c.rows.Some? ==> IterValid(c)
    ensures r.rows == c.rows
    ensures c.rows.Some? ==> r.pos == c.pos + 1
  {
    if c.rows.None? then c else Cursor(c.rows, c.pos + 1)
  }

  /** `NewIterator`: `None` (a NULL result) for an unknown or failed
      namespace. */
  function NewIterator(m: Manager, name: Bytes): (r: Option<Cursor>)
    ensures r.Some? <==> name in m.dbs && m.dbs[name].Some?
    ensures r.Some? ==> r.value.rows == m.dbs[name]
  {
    match Reach(m, name)
    case Failed(_) => None
    case Reached(t) => Some(Cursor(Some(t), 0))
  }

  /** On a NULL iterator every operation is harmless. */
  lemma NullIteratorSafe(target: Bytes)
    ensures var c := Cursor(None, 0);
            && IterKey(c) == [] && IterValue(c) == [] && !IterValid(c)
            && IterStatus(c) == Error && Seek(c, target) == c && Next(c) == c
  {
  }

  /** After `Seek`, the iterator stands on the least key at or above the
      target, or is invalid when there is none. */
  lemma SeekFindsLeast(m: Manager, name: Bytes, target: Bytes)
    requires Valid(m) && name in m.dbs && m.dbs[name].Some?
    ensures var c := Seek(NewIterator(m, name).value, target);
            var t := m.dbs[name].value;
            && (IterValid(c) <==> exists j | 0 <= j < |t| :: !Less(t[j].0, target))
            && (IterValid(c) ==> !Less(IterKey(c), target)
                                 && forall j | 0 <= j < |t| && !Less(t[j].0, target) :: !Less(t[j].0, IterKey(c)))
  {
    var t := m.dbs[name].value;
    var i := SeekIndex(t, target);
    SeekIndexBound(t, target);
    if i < |t| {
      forall j | 0 <= j < |t| && !Less(t[j].0, target)
        ensures !Less(t[j].0, t[i].0)
      {
        if j < i {
          assert false;
        } else if j > i {
          OrderedPairs(t, i, j);
          LessAsymmetric(t[i].0, t[j].0);
        } else {
          LessIrreflexive(t[i].0);
        }
      }
    }
  }
}

=== FILE: ncli.dfy ===
/** The command-line client (src/client/ncli.cc): the exit code each
    command maps the library's answer to, and `list_data`, which lists one
    level of a key "directory" by scanning every key under it and cutting
    each key at the next '/'. The library's answers are parameters: the
    success and error of a call, and for a listing the scan cursor's rows
    with its error before and after they are read. */
module Ncli {
  import opened Bytes
  import opened Outcomes
  import opened SdkTypes

  /** The exit codes. */
  const ExitOk: int := 0
  const ExitClusterDown: int := -1
  const ExitFalse: int := 1
  const ExitSessionExpired: int := 2

  /** `put_kv`, and `delete_kv`, which maps alike: a failed call means the
      cluster is down, an expired session is reported, and any other error
      of a successful call still counts as success. */
  function WriteCode(ok: bool, error: SdkError): (r: int)
    ensures r == ExitClusterDown <==> !ok
    ensures r == ExitSessionExpired <==> ok && error == UnknownUser
    ensures r == ExitOk <==> ok && error != UnknownUser
  {
    if !ok then ExitClusterDown
    else if error == UnknownUser then ExitSessionExpired
    else ExitOk
  }

  /** `get_kv`: like a write, except that a successful call with an error
      other than an expired session prints "NOT FOUND" and returns 1. */
  function GetCode(ok: bool, error: SdkError): (r: int)
    ensures r == ExitClusterDown <==> !ok
    ensures r == ExitOk <==> ok && error == OK
    ensures r == ExitSessionExpired <==> ok && error == UnknownUser
    ensures r == ExitFalse <==> ok && error != OK && error != UnknownUser
  {
    if !ok then ExitClusterDown
    else if error == OK then ExitOk
    else if error == UnknownUser then ExitSessionExpired
    else ExitFalse
  }

  /** A read and a write report the same answer the same way, except a
      successful call carrying an error such as `kNoSuchKey`: the read
      calls it false, the write calls it success. */
  lemma ReadStricterThanWrite(ok: bool, error: SdkError)
    ensures GetCode(ok, error) == WriteCode(ok, error) <==> !ok || error == OK || error == UnknownUser
    ensures GetCode(ok, error) != WriteCode(ok, error) ==>
      GetCode(ok, error) == ExitFalse && WriteCode(ok, error) == ExitOk
  {
  }

  /** The errors a user brings about: unknown user, user exists, wrong or
      empty password. */
  predicate UserLevel(e: SdkError)
  {
    e == UnknownUser || e == UserExists || e == PasswordError
  }

  /** `register_user`: a refusal because the user exists or the password is
      empty is false; any other refusal means the cluster is down. */
  function RegisterCode(ok: bool, error: SdkError): (r: int)
    ensures r == ExitOk <==> ok
    ensures r == ExitFalse <==> !ok && (error == UserExists || error == PasswordError)
    ensures r == ExitClusterDown <==> !ok && error != UserExists && error != PasswordError
  {
    if ok then ExitOk
    else if error == UserExists || error == PasswordError then ExitFalse
    else ExitClusterDown
  }

  /** `login_user`: a refusal for a user-level reason is false; any other
      refusal means the cluster is down. */
  function LoginCode(ok: bool, error: SdkError): (r: int)
    ensures r == ExitOk <==> ok
    ensures r == ExitFalse <==> !ok && UserLevel(error)
    ensures r == ExitClusterDown <==> !ok && !UserLevel(error)
  {
    if ok then ExitOk
    else match error
      case UnknownUser => ExitFalse
      case UserExists => ExitFalse
      case PasswordError => ExitFalse
      case _ => ExitClusterDown
  }

  /** Registration and login classify a refusal alike except for an
      unknown user, which only login counts as a user-level refusal. */
  lemma RegisterLoginDiffer(ok: bool, error: SdkError)
    ensures RegisterCode(ok, error) != LoginCode(ok, error) <==> !ok && error == UnknownUser
    ensures RegisterCode(ok, error) != LoginCode(ok, error) ==>
      RegisterCode(ok, error) == ExitClusterDown && LoginCode(ok, error) == ExitFalse
  {
  }

  /** What the scan cursor gives `list_data`: its error before the rows are
      read, the rows in the order it yields them, and its error after. */
  datatype ScanReply = ScanReply(errorBefore: SdkError, rows: seq<(Bytes, Bytes)>, errorAfter: SdkError)

  /** One printed line of a listing: a name and its value, or `None` where
      "NOT FOUND" is printed because the name is a sub-directory. */
  datatype Entry = Entry(name: Bytes, value: Option<Bytes>)

  /** The directory with '/' appended unless it ends in one. Reading the
      last character of an empty string is undefined: `None`. */
  function DirOf(dir: Bytes): (r: Option<Bytes>)
    ensures r.None? <==> dir == []
    ensures r.Some? ==> dir <= r.value && |r.value| <= |dir| + 1 && r.value[|r.value| - 1] == Slash
    ensures r.Some? ==> (|r.value| == |dir| <==> dir[|dir| - 1] == Slash)
  {
    if dir == [] then None
    else if dir[|dir| - 1] == Slash then Some(dir)
    else Some(dir + [Slash])
  }

  /** `std::mismatch(d.begin(), d.end(), key.begin())` reaching the end of
      `d`, that is, whether `d` is a prefix of `key`. The comparison reads
      past the end of `key` when `key` is a proper prefix of `d`, which is
      undefined: `None`. */
  function PrefixTest(d: Bytes, key: Bytes): (r: Option<bool>)
    ensures r == Some(true) <==> d <= key
    ensures r.None? <==> |key| < |d| && key == d[..|key|]
    decreases |d|
  {
    if d == [] then Some(true)
    else if key == [] then None
    else if d[0] != key[0] then Some(false)
    else
      var r := PrefixTest(d[1..], key[1..]);
      assert d == [d[0]] + d[1..] && key == [key[0]] + key[1..];
      r
  }

  /** The key up to the first '/' at or after position `from`
      (`key.substr(0, key.find('/', from))`), or the whole key when there
      is none. */
  function Cut(key: Bytes, from: nat): (r: Bytes)
    ensures r <= key
    ensures |r| < |key| ==> from <= |r| && key[|r|] == Slash
    ensures forall j | from <= j < |r| :: key[j] != Slash
  {
    if from > |key| then key
    else match IndexOf(key[from..], Slash)
      case None => key
      case Some(i) => key[..from + i]
  }

  /** The line for one row when the directory's names start at `from`: the
      key cut there, with the row's value when the cut is the whole key and
      "NOT FOUND" when it is a sub-directory. */
  function EntryOf(row: (Bytes, Bytes), from: nat): (e: Entry)
    ensures e.name <= row.0
    ensures e.value.None? <==> |e.name| < |row.0|
    ensures e.value.Some? ==> e.name == row.0 && e.value.value == row.1
    ensures e.value.None? ==> from <= |e.name| && row.0[|e.name|] == Slash
  {
    var cut := Cut(row.0, from);
    Entry(cut, if cut == row.0 then Some(row.1) else None)
  }

  /** The first loop of `list_data`: the position of the first row whose
      key starts with `d`, or the number of rows when there is none. */
  function Skip(rows: seq<(Bytes, Bytes)>, d: Bytes): (r: Option<nat>)
    ensures r.Some? ==> r.value <= |rows|
    ensures r.Some? && r.value < |rows| ==> d <= rows[r.value].0
    ensures r.Some? ==> forall j | 0 <= j < r.value :: !(d <= rows[j].0)
    ensures r.None? ==> exists j | 0 <= j < |rows| :: PrefixTest(d, rows[j].0).None?
    decreases |rows|
  {
    if rows == [] then Some(0)
    else match PrefixTest(d, rows[0].0)
      case None => None
      case Some(true) => Some(0)
      case Some(false) =>
        match Skip(rows[1..], d)
        case None => None
        case Some(i) => Some(i + 1)
  }

  /** The second loop of `list_data`: it stops at the first key that does
      not start with `base` (the directory without its '/'), cuts each key
      at the next '/' after the directory, and skips a row whose cut is the
      name it printed last. */
  function Collapse(rows: seq<(Bytes, Bytes)>, base: Bytes, last: Bytes): Option<seq<Entry>>
    decreases |rows|
  {
    if rows == [] then Some([])
    else match PrefixTest(base, rows[0].0)
      case None => None
      case Some(false) => Some([])
      case Some(true) =>
        var e := EntryOf(rows[0], |base| + 1);
        if e.name == last then Collapse(rows[1..], base, last)
        else match Collapse(rows[1..], base, e.name)
          case None => None
          case Some(rest) => Some([e] + rest)
  }

  /** `list_data` on a fresh scan of `[d, d + "\xff")`, where `d` is the
      directory ending in '/': the exit code and the lines printed. An
      expired session and a failed scan print nothing; otherwise the rows
      before the first key under `d` are skipped and the rest collapsed.
      `None` where the source's behaviour is undefined. */
  function ListData(dir: Bytes, reply: ScanReply): (r: Option<(int, seq<Entry>)>)
    ensures dir == [] ==> r.None?
    ensures dir != [] && reply.errorBefore == UnknownUser ==> r == Some((ExitSessionExpired, []))
    ensures dir != [] && reply.errorBefore != UnknownUser && reply.errorAfter != OK ==> r == Some((ExitClusterDown, []))
    ensures r.Some? && r.value.0 == ExitOk ==> reply.errorBefore != UnknownUser && reply.errorAfter == OK
    ensures r.Some? ==> r.value.0 in {ExitOk, ExitSessionExpired, ExitClusterDown}
  {
    match DirOf(dir)
    case None => None
    case Some(d) =>
      if reply.errorBefore == UnknownUser then Some((ExitSessionExpired, []))
      else if reply.errorAfter != OK then Some((ExitClusterDown, []))
      else match Skip(reply.rows, d)
        case None => None
        case Some(i) =>
          match Collapse(reply.rows[i..], d[..|d| - 1], [])
          case None => None
          case Some(es) =>
            Some((ExitOk, es))
  }

  /** The lines every row would give, in row order. */
  function Entries(rows: seq<(Bytes, Bytes)>, from: nat): (r: seq<Entry>)
    ensures |r| == |rows|
    ensures forall i | 0 <= i < |rows| :: r[i] == EntryOf(rows[i], from)
  {
    seq(|rows|, i requires 0 <= i < |rows| => EntryOf(rows[i], from))
  }

  /** The entries after the first whose name differs from the entry just
      before them. */
  function Changes(es: seq<Entry>): seq<Entry>
    decreases |es|
  {
    if |es| < 2 then []
    else (if es[1].name != es[0].name then [es[1]] else []) + Changes(es[1..])
  }

  /** The first entry of each run of entries with one name. */
  function Firsts(es: seq<Entry>): seq<Entry>
  {
    if es == [] then [] else [es[0]] + Changes(es)
  }

  function Names(es: seq<Entry>): set<Bytes>
  {
    set e | e in es :: e.name
  }

  /** A key lies in the scan range `[d, d + "\xff")` exactly when it
      starts with `d` and does not continue with the byte 0xff. */
  lemma {:induction false} ScanRangeExactly(d: Bytes, key: Bytes)
    ensures !Less(key, d) && Less(key, d + [255]) <==>
      d <= key && (|key| == |d| || key[|d|] != 255)
    decreases |d|
  {
    if d == [] {
      assert d + [255] == [255];
      if key != [] {
        assert key[1..] != [] ==> !Less(key[1..], []);
      }
    } else if key != [] {
      assert (d + [255])[0] == d[0] && (d + [255])[1..] == d[1..] + [255];
      if key[0] == d[0] {
        ScanRangeExactly(d[1..], key[1..]);
        assert d == [d[0]] + d[1..] && key == [key[0]] + key[1..];
        assert d <= key <==> d[1..] <= key[1..];
      }
    }
  }

  /** When every row starts with `base + "/"`, the second loop lists the
      first row unless its name is the one printed last, and then every row
      whose name differs from the row before it. */
  lemma {:induction false} CollapseUnder(rows: seq<(Bytes, Bytes)>, base: Bytes, last: Bytes)
    requires forall j | 0 <= j < |rows| :: base + [Slash] <= rows[j].0
    ensures var es := Entries(rows, |base| + 1);
      Collapse(rows, base, last) ==
        Some((if rows != [] && es[0].name != last then [es[0]] else []) + Changes(es))
    decreases |rows|
  {
    if rows != [] {
      var from := |base| + 1;
      var es := Entries(rows, from);
      var tail := rows[1..];
      assert (base + [Slash])[..|base|] == base;
      assert PrefixTest(base, rows[0].0) == Some(true);
      assert Entries(tail, from) == es[1..];
      var e := EntryOf(rows[0], from);
      assert e == es[0];
      if |rows| >= 2 {
        assert Changes(es) == (if es[1].name != es[0].name then [es[1]] else []) + Changes(es[1..]);
      } else {
        assert Changes(es) == [] && Changes(es[1..]) == [];
      }
      if e.name == last {
        CollapseUnder(tail, base, last);
        assert Collapse(rows, base, last) == Collapse(tail, base, last);
        var lead: seq<Entry> := if tail != [] && es[1].name != last then [es[1]] else [];
        assert Collapse(tail, base, last) == Some(lead + Changes(es[1..]));
        assert Changes(es) == lead + Changes(es[1..]);
        assert [] + Changes(es) == Changes(es);
      } else {
        CollapseUnder(tail, base, e.name);
        assert Collapse(rows, base, last) == Some([e] + Collapse(tail, base, e.name).value);
      }
    }
  }

  /** With a listing that succeeds, `list_data` prints the first line of
      each run of rows with one name, in scan order: a directory is listed
      once per run of keys under it, with "NOT FOUND" unless the directory
      is itself a key that comes first. */
  lemma ListDataCollapses(dir: Bytes, reply: ScanReply)
    requires dir != [] && reply.errorBefore != UnknownUser && reply.errorAfter == OK
    requires var d := DirOf(dir).value;
      forall j | 0 <= j < |reply.rows| :: !Less(reply.rows[j].0, d) && Less(reply.rows[j].0, d + [255])
    ensures ListData(dir, reply) == Some((ExitOk, Firsts(Entries(reply.rows, |DirOf(dir).value|))))
  {
    var d := DirOf(dir).value;
    var rows := reply.rows;
    forall j | 0 <= j < |rows|
      ensures d <= rows[j].0
    {
      ScanRangeExactly(d, rows[j].0);
    }
    var base := d[..|d| - 1];
    assert base + [Slash] == d;
    assert Skip(rows, d) == Some(0);
    assert rows[0..] == rows;
    CollapseUnder(rows, base, []);
    if rows != [] {
      assert |EntryOf(rows[0], |d|).name| >= |d| > 0;
    }
  }

  lemma {:induction false} ChangesStepAway(es: seq<Entry>)
    ensures Changes(es) != [] ==> Changes(es)[0].name != es[0].name
    ensures forall k | 0 <= k < |Changes(es)| - 1 :: Changes(es)[k].name != Changes(es)[k + 1].name
    decreases |es|
  {
    if |es| >= 2 {
      ChangesStepAway(es[1..]);
      var head: seq<Entry> := if es[1].name != es[0].name then [es[1]] else [];
      var rest := Changes(es[1..]);
      assert Changes(es) == head + rest;
      if head != [] {
        assert Changes(es)[1..] == rest;
      }
    }
  }

  /** No two lines of a listing that follow each other have one name. */
  lemma FirstsNeighboursDiffer(es: seq<Entry>)
    ensures forall k | 0 <= k < |Firsts(es)| - 1 :: Firsts(es)[k].name != Firsts(es)[k + 1].name
  {
    if es != [] {
      ChangesStepAway(es);
      assert Firsts(es)[1..] == Changes(es);
    }
  }

  lemma {:induction false} ChangesCover(es: seq<Entry>)
    requires es != []
    ensures Names(Changes(es)) + {es[0].name} == Names(es)
    ensures forall e | e in Changes(es) :: e in es
    decreases |es|
  {
    if |es| >= 2 {
      ChangesCover(es[1..]);
      var head: seq<Entry> := if es[1].name != es[0].name then [es[1]] else [];
      var rest := Changes(es[1..]);
      assert Changes(es) == head + rest;
      assert Names(head + rest) == Names(head) + Names(rest);
      assert es == [es[0]] + es[1..];
      assert Names(es) == {es[0].name} + Names(es[1..]);
      assert es[1..][0] == es[1];
    } else {
      assert es == [es[0]];
    }
  }

  /** A listing leaves no name out and makes none up: the names printed are
      exactly the names of the rows, and every line printed is the line of
      some row. */
  lemma FirstsCover(es: seq<Entry>)
    ensures Names(Firsts(es)) == Names(es)
    ensures forall e | e in Firsts(es) :: e in es
  {
    if es != [] {
      ChangesCover(es);
      assert Names(Firsts(es)) == {es[0].name} + Names(Changes(es));
    }
  }

  /** Three keys under "x/": "x/a", "x/a!" and "x/a/b", in scan order. */
  const KeyA: Bytes := [120, 47, 97]
  const KeyBang: Bytes := [120, 47, 97, 33]
  const KeyAB: Bytes := [120, 47, 97, 47, 98]

  lemma ThreeKeysEntries(v: Bytes)
    ensures Entries([(KeyA, v), (KeyBang, v), (KeyAB, v)], 2) ==
      [Entry(KeyA, Some(v)), Entry(KeyBang, Some(v)), Entry(KeyA, None)]
  {
    assert KeyA[2..] == [97] && IndexOf([97], Slash).None?;
    assert KeyBang[2..] == [97, 33] && IndexOf([97, 33], Slash).None?;
    assert KeyAB[2..] == [97, 47, 98] && IndexOf([97, 47, 98], Slash) == Some(1);
    assert KeyAB[..3] == KeyA;
  }

  lemma ThreeKeysInRange(d: Bytes)
    requires d == [120, 47]
    ensures !Less(KeyA, d) && Less(KeyA, d + [255])
    ensures !Less(KeyBang, d) && Less(KeyBang, d + [255])
    ensures !Less(KeyAB, d) && Less(KeyAB, d + [255])
  {
    assert d <= KeyA && d <= KeyBang && d <= KeyAB;
    ScanRangeExactly(d, KeyA);
    ScanRangeExactly(d, KeyBang);
    ScanRangeExactly(d, KeyAB);
  }

  lemma ThreeEntriesFirsts(es: seq<Entry>, v: Bytes)
    requires es == [Entry(KeyA, Some(v)), Entry(KeyBang, Some(v)), Entry(KeyA, None)]
    ensures Firsts(es) == es
  {
    assert es[1..][1..] == [Entry(KeyA, None)];
    assert Changes(es[1..][1..]) == [];
    assert Changes(es[1..]) == [Entry(KeyA, None)];
    assert Changes(es) == [Entry(KeyBang, Some(v)), Entry(KeyA, None)];
  }

  /** Only neighbouring rows are merged: a key that sorts between a
      directory's own key and the keys inside it splits the run, and the
      directory is listed twice, once with its value and once as
      "NOT FOUND". */
  lemma ListingRepeatsName(v: Bytes)
    ensures ListData([120], ScanReply(OK, [(KeyA, v), (KeyBang, v), (KeyAB, v)], OK)) ==
      Some((ExitOk, [Entry(KeyA, Some(v)), Entry(KeyBang, Some(v)), Entry(KeyA, None)]))
  {
    var dir: Bytes := [120];
    var d: Bytes := [120, 47];
    assert dir[|dir| - 1] != Slash && dir + [Slash] == d;
    assert DirOf(dir) == Some(d);
    var rows := [(KeyA, v), (KeyBang, v), (KeyAB, v)];
    ThreeKeysInRange(d);
    ListDataCollapses(dir, ScanReply(OK, rows, OK));
    ThreeKeysEntries(v);
    ThreeEntriesFirsts([Entry(KeyA, Some(v)), Entry(KeyBang, Some(v)), Entry(KeyA, None)], v);
  }
}

=== FILE: numerals.dfy ===
/** Decimal text of integers, as `printf("%ld")` and `lexical_cast` write
    it and as `scanf("%ld")` reads it back, plus the C locale's white space
    and the `%Ns` token reader. */
module Numerals {
  import opened Bytes
  import opened Outcomes

  const Minus: byte := 45
  const Plus: byte := 43
  const Newline: byte := 10
  const Space: byte := 32
  const Tab: byte := 9

  predicate IsDigit(c: byte) { 48 <= c <= 57 }

  /** `isspace` in the C locale: space, \t, \n, \v, \f, \r. */
  predicate IsSpace(c: byte) { c == 32 || 9 <= c <= 13 }

  function Digits(n: nat): (r: Bytes)
    ensures r != []
    ensures forall i | 0 <= i < |r| :: IsDigit(r[i])
  {
    if n < 10 then [48 + n] else Digits(n / 10) + [48 + n % 10]
  }

  /** The decimal text of an integer, with a leading '-' when negative. */
  function Decimal(n: int): (r: Bytes)
    ensures r != [] && (IsDigit(r[0]) || r[0] == Minus)
    ensures forall i | 0 <= i < |r| :: IsDigit(r[i]) || (i == 0 && r[i] == Minus)
  {
    if n < 0 then [Minus] + Digits(-n) else Digits(n)
  }

  /** The value of a run of digits. */
  function DigitsValue(ds: Bytes): (n: nat)
    requires forall i | 0 <= i < |ds| :: IsDigit(ds[i])
  {
    if ds == [] then 0
    else
      assert IsDigit(ds[|ds| - 1]);
      10 * DigitsValue(ds[..|ds| - 1]) + (ds[|ds| - 1] as int - 48)
  }

  lemma {:induction false} DigitsValueOfDigits(n: nat)
    ensures DigitsValue(Digits(n)) == n
  {
    if n >= 10 {
      DigitsValueOfDigits(n / 10);
      var d := Digits(n);
      assert d[..|d| - 1] == Digits(n / 10);
    }
  }

  /** The longest prefix of digits. */
  function DigitRun(s: Bytes): (r: nat)
    ensures r <= |s|
    ensures forall i | 0 <= i < r :: IsDigit(s[i])
    ensures r < |s| ==> !IsDigit(s[r])
  {
    if s == [] || !IsDigit(s[0]) then 0 else 1 + DigitRun(s[1..])
  }

  lemma {:induction false} DigitRunOf(ds: Bytes, rest: Bytes)
    requires forall i | 0 <= i < |ds| :: IsDigit(ds[i])
    requires rest == [] || !IsDigit(rest[0])
    ensures DigitRun(ds + rest) == |ds|
  {
    if ds != [] {
      assert (ds + rest)[1..] == ds[1..] + rest;
      DigitRunOf(ds[1..], rest);
    }
  }

  /** The white space at the front of `s`. */
  function SpaceRun(s: Bytes): (r: nat)
    ensures r <= |s|
    ensures forall i | 0 <= i < r :: IsSpace(s[i])
    ensures r < |s| ==> !IsSpace(s[r])
  {
    if s == [] || !IsSpace(s[0]) then 0 else 1 + SpaceRun(s[1..])
  }

  /** A run of digits: its value and the unread rest, or `None` when `u`
      does not start with a digit. */
  function ScanDigits(u: Bytes): (r: Option<(nat, Bytes)>)
    ensures r.Some? ==> |r.value.1| < |u|
  {
    var k := DigitRun(u);
    if k == 0 then None else Some((DigitsValue(u[..k]), u[k..]))
  }

  /** The `long` that glibc's `%ld` stores for the number `n`: `n` itself
      when it fits, and `LONG_MAX` or `LONG_MIN` (the `strtol` result on
      overflow) when it does not. */
  function Clamp64(n: int): int
  {
    if n > Int64Max then Int64Max else if n < Int64Min then Int64Min else n
  }

  /** `scanf("%ld")`: skip white space, an optional sign, then at least one
      digit, as many as there are. The value and the unread rest, or `None`
      on a matching failure or at the end of the input. */
  function ScanInt(s: Bytes): (r: Option<(int, Bytes)>)
    ensures r.Some? ==> |r.value.1| < |s| && IsInt64(r.value.0)
  {
    ScanSigned(s[SpaceRun(s)..])
  }

  /** The part of `%ld` after the white space: an optional sign, then the
      digits, all of them consumed even when the number does not fit. */
  function ScanSigned(t: Bytes): (r: Option<(int, Bytes)>)
    ensures r.Some? ==> |r.value.1| < |t|
  {
    var signed := t != [] && (t[0] == Minus || t[0] == Plus);
    match ScanDigits(if signed then t[1..] else t)
    case None => None
    case Some(p) =>
      var v: int := p.0;
      Some((Clamp64(if signed && t[0] == Minus then -v else v), p.1))
  }

  lemma ScanDigitsOf(m: nat, rest: Bytes)
    requires rest == [] || !IsDigit(rest[0])
    ensures ScanDigits(Digits(m) + rest) == Some((m, rest))
  {
    var u := Digits(m) + rest;
    DigitRunOf(Digits(m), rest);
    assert u[..|Digits(m)|] == Digits(m);
    assert u[|Digits(m)|..] == rest;
    DigitsValueOfDigits(m);
  }

  /** Reading the decimal text of `n` back gives `n` when it is an int64,
      and the nearer int64 bound otherwise, after any white space and up to
      the first non-digit. */
  lemma ScanDecimal(space: Bytes, n: int, rest: Bytes)
    requires forall i | 0 <= i < |space| :: IsSpace(space[i])
    requires rest == [] || !IsDigit(rest[0])
    ensures ScanInt(space + Decimal(n) + rest) == Some((Clamp64(n), rest))
  {
    var d := Decimal(n);
    var u := d + rest;
    assert u[0] == d[0];
    assert space + d + rest == space + u;
    ScanSkipsSpace(space, u);
    ScanSignedDecimal(n, rest);
  }

  /** After the white space, the decimal text of `n` reads as `n` clamped. */
  lemma ScanSignedDecimal(n: int, rest: Bytes)
    requires rest == [] || !IsDigit(rest[0])
    ensures ScanSigned(Decimal(n) + rest) == Some((Clamp64(n), rest))
  {
    if n < 0 {
      ScanDigitsOf(-n, rest);
      ScanNegative(n, rest);
    } else {
      ScanDigitsOf(n, rest);
      ScanNatural(n, rest);
    }
  }

  /** Leading white space is skipped: `%ld` reads what follows it. */
  lemma ScanSkipsSpace(space: Bytes, u: Bytes)
    requires forall i | 0 <= i < |space| :: IsSpace(space[i])
    requires u != [] && !IsSpace(u[0])
    ensures ScanInt(space + u) == ScanSigned(u)
  {
    SpacePrefix(space, u);
    assert (space + u)[|space|..] == u;
  }

  lemma ScanNegative(n: int, rest: Bytes)
    requires n < 0
    requires ScanDigits(Digits(-n) + rest) == Some((-n, rest))
    ensures ScanSigned(Decimal(n) + rest) == Some((Clamp64(n), rest))
  {
    var t := Decimal(n) + rest;
    assert t == [Minus] + (Digits(-n) + rest);
    assert t[1..] == Digits(-n) + rest;
  }

  lemma ScanNatural(m: nat, rest: Bytes)
    requires ScanDigits(Digits(m) + rest) == Some((m, rest))
    ensures ScanSigned(Decimal(m) + rest) == Some((Clamp64(m), rest))
  {
    var t := Digits(m) + rest;
    assert IsDigit(t[0]);
  }

  lemma {:induction false} SpacePrefix(space: Bytes, s: Bytes)
    requires forall i | 0 <= i < |space| :: IsSpace(space[i])
    requires s != [] && !IsSpace(s[0])
    ensures SpaceRun(space + s) == |space|
  {
    if space != [] {
      assert (space + s)[1..] == space[1..] + s;
      SpacePrefix(space[1..], s);
    }
  }

  /** The non-space bytes at the front of `s`. */
  function WordRun(s: Bytes): (r: nat)
    ensures r <= |s|
    ensures forall i | 0 <= i < r :: !IsSpace(s[i])
    ensures r < |s| ==> IsSpace(s[r])
  {
    if s == [] || IsSpace(s[0]) then 0 else 1 + WordRun(s[1..])
  }

  /** `scanf("%Ns")`: skip white space, then read at most `width` non-space
      bytes; `None` when none is left. */
  function ScanWord(s: Bytes, width: nat): (r: Option<(Bytes, Bytes)>)
    requires width > 0
    ensures r.Some? ==> 0 < |r.value.0| <= width && |r.value.1| < |s|
  {
    var t := s[SpaceRun(s)..];
    var k := WordRun(t);
    var k' := if k <= width then k else width;
    if k' == 0 then None else Some((t[..k'], t[k'..]))
  }

  lemma {:induction false} WordRunOf(w: Bytes, rest: Bytes)
    requires forall i | 0 <= i < |w| :: !IsSpace(w[i])
    requires rest == [] || IsSpace(rest[0])
    ensures WordRun(w + rest) == |w|
  {
    if w != [] {
      assert (w + rest)[1..] == w[1..] + rest;
      WordRunOf(w[1..], rest);
    }
  }

  /** A word no longer than the width is read whole. */
  lemma ScanWholeWord(space: Bytes, w: Bytes, rest: Bytes, width: nat)
    requires width > 0 && 0 < |w| <= width
    requires forall i | 0 <= i < |space| :: IsSpace(space[i])
    requires forall i | 0 <= i < |w| :: !IsSpace(w[i])
    requires rest == [] || IsSpace(rest[0])
    ensures ScanWord(space + w + rest, width) == Some((w, rest))
  {
    var s := space + w + rest;
    assert s == space + (w + rest);
    SpacePrefix(space, w + rest);
    assert s[|space|..] == w + rest;
    WordRunOf(w, rest);
    assert (w + rest)[..|w|] == w;
    assert (w + rest)[|w|..] == rest;
  }
}

=== FILE: old_namespace_store.dfy ===
/** The older namespaced store (storage/storage_manage.cc).

    Each name holds a `DBEntry` of a database pointer and a mutex pointer.
    Only the constructor allocates a mutex (for the shared namespace ""); a
    database opened later gets a NULL mutex, and locking a NULL mutex is not
    defined, so every access that locks one requires the mutex to exist.
    Unknown names answer `NotFound`, and a stored empty value reads as
    `NotFound` too. */
module OldNamespaceStore {
  import opened Bytes
  import opened Outcomes
  import opened Table
  import opened NamespaceStore

  datatype DbEntry = DbEntry(db: Option<seq<Entry>>, hasMutex: bool)

  datatype OldManager = OldManager(dbs: map<Bytes, DbEntry>)

  /** Open databases are ordered tables, and a namespace with a mutex has
      an open database (the constructor asserts that its open succeeded). */
  predicate OldValid(m: OldManager)
  {
    forall n | n in m.dbs ::
      && (m.dbs[n].db.Some? ==> Ordered(m.dbs[n].db.value))
      && (m.dbs[n].hasMutex ==> m.dbs[n].db.Some?)
  }

  /** A namespace that can be locked. */
  predicate Lockable(m: OldManager, name: Bytes)
  {
    name in m.dbs && m.dbs[name].hasMutex
  }

  /** The constructor: the directory must be created (an abort otherwise)
      and the shared database must open (an assertion). */
  function OldNew(mkdirsOk: bool, shared: Option<seq<Entry>>): (r: Run<OldManager>)
    requires shared.Some? ==> Ordered(shared.value)
    ensures r.Done? <==> mkdirsOk && shared.Some?
    ensures r.Done? ==> OldValid(r.value) && r.value.dbs.Keys == {Anonymous} && Lockable(r.value, Anonymous)
  {
    if !mkdirsOk || shared.None? then Aborted
    else Done(OldManager(map[Anonymous := DbEntry(shared, true)]))
  }

  /** `OpenDatabase`: a known name is reported open; a new one gets its
      database and no mutex. */
  function OldOpenDatabase(m: OldManager, name: Bytes, fromDisk: Option<seq<Entry>>): (r: (OldManager, bool))
    requires OldValid(m) && (fromDisk.Some? ==> Ordered(fromDisk.value))
    ensures OldValid(r.0)
    ensures name in m.dbs ==> r == (m, true)
    ensures name !in m.dbs ==> r.0.dbs == m.dbs[name := DbEntry(fromDisk, false)] && (r.1 <==> fromDisk.Some?)
    ensures name !in m.dbs ==> !Lockable(r.0, name)
  {
    if name in m.dbs then (m, true)
    else (OldManager(m.dbs[name := DbEntry(fromDisk, false)]), fromDisk.Some?)
  }

  /** `CloseDatabase`: an unknown name is a no-op; a known one is locked,
      then erased. */
  function OldCloseDatabase(m: OldManager, name: Bytes): (r: OldManager)
    requires OldValid(m) && (name in m.dbs ==> Lockable(m, name))
    ensures OldValid(r)
    ensures name !in r.dbs
    ensures r.dbs == m.dbs - {name}
  {
    if name !in m.dbs then m else OldManager(m.dbs - {name})
  }

  /** `Get`: a NULL output is `Error`; an unknown name `NotFound`; a present
      key with an empty value `NotFound`; a missing key `Error`, because
      leveldb's not-found status is not `ok()`. */
  function OldGet(m: OldManager, name: Bytes, key: Bytes, hasOut: bool): (r: (Status, Option<Bytes>))
    requires OldValid(m) && (hasOut && name in m.dbs ==> Lockable(m, name))
    ensures r.1.Some? <==> r.0 == Ok
    ensures r.0 == Ok ==> r.1.value != []
    ensures !hasOut ==> r.0 == Error
    ensures hasOut && name !in m.dbs ==> r.0 == NotFound
    ensures r.0 != UnknownUser
  {
    if !hasOut then (Error, None)
    else if name !in m.dbs then (NotFound, None)
    else
      match Lookup(m.dbs[name].db.value, key)
      case None => (Error, None)
      case Some(v) => if v == [] then (NotFound, None) else (Ok, Some(v))
  }

  function OldPut(m: OldManager, name: Bytes, key: Bytes, value: Bytes): (r: (OldManager, Status))
    requires OldValid(m) && (name in m.dbs ==> Lockable(m, name))
    ensures OldValid(r.0)
    ensures r.1 == (if name in m.dbs then Ok else NotFound)
    ensures name !in m.dbs ==> r.0 == m
    ensures r.0.dbs.Keys == m.dbs.Keys
  {
    if name !in m.dbs then (m, NotFound)
    else
      var e := m.dbs[name];
      (OldManager(m.dbs[name := e.(db := Some(Insert(e.db.value, key, value)))]), Ok)
  }

  function OldDelete(m: OldManager, name: Bytes, key: Bytes): (r: (OldManager, Status))
    requires OldValid(m) && (name in m.dbs ==> Lockable(m, name))
    ensures OldValid(r.0)
    ensures r.1 == (if name in m.dbs then Ok else NotFound)
    ensures name !in m.dbs ==> r.0 == m
    ensures r.0.dbs.Keys == m.dbs.Keys
  {
    if name !in m.dbs then (m, NotFound)
    else
      var e := m.dbs[name];
      (OldManager(m.dbs[name := e.(db := Some(Remove(e.db.value, key)))]), Ok)
  }

  /** A non-empty value put reads back; every other key and namespace keeps
      its answer. */
  lemma OldGetAfterPut(m: OldManager, name: Bytes, key: Bytes, value: Bytes, name': Bytes, key': Bytes)
    requires OldValid(m) && Lockable(m, name) && Lockable(m, name')
    ensures var m' := OldPut(m, name, key, value).0;
            OldGet(m', name', key', true)
              == if name' == name && key' == key then (if value == [] then (NotFound, None) else (Ok, Some(value)))
                 else OldGet(m, name', key', true)
  {
    LookupInsert(m.dbs[name].db.value, key, value, key');
  }

  /** After a delete the key reads as `Error`, not `NotFound`: the store's
      not-found status falls through to the error branch. */
  lemma OldGetAfterDelete(m: OldManager, name: Bytes, key: Bytes)
    requires OldValid(m) && Lockable(m, name)
    ensures OldGet(OldDelete(m, name, key).0, name, key, true) == (Error, None)
  {
    LookupRemove(m.dbs[name].db.value, key, key);
  }

  /** Opening is idempotent, and the opened name is known from then on. */
  lemma OldOpenIdempotent(m: OldManager, name: Bytes, fromDisk: Option<seq<Entry>>, again: Option<seq<Entry>>)
    requires OldValid(m) && (fromDisk.Some? ==> Ordered(fromDisk.value)) && (again.Some? ==> Ordered(again.value))
    ensures var m' := OldOpenDatabase(m, name, fromDisk).0;
            && OldOpenDatabase(m', name, again) == (m', true)
            && name in m'.dbs
  {
  }

  /** Closing a lockable namespace makes it unknown again. */
  lemma OldCloseForgets(m: OldManager, name: Bytes, key: Bytes)
    requires OldValid(m) && Lockable(m, name)
    ensures OldGet(OldCloseDatabase(m, name), name, key, true) == (NotFound, None)
  {
  }

  /** The old store never reports an unknown user: a name it does not know
      is `NotFound`, where the newer store says `UnknownUser`. */
  lemma UnknownNameDiffers(m: OldManager, n: Manager, name: Bytes, key: Bytes)
    requires OldValid(m) && name !in m.dbs && name !in n.dbs
    ensures OldGet(m, name, key, true).0 == NotFound
    ensures Get(n, name, key, true).0 == UnknownUser
  {
  }
}

=== FILE: outcomes.dfy ===
/** Shared result shapes: an optional value, and a run of server code that
    either finishes or stops the process (`abort()`, or `LOG(FATAL, …)`,
    which aborts after writing the line). */
module Outcomes {

  datatype Option<+T> = None | Some(value: T) {

    predicate IsFailure() {
      None?
    }

    function PropagateFailure<U>(): Option<U>
      requires None?
    {
      None
    }

    function Extract(): T
      requires Some?
    {
      value
    }

    function GetOr(default: T): T {
      match this
      case Some(v) => v
      case None => default
    }
  }

  /** The outcome of code that may abort the whole process. */
  datatype Run<+T> = Done(value: T) | Aborted
}

=== FILE: performance.dfy ===
/** The request statistics of a node (src/server/performance_center.h,
    server/performance_center.cc): one counter per request category,
    incremented as requests arrive, and one bounded buffer of samples per
    category. Every tick moves each counter's value into its buffer and
    zeroes the counter; the average of a category is the truncated mean of
    its buffer. The periodic timer that drives the tick is left to the
    caller. */
module Performance {
  import opened Bytes
  import opened Outcomes
  import Counters

  /** The eight categories, in the order the statistics are reported. */
  datatype Category = Put | Get | Delete | Scan | KeepAlive | Lock | Unlock | Watch

  const Categories: seq<Category> := [Put, Get, Delete, Scan, KeepAlive, Lock, Unlock, Watch]

  function Index(c: Category): (i: nat)
    ensures i < |Categories| && Categories[i] == c
  {
    match c
    case Put => 0
    case Get => 1
    case Delete => 2
    case Scan => 3
    case KeepAlive => 4
    case Lock => 5
    case Unlock => 6
    case Watch => 7
  }

  /** Every category appears once in the reporting order. */
  lemma CategoriesDistinct()
    ensures forall i, j | 0 <= i < j < |Categories| :: Categories[i] != Categories[j]
  {
  }

  /** A `boost::circular_buffer<Counter>` of samples. */
  datatype Samples = Samples(capacity: nat, items: seq<int>)
  {
    predicate Valid() {
      |items| <= capacity && forall i | 0 <= i < |items| :: IsInt64(items[i])
    }
  }

  /** `push_back`: a full buffer drops its oldest sample first; a buffer of
      capacity 0 keeps nothing. */
  function Push(b: Samples, v: int): (r: Samples)
    requires b.Valid() && IsInt64(v)
    ensures r.Valid() && r.capacity == b.capacity
    ensures b.capacity > 0 ==> |r.items| > 0 && r.items[|r.items| - 1] == v
    ensures |b.items| < b.capacity ==> r.items == b.items + [v]
    ensures 0 < b.capacity == |b.items| ==> r.items == b.items[1..] + [v]
    ensures b.capacity == 0 ==> r.items == []
  {
    if b.capacity == 0 then b
    else if |b.items| == b.capacity then Samples(b.capacity, b.items[1..] + [v])
    else Samples(b.capacity, b.items + [v])
  }

  /** A buffer keeps the last `capacity` samples pushed into it. */
  lemma PushKeepsLatest(b: Samples, v: int)
    requires b.Valid() && IsInt64(v) && b.capacity > 0
    ensures var all := b.items + [v];
      Push(b, v).items == all[|all| - Min(|all|, b.capacity)..]
  {
  }

  function Min(a: nat, b: nat): nat { if a <= b then a else b }

  datatype Center = Center(counters: seq<Counters.Counter>, buffers: seq<Samples>)
  {
    predicate Valid() {
      |counters| == |Categories| && |buffers| == |Categories| &&
      (forall i | 0 <= i < |counters| :: counters[i].Valid()) &&
      (forall i | 0 <= i < |buffers| :: buffers[i].Valid())
    }
  }

  /** The constructor: zero counters and empty buffers of one capacity.
      A negative `int` becomes a `size_t` beyond the buffer's `max_size()`,
      so the buffer's constructor throws `std::length_error`; nothing
      catches it, and the process stops. */
  function New(bufferSize: int): (r: Run<Center>)
    requires IsInt32(bufferSize)
    ensures r.Aborted? <==> bufferSize < 0
    ensures r.Done? ==> r.value.Valid()
    ensures r.Done? ==> forall c :: Current(r.value, c) == 0 && r.value.buffers[Index(c)] == Samples(bufferSize, [])
  {
    if bufferSize < 0 then Aborted
    else Done(Center(seq(|Categories|, _ => Counters.Counter(0)), seq(|Categories|, _ => Samples(bufferSize, []))))
  }

  /** An event of one category (`Put()` … `Watch()`): that counter goes up
      by one and nothing else changes. */
  function Event(p: Center, c: Category): (r: Center)
    requires p.Valid()
    ensures r.Valid() && r.buffers == p.buffers
    ensures Current(r, c) == Counters.Inc(p.counters[Index(c)]).1
    ensures forall d | d != c :: Current(r, d) == Current(p, d)
  {
    p.(counters := p.counters[Index(c) := Counters.Inc(p.counters[Index(c)]).0])
  }

  /** `CurrentPut()` … `CurrentWatch()`: the `int64_t` value of the
      category's own counter. */
  function Current(p: Center, c: Category): (r: int)
    requires p.Valid()
    ensures IsInt64(r)
  {
    Counters.Get(p.counters[Index(c)])
  }

  /** `TickTock`: every category's counter value becomes the newest sample
      of its buffer, and the counter is cleared. */
  function TickTock(p: Center): (r: Center)
    requires p.Valid()
    ensures r.Valid()
    ensures forall c :: Current(r, c) == 0
    ensures forall c :: r.buffers[Index(c)] == Push(p.buffers[Index(c)], Current(p, c))
  {
    Center(seq(|Categories|, _ => Counters.Counter(0)),
           seq(|Categories|, i requires 0 <= i < |Categories| => Push(p.buffers[i], p.counters[i].value)))
  }

  /** The sum as the source accumulates it in an `int64_t`. */
  function Sum(xs: seq<int>): int
  {
    if xs == [] then 0 else Sum(xs[..|xs| - 1]) + xs[|xs| - 1]
  }

  /** `CalcAverageOfBuffer`: the wrapped sum, converted to `size_t` for the
      division by the number of samples, and back to `int64_t`. An empty
      buffer divides by zero, which stops the process. */
  function Average(b: Samples): (r: Run<int>)
    requires b.Valid()
    ensures r.Done? <==> b.items != []
    ensures r.Done? ==> IsInt64(r.value)
    ensures r.Done? && 0 <= Sum(b.items) <= Int64Max ==>
      r.value * |b.items| <= Sum(b.items) < (r.value + 1) * |b.items|
  {
    if b.items == [] then Aborted
    else
      var sum := Wrap64(Sum(b.items));
      var unsigned := if sum < 0 then sum + Two64 else sum;
      var q := unsigned / |b.items|;
      DivBounds(unsigned, |b.items|);
      Done(if q > Int64Max then q - Two64 else q)
  }

  lemma DivBounds(s: nat, n: nat)
    requires n > 0
    ensures (s / n) * n <= s < (s / n + 1) * n
    ensures s / n <= s
  {
    var q := s / n;
    assert s == q * n + s % n;
    MulLe(1, n, q);
  }

  lemma MulLeInv(x: int, y: int, n: nat)
    requires n > 0
    ensures x * n <= y * n ==> x <= y
    ensures x * n < y * n ==> x < y
  {
    if x > y {
      MulLe(y + 1, x, n);
    } else if x == y {
    }
  }

  lemma MulLe(x: int, y: int, n: nat)
    requires x <= y
    ensures x * n <= y * n
  {
  }

  /** `AveragePut()` … `AverageWatch()`: the truncated mean of the
      category's own buffer; an empty buffer stops the process. */
  function AverageOf(p: Center, c: Category): (r: Run<int>)
    requires p.Valid()
    ensures var items := p.buffers[Index(c)].items;
      && (r.Done? <==> items != [])
      && (r.Done? ==> IsInt64(r.value))
      && (r.Done? && 0 <= Sum(items) <= Int64Max ==> r.value * |items| <= Sum(items) < (r.value + 1) * |items|)
  {
    Average(p.buffers[Index(c)])
  }

  lemma {:induction false} SumBounds(xs: seq<int>, lo: int, hi: int)
    requires forall i | 0 <= i < |xs| :: lo <= xs[i] <= hi
    ensures lo * |xs| <= Sum(xs) <= hi * |xs|
  {
    if xs != [] {
      SumBounds(xs[..|xs| - 1], lo, hi);
    }
  }

  /** The average of samples lies between their least and greatest value,
      when their sum does not overflow. */
  lemma AverageWithinSamples(b: Samples, lo: int, hi: int)
    requires b.Valid() && b.items != []
    requires 0 <= lo && forall i | 0 <= i < |b.items| :: lo <= b.items[i] <= hi
    requires Sum(b.items) <= Int64Max
    ensures lo <= Average(b).value <= hi
  {
    var n := |b.items|;
    var a := Average(b).value;
    var sum := Sum(b.items);
    SumBounds(b.items, lo, hi);
    MulLe(0, lo, n);
    assert 0 <= sum;
    assert a * n <= sum < (a + 1) * n;
    MulLeInv(lo, a + 1, n);
    MulLeInv(a, hi, n);
  }

  /** After a tick, the buffer of every category ends with the count of
      events since the previous tick. */
  lemma TickRecordsEvents(p: Center, c: Category, k: nat)
    requires p.Valid() && p.buffers[Index(c)].capacity > 0
    requires forall d :: Current(p, d) == 0
    requires k <= Int64Max
    ensures var q := TickTock(Events(p, c, k));
      var items := q.buffers[Index(c)].items;
      items[|items| - 1] == k
  {
    EventsCount(p, c, k);
  }

  /** `k` events of one category. */
  function Events(p: Center, c: Category, k: nat): (r: Center)
    requires p.Valid()
    ensures r.Valid() && r.buffers == p.buffers
  {
    if k == 0 then p else Event(Events(p, c, k - 1), c)
  }

  lemma {:induction false} EventsCount(p: Center, c: Category, k: nat)
    requires p.Valid() && Current(p, c) == 0 && k <= Int64Max
    ensures Current(Events(p, c, k), c) == k
  {
    if k > 0 {
      EventsCount(p, c, k - 1);
    }
  }
}

=== FILE: raft_node.dfy ===
/** The replication rules of a node (server/ins_node_impl.cc): the vote
    handler, the follower side of AppendEntries with its log reconciliation,
    the leader's commit-index rule and the binlog-compaction guard.

    The node's log is a sequence of entries. Each rule is written as the
    per-request decision the handler takes under the node mutex; replies,
    the persisted term and vote, timers and replication threads are left to
    the caller. `ReconcileOnBinlog` replays the same reconciliation on the
    leveldb-backed binlog, through the logger calls the handler makes, and
    `ReconcileOnBinlogRepresents` shows it lands on the log `Reconcile`
    computes. */
module RaftNode {
  import opened Bytes
  import opened Outcomes
  import opened BinlogCodec
  import opened LevelBinlog

  datatype Role = Leader | Candidate | Follower

  /** The replication state of a node: its role, current term, the vote it
      cast in each term, its log, commit index, the leader it follows and
      the number of heartbeats it has seen. */
  datatype Node = Node(role: Role, term: int, votedFor: map<int, Bytes>, log: seq<LogEntry>,
                       commitIndex: int, leader: Bytes, heartbeats: nat)

  /** The term of entry `i`, or -1 for the position before the first entry. */
  function TermAt(log: seq<LogEntry>, i: int): int
    requires i < |log|
  {
    if i >= 0 then log[i].term else -1
  }

  /** `GetLastLogIndexAndTerm`. */
  function LastIndexAndTerm(log: seq<LogEntry>): (int, int)
  {
    (|log| - 1, TermAt(log, |log| - 1))
  }

  /** The candidate's log is at least as up to date as `log`: its last term
      is larger, or equal with an index at least as large (section 5.4.1 of
      the Raft paper by Ongaro and Ousterhout). */
  predicate AtLeastAsUpToDate(lastIndex: int, lastTerm: int, log: seq<LogEntry>)
  {
    var (i, t) := LastIndexAndTerm(log);
    lastTerm > t || (lastTerm == t && lastIndex >= i)
  }

  /** `TransToFollower`: adopt a newer term as a follower. */
  function TransToFollower(n: Node, newTerm: int): (r: Node)
    ensures r.role == Follower && r.term == newTerm
    ensures r.log == n.log && r.votedFor == n.votedFor && r.commitIndex == n.commitIndex
  {
    n.(role := Follower, term := newTerm)
  }

  // --------------------------------------------------------------------- vote

  datatype VoteRequest = VoteRequest(term: int, candidate: Bytes, lastLogIndex: int, lastLogTerm: int)

  datatype VoteReply = VoteReply(granted: bool, term: int)

  /** `Vote`: a request from an older term, or from a candidate whose log is
      behind, is refused without any change (the log check comes before the
      term is adopted); a newer term is adopted; the vote is granted unless
      another candidate already holds the vote of the current term. */
  function Vote(n: Node, req: VoteRequest): (r: (Node, VoteReply))
    ensures r.1.term == r.0.term
    ensures r.1.granted ==>
              && req.term >= n.term
              && AtLeastAsUpToDate(req.lastLogIndex, req.lastLogTerm, n.log)
              && r.0.term == req.term
              && (req.term in n.votedFor ==> n.votedFor[req.term] == req.candidate)
              && r.0.votedFor == n.votedFor[req.term := req.candidate]
    ensures !r.1.granted ==> r.0.votedFor == n.votedFor
    ensures req.term < n.term ==> r == (n, VoteReply(false, n.term))
    ensures !AtLeastAsUpToDate(req.lastLogIndex, req.lastLogTerm, n.log) ==> r == (n, VoteReply(false, n.term))
    ensures r.0.term >= n.term && r.0.log == n.log && r.0.commitIndex == n.commitIndex
    ensures req.term > n.term && AtLeastAsUpToDate(req.lastLogIndex, req.lastLogTerm, n.log) ==>
              && r.0.role == Follower && r.0.term == req.term
              && (r.1.granted <==> req.term !in n.votedFor || n.votedFor[req.term] == req.candidate)
  {
    if req.term < n.term then (n, VoteReply(false, n.term))
    else if !AtLeastAsUpToDate(req.lastLogIndex, req.lastLogTerm, n.log) then (n, VoteReply(false, n.term))
    else
      var n1 := if req.term > n.term then TransToFollower(n, req.term) else n;
      if n1.term in n1.votedFor && n1.votedFor[n1.term] != req.candidate then
        (n1, VoteReply(false, n1.term))
      else
        (n1.(votedFor := n1.votedFor[n1.term := req.candidate]), VoteReply(true, n1.term))
  }

  // ------------------------------------------------------------ append entries

  function Clamp(i: int): nat
  {
    if i < 0 then 0 else i
  }

  /** The binlog's `Truncate(i)` on the log: keep slots `0..i`, with `i`
      clamped to -1. */
  function TruncateLog(log: seq<LogEntry>, i: int): (r: seq<LogEntry>)
    requires i < |log|
    ensures |r| == Clamp(i + 1)
    ensures forall j | 0 <= j < |r| :: r[j] == log[j]
  {
    log[..Clamp(i + 1)]
  }

  /** The consistency check and reconciliation of a non-empty batch: a
      previous index past the end fails with the log unchanged; a previous
      term that differs fails and drops the entry at the previous index and
      everything after it; otherwise the log is cut after the previous index
      and the batch appended (section 5.3 of the Raft paper). */
  function Reconcile(log: seq<LogEntry>, prevIndex: int, prevTerm: int, es: seq<LogEntry>): (r: (seq<LogEntry>, bool))
    ensures r.1 <==> prevIndex < |log| && TermAt(log, prevIndex) == prevTerm
    ensures r.1 ==> |r.0| == Clamp(prevIndex + 1) + |es|
    ensures r.1 ==> forall j | 0 <= j < Clamp(prevIndex + 1) :: r.0[j] == log[j]
    ensures r.1 ==> forall k | 0 <= k < |es| :: r.0[Clamp(prevIndex + 1) + k] == es[k]
    ensures !r.1 && prevIndex >= |log| ==> r.0 == log
    ensures !r.1 && prevIndex < |log| ==> r.0 == log[..Clamp(prevIndex)]
  {
    if prevIndex >= |log| then (log, false)
    else if TermAt(log, prevIndex) != prevTerm then (TruncateLog(log, prevIndex - 1), false)
    else
      var kept := if |log| > prevIndex + 1 then TruncateLog(log, prevIndex) else log;
      (kept + es, true)
  }

  datatype AppendRequest = AppendRequest(term: int, leader: Bytes, prevIndex: int, prevTerm: int,
                                         entries: seq<LogEntry>, leaderCommit: int)

  datatype AppendReply = AppendReply(term: int, success: bool, logLength: int)

  /** `AppendEntries` on a follower. A request from an older term fails
      with no change. Otherwise the node becomes a follower of the sender in
      the request's term; a non-empty batch is reconciled, and on success the
      commit index becomes the smaller of the last log index and the
      leader's commit index. (The source's abort for a node that is not a
      follower at that point cannot be reached: the role was just set.) */
  function AppendEntries(n: Node, req: AppendRequest): (r: (Node, AppendReply))
    ensures r.1.term == r.0.term && r.1.logLength == |r.0.log|
    ensures r.0.votedFor == n.votedFor
    ensures req.term < n.term ==> r == (n, AppendReply(n.term, false, |n.log|))
    ensures req.term >= n.term ==> r.0.role == Follower && r.0.term == req.term && r.0.leader == req.leader
    ensures r.1.success ==> req.term >= n.term && r.0.commitIndex == Min(|r.0.log| - 1, req.leaderCommit)
    ensures !r.1.success ==> r.0.commitIndex == n.commitIndex
    ensures req.entries == [] ==> r.0.log == n.log && (r.1.success <==> req.term >= n.term)
    ensures req.term >= n.term && req.entries != [] ==>
              (r.0.log, r.1.success) == Reconcile(n.log, req.prevIndex, req.prevTerm, req.entries)
  {
    if req.term < n.term then (n, AppendReply(n.term, false, |n.log|))
    else
      var f := n.(role := Follower, term := req.term, leader := req.leader, heartbeats := n.heartbeats + 1);
      var step := if |req.entries| > 0 then Reconcile(f.log, req.prevIndex, req.prevTerm, req.entries)
                  else (f.log, true);
      var log' := step.0;
      if !step.1 then (f.(log := log'), AppendReply(f.term, false, |log'|))
      else (f.(log := log', commitIndex := Min(|log'| - 1, req.leaderCommit)), AppendReply(f.term, true, |log'|))
  }

  function Min(a: int, b: int): int
  {
    if a <= b then a else b
  }

  /** After a successful append the follower's log agrees with the leader's
      up to the batch: the entry at the previous index carries the previous
      term, and the batch sits right after it. */
  lemma AppendEntriesMatchesLeader(n: Node, req: AppendRequest, k: int)
    requires req.entries != [] && 0 <= k < |req.entries|
    requires AppendEntries(n, req).1.success
    ensures var log := AppendEntries(n, req).0.log;
            && req.prevIndex + 1 + k < |log|
            && (req.prevIndex >= 0 ==> log[req.prevIndex].term == req.prevTerm)
            && (req.prevIndex < 0 ==> req.prevTerm == -1)
            && (req.prevIndex >= -1 ==> log[req.prevIndex + 1 + k] == req.entries[k])
  {
    ReconcileMatches(n.log, req.prevIndex, req.prevTerm, req.entries, k);
  }

  lemma ReconcileMatches(log: seq<LogEntry>, prevIndex: int, prevTerm: int, es: seq<LogEntry>, k: int)
    requires 0 <= k < |es| && Reconcile(log, prevIndex, prevTerm, es).1
    ensures var log' := Reconcile(log, prevIndex, prevTerm, es).0;
            && prevIndex + 1 + k < |log'|
            && (prevIndex >= 0 ==> log'[prevIndex].term == prevTerm)
            && (prevIndex < 0 ==> prevTerm == -1)
            && (prevIndex >= -1 ==> log'[prevIndex + 1 + k] == es[k])
  {
    var log' := Reconcile(log, prevIndex, prevTerm, es).0;
    if prevIndex >= 0 {
      assert log'[prevIndex] == log[prevIndex];
    }
    if prevIndex >= -1 {
      assert log'[Clamp(prevIndex + 1) + k] == es[k];
    }
  }

  // ------------------------------------------------------------ on the binlog

  /** Every slot of the log is still stored: nothing has been compacted. */
  predicate Uncompacted(s: Binlog, log: seq<LogEntry>)
  {
    forall i | 0 <= i < |log| :: Slot(i) in s.db
  }

  /** The term of the previous entry as the handler reads it: slot `i` of
      the binlog (a failed read trips an assertion), or -1 before the first
      slot. */
  function PrevTermOnBinlog(s: Binlog, i: int): (r: Run<int>)
    requires IsInt64(i)
  {
    if i < 0 then Done(-1)
    else
      match ReadSlot(s, i)
      case None => Aborted
      case Some(e) => Done(e.term)
  }

  /** The accepting branch on the binlog: `Truncate` a longer log after the
      previous index, then `AppendEntryList`. */
  function AcceptOnBinlog(s: Binlog, prevIndex: int, es: seq<LogEntry>): (r: Run<Binlog>)
    requires AllDumpable(es) && 0 <= s.length && s.length + |es| < Int64Max
    requires IsInt64(prevIndex) && prevIndex < s.length
  {
    var cut := if s.length > prevIndex + 1 then Truncate(s, prevIndex) else Done(s);
    match cut
    case Aborted => Aborted
    case Done(t) =>
      assert t.length <= s.length;
      Done(AppendEntryList(t, es))
  }

  /** The reconciliation as the handler performs it on the binlog: compare
      the previous term, `Truncate` on a mismatch, else accept. */
  function ReconcileOnBinlog(s: Binlog, prevIndex: int, prevTerm: int, es: seq<LogEntry>): (r: Run<(Binlog, bool)>)
    requires AllDumpable(es) && 0 <= s.length && s.length + |es| < Int64Max
    requires IsInt64(prevIndex) && prevIndex > Int64Min
  {
    if prevIndex >= s.length then Done((s, false))
    else
      match PrevTermOnBinlog(s, prevIndex)
      case Aborted => Aborted
      case Done(pt) =>
        if pt != prevTerm then
          match Truncate(s, prevIndex - 1)
          case Aborted => Aborted
          case Done(t) => Done((t, false))
        else
          match AcceptOnBinlog(s, prevIndex, es)
          case Aborted => Aborted
          case Done(t) => Done((t, true))
  }

  /** Truncating below -1 is truncating to -1. */
  lemma TruncateClamps(s: Binlog, i: int)
    requires IsInt64(i) && i < -1
    ensures Truncate(s, i) == Truncate(s, -1)
  {
  }

  lemma TruncateToPrefix(s: Binlog, log: seq<LogEntry>, i: int)
    requires Represents(s, log) && Uncompacted(s, log) && IsInt64(i) && i < |log|
    ensures Truncate(s, i).Done? && Represents(Truncate(s, i).value, TruncateLog(log, i))
  {
    if i < -1 {
      TruncateClamps(s, i);
      TruncateRepresents(s, log, -1);
    } else {
      TruncateRepresents(s, log, i);
    }
  }

  lemma PrevTermOfLog(s: Binlog, log: seq<LogEntry>, i: int)
    requires Represents(s, log) && Uncompacted(s, log) && IsInt64(i) && i < |log|
    ensures PrevTermOnBinlog(s, i) == Done(TermAt(log, i))
  {
    if i >= 0 {
      ReadSlotOfLog(s, log, i);
    }
  }

  lemma AcceptOfLog(s: Binlog, log: seq<LogEntry>, prevIndex: int, es: seq<LogEntry>)
    requires Represents(s, log) && Uncompacted(s, log)
    requires AllDumpable(es) && |log| + |es| < Int64Max
    requires IsInt64(prevIndex) && prevIndex < |log|
    ensures AcceptOnBinlog(s, prevIndex, es).Done?
    ensures Represents(AcceptOnBinlog(s, prevIndex, es).value,
                       (if |log| > prevIndex + 1 then TruncateLog(log, prevIndex) else log) + es)
  {
    if |log| > prevIndex + 1 {
      TruncateToPrefix(s, log, prevIndex);
      AppendEntryListRepresents(Truncate(s, prevIndex).value, TruncateLog(log, prevIndex), es);
    } else {
      AppendEntryListRepresents(s, log, es);
    }
  }

  /** On an uncompacted binlog standing for `log`, the handler's logger
      calls never abort and leave a binlog standing for the log `Reconcile`
      computes, with the same verdict. */
  lemma ReconcileOnBinlogRepresents(s: Binlog, log: seq<LogEntry>, prevIndex: int, prevTerm: int, es: seq<LogEntry>)
    requires Represents(s, log) && Uncompacted(s, log)
    requires AllDumpable(es) && |log| + |es| < Int64Max
    requires IsInt64(prevIndex) && prevIndex > Int64Min
    ensures ReconcileOnBinlog(s, prevIndex, prevTerm, es).Done?
    ensures Represents(ReconcileOnBinlog(s, prevIndex, prevTerm, es).value.0, Reconcile(log, prevIndex, prevTerm, es).0)
    ensures ReconcileOnBinlog(s, prevIndex, prevTerm, es).value.1 == Reconcile(log, prevIndex, prevTerm, es).1
  {
    if prevIndex < |log| {
      PrevTermOfLog(s, log, prevIndex);
      if TermAt(log, prevIndex) != prevTerm {
        MismatchOnBinlog(s, log, prevIndex, prevTerm, es);
      } else {
        MatchOnBinlog(s, log, prevIndex, prevTerm, es);
      }
    }
  }

  lemma MismatchOnBinlog(s: Binlog, log: seq<LogEntry>, prevIndex: int, prevTerm: int, es: seq<LogEntry>)
    requires Represents(s, log) && Uncompacted(s, log)
    requires AllDumpable(es) && |log| + |es| < Int64Max
    requires IsInt64(prevIndex) && Int64Min < prevIndex < |log|
    requires PrevTermOnBinlog(s, prevIndex) == Done(TermAt(log, prevIndex)) && TermAt(log, prevIndex) != prevTerm
    ensures ReconcileOnBinlog(s, prevIndex, prevTerm, es).Done?
    ensures Represents(ReconcileOnBinlog(s, prevIndex, prevTerm, es).value.0, Reconcile(log, prevIndex, prevTerm, es).0)
    ensures ReconcileOnBinlog(s, prevIndex, prevTerm, es).value.1 == Reconcile(log, prevIndex, prevTerm, es).1
  {
    TruncateToPrefix(s, log, prevIndex - 1);
    var t := Truncate(s, prevIndex - 1);
    assert ReconcileOnBinlog(s, prevIndex, prevTerm, es) == Done((t.value, false));
    assert Reconcile(log, prevIndex, prevTerm, es) == (TruncateLog(log, prevIndex - 1), false);
  }

  lemma MatchOnBinlog(s: Binlog, log: seq<LogEntry>, prevIndex: int, prevTerm: int, es: seq<LogEntry>)
    requires Represents(s, log) && Uncompacted(s, log)
    requires AllDumpable(es) && |log| + |es| < Int64Max
    requires IsInt64(prevIndex) && Int64Min < prevIndex < |log|
    requires PrevTermOnBinlog(s, prevIndex) == Done(TermAt(log, prevIndex)) && TermAt(log, prevIndex) == prevTerm
    ensures ReconcileOnBinlog(s, prevIndex, prevTerm, es).Done?
    ensures Represents(ReconcileOnBinlog(s, prevIndex, prevTerm, es).value.0, Reconcile(log, prevIndex, prevTerm, es).0)
    ensures ReconcileOnBinlog(s, prevIndex, prevTerm, es).value.1 == Reconcile(log, prevIndex, prevTerm, es).1
  {
    AcceptOfLog(s, log, prevIndex, es);
  }

  // -------------------------------------------------------------- commit rule

  /** The entry of `matchIndex` for `id`, where a missing entry reads as the
      0 that `std::map::operator[]` inserts. */
  function MatchOf(matchIndex: map<Bytes, int>, id: Bytes): int
  {
    if id in matchIndex then matchIndex[id] else 0
  }

  /** How many members have replicated up to index `a`. */
  function MatchCount(members: seq<Bytes>, matchIndex: map<Bytes, int>, a: int): (c: nat)
    ensures c <= |members|
  {
    if |members| == 0 then 0
    else MatchCount(members[..|members| - 1], matchIndex, a)
         + (if MatchOf(matchIndex, members[|members| - 1]) >= a then 1 else 0)
  }

  /** `matchIndex` after the count: a 0 entry inserted for every member
      that had none. */
  function Filled(members: seq<Bytes>, matchIndex: map<Bytes, int>): (r: map<Bytes, int>)
    ensures r.Keys == matchIndex.Keys + (set m | m in members)
    ensures forall id | id in r :: r[id] == MatchOf(matchIndex, id)
  {
    map id | id in matchIndex.Keys + (set m | m in members) :: MatchOf(matchIndex, id)
  }

  /** `UpdateCommitIndex(a)`: counting the members fills in `matchIndex`,
      and the commit index moves up to `a` when the count reaches half the
      size of the filled map, rounded down. Returns the new commit index and
      the filled map. */
  function UpdateCommitIndex(members: seq<Bytes>, matchIndex: map<Bytes, int>, commit: int, a: int): (r: (int, map<Bytes, int>))
    ensures r.1 == Filled(members, matchIndex)
    ensures r.0 >= commit
    ensures r.0 == commit || (r.0 == a && a > commit)
    ensures r.0 > commit <==> a > commit && 2 * MatchCount(members, matchIndex, a) + 1 >= |r.1.Keys|
  {
    var filled := Filled(members, matchIndex);
    var count := MatchCount(members, matchIndex, a);
    HalfRoundedDown(count, |filled|);
    if count >= |filled| / 2 && a > commit then (a, filled) else (commit, filled)
  }

  lemma HalfRoundedDown(c: nat, size: nat)
    ensures c >= size / 2 <==> 2 * c + 1 >= size
  {
    var h := size / 2;
    assert size == 2 * h || size == 2 * h + 1;
  }

  /** An index that has reached enough members leaves every lower index
      reached by at least as many. */
  lemma {:induction false} MatchCountAntitone(members: seq<Bytes>, matchIndex: map<Bytes, int>, a: int, b: int)
    requires b <= a
    ensures MatchCount(members, matchIndex, a) <= MatchCount(members, matchIndex, b)
  {
    if |members| > 0 {
      MatchCountAntitone(members[..|members| - 1], matchIndex, a, b);
    }
  }

  /** Once every member has replicated `a`, a leader with members listed once
      commits `a` whenever it is above the commit index. */
  lemma {:induction false} FullReplicationCommits(members: seq<Bytes>, matchIndex: map<Bytes, int>, commit: int, a: int)
    requires forall i | 0 <= i < |members| :: MatchOf(matchIndex, members[i]) >= a
    requires matchIndex.Keys <= (set m | m in members)
    requires a > commit
    ensures UpdateCommitIndex(members, matchIndex, commit, a).0 == a
  {
    AllMatched(members, matchIndex, a);
    var keys := matchIndex.Keys + (set m | m in members);
    assert keys == (set m | m in members);
    SetOfSeqCard(members);
  }

  lemma {:induction false} AllMatched(members: seq<Bytes>, matchIndex: map<Bytes, int>, a: int)
    requires forall i | 0 <= i < |members| :: MatchOf(matchIndex, members[i]) >= a
    ensures MatchCount(members, matchIndex, a) == |members|
  {
    if |members| > 0 {
      AllMatched(members[..|members| - 1], matchIndex, a);
    }
  }

  lemma {:induction false} SetOfSeqCard(s: seq<Bytes>)
    ensures |(set m | m in s)| <= |s|
  {
    if |s| > 0 {
      var init := s[..|s| - 1];
      SetOfSeqCard(init);
      assert (set m | m in s) == (set m | m in init) + {s[|s| - 1]};
    }
  }

  // ----------------------------------------------------------- message traces

  datatype Message = VoteMsg(vote: VoteRequest) | AppendMsg(append: AppendRequest)

  datatype Reply = Voted(voteReply: VoteReply) | Appended(appendReply: AppendReply)

  function Step(n: Node, m: Message): (Node, Reply)
  {
    match m
    case VoteMsg(v) => var (n', r) := Vote(n, v); (n', Voted(r))
    case AppendMsg(a) => var (n', r) := AppendEntries(n, a); (n', Appended(r))
  }

  /** The node after handling `ms` in order, with the replies it sent. */
  function Replay(n: Node, ms: seq<Message>): (r: (Node, seq<Reply>))
    ensures |r.1| == |ms|
  {
    if |ms| == 0 then (n, [])
    else
      var (n', rs) := Replay(n, ms[..|ms| - 1]);
      var (n'', x) := Step(n', ms[|ms| - 1]);
      (n'', rs + [x])
  }

  predicate GrantedIn(r: Reply, t: int)
  {
    r.Voted? && r.voteReply.granted && r.voteReply.term == t
  }

  /** Every vote granted along the way is still recorded at the end. */
  lemma {:induction false} GrantStays(n: Node, ms: seq<Message>, i: nat)
    requires i < |ms| && Replay(n, ms).1[i].Voted? && Replay(n, ms).1[i].voteReply.granted
    ensures var t := Replay(n, ms).1[i].voteReply.term;
            && ms[i].VoteMsg?
            && t in Replay(n, ms).0.votedFor
            && Replay(n, ms).0.votedFor[t] == ms[i].vote.candidate
  {
    var init := ms[..|ms| - 1];
    var (n', rs) := Replay(n, init);
    if i < |ms| - 1 {
      assert Replay(n, ms).1[i] == rs[i];
      assert init[i] == ms[i];
      GrantStays(n, init, i);
    }
  }

  /** Within one term a node grants its vote to at most one candidate, however
      vote and append requests interleave. */
  lemma AtMostOneVotePerTerm(n: Node, ms: seq<Message>, i: nat, j: nat, t: int)
    requires i < |ms| && j < |ms|
    requires GrantedIn(Replay(n, ms).1[i], t) && GrantedIn(Replay(n, ms).1[j], t)
    ensures ms[i].VoteMsg? && ms[j].VoteMsg? && ms[i].vote.candidate == ms[j].vote.candidate
  {
    GrantStays(n, ms, i);
    GrantStays(n, ms, j);
  }

  /** The term never goes down. */
  lemma {:induction false} TermMonotone(n: Node, ms: seq<Message>)
    ensures Replay(n, ms).0.term >= n.term
  {
    if |ms| > 0 {
      TermMonotone(n, ms[..|ms| - 1]);
    }
  }

  // ---------------------------------------------------------- binlog cleaning

  /** `CleanBinlog`: deleting up to an index above the last applied one is
      fatal; otherwise compaction runs down from `end - 1` (an `int64_t`
      decrement). */
  function CleanBinlog(lastApplied: int, end: int, s: Binlog): (r: Run<Binlog>)
    requires IsInt64(end)
    ensures r.Aborted? <==> lastApplied < end
    ensures r.Done? ==> r.value.length == s.length && r.value.db.Keys <= s.db.Keys
  {
    if lastApplied < end then Aborted
    else Done(DelBinlog(s, if end == Int64Min then Int64Max else end - 1))
  }

  /** Cleaning keeps the log the binlog stands for, removes the slot just
      below `end`, and keeps every slot at or above `end`. */
  lemma CleanBinlogKeeps(lastApplied: int, end: int, s: Binlog, log: seq<LogEntry>)
    requires Represents(s, log) && IsInt64(end) && 0 <= end <= lastApplied
    ensures var r := CleanBinlog(lastApplied, end, s);
            && r.Done? && Represents(r.value, log)
            && Slot(end - 1) !in r.value.db
            && forall j | end <= j && Slot(j) in s.db :: Slot(j) in r.value.db
  {
    DelBinlogRepresents(s, log, end - 1);
    DelBinlogKeepsAbove(s, end - 1, end);
  }
}

=== FILE: scan.dfy ===
/** The range scan of a node (server/ins_node_impl.cc, `Scan`).

    An iterator is positioned at the first key at or above the start key and
    walks forward while the key is below the end key (an empty end key means
    no bound). The applied-index tag and locks of expired sessions are
    skipped; every other row is returned without its operation byte. The
    loop checks its item budget before it looks at a row, so it stops after
    `size_limit + 1` items and reports `has_more` only when it stopped on a
    row still inside the range.

    `Visible` is the reference: the rows of the range a scan may show, in
    order. `Collect`, the loop, returns a prefix of it, and all of it when
    `has_more` is false. */
module RangeScan {
  import opened Bytes
  import opened Outcomes
  import opened BinlogCodec
  import opened Table
  import opened NamespaceStore
  import opened StateMachine
  import opened RaftNode

  /** A key below the end key, or any key when the end key is empty. */
  predicate BelowEnd(k: Bytes, end: Bytes)
  {
    end == [] || Less(k, end)
  }

  predicate InRange(k: Bytes, start: Bytes, end: Bytes)
  {
    !Less(k, start) && BelowEnd(k, end)
  }

  /** The rows the iterator walks before the first key at or past `end`. */
  function TakeBelow(rows: seq<Entry>, end: Bytes): (r: seq<Entry>)
    ensures |r| <= |rows|
    ensures forall j | 0 <= j < |r| :: r[j] == rows[j] && BelowEnd(r[j].0, end)
    ensures |r| < |rows| ==> !BelowEnd(rows[|r|].0, end)
  {
    if |rows| == 0 || !BelowEnd(rows[0].0, end) then []
    else
      var rest := TakeBelow(rows[1..], end);
      assert forall j | 1 <= j < |rest| + 1 :: rows[j] == rows[1..][j - 1];
      [rows[0]] + rest
  }

  /** A row the scan shows: not the applied-index tag, and not a lock held
      by an expired session. */
  predicate Shown(row: Entry, live: set<Bytes>, unset: byte)
  {
    var parsed := ParseValue(row.1, unset, []);
    row.0 != TagLastApplied && !(parsed.0 == OpLock && Expired(live, parsed.1))
  }

  /** The item a shown row becomes: its key and its value without the
      operation byte. */
  function Item(row: Entry, unset: byte): (r: Entry)
    ensures r.0 == row.0
  {
    (row.0, ParseValue(row.1, unset, []).1)
  }

  /** The items of the rows a scan may show, in order. */
  function Visible(rows: seq<Entry>, live: set<Bytes>, unset: byte): (r: seq<Entry>)
    ensures |r| <= |rows|
  {
    if |rows| == 0 then []
    else (if Shown(rows[0], live, unset) then [Item(rows[0], unset)] else []) + Visible(rows[1..], live, unset)
  }

  predicate IsPrefix(a: seq<Entry>, b: seq<Entry>)
  {
    |a| <= |b| && a == b[..|a|]
  }

  /** How many more items the loop takes once it has counted `count`. */
  function Quota(limit: int, count: int): nat
  {
    if count > limit then 0 else limit + 1 - count
  }

  /** The scan loop over the rows of the range, with `count` items taken so
      far: the budget check, then the tag and expired locks skipped. Returns
      the items and `has_more`. */
  function Collect(rows: seq<Entry>, limit: int, count: nat, live: set<Bytes>, unset: byte): (r: (seq<Entry>, bool))
    ensures IsPrefix(r.0, Visible(rows, live, unset))
    ensures |r.0| <= Quota(limit, count)
    ensures r.1 ==> |r.0| == Quota(limit, count) && |rows| > 0
    ensures !r.1 ==> r.0 == Visible(rows, live, unset)
  {
    if |rows| == 0 then ([], false)
    else if count > limit then ([], true)
    else if !Shown(rows[0], live, unset) then
      VisibleSkips(rows, live, unset);
      Collect(rows[1..], limit, count, live, unset)
    else
      var r := Collect(rows[1..], limit, count + 1, live, unset);
      var x := Item(rows[0], unset);
      VisibleTakes(rows, live, unset);
      PrefixCons(x, r.0, Visible(rows[1..], live, unset));
      ([x] + r.0, r.1)
  }

  lemma VisibleSkips(rows: seq<Entry>, live: set<Bytes>, unset: byte)
    requires |rows| > 0 && !Shown(rows[0], live, unset)
    ensures Visible(rows, live, unset) == Visible(rows[1..], live, unset)
  {
  }

  lemma VisibleTakes(rows: seq<Entry>, live: set<Bytes>, unset: byte)
    requires |rows| > 0 && Shown(rows[0], live, unset)
    ensures Visible(rows, live, unset) == [Item(rows[0], unset)] + Visible(rows[1..], live, unset)
  {
  }

  lemma PrefixCons(x: Entry, a: seq<Entry>, b: seq<Entry>)
    requires IsPrefix(a, b)
    ensures IsPrefix([x] + a, [x] + b)
  {
    assert ([x] + b)[..|a| + 1] == [x] + b[..|a|];
  }

  /** A scan that hits its budget has a longer reference list; one that
      does not hit it is complete. */
  lemma CollectHasMore(rows: seq<Entry>, limit: int, live: set<Bytes>, unset: byte)
    ensures |Visible(rows, live, unset)| > Quota(limit, 0) ==> Collect(rows, limit, 0, live, unset).1
  {
  }

  datatype ScanReply = ScanReply(success: bool, leaderId: Bytes, items: seq<Entry>, hasMore: bool)

  /** The rows of table `t` in the range, in iterator order. */
  function Window(t: seq<Entry>, start: Bytes, end: Bytes): seq<Entry>
  {
    TakeBelow(t[SeekIndex(t, start)..], end)
  }

  /** `Scan`. Followers name their leader; candidates, a leader in safe
      mode and a leader still within the session-expiry window after its
      start (`settled` false) refuse. An unknown or failed namespace gives a
      NULL iterator, which the loop dereferences: an abort. */
  function Scan(role: Role, leader: Bytes, safeMode: bool, settled: bool, m: Manager, user: Bytes,
                start: Bytes, end: Bytes, limit: int, live: set<Bytes>, unset: byte): (r: Run<ScanReply>)
    ensures role == Follower ==> r == Done(ScanReply(false, leader, [], false))
    ensures role == Candidate || (role == Leader && (safeMode || !settled)) ==> r == Done(ScanReply(false, [], [], false))
    ensures role == Leader && !safeMode && settled ==> (r.Aborted? <==> !Open(m, user))
    ensures r.Done? && r.value.success ==> |r.value.items| <= Quota(limit, 0)
  {
    if role == Follower then Done(ScanReply(false, leader, [], false))
    else if role == Candidate || safeMode || !settled then Done(ScanReply(false, [], [], false))
    else
      match NewIterator(m, user)
      case None => Aborted
      case Some(c) =>
        var (items, more) := Collect(Window(c.rows.value, start, end), limit, 0, live, unset);
        Done(ScanReply(true, [], items, more))
  }

  // ------------------------------------------------------------------ proofs

  lemma {:induction false} OrderedSuffix(t: seq<Entry>, i: nat)
    requires Ordered(t) && i <= |t|
    ensures Ordered(t[i..])
  {
    if i > 0 {
      OrderedSuffix(t[1..], i - 1);
      assert t[1..][i - 1..] == t[i..];
    }
  }

  /** In an ordered table every row up to one below the end key is walked. */
  lemma {:induction false} TakeBelowCovers(rows: seq<Entry>, end: Bytes, k: nat)
    requires Ordered(rows) && k < |rows| && BelowEnd(rows[k].0, end)
    ensures k < |TakeBelow(rows, end)|
  {
    if k > 0 {
      OrderedPairs(rows, 0, k);
      if end != [] {
        LessTransitive(rows[0].0, rows[k].0, end);
      }
      assert rows[k] == rows[1..][k - 1];
      TakeBelowCovers(rows[1..], end, k - 1);
    }
  }

  /** Every row of `Visible` comes from a row with the same key. */
  lemma {:induction false} VisibleKeys(rows: seq<Entry>, live: set<Bytes>, unset: byte, i: nat)
    requires i < |Visible(rows, live, unset)|
    ensures exists j | 0 <= j < |rows| :: Visible(rows, live, unset)[i] == Item(rows[j], unset) && Shown(rows[j], live, unset)
  {
    var head := if Shown(rows[0], live, unset) then [Item(rows[0], unset)] else [];
    if i < |head| {
      assert Visible(rows, live, unset)[i] == Item(rows[0], unset);
    } else {
      VisibleKeys(rows[1..], live, unset, i - |head|);
      var j :| 0 <= j < |rows[1..]| && Visible(rows[1..], live, unset)[i - |head|] == Item(rows[1..][j], unset)
                && Shown(rows[1..][j], live, unset);
      assert rows[1..][j] == rows[j + 1];
    }
  }

  /** Every shown row has its item in `Visible`. */
  lemma {:induction false} VisibleHas(rows: seq<Entry>, live: set<Bytes>, unset: byte, k: nat)
    requires k < |rows| && Shown(rows[k], live, unset)
    ensures Item(rows[k], unset) in Visible(rows, live, unset)
  {
    if k > 0 {
      assert rows[k] == rows[1..][k - 1];
      VisibleHas(rows[1..], live, unset, k - 1);
    }
  }

  /** Every item a successful scan returns is a shown row of the table
      inside the range. */
  lemma ScanSound(m: Manager, user: Bytes, start: Bytes, end: Bytes, limit: int, live: set<Bytes>, unset: byte, i: nat)
    requires Valid(m) && Open(m, user)
    requires var r := Scan(Leader, [], false, true, m, user, start, end, limit, live, unset);
             r.Done? && i < |r.value.items|
    ensures var t := m.dbs[user].value;
            var x := Scan(Leader, [], false, true, m, user, start, end, limit, live, unset).value.items[i];
            && InRange(x.0, start, end)
            && exists j | 0 <= j < |t| :: x == Item(t[j], unset) && Shown(t[j], live, unset)
  {
    var t := m.dbs[user].value;
    ScanItems(m, user, start, end, limit, live, unset);
    var w := Window(t, start, end);
    assert Collect(w, limit, 0, live, unset).0[i] == Visible(w, live, unset)[i];
    WindowSound(t, start, end, live, unset, i);
  }

  /** A leader's successful scan returns what the loop collects over the
      window of the namespace's table. */
  lemma ScanItems(m: Manager, user: Bytes, start: Bytes, end: Bytes, limit: int, live: set<Bytes>, unset: byte)
    requires Valid(m) && Open(m, user)
    ensures var r := Scan(Leader, [], false, true, m, user, start, end, limit, live, unset);
      r.Done? && r.value.items == Collect(Window(m.dbs[user].value, start, end), limit, 0, live, unset).0
  {
  }

  /** Every item of the reference list is a shown row of the table inside
      the range. */
  lemma WindowSound(t: seq<Entry>, start: Bytes, end: Bytes, live: set<Bytes>, unset: byte, i: nat)
    requires Ordered(t) && i < |Visible(Window(t, start, end), live, unset)|
    ensures var x := Visible(Window(t, start, end), live, unset)[i];
            && InRange(x.0, start, end)
            && exists j | 0 <= j < |t| :: x == Item(t[j], unset) && Shown(t[j], live, unset)
  {
    var si := SeekIndex(t, start);
    var w := Window(t, start, end);
    SeekIndexBound(t, start);
    VisibleKeys(w, live, unset, i);
    var j :| 0 <= j < |w| && Visible(w, live, unset)[i] == Item(w[j], unset) && Shown(w[j], live, unset);
    assert w[j] == t[si + j];
  }

  /** Every shown row of the table inside the range is in the reference
      list of the scan. */
  lemma WindowComplete(t: seq<Entry>, start: Bytes, end: Bytes, live: set<Bytes>, unset: byte, j: nat)
    requires Ordered(t) && j < |t| && InRange(t[j].0, start, end) && Shown(t[j], live, unset)
    ensures Item(t[j], unset) in Visible(Window(t, start, end), live, unset)
  {
    var si := SeekIndex(t, start);
    SeekReaches(t, start, j);
    var rows := t[si..];
    OrderedSuffix(t, si);
    SuffixAt(t, si, j);
    TakeBelowCovers(rows, end, j - si);
    TakeBelowAt(rows, end, j - si);
    VisibleHas(TakeBelow(rows, end), live, unset, j - si);
  }

  /** The sought index is at or before every key at or above the target. */
  lemma SeekReaches(t: seq<Entry>, start: Bytes, j: nat)
    requires j < |t| && !Less(t[j].0, start)
    ensures SeekIndex(t, start) <= j
  {
  }

  lemma SuffixAt(t: seq<Entry>, i: nat, j: nat)
    requires i <= j < |t|
    ensures t[i..][j - i] == t[j]
  {
  }

  lemma TakeBelowAt(rows: seq<Entry>, end: Bytes, k: nat)
    requires k < |TakeBelow(rows, end)|
    ensures TakeBelow(rows, end)[k] == rows[k]
  {
  }

  /** A scan that reports no more rows returned every shown row of the
      table inside the range. */
  lemma ScanComplete(m: Manager, user: Bytes, start: Bytes, end: Bytes, limit: int, live: set<Bytes>, unset: byte, j: nat)
    requires Valid(m) && Open(m, user)
    requires j < |m.dbs[user].value| && InRange(m.dbs[user].value[j].0, start, end)
    requires Shown(m.dbs[user].value[j], live, unset)
    requires var r := Scan(Leader, [], false, true, m, user, start, end, limit, live, unset);
             r.Done? && !r.value.hasMore
    ensures Item(m.dbs[user].value[j], unset) in Scan(Leader, [], false, true, m, user, start, end, limit, live, unset).value.items
  {
    var t := m.dbs[user].value;
    assert Scan(Leader, [], false, true, m, user, start, end, limit, live, unset).value.items
           == Collect(Window(t, start, end), limit, 0, live, unset).0;
    WindowComplete(t, start, end, live, unset, j);
  }

  /** Scan items come out in increasing key order. */
  lemma ScanOrdered(m: Manager, user: Bytes, start: Bytes, end: Bytes, limit: int, live: set<Bytes>, unset: byte)
    requires Valid(m) && Open(m, user)
    requires Scan(Leader, [], false, true, m, user, start, end, limit, live, unset).Done?
    ensures Ordered(Scan(Leader, [], false, true, m, user, start, end, limit, live, unset).value.items)
  {
    var t := m.dbs[user].value;
    var si := SeekIndex(t, start);
    OrderedSuffix(t, si);
    var w := Window(t, start, end);
    OrderedPrefix(t[si..], |w|);
    assert w == t[si..][..|w|];
    VisibleOrdered(w, live, unset);
    var v := Visible(w, live, unset);
    var items := Collect(w, limit, 0, live, unset).0;
    OrderedPrefix(v, |items|);
  }

  lemma {:induction false} OrderedPrefix(t: seq<Entry>, n: nat)
    requires Ordered(t) && n <= |t|
    ensures Ordered(t[..n])
  {
    if n > 0 {
      OrderedPrefix(t[1..], n - 1);
      assert t[..n][1..] == t[1..][..n - 1];
      assert forall j | 0 <= j < n - 1 :: t[..n][1..][j] == t[1..][j];
    }
  }

  lemma {:induction false} VisibleAbove(k: Bytes, rows: seq<Entry>, live: set<Bytes>, unset: byte)
    requires Above(k, rows)
    ensures Above(k, Visible(rows, live, unset))
  {
    if |rows| > 0 {
      assert Above(k, rows[1..]) by {
        assert forall j | 0 <= j < |rows| - 1 :: rows[1..][j] == rows[j + 1];
      }
      VisibleAbove(k, rows[1..], live, unset);
    }
  }

  lemma {:induction false} VisibleOrdered(rows: seq<Entry>, live: set<Bytes>, unset: byte)
    requires Ordered(rows)
    ensures Ordered(Visible(rows, live, unset))
  {
    if |rows| > 0 {
      var tail := Visible(rows[1..], live, unset);
      VisibleOrdered(rows[1..], live, unset);
      VisibleAbove(rows[0].0, rows[1..], live, unset);
      if Shown(rows[0], live, unset) {
        var v := [Item(rows[0], unset)] + tail;
        assert Visible(rows, live, unset) == v;
        assert v[1..] == tail;
      } else {
        assert Visible(rows, live, unset) == tail;
      }
    }
  }
}

=== FILE: sdk_core.dfy ===
/** The two pieces of `InsSDK` (sdk/ins_sdk.cc) that are local decisions:
    building the cluster view from one status request per member, and the
    display name of a node status. The status request is a parameter: the
    reply of a member, or `None` when the request fails. */
module InsSdk {
  import opened Bytes
  import opened Outcomes
  import opened SdkTypes

  /** The fields of a `ShowStatus` reply the view copies. */
  datatype StatusReply = StatusReply(status: int, term: int, lastLogIndex: int, lastLogTerm: int)

  /** The record of one member: an unreachable member is offline with term
      -1 and its other fields unset; a reachable one copies the status, the
      term and its last log position. Commit index and last applied are
      never set. */
  function NodeInfo(member: Bytes, reply: Option<StatusReply>): (r: ClusterNodeInfo)
    ensures r.serverId == member && r.commitIndex.None? && r.lastApplied.None?
    ensures reply.None? ==> r.status == StatusOffline && r.term == -1 && r.lastLogIndex.None? && r.lastLogTerm.None?
    ensures reply.Some? ==>
      r.status == reply.value.status && r.term == reply.value.term &&
      r.lastLogIndex == Some(reply.value.lastLogIndex) && r.lastLogTerm == Some(reply.value.lastLogTerm)
  {
    match reply
    case None => ClusterNodeInfo(member, StatusOffline, -1, None, None, None, None)
    case Some(s) => ClusterNodeInfo(member, s.status, s.term, Some(s.lastLogIndex), Some(s.lastLogTerm), None, None)
  }

  /** `ShowCluster`: one record per member, in member order; it always
      reports success. */
  function ShowCluster(members: seq<Bytes>, ask: Bytes -> Option<StatusReply>): (r: (seq<ClusterNodeInfo>, bool))
    ensures r.1
    ensures |r.0| == |members|
    ensures forall i | 0 <= i < |members| :: r.0[i] == NodeInfo(members[i], ask(members[i]))
  {
    (seq(|members|, i requires 0 <= i < |members| => NodeInfo(members[i], ask(members[i]))), true)
  }

  /** The view of a list of members is the views of its parts, one after
      the other: no member is merged, dropped or reordered. */
  lemma ShowClusterSplits(a: seq<Bytes>, b: seq<Bytes>, ask: Bytes -> Option<StatusReply>)
    ensures ShowCluster(a + b, ask).0 == ShowCluster(a, ask).0 + ShowCluster(b, ask).0
  {
  }

  /** `StatusToString`: the four known statuses by name (the leader padded
      with two spaces), anything else "UnKnown". */
  function StatusToString(status: int): (r: string)
    ensures 0 <= status <= 3 <==> r != "UnKnown"
    ensures status == StatusLeader ==> r == "Leader  "
    ensures status == StatusCandidate ==> r == "Candidate"
    ensures status == StatusFollower ==> r == "Follower"
    ensures status == StatusOffline ==> r == "Offline"
  {
    if status == StatusLeader then "Leader  "
    else if status == StatusCandidate then "Candidate"
    else if status == StatusFollower then "Follower"
    else if status == StatusOffline then "Offline"
    else "UnKnown"
  }

  /** The string without its trailing spaces. */
  function TrimRight(s: string): (r: string)
    ensures r <= s && (r == [] || r[|r| - 1] != ' ')
    ensures forall i | |r| <= i < |s| :: s[i] == ' '
  {
    if s == [] || s[|s| - 1] != ' ' then s else TrimRight(s[..|s| - 1])
  }

  /** Distinct known statuses get distinct names. */
  lemma StatusNamesDistinct(a: int, b: int)
    requires 0 <= a <= 3 && 0 <= b <= 3 && a != b
    ensures StatusToString(a) != StatusToString(b)
  {
  }
}

=== FILE: sdk_py.dfy ===
/** The Python binding (src/sdk/ins_sdk.py) over the C shim: its tables of
    error and status names, the decoding of the cluster view and of the
    statistics, `get` and `scan`, the iterator protocol of `ScanResult`,
    and the class-wide registry that keeps watch callbacks and contexts
    alive until their event arrives. A Python exception is `None` (or a
    `raised` flag where the call goes on afterwards); object identities and
    buffer addresses are numbers chosen by the caller. */
module PySdk {
  import opened Bytes
  import opened Outcomes
  import opened SdkTypes
  import InsSdk
  import SdkShim
  import Performance

  /** `SDKError`: the error names, by number. */
  const ErrorNames: seq<string> := ["OK", "ClusterDown", "NoSuchKey", "Timeout", "LockFail",
                                    "CleanBinlogFail", "UserExists", "PermissionDenied",
                                    "PasswordError", "UnknownUser"]

  /** `NodeStatus`: the status names, by number. */
  const StatusNames: seq<string> := ["Leader", "Candidate", "Follower", "Offline"]

  /** Indexing a Python tuple: a negative index counts from the end; an
      index out of range raises `IndexError`. */
  function PyIndex<T>(t: seq<T>, i: int): (r: Option<T>)
    ensures r.Some? <==> -|t| <= i < |t|
    ensures r.Some? && i >= 0 ==> r.value == t[i]
    ensures r.Some? && i < 0 ==> r.value == t[|t| + i]
  {
    if 0 <= i < |t| then Some(t[i])
    else if -|t| <= i < 0 then Some(t[|t| + i])
    else None
  }

  /** The name of each error code: its enumerator without the `k`. */
  function ErrorName(e: SdkError): string
  {
    match e
    case OK => "OK"
    case ClusterDown => "ClusterDown"
    case NoSuchKey => "NoSuchKey"
    case Timeout => "Timeout"
    case LockFail => "LockFail"
    case CleanBinlogFail => "CleanBinlogFail"
    case UserExists => "UserExists"
    case PermissionDenied => "PermissionDenied"
    case PasswordError => "PasswordError"
    case UnknownUser => "UnknownUser"
  }

  /** `error()`: the name at the stored error number. */
  function Error(errno: int): (r: Option<string>)
    ensures OfOrdinal(errno).Some? ==> r == Some(ErrorName(OfOrdinal(errno).value))
    ensures r.None? <==> errno < -10 || errno >= 10
  {
    PyIndex(ErrorNames, errno)
  }

  /** The name table follows the enum: the name at position `n` is the
      name of the code whose value is `n`. A negative number still yields a
      name, counted from the end. */
  lemma ErrorTableFollowsEnum(e: SdkError)
    ensures PyIndex(ErrorNames, Ordinal(e)) == Some(ErrorName(e))
    ensures Error(-1) == Some("UnknownUser") && Error(10).None?
  {
  }

  /** The status names agree with `StatusToString` of the C++ library up to
      its trailing padding. */
  lemma StatusTablesAgree(i: int)
    requires 0 <= i < |StatusNames|
    ensures PyIndex(StatusNames, i) == Some(InsSdk.TrimRight(InsSdk.StatusToString(i)))
  {
    if i == 0 {
      var s := InsSdk.StatusToString(0);
      assert s == "Leader  " && s[..|s| - 1] == "Leader ";
      assert "Leader "[..6] == "Leader";
      assert InsSdk.TrimRight("Leader") == "Leader";
    }
  }

  /** One entry of `show()`: a dictionary of the record's fields with the
      status by name. */
  datatype PyNode = PyNode(serverId: Bytes, status: string, term: int,
                           lastLogIndex: Option<int>, lastLogTerm: Option<int>,
                           commitIndex: Option<int>, lastApplied: Option<int>)

  function ShowRecord(info: ClusterNodeInfo): (r: Option<PyNode>)
    ensures r.Some? <==> PyIndex(StatusNames, info.status).Some?
    ensures r.Some? ==>
      r.value.serverId == info.serverId && r.value.term == info.term &&
      r.value.status == PyIndex(StatusNames, info.status).value &&
      r.value.lastLogIndex == info.lastLogIndex && r.value.lastLogTerm == info.lastLogTerm &&
      r.value.commitIndex == info.commitIndex && r.value.lastApplied == info.lastApplied
  {
    match PyIndex(StatusNames, info.status)
    case None => None
    case Some(name) =>
      Some(PyNode(info.serverId, name, info.term, info.lastLogIndex, info.lastLogTerm,
                  info.commitIndex, info.lastApplied))
  }

  /** `show()` over the array `SDKShowCluster` returned: one dictionary per
      record, in order. A NULL array, or a status no name covers, raises. */
  function Show(arr: Option<seq<ClusterNodeInfo>>): (r: Option<seq<PyNode>>)
    ensures arr.None? ==> r.None?
    ensures r.Some? ==>
      |r.value| == |arr.value| &&
      forall i | 0 <= i < |arr.value| :: ShowRecord(arr.value[i]) == Some(r.value[i])
    ensures arr.Some? && (forall i | 0 <= i < |arr.value| :: ShowRecord(arr.value[i]).Some?) ==> r.Some?
  {
    match arr
    case None => None
    case Some(infos) => ShowAll(infos)
  }

  function ShowAll(infos: seq<ClusterNodeInfo>): (r: Option<seq<PyNode>>)
    ensures r.Some? ==>
      |r.value| == |infos| &&
      forall i | 0 <= i < |infos| :: ShowRecord(infos[i]) == Some(r.value[i])
    ensures (forall i | 0 <= i < |infos| :: ShowRecord(infos[i]).Some?) ==> r.Some?
  {
    if infos == [] then Some([])
    else
      match ShowRecord(infos[0])
      case None => None
      case Some(n) =>
        match ShowAll(infos[1..])
        case None =>
          assert forall i | 0 <= i < |infos[1..]| :: infos[1..][i] == infos[i + 1];
          None
        case Some(rest) =>
          assert forall i | 0 <= i < |infos[1..]| :: infos[1..][i] == infos[i + 1];
          Some([n] + rest)
  }

  /** `show()` through the shim and the library: every member whose
      reported status has a name appears once, in member order, and a
      member that did not answer shows as "Offline" with term -1. */
  lemma ShowOfCluster(members: seq<Bytes>, ask: Bytes -> Option<InsSdk.StatusReply>, count: int)
    requires |members| <= Int32Max
    requires forall i | 0 <= i < |members| && ask(members[i]).Some? :: 0 <= ask(members[i]).value.status < 4
    ensures var r := Show(SdkShim.ShowCluster(true, members, ask, count).0);
      r.Some? && |r.value| == |members| &&
      forall i | 0 <= i < |members| ::
        r.value[i].serverId == members[i] &&
        (ask(members[i]).None? ==> r.value[i].status == "Offline" && r.value[i].term == -1)
  {
    var arr := SdkShim.ShowCluster(true, members, ask, count).0;
    assert forall i | 0 <= i < |members| :: ShowRecord(arr.value[i]).Some?;
  }

  /** The statistics keys, in the order of `NodeStatInfo.stats`. */
  const StatKeys: seq<string> := ["put", "get", "delete", "scan", "keepalive", "lock", "unlock", "watch"]

  /** The key of each request category. */
  function CategoryKey(c: Performance.Category): string
  {
    match c
    case Put => "put"
    case Get => "get"
    case Delete => "delete"
    case Scan => "scan"
    case KeepAlive => "keepalive"
    case Lock => "lock"
    case Unlock => "unlock"
    case Watch => "watch"
  }

  /** The keys follow the categories in the order the server counts them. */
  lemma StatKeysFollowCategories(c: Performance.Category)
    ensures StatKeys[Performance.Index(c)] == CategoryKey(c)
  {
  }

  /** One entry of `stat()`. */
  datatype PyStat = PyStat(serverId: Bytes, status: string, byCategory: map<string, StatInfo>)

  function StatRecord(info: NodeStatInfo): (r: Option<PyStat>)
    requires info.Valid()
    ensures r.Some? <==> PyIndex(StatusNames, info.status).Some?
    ensures r.Some? ==>
      r.value.serverId == info.serverId &&
      r.value.byCategory.Keys == set k | k in StatKeys &&
      forall k | 0 <= k < 8 :: StatKeys[k] in r.value.byCategory && r.value.byCategory[StatKeys[k]] == info.stats[k]
  {
    match PyIndex(StatusNames, info.status)
    case None => None
    case Some(name) =>
      var s := info.stats;
      Some(PyStat(info.serverId, name,
                  map["put" := s[0], "get" := s[1], "delete" := s[2], "scan" := s[3],
                      "keepalive" := s[4], "lock" := s[5], "unlock" := s[6], "watch" := s[7]]))
  }

  /** `get()`: the value when the call succeeds, otherwise the empty
      string. */
  function Get(reply: Option<Bytes>): (r: Bytes)
    ensures reply.Some? ==> r == reply.value
    ensures reply.None? ==> r == []
  {
    match reply
    case None => []
    case Some(v) => v
  }

  /** A failed `get()` and an empty stored value look the same; only
      `error()` tells them apart. */
  lemma GetFailureLooksEmpty()
    ensures Get(None) == Get(Some([]))
  {
  }

  /** `scan()`: the error number is reset to 0, then the cursor opened. */
  function Scan(errno: int, live: bool, library: SdkShim.Cursor): (r: (int, SdkShim.Cursor))
    ensures r.0 == 0 && r.1 == SdkShim.Scan(live, library)
  {
    (0, SdkShim.Scan(live, library))
  }

  /** After `scan()`, `error()` reads "OK" whatever came before. */
  lemma ErrorAfterScan(errno: int, live: bool, library: SdkShim.Cursor)
    ensures Error(Scan(errno, live, library).0) == Some("OK")
  {
  }

  /** `ScanResult.key()` and `value()`: what the accessor returns, or the
      empty string when it fails. */
  function CursorKey(c: SdkShim.Cursor): (r: Bytes)
    ensures SdkShim.Key(c).Some? ==> r == SdkShim.Key(c).value
    ensures SdkShim.Key(c).None? ==> r == []
  {
    SdkShim.Key(c).GetOr([])
  }

  function CursorValue(c: SdkShim.Cursor): (r: Bytes)
    ensures SdkShim.Value(c).Some? ==> r == SdkShim.Value(c).value
    ensures SdkShim.Value(c).None? ==> r == []
  {
    SdkShim.Value(c).GetOr([])
  }

  /** `ScanResult.next()`: `StopIteration` (`None`) without moving when the
      cursor is done; otherwise the current pair, and one step on. */
  function PyNext(c: SdkShim.Cursor): (r: (SdkShim.Cursor, Option<(Bytes, Bytes)>))
    ensures SdkShim.Done(c) ==> r == (c, None)
    ensures !SdkShim.Done(c) ==> r == (SdkShim.Next(c), Some((CursorKey(c), CursorValue(c))))
  {
    if SdkShim.Done(c) then (c, None)
    else (SdkShim.Next(c), Some((CursorKey(c), CursorValue(c))))
  }

  /** At most `n` calls of `next()`: the pairs returned, and whether
      `StopIteration` ended them. */
  function Drain(c: SdkShim.Cursor, n: nat): (r: (seq<(Bytes, Bytes)>, bool))
    decreases n
  {
    if n == 0 then ([], false)
    else
      var step := PyNext(c);
      match step.1
      case None => ([], true)
      case Some(p) =>
        var rest := Drain(step.0, n - 1);
        ([p] + rest.0, rest.1)
  }

  /** Iterating a live cursor yields exactly its remaining rows, in order,
      and then stops. */
  lemma {:induction false} DrainLive(rows: seq<(Bytes, Bytes)>, offset: nat, error: SdkError)
    requires offset <= |rows|
    ensures Drain(SdkShim.Live(rows, offset, error), |rows| - offset + 1) == (rows[offset..], true)
    decreases |rows| - offset
  {
    var c := SdkShim.Live(rows, offset, error);
    var n := |rows| - offset + 1;
    if offset < |rows| {
      var next := SdkShim.Live(rows, offset + 1, error);
      assert PyNext(c) == (next, Some(rows[offset]));
      DrainLive(rows, offset + 1, error);
      assert n - 1 == |rows| - (offset + 1) + 1;
      assert Drain(c, n) == ([rows[offset]] + Drain(next, n - 1).0, Drain(next, n - 1).1);
      assert rows[offset..] == [rows[offset]] + rows[offset + 1..];
    } else {
      assert PyNext(c) == (c, None);
    }
  }

  const EmptyPair: (Bytes, Bytes) := ([], [])

  /** Iterating the cursor of a NULL handle never stops: every call of
      `next()` returns a pair of empty strings. */
  lemma {:induction false} DrainNull(n: nat)
    ensures Drain(SdkShim.Null, n) == (seq(n, _ => EmptyPair), false)
  {
    if n > 0 {
      DrainNull(n - 1);
      assert PyNext(SdkShim.Null) == (SdkShim.Null, Some(EmptyPair));
      assert Drain(SdkShim.Null, n) ==
        ([EmptyPair] + Drain(SdkShim.Null, n - 1).0, Drain(SdkShim.Null, n - 1).1);
      assert seq(n, _ => EmptyPair) == [EmptyPair] + seq(n - 1, _ => EmptyPair);
    } else {
      assert |seq(n, _ => EmptyPair)| == 0;
    }
  }

  /** The arguments of one call of a user's watch callback: the event as a
      `WatchParam` with the user's context, and the error name. */
  datatype Call = Call(callback: nat, key: Bytes, value: Bytes, deleted: bool, context: nat, error: string)

  /** The class-wide dictionaries `_contexts` (by context address) and
      `_callback` (by callback id). */
  datatype Registry = Registry(contexts: map<nat, nat>, callbacks: map<nat, nat>)

  /** The end of one event: the call made, if any, the registry after it,
      and whether the wrapper raised. */
  datatype Delivered = Delivered(call: Option<Call>, registry: Registry, raised: bool)

  /** `watch()` as written: the context is kept under its address, the
      callback under its id; the shim gets the id and the address. */
  function WatchAsWritten(reg: Registry, callback: nat, ctxAddr: nat, context: nat): (r: Registry)
    ensures r.contexts == reg.contexts[ctxAddr := context]
    ensures r.callbacks == reg.callbacks[callback := callback]
  {
    Registry(reg.contexts[ctxAddr := context], reg.callbacks[callback := callback])
  }

  /** `_watch_wrapper` as written: reads the context at the address, looks
      the callback up by id (`KeyError` when it is gone), calls it, and
      deletes both entries. `None` when the context address is no longer
      kept alive. */
  function DeliverAsWritten(reg: Registry, cb: nat, ctxAddr: nat, key: Bytes, value: Bytes,
                            deleted: bool, error: SdkError): (r: Option<Delivered>)
    ensures r.None? <==> ctxAddr !in reg.contexts
    ensures r.Some? && cb !in reg.callbacks ==> r.value == Delivered(None, reg, true)
    ensures r.Some? && cb in reg.callbacks ==>
      r.value.call == Some(Call(reg.callbacks[cb], key, value, deleted, reg.contexts[ctxAddr], ErrorName(error))) &&
      r.value.registry == Registry(reg.contexts - {ctxAddr}, reg.callbacks - {cb}) && !r.value.raised
  {
    if ctxAddr !in reg.contexts then None
    else if cb !in reg.callbacks then Some(Delivered(None, reg, true))
    else
      var call := Call(reg.callbacks[cb], key, value, deleted, reg.contexts[ctxAddr], ErrorName(error));
      Some(Delivered(Some(call), Registry(reg.contexts - {ctxAddr}, reg.callbacks - {cb}), false))
  }

  /** Two pending watches that share one callback: the first event removes
      the shared entry, so the second event raises `KeyError` before the
      callback is called, and its context is never released. */
  lemma WatchSharedCallbackLost(key: Bytes, value: Bytes)
    ensures var reg := WatchAsWritten(WatchAsWritten(Registry(map[], map[]), 7, 1, 100), 7, 2, 200);
      var first := DeliverAsWritten(reg, 7, 1, key, value, false, OK);
      first.Some? && first.value.call.Some? &&
      var second := DeliverAsWritten(first.value.registry, 7, 2, key, value, false, OK);
      second.Some? && second.value.call.None? && second.value.raised &&
      2 in second.value.registry.contexts
  {
    var reg := WatchAsWritten(WatchAsWritten(Registry(map[], map[]), 7, 1, 100), 7, 2, 200);
    assert reg.callbacks.Keys == {7};
    var first := DeliverAsWritten(reg, 7, 1, key, value, false, OK);
    assert first.value.registry.callbacks == map[];
    assert 2 in first.value.registry.contexts;
  }

  /** The registry keyed by context address on both sides: each pending
      watch owns its own callback entry. */
  predicate Valid(reg: Registry)
  {
    reg.contexts.Keys == reg.callbacks.Keys
  }

  /** `watch()` with the callback kept under the context's address. */
  function Watch(reg: Registry, callback: nat, ctxAddr: nat, context: nat): (r: Registry)
    requires Valid(reg)
    ensures Valid(r)
    ensures r.contexts == reg.contexts[ctxAddr := context]
    ensures r.callbacks == reg.callbacks[ctxAddr := callback]
  {
    Registry(reg.contexts[ctxAddr := context], reg.callbacks[ctxAddr := callback])
  }

  /** `_watch_wrapper` looking the callback up by the context's address. */
  function Deliver(reg: Registry, ctxAddr: nat, key: Bytes, value: Bytes,
                   deleted: bool, error: SdkError): (r: Option<Delivered>)
    requires Valid(reg)
    ensures r.None? <==> ctxAddr !in reg.contexts
    ensures r.Some? ==>
      r.value.call == Some(Call(reg.callbacks[ctxAddr], key, value, deleted, reg.contexts[ctxAddr], ErrorName(error))) &&
      r.value.registry == Registry(reg.contexts - {ctxAddr}, reg.callbacks - {ctxAddr}) &&
      !r.value.raised && Valid(r.value.registry)
  {
    if ctxAddr !in reg.contexts then None
    else
      var call := Call(reg.callbacks[ctxAddr], key, value, deleted, reg.contexts[ctxAddr], ErrorName(error));
      Some(Delivered(Some(call), Registry(reg.contexts - {ctxAddr}, reg.callbacks - {ctxAddr}), false))
  }

  /** One event for each of a list of distinct pending watches, in that
      order: the calls made, or `None` if one of them failed. */
  function DeliverEach(reg: Registry, addrs: seq<nat>, key: Bytes, value: Bytes): (r: Option<(seq<Call>, Registry)>)
    requires Valid(reg)
    ensures r.Some? ==> Valid(r.value.1) && r.value.1.contexts.Keys <= reg.contexts.Keys
    decreases |addrs|
  {
    if addrs == [] then Some(([], reg))
    else
      match Deliver(reg, addrs[0], key, value, false, OK)
      case None => None
      case Some(d) =>
        match DeliverEach(d.registry, addrs[1..], key, value)
        case None => None
        case Some(rest) => Some(([d.call.value] + rest.0, rest.1))
  }

  /** Every pending watch is delivered exactly once, in whatever order
      their events arrive: each event calls the callback registered with
      its own context, and afterwards none of them is kept. */
  lemma {:induction false} EveryWatchDelivered(reg: Registry, addrs: seq<nat>, key: Bytes, value: Bytes)
    requires Valid(reg)
    requires forall i, j | 0 <= i < j < |addrs| :: addrs[i] != addrs[j]
    requires forall i | 0 <= i < |addrs| :: addrs[i] in reg.contexts
    ensures var r := DeliverEach(reg, addrs, key, value);
      r.Some? && |r.value.0| == |addrs| &&
      (forall i | 0 <= i < |addrs| ::
        r.value.0[i] == Call(reg.callbacks[addrs[i]], key, value, false, reg.contexts[addrs[i]], "OK")) &&
      (forall i | 0 <= i < |addrs| :: addrs[i] !in r.value.1.contexts)
    decreases |addrs|
  {
    if addrs != [] {
      var d := Deliver(reg, addrs[0], key, value, false, OK).value;
      var tail := addrs[1..];
      assert forall i | 0 <= i < |tail| :: tail[i] == addrs[i + 1];
      assert forall i | 0 <= i < |tail| ::
        tail[i] in d.registry.contexts &&
        d.registry.contexts[tail[i]] == reg.contexts[tail[i]] &&
        d.registry.callbacks[tail[i]] == reg.callbacks[tail[i]];
      EveryWatchDelivered(d.registry, tail, key, value);
      var rest := DeliverEach(d.registry, tail, key, value).value;
      assert DeliverEach(reg, addrs, key, value) == Some(([d.call.value] + rest.0, rest.1));
      assert addrs[0] !in d.registry.contexts;
    }
  }

  /** The two watches sharing one callback, with the registry keyed by
      context: both events reach the callback, each with its own context. */
  lemma WatchSharedCallbackKept(key: Bytes, value: Bytes)
    ensures var reg := Watch(Watch(Registry(map[], map[]), 7, 1, 100), 7, 2, 200);
      DeliverEach(reg, [1, 2], key, value) ==
        Some(([Call(7, key, value, false, 100, "OK"), Call(7, key, value, false, 200, "OK")],
              Registry(map[], map[])))
  {
    var reg := Watch(Watch(Registry(map[], map[]), 7, 1, 100), 7, 2, 200);
    EveryWatchDelivered(reg, [1, 2], key, value);
    var r := DeliverEach(reg, [1, 2], key, value).value;
    assert reg.contexts.Keys == {1, 2};
    assert reg.contexts[1] == 100 && reg.contexts[2] == 200;
    assert reg.callbacks[1] == 7 && reg.callbacks[2] == 7;
    var addrs: seq<nat> := [1, 2];
    assert r.0[0] == Call(7, key, value, false, 100, "OK") by { assert addrs[0] == 1; }
    assert r.0[1] == Call(7, key, value, false, 200, "OK") by { assert addrs[1] == 2; }
    assert r.0 == [Call(7, key, value, false, 100, "OK"), Call(7, key, value, false, 200, "OK")];
    assert r.1.contexts.Keys == {} && r.1.callbacks.Keys == {};
    assert r.1 == Registry(map[], map[]);
    assert ErrorName(OK) == "OK";
  }
}

=== FILE: sdk_types.dfy ===
/** The client library's shared types (src/sdk/ins_sdk.h): the error codes
    with their numeric values, the node status numbers, and the records
    `ShowCluster` and `ShowStatistics` hand out. */
module SdkTypes {
  import opened Bytes
  import opened Outcomes

  /** `SDKError`, in declaration order. */
  datatype SdkError = OK | ClusterDown | NoSuchKey | Timeout | LockFail | CleanBinlogFail
                    | UserExists | PermissionDenied | PasswordError | UnknownUser

  /** The numeric value of each error code, as the enum assigns it. */
  function Ordinal(e: SdkError): (n: nat)
    ensures n < 10
  {
    match e
    case OK => 0
    case ClusterDown => 1
    case NoSuchKey => 2
    case Timeout => 3
    case LockFail => 4
    case CleanBinlogFail => 5
    case UserExists => 6
    case PermissionDenied => 7
    case PasswordError => 8
    case UnknownUser => 9
  }

  /** The error code with a given value, if any. */
  function OfOrdinal(n: int): (r: Option<SdkError>)
    ensures r.Some? <==> 0 <= n < 10
    ensures r.Some? ==> Ordinal(r.value) == n
  {
    if n == 0 then Some(OK)
    else if n == 1 then Some(ClusterDown)
    else if n == 2 then Some(NoSuchKey)
    else if n == 3 then Some(Timeout)
    else if n == 4 then Some(LockFail)
    else if n == 5 then Some(CleanBinlogFail)
    else if n == 6 then Some(UserExists)
    else if n == 7 then Some(PermissionDenied)
    else if n == 8 then Some(PasswordError)
    else if n == 9 then Some(UnknownUser)
    else None
  }

  /** Distinct codes have distinct values, and every value names its code
      back. */
  lemma OrdinalRoundTrip(e: SdkError, f: SdkError)
    ensures OfOrdinal(Ordinal(e)) == Some(e)
    ensures Ordinal(e) == Ordinal(f) <==> e == f
  {
  }

  /** The node status numbers: leader, candidate, follower, offline. */
  const StatusLeader: int := 0
  const StatusCandidate: int := 1
  const StatusFollower: int := 2
  const StatusOffline: int := 3

  /** `ClusterNodeInfo`. A field the source leaves uninitialised is `None`. */
  datatype ClusterNodeInfo = ClusterNodeInfo(
    serverId: Bytes, status: int, term: int,
    lastLogIndex: Option<int>, lastLogTerm: Option<int>,
    commitIndex: Option<int>, lastApplied: Option<int>)

  /** `StatInfo`: the current count and the average of one category. */
  datatype StatInfo = StatInfo(current: int, average: int)

  /** `NodeStatInfo`: eight `StatInfo`s in the order put, get, delete, scan,
      keepalive, lock, unlock, watch. */
  datatype NodeStatInfo = NodeStatInfo(serverId: Bytes, status: int, stats: seq<StatInfo>)
  {
    predicate Valid() { |stats| == 8 }
  }
}

=== FILE: sdk_wrapper.dfy ===
/** The C shim over the client library (sdk/ins_wrapper.cc), which the
    Python binding loads. Every entry point first checks the `InsSDK`
    handle (`live` is false for a NULL handle). Watches carry their C
    callback through a heap-allocated `CallbackPack`, modelled as a map
    from addresses to packs; the address a `new` returns is a parameter
    that is not yet in the map. A scan cursor is a buffer of rows with a
    position, or NULL. What the library itself answers is a parameter. */
module SdkShim {
  import opened Bytes
  import opened Outcomes
  import opened SdkTypes
  import InsSdk

  /** The result of a guarded call: success and the error written. */
  datatype Answer = Answer(ok: bool, error: SdkError)

  /** `SDKPut`, `SDKDelete`, `SDKLock`, `SDKTryLock`, `SDKUnLock`,
      `SDKLogin`, `SDKLogout`, `SDKRegister`: a NULL handle is refused with
      `kPermissionDenied`; otherwise the library's answer is passed on. */
  function Guarded(live: bool, library: Answer): (r: Answer)
    ensures !live ==> r == Answer(false, PermissionDenied)
    ensures live ==> r == library
  {
    if live then library else Answer(false, PermissionDenied)
  }

  /** `SDKGet` with the value copied out: a NULL handle gives
      `kPermissionDenied` and the empty string; otherwise the library's
      error and value. */
  function Get(live: bool, error: SdkError, value: Bytes): (r: (SdkError, Bytes))
    ensures !live ==> r == (PermissionDenied, [])
    ensures live ==> r == (error, value)
  {
    if live then (error, value) else (PermissionDenied, [])
  }

  /** `SDKGet` as written: the value is a local `std::string`, and the
      shim returns its `c_str()`, which is freed when the call returns. A
      live handle's answer is a dangling pointer: `None`. */
  function GetAsWritten(live: bool, error: SdkError, value: Bytes): (r: (SdkError, Option<Bytes>))
    ensures !live ==> r == (PermissionDenied, Some([]))
    ensures live ==> r.0 == error && r.1.None?
  {
    if live then (error, None) else (PermissionDenied, Some([]))
  }

  /** A NULL handle can never make a guarded call succeed, whatever the
      library would have answered. */
  lemma NullHandleRefuses(a: Answer, b: Answer)
    ensures !Guarded(false, a).ok && Guarded(false, a) == Guarded(false, b)
    ensures Guarded(false, a).error == PermissionDenied
  {
  }

  type Addr = nat

  /** `CallbackPack`: the caller's callback, its id and its context. */
  datatype Pack = Pack(callback: nat, callbackId: int, ctx: Addr)

  type Heap = map<Addr, Pack>

  /** `WatchParam`: the event handed to a watch callback. */
  datatype WatchParam = WatchParam(key: Bytes, value: Bytes, deleted: bool, context: Addr)

  /** What `SDKWatch` leaves behind: the heap, its result, the error
      written, and the context handed to the library with
      `WatchCallbackWrapper`, if it reached the library. */
  datatype Watched = Watched(heap: Heap, ok: bool, error: SdkError, registered: Option<Addr>)

  /** `SDKWatch`: a NULL handle returns false and leaves the error as it
      was; otherwise one new pack holds the caller's callback, id and
      context, and the pack is the context of the library's watch. */
  function Watch(heap: Heap, live: bool, at: Addr, callback: nat, callbackId: int, ctx: Addr,
                 error: SdkError, library: Answer): (r: Watched)
    requires at !in heap
    ensures !live ==> r == Watched(heap, false, error, None)
    ensures live ==> r.registered == Some(at) && r.heap == heap[at := Pack(callback, callbackId, ctx)]
    ensures live ==> r.ok == library.ok && r.error == library.error
  {
    if !live then Watched(heap, false, error, None)
    else Watched(heap[at := Pack(callback, callbackId, ctx)], library.ok, library.error, Some(at))
  }

  /** A call of the caller's watch callback: which callback, the event, the
      id and the error. */
  datatype Delivery = Delivery(callback: nat, param: WatchParam, callbackId: int, error: SdkError)

  /** `WatchCallbackWrapper`: frees the pack named by the event's context
      and calls the packed callback with the packed context and id. `None`
      when the context is not a live pack. */
  function WatchCallbackWrapper(heap: Heap, param: WatchParam, error: SdkError): (r: Option<(Heap, Delivery)>)
    ensures r.Some? <==> param.context in heap
    ensures r.Some? ==> var p := heap[param.context];
      r.value.0 == heap - {param.context} &&
      r.value.1 == Delivery(p.callback, param.(context := p.ctx), p.callbackId, error)
  {
    if param.context !in heap then None
    else
      var p := heap[param.context];
      Some((heap - {param.context}, Delivery(p.callback, param.(context := p.ctx), p.callbackId, error)))
  }

  /** A watch whose event arrives reaches the caller's callback with the
      caller's own context and id, frees its pack so that the heap is as
      before the watch, and cannot be delivered a second time. */
  lemma WatchDeliversOnce(heap: Heap, at: Addr, callback: nat, callbackId: int, ctx: Addr,
                          error: SdkError, library: Answer,
                          key: Bytes, value: Bytes, deleted: bool, eventError: SdkError)
    requires at !in heap
    ensures var w := Watch(heap, true, at, callback, callbackId, ctx, error, library);
      var d := WatchCallbackWrapper(w.heap, WatchParam(key, value, deleted, w.registered.value), eventError);
      d.Some? && d.value.0 == heap &&
      d.value.1 == Delivery(callback, WatchParam(key, value, deleted, ctx), callbackId, eventError) &&
      WatchCallbackWrapper(d.value.0, WatchParam(key, value, deleted, at), eventError).None?
  {
    var w := Watch(heap, true, at, callback, callbackId, ctx, error, library);
    assert w.heap - {at} == heap;
  }

  /** `TimeoutWrapper`: frees the pack and calls the packed callback with
      the packed id and context. */
  function TimeoutWrapper(heap: Heap, ctx: Addr): (r: Option<(Heap, (nat, int, Addr))>)
    ensures r.Some? <==> ctx in heap
    ensures r.Some? ==>
      r.value.0 == heap - {ctx} &&
      r.value.1 == (heap[ctx].callback, heap[ctx].callbackId, heap[ctx].ctx)
  {
    if ctx !in heap then None
    else Some((heap - {ctx}, (heap[ctx].callback, heap[ctx].callbackId, heap[ctx].ctx)))
  }

  /** `SDKRegisterSessionTimeout`: with a live handle a pack is allocated,
      but the library is given the caller's raw callback and context. */
  function RegisterSessionTimeout(heap: Heap, live: bool, at: Addr, callback: nat, callbackId: int,
                                  ctx: Addr): (r: (Heap, Option<(nat, Addr)>))
    requires at !in heap
    ensures !live ==> r == (heap, None)
    ensures live ==> r.1 == Some((callback, ctx))
    ensures live ==> r.0 == heap[at := Pack(callback, callbackId, ctx)]
  {
    if !live then (heap, None)
    else (heap[at := Pack(callback, callbackId, ctx)], Some((callback, ctx)))
  }

  /** The pack `SDKRegisterSessionTimeout` allocates is never handed to
      anyone: the registration names the caller's context, not the pack,
      so the heap keeps one more pack than before for good. */
  lemma SessionTimeoutPackLeaks(heap: Heap, at: Addr, callback: nat, callbackId: int, ctx: Addr)
    requires at !in heap && ctx != at
    ensures var r := RegisterSessionTimeout(heap, true, at, callback, callbackId, ctx);
      at in r.0 && |r.0| == |heap| + 1 && r.1.value.1 != at
  {
  }

  /** A scan cursor: NULL, or the library's rows with a position and an
      error. */
  datatype Cursor = Null | Live(rows: seq<(Bytes, Bytes)>, offset: nat, error: SdkError)

  /** `SDKScan`: NULL for a NULL handle, otherwise the library's cursor. */
  function Scan(live: bool, library: Cursor): (r: Cursor)
    ensures !live ==> r == Null
    ensures live ==> r == library
  {
    if live then library else Null
  }

  /** `ScanResultDone`: false for NULL. */
  function Done(c: Cursor): (r: bool)
    ensures c.Null? ==> !r
    ensures c.Live? ==> (r <==> c.offset >= |c.rows|)
  {
    match c
    case Null => false
    case Live(rows, offset, _) => offset >= |rows|
  }

  /** `ScanResultError`: `kPermissionDenied` for NULL. */
  function Error(c: Cursor): (r: SdkError)
    ensures c.Null? ==> r == PermissionDenied
    ensures c.Live? ==> r == c.error
  {
    match c
    case Null => PermissionDenied
    case Live(_, _, error) => error
  }

  /** `ScanResultKey` with the key copied out: the empty string for NULL,
      the current key otherwise; `None` past the last row, which reads
      outside the buffer. */
  function Key(c: Cursor): (r: Option<Bytes>)
    ensures c.Null? ==> r == Some([])
    ensures c.Live? ==> (r.Some? <==> c.offset < |c.rows|)
    ensures c.Live? && r.Some? ==> r.value == c.rows[c.offset].0
  {
    match c
    case Null => Some([])
    case Live(rows, offset, _) => if offset < |rows| then Some(rows[offset].0) else None
  }

  /** `ScanResultValue`, like `ScanResultKey`. */
  function Value(c: Cursor): (r: Option<Bytes>)
    ensures c.Null? ==> r == Some([])
    ensures c.Live? ==> (r.Some? <==> c.offset < |c.rows|)
    ensures c.Live? && r.Some? ==> r.value == c.rows[c.offset].1
  {
    match c
    case Null => Some([])
    case Live(rows, offset, _) => if offset < |rows| then Some(rows[offset].1) else None
  }

  /** `ScanResultKey` and `ScanResultValue` as written: `Key()` and
      `Value()` return a `std::string` by value, and the shim returns
      `c_str()` of that temporary, which is destroyed before the caller
      reads it. Only the NULL cursor's empty string is defined. */
  function KeyAsWritten(c: Cursor): (r: Option<Bytes>)
    ensures c.Null? <==> r == Some([])
    ensures c.Live? ==> r.None?
  {
    match c
    case Null => Some([])
    case Live(_, _, _) => None
  }

  function ValueAsWritten(c: Cursor): (r: Option<Bytes>)
    ensures c.Null? <==> r == Some([])
    ensures c.Live? ==> r.None?
  {
    match c
    case Null => Some([])
    case Live(_, _, _) => None
  }

  /** With a live handle or cursor every read the shim hands back as
      written is undefined, where copying the string out gives the stored
      value: the library's value for `SDKGet`, the current row for the
      cursor. */
  lemma ReadsDangle(error: SdkError, value: Bytes, rows: seq<(Bytes, Bytes)>, offset: nat, e: SdkError)
    requires offset < |rows|
    ensures GetAsWritten(true, error, value).1.None? && Get(true, error, value).1 == value
    ensures var c := Live(rows, offset, e);
      KeyAsWritten(c).None? && ValueAsWritten(c).None? &&
      Key(c) == Some(rows[offset].0) && Value(c) == Some(rows[offset].1)
  {
  }

  /** `SDKGetSessionID` and `SDKGetCurrentUserID` with the text copied
      out: "" for a NULL handle, the library's session or user id
      otherwise. */
  function Identity(live: bool, id: Bytes): (r: Bytes)
    ensures !live ==> r == []
    ensures live ==> r == id
  {
    if live then id else []
  }

  /** `SDKGetSessionID` and `SDKGetCurrentUserID` as written: the library
      returns the id as a `std::string` by value and the shim returns
      `c_str()` of that temporary. Only the NULL handle's "" is defined. */
  function IdentityAsWritten(live: bool, id: Bytes): (r: Option<Bytes>)
    ensures !live <==> r == Some([])
    ensures live ==> r.None?
  {
    if live then None else Some([])
  }

  /** With a live handle the id handed back as written is undefined, where
      copying it out gives the library's id; with a NULL handle both give
      "". */
  lemma IdentityDangles(id: Bytes)
    ensures IdentityAsWritten(true, id).None? && Identity(true, id) == id
    ensures IdentityAsWritten(false, id) == Some(Identity(false, id))
  {
  }

  /** `ScanResultNext`: nothing for NULL, one row on otherwise. */
  function Next(c: Cursor): (r: Cursor)
    ensures c.Null? ==> r == Null
    ensures c.Live? ==> r == c.(offset := c.offset + 1)
  {
    match c
    case Null => Null
    case Live(rows, offset, error) => Live(rows, offset + 1, error)
  }

  function NextN(c: Cursor, n: nat): Cursor
  {
    if n == 0 then c else Next(NextN(c, n - 1))
  }

  /** A NULL cursor is never done: however often it is advanced it still
      reports a row with an empty key and value. */
  lemma {:induction false} NullCursorNeverDone(n: nat)
    ensures NextN(Null, n) == Null
    ensures !Done(NextN(Null, n)) && Key(NextN(Null, n)) == Some([]) && Value(NextN(Null, n)) == Some([])
  {
    if n > 0 {
      NullCursorNeverDone(n - 1);
    }
  }

  /** A live cursor advanced `n` times stands `n` rows further on. */
  lemma {:induction false} LiveCursorAdvances(c: Cursor, n: nat)
    requires c.Live?
    ensures NextN(c, n) == c.(offset := c.offset + n)
  {
    if n > 0 {
      LiveCursorAdvances(c, n - 1);
    }
  }

  /** `SDKShowCluster`: NULL and the count untouched for a NULL handle;
      otherwise an array of exactly one record per member, in member order,
      with the count set to its length. */
  function ShowCluster(live: bool, members: seq<Bytes>, ask: Bytes -> Option<InsSdk.StatusReply>,
                       count: int): (r: (Option<seq<ClusterNodeInfo>>, int))
    requires |members| <= Int32Max
    ensures !live ==> r == (None, count)
    ensures live ==> r.0.Some? && r.1 == |r.0.value| == |members|
    ensures live ==> forall i | 0 <= i < |members| :: r.0.value[i] == InsSdk.NodeInfo(members[i], ask(members[i]))
  {
    if !live then (None, count)
    else
      var infos := InsSdk.ShowCluster(members, ask).0;
      (Some(infos), |infos|)
  }
}

=== FILE: state_machine.dfy ===
/** The replicated state machine of a node (server/ins_node_impl.cc): how a
    committed log entry changes the namespaced store, how stored values carry
    their operation in a one-byte prefix, when a lock is free, and what a
    read reports.

    A stored value is the operation byte followed by the user's value; for a
    lock the user's value is the owning session. Sessions are the set of live
    session ids. C++ locals that `ParseValue` may leave unassigned are
    parameters (`unset` for the operation byte). */
module StateMachine {
  import opened Bytes
  import opened Outcomes
  import opened BinlogCodec
  import opened Table
  import opened NamespaceStore
  import opened RaftNode

  /** `tag_last_applied_index`, the key of the applied index in the shared
      namespace: "#TAG_LAST_APPLIED_INDEX#". */
  const TagLastApplied: Bytes :=
    [35, 84, 65, 71, 95, 76, 65, 83, 84, 95, 65, 80, 80, 76, 73, 69, 68, 95, 73, 78, 68, 69, 88, 35]

  /** The stored form of a value written by operation `op`. */
  function TypeAndValue(op: byte, value: Bytes): (r: Bytes)
    ensures |r| == |value| + 1 && r[0] == op
  {
    [op] + value
  }

  /** `ParseValue(value, op, real_value)`: splits off the operation byte;
      an empty value leaves both outputs as they were. */
  function ParseValue(value: Bytes, op: byte, rest: Bytes): (r: (byte, Bytes))
    ensures |value| >= 1 ==> TypeAndValue(r.0, r.1) == value
    ensures |value| == 0 ==> r == (op, rest)
  {
    if |value| >= 1 then (value[0], value[1..]) else (op, rest)
  }

  /** Parsing inverts the stored form, whatever the outputs held before. */
  lemma ParseTypeAndValue(op: byte, value: Bytes, op0: byte, rest0: Bytes)
    ensures ParseValue(TypeAndValue(op, value), op0, rest0) == (op, value)
  {
    assert TypeAndValue(op, value)[1..] == value;
  }

  /** `IsExpiredSession`. */
  predicate Expired(live: set<Bytes>, session: Bytes)
  {
    session !in live
  }

  // -------------------------------------------------------------------- apply

  /** What the apply loop hands to the event trigger: a key, a value and
      whether the key was deleted. */
  datatype Trigger = Trigger(key: Bytes, value: Bytes, deleted: bool)

  /** The applier's state: the store, the keys each session has locked, and
      the index of the last applied entry. */
  datatype Applier = Applier(store: Manager, sessionLocks: map<Bytes, set<Bytes>>, lastApplied: int)

  /** The shared namespace is open. */
  predicate SharedOpen(m: Manager)
  {
    Anonymous in m.dbs && m.dbs[Anonymous].Some?
  }

  predicate Open(m: Manager, name: Bytes)
  {
    name in m.dbs && m.dbs[name].Some?
  }

  /** The entry's lock value is owned by the stored value: a lock value
      whose session is the entry's. */
  predicate OwnedBy(m: Manager, e: LogEntry, unset: byte)
  {
    var read := NamespaceStore.Get(m, e.user, e.key, true);
    read.0 == Ok && ParseValue(read.1.value, unset, []) == (OpLock, e.value)
  }

  /** The store step of one entry, from the switch in the apply loop. A put
      or lock stores the prefixed value, a delete removes the key, an unlock
      removes the key only when it holds a lock of the same session, and a
      no-op (or an unknown operation) changes nothing. The asserted store
      calls abort when they fail. */
  function ApplyData(m: Manager, e: LogEntry, unset: byte): (r: Run<(Manager, Option<Trigger>)>)
    requires Valid(m)
    ensures r.Aborted? <==> (e.op == OpPut || e.op == OpLock || e.op == OpDel) && !Open(m, e.user)
    ensures r.Done? ==> Valid(r.value.0) && r.value.0.dbs.Keys == m.dbs.Keys
    ensures r.Done? && r.value.1.None? ==> r.value.0 == m
  {
    if e.op == OpPut || e.op == OpLock then
      var put := Put(m, e.user, e.key, TypeAndValue(e.op, e.value));
      if put.1 != Ok then Aborted else Done((put.0, Some(Trigger(e.key, e.value, false))))
    else if e.op == OpDel then
      var del := Delete(m, e.user, e.key);
      if del.1 != Ok then Aborted else Done((del.0, Some(Trigger(e.key, e.value, true))))
    else if e.op == OpUnLock && OwnedBy(m, e, unset) then
      Done((Delete(m, e.user, e.key).0, Some(Trigger(e.key, e.value, true))))
    else Done((m, None))
  }

  /** What a read of the entry's key gives after the step. */
  function ReadAfter(m: Manager, e: LogEntry, unset: byte): (Status, Option<Bytes>)
  {
    if e.op == OpPut || e.op == OpLock then (Ok, Some(TypeAndValue(e.op, e.value)))
    else if e.op == OpDel || (e.op == OpUnLock && OwnedBy(m, e, unset)) then (NotFound, None)
    else NamespaceStore.Get(m, e.user, e.key, true)
  }

  /** After the store step the entry's key reads as `ReadAfter` says and
      every other key of every namespace reads as before. */
  lemma ApplyDataReads(m: Manager, e: LogEntry, unset: byte, name: Bytes, key: Bytes)
    requires Valid(m) && ApplyData(m, e, unset).Done?
    ensures NamespaceStore.Get(ApplyData(m, e, unset).value.0, name, key, true)
              == if name == e.user && key == e.key then ReadAfter(m, e, unset)
                 else NamespaceStore.Get(m, name, key, true)
  {
    if e.op == OpPut || e.op == OpLock {
      GetAfterPut(m, e.user, e.key, TypeAndValue(e.op, e.value), name, key);
    } else if e.op == OpDel || (e.op == OpUnLock && OwnedBy(m, e, unset)) {
      GetAfterDelete(m, e.user, e.key, name, key);
    }
  }

  /** One iteration of the apply loop: the store step, the session's lock
      record for a lock, then the applied index is advanced and written to
      the shared namespace (an asserted put). Returns the new state, the
      event to trigger and whether a no-op was applied. */
  function ApplyEntry(a: Applier, e: LogEntry, unset: byte): (r: Run<(Applier, Option<Trigger>, bool)>)
    requires Valid(a.store) && SharedOpen(a.store) && IsInt64(a.lastApplied) && a.lastApplied < Int64Max
    ensures r.Aborted? <==> ApplyData(a.store, e, unset).Aborted?
    ensures r.Done? ==> var a' := r.value.0;
              && Valid(a'.store) && SharedOpen(a'.store)
              && a'.lastApplied == a.lastApplied + 1
              && (r.value.2 <==> e.op == OpNop)
              && NamespaceStore.Get(a'.store, Anonymous, TagLastApplied, true) == (Ok, Some(EncodeInt64(a.lastApplied + 1)))
    ensures r.Done? && e.op == OpLock ==>
              e.value in r.value.0.sessionLocks && e.key in r.value.0.sessionLocks[e.value]
    ensures r.Done? && e.op != OpLock ==> r.value.0.sessionLocks == a.sessionLocks
  {
    match ApplyData(a.store, e, unset)
    case Aborted => Aborted
    case Done(step) =>
      var m := step.0;
      var locks := if e.op == OpLock then
                     a.sessionLocks[e.value := (if e.value in a.sessionLocks then a.sessionLocks[e.value] else {}) + {e.key}]
                   else a.sessionLocks;
      var m' := Put(m, Anonymous, TagLastApplied, EncodeInt64(a.lastApplied + 1)).0;
      GetAfterPut(m, Anonymous, TagLastApplied, EncodeInt64(a.lastApplied + 1), Anonymous, TagLastApplied);
      Done((Applier(m', locks, a.lastApplied + 1), step.1, e.op == OpNop))
  }

  /** The whole entry: its key reads as `ReadAfter` (unless it is the
      applied-index tag itself, which the loop overwrites), and every key
      other than those two reads as before. */
  lemma ApplyEntryReads(a: Applier, e: LogEntry, unset: byte, name: Bytes, key: Bytes)
    requires Valid(a.store) && SharedOpen(a.store) && IsInt64(a.lastApplied) && a.lastApplied < Int64Max
    requires ApplyEntry(a, e, unset).Done?
    requires name != Anonymous || key != TagLastApplied
    ensures NamespaceStore.Get(ApplyEntry(a, e, unset).value.0.store, name, key, true)
              == if name == e.user && key == e.key then ReadAfter(a.store, e, unset)
                 else NamespaceStore.Get(a.store, name, key, true)
  {
    var m := ApplyData(a.store, e, unset).value.0;
    assert ApplyEntry(a, e, unset).value.0.store == Put(m, Anonymous, TagLastApplied, EncodeInt64(a.lastApplied + 1)).0;
    ApplyDataReads(a.store, e, unset, name, key);
    GetAfterPut(m, Anonymous, TagLastApplied, EncodeInt64(a.lastApplied + 1), name, key);
  }

  /** An unlock entry of a session that does not own the lock leaves the
      store's data alone. */
  lemma UnlockOfOtherSessionKeeps(m: Manager, e: LogEntry, unset: byte)
    requires Valid(m) && e.op == OpUnLock && !OwnedBy(m, e, unset)
    ensures ApplyData(m, e, unset) == Done((m, None))
  {
  }

  /** The apply loop over the entries after the last applied one. */
  function ApplyAll(a: Applier, es: seq<LogEntry>, unset: byte): (r: Run<Applier>)
    requires Valid(a.store) && SharedOpen(a.store) && IsInt64(a.lastApplied) && a.lastApplied + |es| < Int64Max
    ensures r.Done? ==> r.value.lastApplied == a.lastApplied + |es|
    ensures r.Done? ==> Valid(r.value.store) && SharedOpen(r.value.store)
    decreases |es|
  {
    if |es| == 0 then Done(a)
    else
      match ApplyEntry(a, es[0], unset)
      case Aborted => Aborted
      case Done(step) => ApplyAll(step.0, es[1..], unset)
  }

  /** After a non-empty run the applied index is stored under its tag in
      the shared namespace. */
  lemma {:induction false} ApplyAllStoresTag(a: Applier, es: seq<LogEntry>, unset: byte)
    requires Valid(a.store) && SharedOpen(a.store) && IsInt64(a.lastApplied) && a.lastApplied + |es| < Int64Max
    requires |es| > 0 && ApplyAll(a, es, unset).Done?
    ensures NamespaceStore.Get(ApplyAll(a, es, unset).value.store, Anonymous, TagLastApplied, true)
              == (Ok, Some(EncodeInt64(ApplyAll(a, es, unset).value.lastApplied)))
    decreases |es|
  {
    var step := ApplyEntry(a, es[0], unset).value;
    if |es| > 1 {
      ApplyAllStoresTag(step.0, es[1..], unset);
    } else {
      assert es[1..] == [];
    }
  }

  // ------------------------------------------------------------------- locks

  /** `LockIsAvailable(key, session)`, read from the shared namespace: a
      live session may take a key with no readable value, or a key holding
      a lock whose owner has expired. */
  function LockIsAvailable(m: Manager, key: Bytes, session: Bytes, live: set<Bytes>, unset: byte): (r: bool)
    ensures r ==> session in live
  {
    var read := NamespaceStore.Get(m, Anonymous, key, true);
    var parsed := ParseValue(if read.0 == Ok then read.1.value else [], unset, []);
    if read.0 != Ok then session in live
    else parsed.0 == OpLock && Expired(live, parsed.1) && session in live
  }

  /** With the shared namespace open and the stored value not empty: the
      lock is available iff the session is live and the key is absent or
      holds a lock of an expired session. */
  lemma LockIsAvailableIff(m: Manager, key: Bytes, session: Bytes, live: set<Bytes>, unset: byte)
    requires SharedOpen(m) && Lookup(m.dbs[Anonymous].value, key) != Some([])
    ensures LockIsAvailable(m, key, session, live, unset) <==>
              session in live &&
              match Lookup(m.dbs[Anonymous].value, key)
              case None => true
              case Some(v) => v[0] == OpLock && v[1..] !in live
  {
  }

  /** A lock entry applied for a live session makes the key unavailable to
      every session while the owner stays live. */
  lemma LockTakesKey(a: Applier, e: LogEntry, unset: byte, other: Bytes, live: set<Bytes>)
    requires Valid(a.store) && SharedOpen(a.store) && IsInt64(a.lastApplied) && a.lastApplied < Int64Max
    requires e.op == OpLock && e.user == Anonymous && e.key != TagLastApplied && e.value in live
    ensures ApplyEntry(a, e, unset).Done?
    ensures !LockIsAvailable(ApplyEntry(a, e, unset).value.0.store, e.key, other, live, unset)
  {
    ApplyEntryReads(a, e, unset, Anonymous, e.key);
    ParseTypeAndValue(OpLock, e.value, unset, []);
  }

  // -------------------------------------------------------------------- reads

  datatype GetReply =
    | GetReply(success: bool, hit: bool, value: Bytes, leaderId: Bytes)
      /** The leader first confirms its leadership with a heartbeat round;
          the reply is sent from that round's callback. */
    | ReadPending

  /** `Get`: followers name their leader, candidates and a leader in safe
      mode refuse; a leader that must confirm its leadership defers; else the
      value is read locally, a lock of an expired session reading as a miss. */
  function NodeGet(role: Role, leader: Bytes, safeMode: bool, confirm: bool, m: Manager,
                   user: Bytes, key: Bytes, live: set<Bytes>, unset: byte): (r: GetReply)
    ensures role == Follower ==> r == GetReply(false, false, [], leader)
    ensures role == Candidate || (role == Leader && safeMode) ==> r == GetReply(false, false, [], [])
    ensures r.GetReply? && r.hit ==> r.success
  {
    if role == Follower then GetReply(false, false, [], leader)
    else if role == Candidate then GetReply(false, false, [], [])
    else if safeMode then GetReply(false, false, [], [])
    else if confirm then ReadPending
    else
      var read := NamespaceStore.Get(m, user, key, true);
      var parsed := ParseValue(if read.0 == Ok then read.1.value else [], unset, []);
      if read.0 == Ok then
        if parsed.0 == OpLock && Expired(live, parsed.1) then GetReply(true, false, [], [])
        else GetReply(true, true, parsed.1, [])
      else GetReply(true, false, [], [])
  }

  /** A local read hits iff the key holds a value that is not the lock of an
      expired session, and then returns the value without its prefix. */
  lemma NodeGetHides(m: Manager, user: Bytes, key: Bytes, live: set<Bytes>, unset: byte)
    requires Open(m, user) && Lookup(m.dbs[user].value, key) != Some([])
    ensures var r := NodeGet(Leader, [], false, false, m, user, key, live, unset);
            && r.GetReply? && r.success
            && (r.hit <==> match Lookup(m.dbs[user].value, key)
                           case None => false
                           case Some(v) => !(v[0] == OpLock && v[1..] !in live))
            && (r.hit ==> TypeAndValue(Lookup(m.dbs[user].value, key).value[0], r.value) == Lookup(m.dbs[user].value, key).value)
  {
  }

  /** A put applied to an open namespace is what a later local read returns. */
  lemma GetAfterApplyPut(a: Applier, e: LogEntry, unset: byte, live: set<Bytes>)
    requires Valid(a.store) && SharedOpen(a.store) && IsInt64(a.lastApplied) && a.lastApplied < Int64Max
    requires e.op == OpPut && Open(a.store, e.user) && (e.user != Anonymous || e.key != TagLastApplied)
    ensures ApplyEntry(a, e, unset).Done?
    ensures NodeGet(Leader, [], false, false, ApplyEntry(a, e, unset).value.0.store, e.user, e.key, live, unset)
              == GetReply(true, true, e.value, [])
  {
    ApplyEntryReads(a, e, unset, e.user, e.key);
    ParseTypeAndValue(OpPut, e.value, unset, []);
  }
}

=== FILE: table.dfy ===
/** A leveldb database as an ordered table: its entries sorted by strictly
    increasing key in the byte-wise order of leveldb's default comparator.
    An iterator walks the table front to back. */
module Table {
  import opened Bytes
  import opened Outcomes

  type Entry = (Bytes, Bytes)

  /** Every key of `t` lies above `k`. */
  predicate Above(k: Bytes, t: seq<Entry>)
  {
    forall j | 0 <= j < |t| :: Less(k, t[j].0)
  }

  /** Keys strictly increase from front to back. */
  predicate Ordered(t: seq<Entry>)
  {
    |t| == 0 || (Above(t[0].0, t[1..]) && Ordered(t[1..]))
  }

  /** The value stored under `k`. */
  function Lookup(t: seq<Entry>, k: Bytes): (r: Option<Bytes>)
    ensures r.Some? <==> exists j | 0 <= j < |t| :: t[j].0 == k
  {
    if |t| == 0 then None
    else if t[0].0 == k then Some(t[0].1)
    else
      var r := Lookup(t[1..], k);
      assert forall j | 1 <= j < |t| :: t[j] == t[1..][j - 1];
      r
  }

  lemma {:induction false} LookupAbove(k: Bytes, t: seq<Entry>)
    requires Above(k, t)
    ensures Lookup(t, k) == None
  {
    if |t| > 0 {
      LessIrreflexive(k);
      LookupAbove(k, t[1..]);
    }
  }

  lemma AboveLower(x: Bytes, k: Bytes, t: seq<Entry>)
    requires Less(x, k) && Above(k, t)
    ensures Above(x, t)
  {
    forall j | 0 <= j < |t|
      ensures Less(x, t[j].0)
    {
      LessTransitive(x, k, t[j].0);
    }
  }

  /** `Put`: stores `v` under `k`, replacing any earlier value. */
  function Insert(t: seq<Entry>, k: Bytes, v: Bytes): (r: seq<Entry>)
    requires Ordered(t)
    ensures Ordered(r)
    ensures forall x | Above(x, t) && Less(x, k) :: Above(x, r)
  {
    if |t| == 0 then [(k, v)]
    else if t[0].0 == k then [(k, v)] + t[1..]
    else if Less(k, t[0].0) then
      AboveLower(k, t[0].0, t[1..]);
      [(k, v)] + t
    else
      LessTotal(k, t[0].0);
      var rest := Insert(t[1..], k, v);
      assert Above(t[0].0, rest);
      [t[0]] + rest
  }

  /** After an insert, `k` holds `v` and every other key keeps its value. */
  lemma {:induction false} LookupInsert(t: seq<Entry>, k: Bytes, v: Bytes, j: Bytes)
    requires Ordered(t)
    ensures Lookup(Insert(t, k, v), j) == if j == k then Some(v) else Lookup(t, j)
  {
    if |t| > 0 && t[0].0 != k && !Less(k, t[0].0) {
      LookupInsert(t[1..], k, v, j);
    }
  }

  /** `Delete`: removes `k`; removing an absent key changes nothing. */
  function Remove(t: seq<Entry>, k: Bytes): (r: seq<Entry>)
    requires Ordered(t)
    ensures Ordered(r)
    ensures |r| <= |t|
    ensures forall x | Above(x, t) :: Above(x, r)
  {
    if |t| == 0 then []
    else if t[0].0 == k then t[1..]
    else
      var rest := Remove(t[1..], k);
      assert forall x | Above(x, t) :: Above(x, t[1..]) by {
        assert forall j | 0 <= j < |t| - 1 :: t[1..][j] == t[j + 1];
      }
      [t[0]] + rest
  }

  /** After a removal `k` is gone and every other key keeps its value. */
  lemma {:induction false} LookupRemove(t: seq<Entry>, k: Bytes, j: Bytes)
    requires Ordered(t)
    ensures Lookup(Remove(t, k), j) == if j == k then None else Lookup(t, j)
  {
    if |t| > 0 {
      if t[0].0 == k {
        if j == k {
          LookupAbove(k, t[1..]);
        }
      } else {
        LookupRemove(t[1..], k, j);
      }
    }
  }

  /** The index an iterator reaches by `Seek(target)`: the first key at or
      above `target`. */
  function SeekIndex(t: seq<Entry>, target: Bytes): (i: nat)
    ensures i <= |t|
    ensures forall j | 0 <= j < i :: Less(t[j].0, target)
  {
    if |t| == 0 || !Less(t[0].0, target) then 0
    else
      var i := SeekIndex(t[1..], target);
      assert forall j | 1 <= j < i + 1 :: t[j] == t[1..][j - 1];
      i + 1
  }

  /** In an ordered table everything from the sought index on is at or above
      the target. */
  lemma {:induction false} SeekIndexBound(t: seq<Entry>, target: Bytes)
    requires Ordered(t)
    ensures forall j | SeekIndex(t, target) <= j < |t| :: !Less(t[j].0, target)
  {
    if |t| > 0 {
      if Less(t[0].0, target) {
        SeekIndexBound(t[1..], target);
        forall j | SeekIndex(t, target) <= j < |t|
          ensures !Less(t[j].0, target)
        {
          assert t[j] == t[1..][j - 1];
        }
      } else {
        forall j | 0 < j < |t|
          ensures !Less(t[j].0, target)
        {
          assert Less(t[0].0, t[j].0) by {
            assert t[j] == t[1..][j - 1];
          }
          if Less(t[j].0, target) {
            LessTransitive(t[0].0, t[j].0, target);
          }
        }
      }
    }
  }

  /** Entries further back have larger keys. */
  lemma {:induction false} OrderedPairs(t: seq<Entry>, i: nat, j: nat)
    requires Ordered(t) && i < j < |t|
    ensures Less(t[i].0, t[j].0)
  {
    assert t[j] == t[1..][j - 1];
    if i > 0 {
      assert t[i] == t[1..][i - 1];
      OrderedPairs(t[1..], i - 1, j - 1);
    }
  }
}

=== FILE: user_manage.dfy ===
/** The account manager (server/user_manage.cc).

    It keeps the registered users with their passwords, and for each logged
    in user the uuid of its session. `users` is `user_list_`: a name and its
    `UserInfo`, whose `uuid` is set while the user is logged in. `logged` is
    `logged_users_`: a uuid and the name logged in under it. `db` is the
    user database on disk (name to password). A write to that database may
    fail; each operation that writes takes the outcome as a parameter. The
    clock read by `CalcUuid` is the parameter `now`. */
module UserManage {
  import opened Bytes
  import opened Outcomes
  import opened Base64
  import opened Numerals

  /** The server's `Status` codes that the account manager returns. */
  datatype Status = Ok | NotFound | UnknownUser | UserExists | PasswordError | PermissionDenied | Error

  /** A `UserInfo` record; `uuid` is `None` when the field is unset. */
  datatype UserInfo = UserInfo(passwd: Bytes, uuid: Option<Bytes>)

  datatype Accounts = Accounts(users: map<Bytes, UserInfo>, logged: map<Bytes, Bytes>, db: map<Bytes, Bytes>)

  const At: byte := 64

  /** "root". */
  const RootName: Bytes := [114, 111, 111, 116]

  // ------------------------------------------------------------------- uuids

  /** `CalcUuid`: the name, '@', and the time, in base64. */
  function CalcUuid(name: Bytes, now: int): (r: Bytes)
    ensures r != []
  {
    Encode(name + [At] + Decimal(now))
  }

  /** `CalcName`: decode and cut at the last '@' (the whole text when there
      is none); `None` when decoding fails. */
  function CalcName(uuid: Bytes): (r: Option<Bytes>)
    ensures r.Some? <==> Decode(uuid).Some?
    ensures r.Some? ==> |r.value| <= |Decode(uuid).value| && r.value == Decode(uuid).value[..|r.value|]
  {
    match Decode(uuid)
    case None => None
    case Some(text) =>
      match LastIndexOf(text, At)
      case None => Some(text)
      case Some(i) => Some(text[..i])
  }

  /** The '@' before a tail without one is the last '@'. */
  lemma LastAt(name: Bytes, tail: Bytes)
    requires forall i | 0 <= i < |tail| :: IsDigit(tail[i]) || (i == 0 && tail[i] == Minus)
    ensures LastIndexOf(name + [At] + tail, At) == Some(|name|)
  {
    var text := name + [At] + tail;
    var r := LastIndexOf(text, At);
    assert text[|name|] == At;
    if r.None? {
      assert false;
    } else if r.value < |name| {
      assert false;
    } else if r.value > |name| {
      assert false;
    }
  }

  /** The name comes back from its uuid, whatever the time. */
  lemma CalcNameOfUuid(name: Bytes, now: int)
    ensures CalcName(CalcUuid(name, now)) == Some(name)
  {
    var text := name + [At] + Decimal(now);
    assert Decode(CalcUuid(name, now)) == Some(text) by {
      DecodeEncode(text);
    }
    assert LastIndexOf(text, At) == Some(|name|) by {
      LastAt(name, Decimal(now));
    }
    assert text[..|name|] == name;
  }

  /** Two users' uuids never collide, whatever the times. */
  lemma UuidsOfDifferentNames(a: Bytes, b: Bytes, t: int, u: int)
    requires a != b
    ensures CalcUuid(a, t) != CalcUuid(b, u)
  {
    CalcNameOfUuid(a, t);
    CalcNameOfUuid(b, u);
  }

  // ---------------------------------------------------------------- invariant

  /** The two tables agree: every logged-in uuid names a user that carries
      it, every user carrying a uuid is logged in under it, and every uuid
      is non-empty and decodes to the name logged in under it. */
  predicate Consistent(a: Accounts)
  {
    && [] !in a.logged
    && (forall u | u in a.logged :: a.logged[u] in a.users && a.users[a.logged[u]].uuid == Some(u))
    && (forall n | n in a.users && a.users[n].uuid.Some? :: a.users[n].uuid.value in a.logged
                                                          && a.logged[a.users[n].uuid.value] == n)
    && (forall u | u in a.logged :: CalcName(u) == Some(a.logged[u]))
  }

  // ------------------------------------------------------------- constructor

  /** The constructor: creates the data directory (an abort when that
      fails), opens the database and writes the root account to it (two
      assertions: the open must succeed, and the root record must carry a
      name and a password and be written), loads every stored user, then
      sets the entry "root" to the root password with no uuid. The write of
      the root record is `rootWriteOk`; `stored` is the database found on
      disk. */
  function New(mkdirsOk: bool, openOk: bool, stored: map<Bytes, Bytes>,
               rootName: Option<Bytes>, rootPasswd: Option<Bytes>, rootWriteOk: bool): (r: Run<Accounts>)
    ensures r.Done? <==> mkdirsOk && openOk && rootName.Some? && rootPasswd.Some? && rootWriteOk
    ensures r.Done? ==> Consistent(r.value) && r.value.logged == map[]
    ensures r.Done? ==> r.value.users.Keys == stored.Keys + {rootName.value, RootName}
    ensures r.Done? ==> r.value.users[RootName] == UserInfo(rootPasswd.value, None)
    ensures r.Done? ==> r.value.db == stored[rootName.value := rootPasswd.value]
  {
    if !mkdirsOk || !openOk || rootName.None? || rootPasswd.None? || !rootWriteOk then Aborted
    else
      var db := stored[rootName.value := rootPasswd.value];
      var loaded := map n | n in db :: UserInfo(db[n], None);
      Done(Accounts(loaded[RootName := UserInfo(rootPasswd.value, None)], map[], db))
  }

  // -------------------------------------------------------------- operations

  /** `Login`: unknown name, then already logged in, then wrong password;
      on success the new uuid is recorded both ways. */
  function Login(a: Accounts, name: Bytes, password: Bytes, now: int): (r: (Accounts, Status, Option<Bytes>))
    ensures r.1 == Ok <==> r.2.Some?
    ensures r.1 != Ok ==> r.0 == a
    ensures name !in a.users ==> r.1 == UnknownUser
    ensures name in a.users && a.users[name].uuid.Some? ==> r.1 == UserExists
    ensures name in a.users && a.users[name].uuid.None? && a.users[name].passwd != password ==> r.1 == PasswordError
    ensures r.1 == Ok ==> (&& r.0.logged == a.logged[r.2.value := name]
                           && r.0.users == a.users[name := a.users[name].(uuid := r.2)]
                           && CalcName(r.2.value) == Some(name))
    ensures Consistent(a) ==> Consistent(r.0)
  {
    if name !in a.users then (a, UnknownUser, None)
    else if a.users[name].uuid.Some? then (a, UserExists, None)
    else if a.users[name].passwd != password then (a, PasswordError, None)
    else
      var uuid := CalcUuid(name, now);
      CalcNameOfUuid(name, now);
      (a.(users := a.users[name := a.users[name].(uuid := Some(uuid))], logged := a.logged[uuid := name]), Ok, Some(uuid))
  }

  /** `Logout`: an unknown uuid is refused; otherwise the user's uuid is
      cleared and the session forgotten. The source indexes `user_list_`
      with `[]`, which would insert an empty record for a missing name; in
      a consistent state the name is always present. */
  function Logout(a: Accounts, uuid: Bytes): (r: (Accounts, Status))
    ensures r.1 == Ok || r.1 == UnknownUser
    ensures r.1 == Ok <==> uuid in a.logged
    ensures r.1 != Ok ==> r.0 == a
    ensures r.1 == Ok ==> uuid !in r.0.logged && r.0.logged == a.logged - {uuid}
    ensures Consistent(a) && r.1 == Ok ==> r.0.users == a.users[a.logged[uuid] := a.users[a.logged[uuid]].(uuid := None)]
    ensures Consistent(a) ==> Consistent(r.0)
  {
    if uuid !in a.logged then (a, UnknownUser)
    else
      var name := a.logged[uuid];
      var info := if name in a.users then a.users[name] else UserInfo([], None);
      (a.(users := a.users[name := info.(uuid := None)], logged := a.logged - {uuid}), Ok)
  }

  /** `Register`: an empty or known name is `UserExists`; a failed write
      is `Error`. */
  function Register(a: Accounts, name: Bytes, password: Bytes, writeOk: bool): (r: (Accounts, Status))
    ensures name == [] || name in a.users ==> r == (a, UserExists)
    ensures r.1 == Ok <==> name != [] && name !in a.users && writeOk
    ensures r.1 != Ok ==> r.0 == a
    ensures r.1 == Ok ==> && r.0.users == a.users[name := UserInfo(password, None)]
                          && r.0.db == a.db[name := password]
                          && r.0.logged == a.logged
    ensures Consistent(a) ==> Consistent(r.0)
  {
    if name == [] then (a, UserExists)
    else if name in a.users then (a, UserExists)
    else if !writeOk then (a, Error)
    else (a.(users := a.users[name := UserInfo(password, None)], db := a.db[name := password]), Ok)
  }

  /** The `uuid()` accessor: "" when the field is unset. */
  function UuidField(info: UserInfo): Bytes
  {
    info.uuid.GetOr([])
  }

  /** `ForceOffline`: the caller must be logged in and the target known;
      root, or a caller whose own uuid is the target's, logs the target's
      uuid out (the empty uuid when the target is not logged in). */
  function ForceOffline(a: Accounts, myid: Bytes, name: Bytes): (r: (Accounts, Status))
    ensures myid !in a.logged || name !in a.users ==> r == (a, UnknownUser)
    ensures (myid in a.logged && name in a.users && a.logged[myid] != RootName
             && myid != UuidField(a.users[name])) ==> r == (a, PermissionDenied)
    ensures r.1 != Ok ==> r.0 == a
    ensures r.1 == Ok ==> (&& name in a.users && UuidField(a.users[name]) in a.logged
                           && r.0 == Logout(a, UuidField(a.users[name])).0)
    ensures Consistent(a) ==> Consistent(r.0)
  {
    if myid !in a.logged then (a, UnknownUser)
    else if name !in a.users then (a, UnknownUser)
    else
      var uuid := UuidField(a.users[name]);
      if a.logged[myid] == RootName || myid == uuid then Logout(a, uuid)
      else (a, PermissionDenied)
  }

  /** `DeleteUser`: the caller must be logged in, then be root or the
      target, then the target must exist; a failed database delete is
      `Error`. Success forgets the user and its session. */
  function DeleteUser(a: Accounts, myid: Bytes, name: Bytes, deleteOk: bool): (r: (Accounts, Status))
    ensures myid !in a.logged ==> r == (a, UnknownUser)
    ensures myid in a.logged && a.logged[myid] != RootName && a.logged[myid] != name ==> r == (a, PermissionDenied)
    ensures myid in a.logged && (a.logged[myid] == RootName || a.logged[myid] == name) && name !in a.users
            ==> r == (a, NotFound)
    ensures r.1 != Ok ==> r.0 == a
    ensures r.1 == Ok ==> && deleteOk && name !in r.0.users && r.0.users == a.users - {name}
                          && r.0.db == a.db - {name}
                          && (a.users[name].uuid.Some? ==> r.0.logged == a.logged - {a.users[name].uuid.value})
                          && (a.users[name].uuid.None? ==> r.0.logged == a.logged)
    ensures Consistent(a) ==> Consistent(r.0)
  {
    if myid !in a.logged then (a, UnknownUser)
    else if a.logged[myid] != RootName && a.logged[myid] != name then (a, PermissionDenied)
    else if name !in a.users then (a, NotFound)
    else if !deleteOk then (a, Error)
    else
      var logged := if a.users[name].uuid.Some? then a.logged - {a.users[name].uuid.value} else a.logged;
      (Accounts(a.users - {name}, logged, a.db - {name}), Ok)
  }

  predicate IsLoggedIn(a: Accounts, uuid: Bytes)
  {
    uuid in a.logged
  }

  predicate IsValidUser(a: Accounts, name: Bytes)
  {
    name in a.users
  }

  /** `GetUsernameFromUuid`: the logged-in name, or "". */
  function UsernameOf(a: Accounts, uuid: Bytes): (r: Bytes)
    ensures Consistent(a) && IsLoggedIn(a, uuid) ==> IsValidUser(a, r) && CalcName(uuid) == Some(r)
    ensures !IsLoggedIn(a, uuid) ==> r == []
  {
    if uuid in a.logged then a.logged[uuid] else []
  }

  /** `TruncateOnlineUsers`: root only; everybody but the caller is logged
      out, and the caller's uuid is kept. */
  function TruncateOnlineUsers(a: Accounts, myid: Bytes): (r: (Accounts, Status))
    ensures myid !in a.logged ==> r == (a, UnknownUser)
    ensures myid in a.logged && a.logged[myid] != RootName ==> r == (a, PermissionDenied)
    ensures r.1 != Ok ==> r.0 == a
    ensures r.1 == Ok ==> && r.0.logged == map[myid := RootName]
                          && r.0.users.Keys == a.users.Keys + {RootName}
                          && r.0.users[RootName].uuid == Some(myid)
                          && (forall n | n in r.0.users && n != RootName :: r.0.users[n].uuid.None?)
                          && (forall n | n in a.users :: r.0.users[n].passwd == a.users[n].passwd)
                          && r.0.db == a.db
    ensures Consistent(a) ==> Consistent(r.0)
  {
    if myid !in a.logged then (a, UnknownUser)
    else if a.logged[myid] != RootName then (a, PermissionDenied)
    else
      var cleared := map n | n in a.users :: a.users[n].(uuid := None);
      var root := if RootName in cleared then cleared[RootName] else UserInfo([], None);
      (a.(users := cleared[RootName := root.(uuid := Some(myid))], logged := map[myid := RootName]), Ok)
  }

  /** `TruncateAllUsers`: root only; a failed database truncation is
      `Error`. Otherwise only root remains, with its password and the
      caller's session; the root record is written back to the emptied
      database, which may fail unnoticed (`rootWriteOk`). */
  function TruncateAllUsers(a: Accounts, myid: Bytes, truncateOk: bool, rootWriteOk: bool): (r: (Accounts, Status))
    ensures myid !in a.logged ==> r == (a, UnknownUser)
    ensures myid in a.logged && a.logged[myid] != RootName ==> r == (a, PermissionDenied)
    ensures r.1 == Ok <==> myid in a.logged && a.logged[myid] == RootName && truncateOk
    ensures r.1 != Ok ==> r.0 == a
    ensures r.1 == Ok ==> && r.0.users.Keys == {RootName}
                          && r.0.logged == map[myid := RootName]
                          && r.0.users[RootName].uuid == Some(myid)
                          && (RootName in a.users ==> r.0.users[RootName].passwd == a.users[RootName].passwd)
                          && r.0.db.Keys <= {RootName}
    ensures Consistent(a) ==> Consistent(r.0)
  {
    if myid !in a.logged then (a, UnknownUser)
    else if a.logged[myid] != RootName then (a, PermissionDenied)
    else if !truncateOk then (a, Error)
    else
      var passwd := if RootName in a.users then a.users[RootName].passwd else [];
      var db := if rootWriteOk then map[RootName := passwd] else map[];
      (Accounts(map[RootName := UserInfo(passwd, Some(myid))], map[myid := RootName], db), Ok)
  }

  // ------------------------------------------------------------------ lemmas

  /** A logged-in user cannot log in again: the second login is refused
      with `UserExists`. */
  lemma LoginTwiceRefused(a: Accounts, name: Bytes, password: Bytes, now: int, password': Bytes, later: int)
    requires Login(a, name, password, now).1 == Ok
    ensures var a' := Login(a, name, password, now).0;
            Login(a', name, password', later) == (a', UserExists, None)
  {
  }

  /** A fresh login's uuid is not yet in use. */
  lemma LoginUuidFresh(a: Accounts, name: Bytes, password: Bytes, now: int)
    requires Consistent(a)
    requires Login(a, name, password, now).1 == Ok
    ensures Login(a, name, password, now).2.value !in a.logged
  {
    var u := Login(a, name, password, now).2.value;
    if u in a.logged {
      assert false;
    }
  }

  /** Logging out a login whose uuid was fresh restores the tables. */
  lemma LogoutUndoesLogin(a: Accounts, name: Bytes, password: Bytes, now: int)
    requires Login(a, name, password, now).1 == Ok
    requires Login(a, name, password, now).2.value !in a.logged
    ensures Logout(Login(a, name, password, now).0, Login(a, name, password, now).2.value) == (a, Ok)
  {
    var r := Login(a, name, password, now);
    var u := r.2.value;
    assert name in a.users && a.users[name].uuid.None?;
    var info := a.users[name];
    assert r.0.logged == a.logged[u := name] && r.0.users == a.users[name := info.(uuid := Some(u))];
    assert u in r.0.logged && r.0.logged[u] == name;
    var back := Logout(r.0, u).0;
    assert back.logged == a.logged by {
      MapUndo(a.logged, u, name);
    }
    assert back.users == a.users by {
      assert info.(uuid := Some(u)).(uuid := None) == info;
      MapRestore(a.users, name, info.(uuid := Some(u)));
    }
    assert back.db == a.db;
  }

  /** Adding a fresh key and removing it again gives the map back. */
  lemma MapUndo(m: map<Bytes, Bytes>, k: Bytes, v: Bytes)
    requires k !in m
    ensures m[k := v] - {k} == m
  {
  }

  /** Overwriting a key and writing its old value back gives the map
      back. */
  lemma MapRestore(m: map<Bytes, UserInfo>, k: Bytes, v: UserInfo)
    requires k in m
    ensures m[k := v][k := m[k]] == m
  {
  }

  /** Logging in and out again leaves the account tables as they were. */
  lemma LoginLogout(a: Accounts, name: Bytes, password: Bytes, now: int)
    requires Consistent(a)
    requires Login(a, name, password, now).1 == Ok
    ensures Logout(Login(a, name, password, now).0, Login(a, name, password, now).2.value) == (a, Ok)
  {
    LoginUuidFresh(a, name, password, now);
    LogoutUndoesLogin(a, name, password, now);
  }

  /** A second logout of the same uuid is refused. */
  lemma LogoutTwice(a: Accounts, uuid: Bytes)
    ensures Logout(Logout(a, uuid).0, uuid).1 == UnknownUser
  {
  }

  /** Forcing an offline user offline is refused with `UnknownUser` even
      for root: the logout is of the empty uuid, which no session has. */
  lemma ForceOfflineOfOfflineUser(a: Accounts, myid: Bytes, name: Bytes)
    requires Consistent(a) && myid in a.logged && name in a.users && a.users[name].uuid.None?
    ensures ForceOffline(a, myid, name).1 != Ok
  {
  }

  /** After `TruncateOnlineUsers` only the caller is logged in. */
  lemma TruncateOnlineLeavesCaller(a: Accounts, myid: Bytes, uuid: Bytes)
    requires TruncateOnlineUsers(a, myid).1 == Ok
    ensures IsLoggedIn(TruncateOnlineUsers(a, myid).0, uuid) <==> uuid == myid
  {
  }
}

=== FILE: watch_table.dfy ===
/** The server's table of pending watches (server/ins_node_impl.cc).

    A watch is registered by a client session on a key and answered once:
    either fired by a change of that key (or of a child key, for a watch on
    a directory), or cancelled when the same session watches the same key
    again. The server keeps the watches in one container indexed both by
    key and by session; the model keeps them as a set. Each registration
    carries its own reply object, which the model names by a number `ack`
    chosen fresh by the caller. Filling in a reply is a `Delivery`. */
module WatchTable {
  import opened Bytes
  import opened Outcomes
  import opened BinlogCodec
  import opened NamespaceStore
  import opened StateMachine
  import opened RaftNode

  datatype Watcher = Watcher(key: Bytes, session: Bytes, ack: nat)

  /** What is written into a watcher's reply. */
  datatype Notice =
    | Fired(watchKey: Bytes, key: Bytes, value: Bytes, deleted: bool)
    | Canceled

  datatype Delivery = Delivery(to: Watcher, notice: Notice)

  /** The watchers a set of deliveries is addressed to. */
  function Addressees(ds: set<Delivery>): set<Watcher>
  {
    set d | d in ds :: d.to
  }

  /** Each (key, session) pair has at most one pending watch. */
  predicate Unique(ws: set<Watcher>)
  {
    forall a, b | a in ws && b in ws && a.key == b.key && a.session == b.session :: a == b
  }

  /** `ds` retires exactly the watchers of `ws` that are not `kept`, each
      with one reply. */
  predicate Settles(ws: set<Watcher>, kept: set<Watcher>, ds: set<Delivery>)
  {
    && kept <= ws
    && Addressees(ds) == ws - kept
    && (forall d1, d2 | d1 in ds && d2 in ds && d1.to == d2.to :: d1 == d2)
  }

  /** Any subset of a table with unique pairs has unique pairs. */
  lemma SubsetUnique(ws: set<Watcher>, sub: set<Watcher>)
    requires Unique(ws) && sub <= ws
    ensures Unique(sub)
  {
  }

  // ----------------------------------------------------------------- triggers

  /** `TriggerEvent`: every watch on `watchKey` fires with the change and
      leaves the table. */
  function TriggerEvent(ws: set<Watcher>, watchKey: Bytes, key: Bytes, value: Bytes, deleted: bool)
    : (r: (set<Watcher>, set<Delivery>))
    ensures Settles(ws, r.0, r.1)
    ensures forall w | w in ws :: w in r.0 <==> w.key != watchKey
    ensures forall d | d in r.1 :: d.notice == Fired(watchKey, key, value, deleted)
  {
    var kept := set w | w in ws && w.key != watchKey;
    var ds := set w | w in ws && w.key == watchKey :: Delivery(w, Fired(watchKey, key, value, deleted));
    assert Addressees(ds) == ws - kept by {
      forall w | w in ws - kept ensures w in Addressees(ds) {
        assert Delivery(w, Fired(watchKey, key, value, deleted)) in ds;
      }
    }
    (kept, ds)
  }

  /** A watch fires once: a second change of the same key finds nobody. */
  lemma TriggerOnce(ws: set<Watcher>, watchKey: Bytes, key: Bytes, value: Bytes, deleted: bool,
                    key': Bytes, value': Bytes, deleted': bool)
    ensures var ws' := TriggerEvent(ws, watchKey, key, value, deleted).0;
            TriggerEvent(ws', watchKey, key', value', deleted') == (ws', {})
  {
    var ws' := TriggerEvent(ws, watchKey, key, value, deleted).0;
    var r := TriggerEvent(ws', watchKey, key', value', deleted');
    assert r.0 == ws';
    assert forall d | d in r.1 :: d.to in Addressees(r.1);
    assert r.1 == {};
    assert r == (ws', {});
  }

  /** The parent of a key: everything before its last '/', or "" when it
      has none. */
  function ParentKey(key: Bytes): (r: Bytes)
    ensures |r| <= |key| && r == key[..|r|]
    ensures r != [] ==> |r| < |key| && key[|r|] == Slash && forall j | |r| < j < |key| :: key[j] != Slash
    ensures (forall j | 0 <= j < |key| :: key[j] != Slash) ==> r == []
  {
    match LastIndexOf(key, Slash)
    case None => []
    case Some(i) => key[..i]
  }

  /** `TriggerEventWithParent`: the watches on the key fire, then those on
      its parent, when the key has one. Every reply names the changed key. */
  function TriggerEventWithParent(ws: set<Watcher>, key: Bytes, value: Bytes, deleted: bool)
    : (r: (set<Watcher>, set<Delivery>))
    ensures Settles(ws, r.0, r.1)
    ensures forall w | w in ws :: w in r.0 <==> w.key != key && (ParentKey(key) == [] || w.key != ParentKey(key))
    ensures forall d | d in r.1 :: d.notice == Fired(d.to.key, key, value, deleted)
  {
    var (ws1, ds1) := TriggerEvent(ws, key, key, value, deleted);
    var parent := ParentKey(key);
    if parent == [] then (ws1, ds1)
    else
      var (ws2, ds2) := TriggerEvent(ws1, parent, key, value, deleted);
      AddressesUnion(ds1, ds2);
      (ws2, ds1 + ds2)
  }

  lemma AddressesUnion(a: set<Delivery>, b: set<Delivery>)
    ensures Addressees(a + b) == Addressees(a) + Addressees(b)
  {
  }

  /** A change of "a/b" fires the watches on "a/b" and on "a" and no
      others; a watch on "a/b/c" or on "" does not fire. */
  lemma ParentWatchFires(ws: set<Watcher>, key: Bytes, value: Bytes, deleted: bool, w: Watcher)
    requires w in ws && |w.key| < |key| && key[..|w.key|] == w.key && key[|w.key|] == Slash
    requires forall j | |w.key| < j < |key| :: key[j] != Slash
    requires w.key != []
    ensures Delivery(w, Fired(w.key, key, value, deleted)) in TriggerEventWithParent(ws, key, value, deleted).1
  {
    var p := ParentKey(key);
    assert LastIndexOf(key, Slash) == Some(|w.key|);
    assert p == w.key;
    var r := TriggerEventWithParent(ws, key, value, deleted);
    assert w !in r.0;
    assert w in Addressees(r.1);
  }

  // --------------------------------------------------------------- by session

  /** `RemoveEventBySessionAndKey`: the session's watch on the key is
      cancelled. */
  function RemoveEventBySessionAndKey(ws: set<Watcher>, session: Bytes, key: Bytes)
    : (r: (set<Watcher>, set<Delivery>))
    ensures Settles(ws, r.0, r.1)
    ensures forall w | w in ws :: w in r.0 <==> !(w.session == session && w.key == key)
    ensures forall d | d in r.1 :: d.notice == Canceled
  {
    var kept := set w | w in ws && !(w.session == session && w.key == key);
    var ds := set w | w in ws && w.session == session && w.key == key :: Delivery(w, Canceled);
    assert Addressees(ds) == ws - kept by {
      forall w | w in ws - kept ensures w in Addressees(ds) {
        assert Delivery(w, Canceled) in ds;
      }
    }
    (kept, ds)
  }

  /** `TriggerEventBySessionAndKey`: the session's watch on the key fires
      with the given value. */
  function TriggerEventBySessionAndKey(ws: set<Watcher>, session: Bytes, key: Bytes, value: Bytes, deleted: bool)
    : (r: (set<Watcher>, set<Delivery>))
    ensures Settles(ws, r.0, r.1)
    ensures forall w | w in ws :: w in r.0 <==> !(w.session == session && w.key == key)
    ensures forall d | d in r.1 :: d.notice == Fired(key, key, value, deleted)
  {
    var kept := set w | w in ws && !(w.session == session && w.key == key);
    var ds := set w | w in ws && w.session == session && w.key == key :: Delivery(w, Fired(key, key, value, deleted));
    assert Addressees(ds) == ws - kept by {
      forall w | w in ws - kept ensures w in Addressees(ds) {
        assert Delivery(w, Fired(key, key, value, deleted)) in ds;
      }
    }
    (kept, ds)
  }

  /** `RemoveEventBySession`: the session's watches are dropped without a
      reply. */
  function RemoveEventBySession(ws: set<Watcher>, session: Bytes): (r: set<Watcher>)
    ensures r <= ws
    ensures forall w | w in ws :: w in r <==> w.session != session
  {
    set w | w in ws && w.session != session
  }

  /** The session checker drops the watches of every expired session, one
      session after the other. */
  function RemoveExpiredSessions(ws: set<Watcher>, expired: seq<Bytes>): (r: set<Watcher>)
    ensures r <= ws
    ensures forall w | w in ws :: w in r <==> w.session !in expired
    decreases |expired|
  {
    if expired == [] then ws
    else RemoveExpiredSessions(RemoveEventBySession(ws, expired[0]), expired[1..])
  }

  // -------------------------------------------------------------------- watch

  datatype WatchRequest = WatchRequest(key: Bytes, session: Bytes, user: Option<Bytes>, oldValue: Bytes, keyExist: bool)

  /** The outcome of `Watch`: refused with a leader hint, or registered
      with the new table and the replies written on the way. */
  datatype WatchResult =
    | Refused(leaderId: Bytes)
    | Registered(table: set<Watcher>, deliveries: set<Delivery>)

  /** What the store holds for the watched key: whether it exists, the
      value with its op byte stripped, the op byte (`unset` when the store
      has no value), and the store's status. */
  function Current(m: Manager, req: WatchRequest, unset: byte): (r: (bool, Bytes, byte, Status))
    ensures r.0 <==> r.3 == Ok
  {
    var name := if req.user.Some? then req.user.value else Anonymous;
    var got := Get(m, name, req.key, true);
    var raw := if got.1.Some? then got.1.value else [];
    var parsed := ParseValue(raw, unset, []);
    (got.0 == Ok, parsed.1, parsed.0, got.0)
  }

  /** `Watch`. Only the leader registers. A previous watch of the session
      on the key is cancelled and the new one inserted. Once the server has
      been up for a session timeout, the new watch fires at once when the
      store already differs from what the client saw, or when the key holds
      a lock of an expired session. `ack` names the new reply object; the
      clock comparison is the parameter `pastStartup`. */
  function Watch(role: Role, leader: Bytes, ws: set<Watcher>, req: WatchRequest, ack: nat,
                 pastStartup: bool, m: Manager, live: set<Bytes>, unset: byte): (r: WatchResult)
    requires forall w | w in ws :: w.ack != ack
    ensures r.Refused? <==> role != Leader
    ensures r.Refused? ==> r.leaderId == if role == Follower then leader else []
    ensures r.Registered? ==> Settles(ws + {Watcher(req.key, req.session, ack)}, r.table, r.deliveries)
    ensures r.Registered? ==> forall w | w in ws :: w in r.table <==> !(w.session == req.session && w.key == req.key)
    ensures r.Registered? ==> forall d | d in r.deliveries && d.to in ws :: d.notice == Canceled
    ensures r.Registered? && !pastStartup ==> Watcher(req.key, req.session, ack) in r.table
  {
    match role
    case Follower => Refused(leader)
    case Candidate => Refused([])
    case Leader =>
      var removed := RemoveEventBySessionAndKey(ws, req.session, req.key);
      var w := Watcher(req.key, req.session, ack);
      var ws2 := removed.0 + {w};
      if !pastStartup then Registered(ws2, removed.1)
      else
        var (exists_, value, op, status) := Current(m, req, unset);
        if value != req.oldValue || exists_ != req.keyExist then
          var fired := TriggerEventBySessionAndKey(ws2, req.session, req.key, value, status == NotFound);
          AddressesUnion(removed.1, fired.1);
          Registered(fired.0, removed.1 + fired.1)
        else if op == OpLock && Expired(live, value) then
          var fired := TriggerEventBySessionAndKey(ws2, req.session, req.key, [], true);
          AddressesUnion(removed.1, fired.1);
          Registered(fired.0, removed.1 + fired.1)
        else Registered(ws2, removed.1)
  }

  /** Watching keeps every (key, session) pair unique. */
  lemma WatchKeepsUnique(role: Role, leader: Bytes, ws: set<Watcher>, req: WatchRequest, ack: nat,
                         pastStartup: bool, m: Manager, live: set<Bytes>, unset: byte)
    requires Unique(ws) && forall w | w in ws :: w.ack != ack
    ensures var r := Watch(role, leader, ws, req, ack, pastStartup, m, live, unset);
            r.Registered? ==> Unique(r.table)
  {
    var r := Watch(role, leader, ws, req, ack, pastStartup, m, live, unset);
    if r.Registered? {
      var nw := Watcher(req.key, req.session, ack);
      forall a, b | a in r.table && b in r.table && a.key == b.key && a.session == b.session
        ensures a == b
      {
        if a != nw && b != nw {
          assert a in ws && b in ws;
        } else if a != nw || b != nw {
          assert false;
        }
      }
    }
  }

  /** A watch whose client saw a stale value fires at once with the
      current one and is not kept. */
  lemma WatchFiresOnChange(ws: set<Watcher>, req: WatchRequest, ack: nat, m: Manager, live: set<Bytes>, unset: byte)
    requires forall w | w in ws :: w.ack != ack
    requires var c := Current(m, req, unset);
             c.1 != req.oldValue || c.0 != req.keyExist
    ensures var r := Watch(Leader, [], ws, req, ack, true, m, live, unset);
            var c := Current(m, req, unset);
            var w := Watcher(req.key, req.session, ack);
            && r.Registered? && w !in r.table
            && Delivery(w, Fired(req.key, req.key, c.1, c.3 == NotFound)) in r.deliveries
  {
    var r := Watch(Leader, [], ws, req, ack, true, m, live, unset);
    var w := Watcher(req.key, req.session, ack);
    assert w in Addressees(r.deliveries);
  }

  /** A watch whose client is up to date stays pending, unless the key
      holds a lock of an expired session. */
  lemma WatchWaitsWhenCurrent(ws: set<Watcher>, req: WatchRequest, ack: nat, m: Manager, live: set<Bytes>, unset: byte)
    requires forall w | w in ws :: w.ack != ack
    requires var c := Current(m, req, unset);
             c.1 == req.oldValue && c.0 == req.keyExist && !(c.2 == OpLock && Expired(live, c.1))
    ensures var r := Watch(Leader, [], ws, req, ack, true, m, live, unset);
            && r.Registered?
            && Watcher(req.key, req.session, ack) in r.table
            && forall d | d in r.deliveries :: d.notice == Canceled
  {
  }
}
